=== FILE: README.md ===
# Label manager: a verified model of its core

This project models the core of label-manager, a web application in which a
record label keeps its catalogue and its stock. The catalogue holds labels,
artists, releases and tracks. Stock is tracked through production runs of a
release format, allocations of a run to sales channels and distributors, an
inventory movement ledger, and sales and distributor returns. Costs can carry
invoice documents, and the amounts of an invoice can be read off the document
by OCR and a language model.

The model covers two sides:

- The browser scripts, written as classes over the page state they mutate:
  - the sale and return line-item forms;
  - the track list and track row of the release forms;
  - the artist selection registry;
  - the invoice extraction button;
  - the two HTML escapers.
- The server code:
  - the release page's views and the release, label and artist forms;
  - production run queries and allocations to channels and distributors;
  - the movement ledger;
  - sale registration and editing, and return registration and editing;
  - the invoice parser that reads the language model's reply;
  - the extraction use case and its endpoint;
  - the cost controllers' document handling.

How the model represents things:

- Collaborators the code calls are parameters of the model:
  - repositories and lookups become maps or sequences;
  - OCR, the language model, the JSON reader and `TrackDuration.parse` become functions.
- Entities the code mutates are classes with `modifies` frames.
- Amounts are `real`, because BigDecimal arithmetic is exact.
- Identifiers are unbounded integers.

All paths below are relative to the repository root.
Java sources live under `src/main/java/org/omt/labelmanager/` and the scripts under `src/main/resources/static/js/`.

## Model

| member | source | states |
|---|---|---|
| Escaping.EscapeHtml | src/main/resources/static/js/sale-form.js:146-150 | `escapeHtml` never shortens the text: every character stays or becomes an entity (the lemmas below say which) |
| Escaping.EscapeHtmlAppend | src/main/resources/static/js/sale-form.js:146-150 | `escapeHtml` escapes character by character: escaping a concatenation is concatenating the escapes (the same escaper is return-form.js:133-137) |
| Escaping.EscapeHtmlHasNoAngleBrackets | src/main/resources/static/js/sale-form.js:146-150 | escaped text holds no raw `<` or `>` |
| Escaping.EscapeHtmlIdentity | src/main/resources/static/js/sale-form.js:146-150 | text without `&`, U+00A0, `<` and `>` comes back unchanged; quotes are not escaped |
| Escaping.DecodeEscapeHtml | src/main/resources/static/js/sale-form.js:146-150 | decoding the entities of the escaped text gives back the text |
| Escaping.ReplaceAll | src/main/resources/static/js/track-row.js:96-100 | a global replacement of `c` by text without `c` leaves no `c` |
| Escaping.ReplaceAllAppend | src/main/resources/static/js/track-row.js:96-100 | a global one-character replacement distributes over concatenation |
| Escaping.ReplaceChainIsCharwise | src/main/resources/static/js/track-row.js:95-100 | the five chained replacements, ampersand first, escape each character exactly once |
| Escaping.EscapeAttrIsCharwise | src/main/resources/static/js/track-row.js:93-101 | `escapeAttr` of a falsy value is the empty string, otherwise the character-wise escape |
| Escaping.EscapeAttrHasNoSpecials | src/main/resources/static/js/track-row.js:93-101 | the result holds no raw quote, apostrophe or angle bracket |
| Escaping.EscapeAttrIdentity | src/main/resources/static/js/track-row.js:93-101 | text without the five special characters comes back unchanged |
| Escaping.DecodeEscapeAttr | src/main/resources/static/js/track-row.js:93-101 | decoding the entities of `escapeAttr(s)` gives back `s` |
| Escaping.AmpersandMustComeFirst | src/main/resources/static/js/track-row.js:96-99 | `<` escapes to `&lt;`, while replacing `&` after `<` would give `&amp;lt;` |
| FormNames.DigitRunEnd | src/main/resources/static/js/sale-form.js:112 | the end of the maximal digit run: digits up to it, a non-digit at it |
| FormNames.TokenAt | src/main/resources/static/js/sale-form.js:112 | scanning at one position finds a match of `\[\d+\]` exactly when the regular expression matches there |
| FormNames.NoTokenWithoutClosingBracket | src/main/resources/static/js/sale-form.js:112 | without a closing bracket after the greedy digit run nothing matches at that position |
| FormNames.FirstToken | src/main/resources/static/js/sale-form.js:112 | the leftmost match: a match, none before it, or none at all |
| FormNames.FirstTokenAt | src/main/resources/static/js/sale-form.js:112 | a match with none before it is the one the scan finds |
| FormNames.WordRunStart | src/main/resources/static/js/sale-form.js:114 | the start of the maximal trailing run of word characters |
| FormNames.NoSuffixWithoutDot | src/main/resources/static/js/sale-form.js:114 | without a dot before the trailing word run `\.(\w+)$` does not match |
| FormNames.FieldSuffix | src/main/resources/static/js/sale-form.js:114 | `name.match(/\.(\w+)$/)?.[1] \|\| ''`: the captured group when the expression matches, else the empty string |
| FormNames.IsFieldName | src/main/resources/static/js/sale-form.js:47-77 | field names of the templates are non-empty word runs |
| FormNames.TokenInIndexedName | src/main/resources/static/js/sale-form.js:50 | the index of a canonical name `head[i].field` is a token of the expression |
| FormNames.IndexedNameParts | src/main/resources/static/js/sale-form.js:50 | a canonical name splits into head, index token and field |
| FormNames.SpliceIndexedName | src/main/resources/static/js/sale-form.js:112 | replacing the index token of `head[j].f` by `[k]` gives `head[k].f` |
| FormNames.ReindexBracketName | src/main/resources/static/js/sale-form.js:112 | renumbering `lineItems[j].f` with `/\[\d+\]/` gives `lineItems[k].f` |
| FormNames.ReindexTracksName | src/main/resources/static/js/track-list.js:49 | renumbering `tracks[j].f` with `/tracks\[\d+\]/` gives `tracks[k].f` |
| FormNames.SuffixOfIndexedName | src/main/resources/static/js/sale-form.js:114 | the suffix expression recovers the field of a canonical name |
| LineItemRows.ReleaseOptions | src/main/resources/static/js/sale-form.js:28-30 | one option per release, valued by its id, its text the escaped name, which decodes to the name and has no `<` |
| LineItemRows.FormatOptions | src/main/resources/static/js/sale-form.js:32-34 | one option per format, the name verbatim as value and text |
| LineItemRows.FieldsAt | src/main/resources/static/js/sale-form.js:47-78 | the row at `index` has one field per field name, named `lineItems[index].field` |
| LineItemRows.CreateLineItem | src/main/resources/static/js/sale-form.js:27-83 | the row template: the fields for its index, ordinal `index + 1`, the option lists |
| LineItemRows.ReindexRow | src/main/resources/static/js/sale-form.js:105-128 | reindexing one row keeps its element, its ordinal, its button and its options |
| LineItemRows.Reindexed | src/main/resources/static/js/sale-form.js:101-129 | the reindexing of a container keeps its length |
| LineItemRows.Numbered | src/main/resources/static/js/sale-form.js:131-144 | numbering a container keeps its length |
| LineItemRows.Elements | src/main/resources/static/js/sale-form.js:101-129 | the row elements in container order |
| LineItemRows.ReindexFieldsAt | src/main/resources/static/js/sale-form.js:109-127 | reindexing fields built for position `j` gives the fields for position `k` |
| LineItemRows.RemovalRestoresContiguity | src/main/resources/static/js/sale-form.js:85-99 | after removing any row, reindexing and renumbering put every survivor at its new position, in the original order |
| LineItemRows.ReindexContiguousIsIdentity | src/main/resources/static/js/sale-form.js:101-129 | reindexing a well-formed container changes nothing |
| LineItemRows.ReindexIdempotent | src/main/resources/static/js/sale-form.js:101-129 | reindexing twice is reindexing once |
| LineItemRows.NumberingPlacedRows | src/main/resources/static/js/sale-form.js:131-144 | renumbering yields a well-formed container if and only if every card already carries its position's fields and the form's options in creation order; it keeps the cards and their order and leaves a well-formed container unchanged |
| LineItemRows.AppendKeepsContiguity | src/main/resources/static/js/sale-form.js:14-25 | appending a fresh row at index `n` keeps the container well formed |
| SaleForm.SaleFieldsAreFieldNames | src/main/resources/static/js/sale-form.js:47-77 | the four sale fields are field names |
| SaleForm.SaleLineItems.constructor | src/main/resources/static/js/sale-form.js:8-12 | `initialize` keeps the releases and formats and renumbers the cards already on the page, keeping them and their order; the form is well formed exactly when those cards sit at their positions with these options |
| SaleForm.SaleLineItems.CreateLineItemHtml | src/main/resources/static/js/sale-form.js:27-83 | a sale row has four fields, the last the unit price, ordinal `index + 1` and the form's options |
| SaleForm.SaleLineItems.AddLineItem | src/main/resources/static/js/sale-form.js:14-25 | one card appended at index = the card count, the others unchanged, the container stays well formed |
| SaleForm.SaleLineItems.RemoveLineItem | src/main/resources/static/js/sale-form.js:85-99 | refused with an alert iff at most one card remains; otherwise the clicked card is removed and the rest reindexed and renumbered in order |
| SaleForm.SaleLineItems.ReindexLineItems | src/main/resources/static/js/sale-form.js:101-129 | the container becomes `Reindexed` of the old one |
| SaleForm.SaleLineItems.UpdateItemNumbers | src/main/resources/static/js/sale-form.js:131-144 | the container becomes `Numbered` of the old one: ordinal `i + 1`, only the first button hidden |
| ReturnForm.ReturnFieldsAreFieldNames | src/main/resources/static/js/return-form.js:28-77 | the three return fields are field names |
| ReturnForm.ReturnRowHasNoPrice | src/main/resources/static/js/return-form.js:28-77 | a return row has three fields and none is a price |
| ReturnForm.ReturnLineItems.constructor | src/main/resources/static/js/return-form.js:9-13 | `initialize` keeps the releases and formats and renumbers the cards already on the page, keeping them and their order; the form is well formed exactly when those cards sit at their positions with these options |
| ReturnForm.ReturnLineItems.CreateLineItemHtml | src/main/resources/static/js/return-form.js:28-77 | a return row has three fields, none a unit price |
| ReturnForm.ReturnLineItems.AddLineItem | src/main/resources/static/js/return-form.js:15-26 | one card appended at index = the card count, the others unchanged |
| ReturnForm.ReturnLineItems.RemoveLineItem | src/main/resources/static/js/return-form.js:79-92 | refused with an alert iff at most one card remains; otherwise removal, reindexing and renumbering in order |
| ReturnForm.ReturnLineItems.ReindexLineItems | src/main/resources/static/js/return-form.js:94-117 | the container becomes `Reindexed` of the old one |
| ReturnForm.ReturnLineItems.UpdateItemNumbers | src/main/resources/static/js/return-form.js:119-131 | the container becomes `Numbered` of the old one |
| TrackRow.TruncRem | src/main/resources/static/js/track-row.js:84 | JavaScript's `%`: the remainder takes the dividend's sign |
| TrackRow.PadStart2 | src/main/resources/static/js/track-row.js:85 | `padStart(2, '0')`: left-padded with zeros to two characters, longer text unchanged |
| TrackRow.FormatDurationForInput | src/main/resources/static/js/track-row.js:80-86 | no duration gives the empty string; zero gives `0:00` |
| TrackRow.TwoDigitSeconds | src/main/resources/static/js/track-row.js:84-85 | padded seconds below 60 are two digits, the first at most 5, reading back as the value |
| TrackRow.FormatNonNegative | src/main/resources/static/js/track-row.js:82-85 | for a non-negative number the zero case agrees with the general rendering |
| TrackRow.PatternOfParts | src/main/resources/static/js/track-row.js:47 | minutes digits, a colon and two seconds digits match the input pattern and read back as their value |
| TrackRow.FormattedDurationMatchesPattern | src/main/resources/static/js/track-row.js:47 | every non-negative duration renders as text the input pattern accepts, reading back as the same number of seconds |
| TrackRow.NegativeDurationFailsPattern | src/main/resources/static/js/track-row.js:80-86 | a negative duration renders with minus signs that the pattern refuses |
| TrackRow.NameOf | src/main/resources/static/js/track-row.js:14 | `trackData?.name \|\| ''` |
| TrackRow.BuildTrackRowHtml | src/main/resources/static/js/track-row.js:13-58 | inputs named `tracks[index].name` and `tracks[index].duration`; the name attribute-escaped and decoding back; a duration only when the track has one |
| TrackRow.CreateTrackRow | src/main/resources/static/js/track-row.js:67-73 | the row's data-track-index is the index its input names use |
| TrackList.ReindexTrackRow | src/main/resources/static/js/track-list.js:44-52 | one step of `reindexTracks` sets the row's index and keeps its element, values and button |
| TrackList.ReindexedTracks | src/main/resources/static/js/track-list.js:42-52 | renumbering keeps the row count |
| TrackList.WithRemoveButtons | src/main/resources/static/js/track-list.js:29-37 | every row, the first included, shows its remove button iff there are two or more rows |
| TrackList.TrackElements | src/main/resources/static/js/track-list.js:30 | the row elements in container order |
| TrackList.ReindexNamedRow | src/main/resources/static/js/track-list.js:46-51 | a row named for `j` is named for `i` once reindexed to `i` |
| TrackList.RemovalRenamesRows | src/main/resources/static/js/track-list.js:104-110 | after a removal every survivor is named for its new position |
| TrackList.TrackRemovalRestoresContiguity | src/main/resources/static/js/track-list.js:104-110 | removing any row leaves the survivors in their original order at indices `0..n-2` |
| TrackList.RemovalLeavesSelectionsStale | src/main/resources/static/js/track-list.js:104-110 | the registries are not re-keyed: the row moving into the removed index finds none, each later row finds its predecessor's |
| TrackList.ArtistInputs | src/main/resources/static/js/artist-selection.js:48-52 | the hidden inputs of a track's registry are named `tracks[index].artistIds`, one per id |
| TrackList.NewRow | src/main/resources/static/js/track-list.js:78-98 | a new row is built for its index and named for it |
| TrackList.AppendTrackRow | src/main/resources/static/js/track-list.js:78-98 | appending a row with a new element and refreshing the buttons keeps creation order and self-naming; the rows stay contiguous when the new row's index is the row count |
| TrackList.AppendedRows | src/main/resources/static/js/track-list.js:96 | appending a row keeps the earlier rows' markup and elements; afterwards every button is shown iff there are two or more rows |
| TrackList.TrackListManager.constructor | src/main/resources/static/js/track-list.js:14-24 | `createTrackList`: no rows, no registries, counter 0 |
| TrackList.TrackListManager.Seed | src/main/resources/static/js/track-list.js:86-94 | the registry's `add` calls, made one at a time, leave exactly the ids the `AddAll` reduction gives, so its lemmas (known artists only, no id twice) hold of the seeded registry |
| TrackList.TrackListManager.AddTrack | src/main/resources/static/js/track-list.js:78-98 | the counter goes up first and the row is built for the new counter value, whatever the row count; a new track is seeded with the release artists, an existing one with its own |
| TrackList.TrackListManager.RemoveTrack | src/main/resources/static/js/track-list.js:104-110 | no count guard; only the removed row's registry is dropped; survivors renumbered in order; counter at the last index |
| TrackList.TrackListManager.ReindexTracks | src/main/resources/static/js/track-list.js:42-54 | rows renumbered; the counter is the last index, or 0 when no row is left |
| TrackList.TrackListManager.UpdateRemoveButtons | src/main/resources/static/js/track-list.js:29-37 | the rows become `WithRemoveButtons` of the old rows |
| TrackList.TrackListManager.Clear | src/main/resources/static/js/track-list.js:115-119 | no rows, no registries, counter at -1 |
| TrackList.TrackListManager.Initialize | src/main/resources/static/js/track-list.js:125-137 | one row per existing track at indices `0..n-1` in order, or one new track at 0; one registry per row, seeded with that track's artists (or the release artists for the new track) exactly as the `AddAll` reduction gives |
| TrackList.TrackListManager.LoadTrack | src/main/resources/static/js/track-list.js:129-132 | one iteration: the counter is set to `index - 1`, then the track is added at `index` |
| ArtistSelection.FindArtist | src/main/resources/static/js/artist-selection.js:40 | the artist lookup finds an artist with that id, or reports that none has it |
| ArtistSelection.AddAll | src/main/resources/static/js/artist-selection.js:34-63 | a run of `add` calls extends the selection with known artists only |
| ArtistSelection.AddAllKeepsNoDuplicates | src/main/resources/static/js/artist-selection.js:38 | a run of additions never selects an id twice |
| ArtistSelection.FirstTag | src/main/resources/static/js/artist-selection.js:77 | `querySelector` for a tag finds the first tag with that id, or none |
| ArtistSelection.FirstInput | src/main/resources/static/js/artist-selection.js:80 | `querySelector` for a hidden input finds the first input holding that id, or none |
| ArtistSelection.RemoveAt | src/main/resources/static/js/artist-selection.js:75 | `splice(index, 1)` shortens the list by one |
| ArtistSelection.RemoveAtKeepsNoDuplicates | src/main/resources/static/js/artist-selection.js:75 | removing one position of a duplicate-free list drops exactly that id |
| ArtistSelection.AlignedLookup | src/main/resources/static/js/artist-selection.js:77-81 | in an aligned registry the selectors find an id's tag and input at the id's own position |
| ArtistSelection.RemoveKeepsAlignment | src/main/resources/static/js/artist-selection.js:70-88 | removing one id with its tag and input keeps the registry aligned |
| ArtistSelection.AppendKeepsAlignment | src/main/resources/static/js/artist-selection.js:43-52 | appending a new known id with its tag and input keeps the registry aligned |
| ArtistSelection.Selection.constructor | src/main/resources/static/js/artist-selection.js:16-27 | `createArtistSelection`: nothing selected |
| ArtistSelection.Selection.ForTrack | src/main/resources/static/js/artist-selection.js:144-159 | a track's registry starts with nothing selected, names its hidden inputs `tracks[i].artistIds` for the index given at creation, has no `onRemove` callback, and its select holds the empty placeholder value |
| ArtistSelection.Selection.Add | src/main/resources/static/js/artist-selection.js:34-63 | added iff the id is truthy, not yet selected and names a known artist; then the id, its tag and its input are appended, the select is reset and `onAdd` fires |
| ArtistSelection.Selection.Remove | src/main/resources/static/js/artist-selection.js:70-88 | removed iff the id is selected; then the id, its tag and its input go and `onRemove` fires |
| ArtistSelection.Selection.Clear | src/main/resources/static/js/artist-selection.js:93-100 | nothing selected, no tags or inputs, the select reset, no callback |
| ArtistSelection.Selection.GetSelectedIds | src/main/resources/static/js/artist-selection.js:106-108 | a copy of the selected ids, without duplicates |
| ArtistSelection.Selection.IsSelected | src/main/resources/static/js/artist-selection.js:115-117 | true iff the id as a string is selected |
| ArtistSelection.Selection.SelectChanged | src/main/resources/static/js/artist-selection.js:120-124 | choosing an artist in the select adds it, as `add` would |
| ArtistSelection.TrackArtistInputName | src/main/resources/static/js/artist-selection.js:156 | a track registry's input name is `tracks[i].artistIds`, and renumbering it gives the name for the new index |
| InvoiceExtraction.Mappings | src/main/resources/static/js/invoice-extraction.js:90-96 | the five field mappings in source order |
| InvoiceExtraction.ApplyAllSnoc | src/main/resources/static/js/invoice-extraction.js:111-119 | the mapping loop processes one more mapping after the others |
| InvoiceExtraction.ApplyAllEffect | src/main/resources/static/js/invoice-extraction.js:111-119 | populating adds or removes no field; unmapped fields are kept; a mapped field is written iff its value is non-null |
| InvoiceExtraction.ApplyVatRate | src/main/resources/static/js/invoice-extraction.js:98-109 | the VAT-rate select changes only when it exists and offers the converted value |
| InvoiceExtraction.PopulateMappings | src/main/resources/static/js/invoice-extraction.js:111-119 | the loop gives the fields of `ApplyAll` and highlights the fields it wrote |
| InvoiceExtraction.ExtractionForm.constructor | src/main/resources/static/js/invoice-extraction.js:19-23 | setup hides the extract button |
| InvoiceExtraction.ExtractionForm.FileChanged | src/main/resources/static/js/invoice-extraction.js:26-33 | the button is visible iff a file is chosen and its type is PDF, PNG or JPEG |
| InvoiceExtraction.ExtractionForm.SetLoading | src/main/resources/static/js/invoice-extraction.js:137-148 | busy: disabled, labelled `Extracting...`; idle: enabled, labelled `Extract from Document` |
| InvoiceExtraction.ExtractionForm.PopulateFields | src/main/resources/static/js/invoice-extraction.js:89-120 | the VAT rate first, then the five mappings in order |
| InvoiceExtraction.ExtractionForm.ExtractAndPopulate | src/main/resources/static/js/invoice-extraction.js:44-59 | without a file nothing happens; otherwise the button is busy then idle, a JSON body fills the fields and a failure is logged and changes no field |
| InvoiceExtraction.PopulateWritesNonNull | src/main/resources/static/js/invoice-extraction.js:111-119 | each mapped field that exists is written exactly when its value is non-null |
| InvoiceExtraction.EmptyDataChangesNothing | src/main/resources/static/js/invoice-extraction.js:111-119 | data whose members are all null changes nothing |
| Ledger.MovementsFor | src/main/java/org/omt/labelmanager/inventory/inventorymovement/application/InventoryMovementQueryApiImpl.java:79-83 | a run's movements are exactly the stored movements of that run |
| Ledger.InventoryByDistributor | src/main/java/org/omt/labelmanager/inventory/inventorymovement/application/InventoryMovementQueryApiImpl.java:48-77 | one entry per distributor named on either side of a movement of the run whose balance is positive, valued by that balance |
| Ledger.SumAppend | src/main/java/org/omt/labelmanager/inventory/inventorymovement/application/InventoryMovementQueryApiImpl.java:85-107 | the inbound and outbound sums add up over concatenated movement lists |
| Ledger.SumSingle | src/main/java/org/omt/labelmanager/inventory/inventorymovement/application/InventoryMovementQueryApiImpl.java:85-115 | one movement counts into a location iff it goes there, and out of it iff it comes from there; a null expected id matches any id |
| Ledger.MovementsForAppend | src/main/java/org/omt/labelmanager/inventory/inventorymovement/application/InventoryMovementQueryApiImpl.java:79-83 | recording a movement of another run leaves this run's movements alone; one of this run comes first (newest first) |
| Ledger.BalanceAfterRecord | src/main/java/org/omt/labelmanager/inventory/inventorymovement/application/InventoryMovementQueryApiImpl.java:32-46 | recording one movement changes its run's balances by the movement's effect, and no other run's |
| Ledger.SaleLowersDistributorStock | src/main/java/org/omt/labelmanager/inventory/inventorymovement/api/InventoryMovementCommandApi.java:17 | a sale of `q` lowers the seller's stock by `q` and leaves other distributors and the warehouse unchanged |
| Ledger.AllocationMovesStock | src/main/java/org/omt/labelmanager/inventory/inventorymovement/api/InventoryMovementCommandApi.java:16 | an allocation moves `q` from the warehouse to the distributor |
| Ledger.ReturnMovesStock | src/main/java/org/omt/labelmanager/inventory/inventorymovement/api/InventoryMovementCommandApi.java:18 | a return moves `q` from the distributor back to the warehouse |
| Ledger.WarehouseAfterOnlyAllocation | src/main/java/org/omt/labelmanager/inventory/inventorymovement/application/InventoryMovementQueryApiImpl.java:40-46 | every balance of an empty ledger is 0; a lone allocation leaves the warehouse at `-q` because no intake is recorded |
| Ledger.WithoutReferenceMembers | src/main/java/org/omt/labelmanager/inventory/inventorymovement/api/InventoryMovementCommandApi.java:43-52 | deleting by reference drops exactly the movements of that type with that reference |
| Ledger.WithoutReferenceAppend | src/main/java/org/omt/labelmanager/inventory/inventorymovement/api/InventoryMovementCommandApi.java:43-52 | deleting by reference distributes over concatenation |
| Ledger.WithoutAbsentReference | src/main/java/org/omt/labelmanager/inventory/inventorymovement/api/InventoryMovementCommandApi.java:43-52 | deleting a reference no movement carries changes nothing |
| Ledger.WithoutAllReferencing | src/main/java/org/omt/labelmanager/inventory/inventorymovement/api/InventoryMovementCommandApi.java:43-52 | deleting a reference all movements carry leaves nothing |
| Ledger.DeleteRestoresLedger | src/main/java/org/omt/labelmanager/inventory/inventorymovement/api/InventoryMovementCommandApi.java:43-52 | deleting a record's movements restores the ledger, and every balance, to what they were before they were recorded |
| Ledger.LegacyMovementStore.Empty | src/main/java/org/omt/labelmanager/inventory/application/AllocationCRUDHandler.java:22 | the movement repository starts empty |
| Ledger.LegacyMovementStore.RecordMovement | src/main/java/org/omt/labelmanager/inventory/application/AllocationCRUDHandler.java:69-77 | saving a signed movement appends it; the run's net change at the distributor grows by the delta |
| Ledger.MovementStore.Empty | src/main/java/org/omt/labelmanager/inventory/inventorymovement/application/RecordMovementUseCase.java:18-22 | the movement repository starts empty |
| Ledger.MovementStore.RecordMovement | src/main/java/org/omt/labelmanager/inventory/inventorymovement/application/RecordMovementUseCase.java:24-55 | appends one movement with the arguments and the current time; neither the quantity's sign nor the location pairing is checked |
| Ledger.MovementStore.DeleteMovementsByReference | src/main/java/org/omt/labelmanager/inventory/inventorymovement/api/InventoryMovementCommandApi.java:43-52 | removes the movements of that type with that reference and nothing else |
| ProductionRuns.FindById | src/main/java/org/omt/labelmanager/inventory/productionrun/application/ProductionRunQueryApiImpl.java:53-58 | finds a stored run with that id, or reports that none has it |
| ProductionRuns.FindByReleaseId | src/main/java/org/omt/labelmanager/inventory/productionrun/application/ProductionRunQueryApiImpl.java:32-36 | exactly the stored runs of that release |
| ProductionRuns.FindMostRecent | src/main/java/org/omt/labelmanager/inventory/productionrun/application/ProductionRunQueryApiImpl.java:39-43 | a run of that release and format with the latest manufacturing date, none iff there is no such run |
| ProductionRuns.MostRecentIgnoresOtherFormats | src/main/java/org/omt/labelmanager/inventory/productionrun/application/ProductionRunQueryApiImpl.java:39-43 | runs of other formats or releases never change the answer |
| ProductionRuns.GetManufacturedQuantity | src/main/java/org/omt/labelmanager/inventory/productionrun/application/ProductionRunQueryApiImpl.java:46-50 | the run's quantity, or 0 for an unknown run |
| ProductionRuns.ValidateQuantityIsAvailable | src/main/java/org/omt/labelmanager/inventory/productionrun/application/ProductionRunQueryApiImpl.java:52-72 | an unknown run is an error; a request above what is left is refused with the requested and available quantities; otherwise accepted |
| ProductionRuns.FindByIdUnique | src/main/java/org/omt/labelmanager/inventory/productionrun/application/ProductionRunQueryApiImpl.java:54-58 | with unique ids, the run found for a stored run's id is that run |
| Allocations.Increment | src/main/java/org/omt/labelmanager/inventory/allocation/infrastructure/ChannelAllocationEntity.java:70-82 | a negative amount is refused, as is one above what is left; otherwise units sold grow by the amount and stay within the quantity |
| Allocations.IncrementsAccumulate | src/main/java/org/omt/labelmanager/inventory/allocation/infrastructure/ChannelAllocationEntity.java:70-82 | a series of non-negative increments all succeed iff their total fits in what is left, and then units sold grow by that total |
| Allocations.NonNegativeTotal | src/main/java/org/omt/labelmanager/inventory/allocation/infrastructure/ChannelAllocationEntity.java:70-82 | non-negative amounts have a non-negative total |
| Allocations.ChannelAllocationEntity.constructor | src/main/java/org/omt/labelmanager/inventory/allocation/infrastructure/ChannelAllocationEntity.java:33-44 | a new allocation has nothing sold and no id |
| Allocations.ChannelAllocationEntity.Load | src/main/java/org/omt/labelmanager/inventory/allocation/infrastructure/ChannelAllocationEntity.java:30-31 | an entity loaded from a row has that row's state |
| Allocations.ChannelAllocationEntity.IncrementUnitsSold | src/main/java/org/omt/labelmanager/inventory/allocation/infrastructure/ChannelAllocationEntity.java:70-82 | on refusal nothing changes; otherwise units sold become what `Increment` gives |
| Allocations.FindAllocation | src/main/java/org/omt/labelmanager/inventory/allocation/application/AllocationCommandApiImpl.java:30-35 | the first row of that run and distributor, or none iff there is no such row |
| Allocations.TotalAllocatedAppend | src/main/java/org/omt/labelmanager/inventory/application/AllocationCRUDHandler.java:45 | a new row adds its quantity to its own run's total only |
| Allocations.TotalAllocatedIgnoresUnitsSold | src/main/java/org/omt/labelmanager/inventory/allocation/application/AllocationCommandApiImpl.java:37-38 | counting units as sold changes no run's allocated total |
| Allocations.AllocationStore.Empty | src/main/java/org/omt/labelmanager/inventory/allocation/application/AllocationCommandApiImpl.java:21-25 | the allocation repository starts empty |
| Allocations.AllocationStore.SaveNew | src/main/java/org/omt/labelmanager/inventory/allocation/application/AllocationCommandApiImpl.java:49 | saving a new entity assigns the next id and appends its row |
| Allocations.AllocationStore.CreateAllocation | src/main/java/org/omt/labelmanager/inventory/allocation/application/AllocationCommandApiImpl.java:41-52 | no availability check; one new row with nothing sold; the run's total grows by the quantity |
| Allocations.AllocationStore.ReduceAllocation | src/main/java/org/omt/labelmanager/inventory/allocation/application/AllocationCommandApiImpl.java:27-39 | without an allocation for the run and distributor: not found and nothing saved; otherwise the entity's increment, saved only on success; allocated totals never change |
| Allocate.CheckAvailable | src/main/java/org/omt/labelmanager/inventory/application/AllocationCRUDHandler.java:44-56 | refused, with the requested and unallocated quantities, iff the run's allocations would exceed what was made; an unknown run counts as 0 |
| Allocate.AdmissionMatchesRunValidation | src/main/java/org/omt/labelmanager/inventory/productionrun/application/ProductionRunQueryApiImpl.java:52-72 | for a known run the use cases' check agrees with the query's validation; for an unknown run the query refuses outright |
| Allocate.TotalAllocatedConcat | src/main/java/org/omt/labelmanager/inventory/application/AllocationCRUDHandler.java:45 | adding allocations with non-negative quantities never lowers a run's total |
| Allocate.SeriesWithinManufacturedAccepted | src/main/java/org/omt/labelmanager/inventory/application/AllocationCRUDHandler.java:44-56 | a series of non-negative requests that ends within the manufactured quantity has each request admitted |
| Allocate.CreateAllocation | src/main/java/org/omt/labelmanager/inventory/application/AllocationCRUDHandler.java:35-81 | fails iff the check refuses, saving nothing; otherwise one allocation and one ALLOCATION movement of that quantity that references it |
| Allocate.AllocateToSalesChannel | src/main/java/org/omt/labelmanager/inventory/allocation/AllocateProductionRunToSalesChannelUseCase.java:33-90 | the same check and the same two saves |
| Allocate.AllocateToDistributor | src/main/java/org/omt/labelmanager/inventory/allocation/AllocateProductionRunToDistributorUseCase.java:34-76 | the same check; the allocation through the command interface, then the movement; the created allocation is returned |
| SaleEntities.SaleLineItemEntity.constructor | src/main/java/org/omt/labelmanager/sales/sale/infrastructure/SaleLineItemEntity.java:52-65 | the line total is the unit price times the quantity (the item is priced); the item belongs to no sale yet |
| SaleEntities.PricedLinesTotal | src/main/java/org/omt/labelmanager/sales/sale/infrastructure/SaleLineItemEntity.java:52-65 | when every line is priced, the sum of the line totals is the sum of unit price times quantity over the lines' values |
| SaleEntities.ValidSaleTotal | src/main/java/org/omt/labelmanager/sales/sale/infrastructure/SaleEntity.java:105-109 | a consistent sale's total is the sum of unit price times quantity over its lines |
| SaleEntities.SumLineTotalsAppend | src/main/java/org/omt/labelmanager/sales/sale/infrastructure/SaleEntity.java:105-109 | the sum of line totals adds up over concatenated item lists, so appending an item adds its line total |
| SaleEntities.SaleEntity.constructor | src/main/java/org/omt/labelmanager/sales/sale/infrastructure/SaleEntity.java:64-79 | a new sale has no items, no id and total 0, and keeps its label, distributor, date, channel, notes and currency |
| SaleEntities.SaleEntity.AddLineItem | src/main/java/org/omt/labelmanager/sales/sale/infrastructure/SaleEntity.java:81-85 | a priced item goes at the end and points back at the sale; the total stays the sum of the line totals, so it grows by the item's line total, and every line stays priced |
| SaleEntities.SaleEntity.ClearLineItems | src/main/java/org/omt/labelmanager/sales/sale/infrastructure/SaleEntity.java:92-95 | no items and total 0, which is still the sum of the (no) line totals |
| SaleEntities.SaleEntity.SetSaleDate | src/main/java/org/omt/labelmanager/sales/sale/infrastructure/SaleEntity.java:97-99 | only the date changes |
| SaleEntities.SaleEntity.SetNotes | src/main/java/org/omt/labelmanager/sales/sale/infrastructure/SaleEntity.java:101-103 | only the notes change |
| SaleEntities.SaleEntity.RecalculateTotal | src/main/java/org/omt/labelmanager/sales/sale/infrastructure/SaleEntity.java:105-109 | the total becomes the sum of the line totals; nothing else changes |
| SaleEntities.ReturnLineItemEntity.constructor | src/main/java/org/omt/labelmanager/sales/distributor_return/infrastructure/ReturnLineItemEntity.java:41-45 | the item keeps its release, format and quantity and belongs to no return yet |
| SaleEntities.DistributorReturnEntity.constructor | src/main/java/org/omt/labelmanager/sales/distributor_return/infrastructure/DistributorReturnEntity.java:49-59 | a new return has no items and no id, and keeps its label, distributor, date and notes |
| SaleEntities.DistributorReturnEntity.AddLineItem | src/main/java/org/omt/labelmanager/sales/distributor_return/infrastructure/DistributorReturnEntity.java:61-64 | the item goes at the end and points back at the return |
| SaleEntities.DistributorReturnEntity.ClearLineItems | src/main/java/org/omt/labelmanager/sales/distributor_return/infrastructure/DistributorReturnEntity.java:71-73 | no items; nothing else changes |
| SaleEntities.DistributorReturnEntity.SetReturnDate | src/main/java/org/omt/labelmanager/sales/distributor_return/infrastructure/DistributorReturnEntity.java:75-77 | only the date changes |
| SaleEntities.DistributorReturnEntity.SetNotes | src/main/java/org/omt/labelmanager/sales/distributor_return/infrastructure/DistributorReturnEntity.java:79-81 | only the notes change |
| SaleEntities.SaleRepository.Empty | src/main/java/org/omt/labelmanager/sales/sale/infrastructure/SaleEntity.java:25-27 | the sale repository starts empty |
| SaleEntities.SaleRepository.Save | src/main/java/org/omt/labelmanager/sales/sale/infrastructure/SaleEntity.java:25-27 | a new sale gets the next generated id, a stored one keeps its id; either way the repository maps that id to it and every stored sale carries its key |
| SaleEntities.ReturnRepository.Empty | src/main/java/org/omt/labelmanager/sales/distributor_return/infrastructure/DistributorReturnEntity.java:20-22 | the return repository starts empty |
| SaleEntities.ReturnRepository.Save | src/main/java/org/omt/labelmanager/sales/distributor_return/infrastructure/DistributorReturnEntity.java:20-22 | a new return gets the next generated id, a stored one keeps its id; the repository maps that id to it |
| SalesCommon.FindRelease | src/main/java/org/omt/labelmanager/sales/sale/application/SaleLineItemProcessor.java:61-64 | a stored release with that id, or none iff no release has it |
| SalesCommon.FindLabelDistributor | src/main/java/org/omt/labelmanager/sales/sale/application/UpdateSaleUseCase.java:107-112 | the first of the label's distributors with that id, or none iff the label has none with it |
| SalesCommon.FindDirectDistributor | src/main/java/org/omt/labelmanager/sales/sale/application/RegisterSaleUseCase.java:76-80 | a DIRECT distributor of the label, or none iff the label has none |
| SalesCommon.LocateRun | src/main/java/org/omt/labelmanager/sales/sale/application/SaleLineItemProcessor.java:61-80 | succeeds iff the release exists, is the label's and has a production run in the format, giving the release and its most recent run; an unknown release and a release of another label are the first two failures |
| SalesCommon.KeyIndex | src/main/java/org/omt/labelmanager/sales/sale/application/UpdateSaleUseCase.java:72 | the position of a key in the insertion-ordered map, or -1 iff the key is absent |
| SalesCommon.Put | src/main/java/org/omt/labelmanager/sales/sale/application/UpdateSaleUseCase.java:81 | a new key goes at the end; a key already present keeps its place and takes the new value |
| SalesCommon.PutAllKeys | src/main/java/org/omt/labelmanager/sales/sale/application/UpdateSaleUseCase.java:72-82 | after a series of puts the map holds each distinct key once: the starting keys and the keys put |
| SalesCommon.PutKeys | src/main/java/org/omt/labelmanager/sales/sale/application/UpdateSaleUseCase.java:81 | one put keeps the keys distinct and adds its key |
| SalesCommon.EqualPutsCollapse | src/main/java/org/omt/labelmanager/sales/sale/application/UpdateSaleUseCase.java:72-82 | two equal line-item inputs (records compare by value) leave a single entry, holding the later run id |
| SalesCommon.Zip | src/main/java/org/omt/labelmanager/sales/sale/application/UpdateSaleUseCase.java:73-82 | each input paired with the run id computed for it, position by position |
| SalesCommon.PutAllSnoc | src/main/java/org/omt/labelmanager/sales/sale/application/UpdateSaleUseCase.java:73-82 | putting one more pair after a series is one more put |
| SalesCommon.PutAllZipStep | src/main/java/org/omt/labelmanager/sales/sale/application/UpdateSaleUseCase.java:73-82 | putting the next input with its run id extends the map built from the inputs before it |
| SalesCommon.PutAllEntriesFrom | src/main/java/org/omt/labelmanager/sales/sale/application/UpdateSaleUseCase.java:73-82 | every entry left after the puts is a starting entry or one of the pairs put |
| SalesCommon.InputMapEntries | src/main/java/org/omt/labelmanager/sales/sale/application/UpdateSaleUseCase.java:72-82 | the map built from the inputs has one entry per distinct input, and every entry is an input with its own run id |
| SaleProcessing.CheckSaleItem | src/main/java/org/omt/labelmanager/sales/sale/application/SaleLineItemProcessor.java:54-102 | succeeds iff the release exists and is the label's, a run of the format exists, the distributor holds an allocation of the most recent run and its current stock covers the quantity; then the run's id |
| SaleProcessing.CheckSaleItemFailures | src/main/java/org/omt/labelmanager/sales/sale/application/SaleLineItemProcessor.java:61-102 | the failures in the source's order: unknown release, release of another label, no production run, no allocation to the distributor, and too little stock with the requested and available quantities |
| SaleProcessing.CheckSaleItemsSplit | src/main/java/org/omt/labelmanager/sales/sale/application/UpdateSaleUseCase.java:73-82 | checking two lists one after the other is checking them joined; the first failure wins |
| SaleProcessing.CheckSaleItemsSingle | src/main/java/org/omt/labelmanager/sales/sale/application/UpdateSaleUseCase.java:73-82 | checking a one-item list is checking that item |
| SaleProcessing.CheckSaleItemsEach | src/main/java/org/omt/labelmanager/sales/sale/application/UpdateSaleUseCase.java:73-82 | the items pass together iff each passes on its own, each then sold from its own most recent run |
| SaleProcessing.CheckSaleItemsFirstFailure | src/main/java/org/omt/labelmanager/sales/sale/application/UpdateSaleUseCase.java:73-82 | a failure of the list is the failure of an item all of whose predecessors pass |
| SaleProcessing.CheckedPrefixStep | src/main/java/org/omt/labelmanager/sales/sale/application/UpdateSaleUseCase.java:73-82 | one more item either fails the whole list with its own failure or extends the checked prefix by its run |
| SaleProcessing.InputValuesOf | src/main/java/org/omt/labelmanager/sales/sale/application/SaleLineItemProcessor.java:104-110 | one line-item value per input, in order |
| SaleProcessing.InputValuesSnoc | src/main/java/org/omt/labelmanager/sales/sale/application/SaleLineItemProcessor.java:104-110 | the values of one more input are one more value |
| SaleProcessing.SaleItemValuesSnoc | src/main/java/org/omt/labelmanager/sales/sale/application/SaleLineItemProcessor.java:104-110 | adding an entity adds its values at the end |
| SaleProcessing.ValidateAndAdd | src/main/java/org/omt/labelmanager/sales/sale/application/SaleLineItemProcessor.java:54-118 | the result is the item's check; the sale gains the item, at the end and with the input's values, only when the check passes, and then the total grows by the input's unit price times its quantity; otherwise the total is unchanged |
| SaleProcessing.ResolveDistributorName | src/main/java/org/omt/labelmanager/sales/sale/application/UpdateSaleUseCase.java:107-114 | the name of the label's distributor with that id, or "id=" followed by the id when there is none |
| SaleProcessing.SaleMovementsOf | src/main/java/org/omt/labelmanager/sales/sale/application/UpdateSaleUseCase.java:88-99 | one SALE movement per map entry, in the map's order, from the distributor to outside, of the entry's quantity, referencing the sale |
| SaleProcessing.SaleMovementsLowerStock | src/main/java/org/omt/labelmanager/sales/sale/application/UpdateSaleUseCase.java:88-99 | recording those movements lowers the distributor's stock of each run by the quantity the entries sell from it |
| SaleProcessing.SaleMovementsReferenceSale | src/main/java/org/omt/labelmanager/sales/sale/application/UpdateSaleUseCase.java:87-99 | every recorded movement is a SALE referencing the sale, so the next edit deletes exactly these |
| SaleProcessing.AddCheckedItems | src/main/java/org/omt/labelmanager/sales/sale/application/UpdateSaleUseCase.java:69-82 | fails iff some item fails its check, with the first failure and the items before it added; otherwise the sale holds every item in order, its total is the sum over the inputs of unit price times quantity, and the map is that of the inputs and their runs |
| SaleProcessing.RecordSaleMovements | src/main/java/org/omt/labelmanager/sales/sale/application/UpdateSaleUseCase.java:87-99 | appends exactly the sale movements of the entries |
| SaleProcessing.EditSale | src/main/java/org/omt/labelmanager/sales/sale/application/UpdateSaleUseCase.java:58-99 | once the sale is found: on a failure the movements are as before; on success the sale's old SALE movements are replaced by one per distinct input, checked against the ledger without the old ones, and the total is the sum over the inputs of unit price times quantity |
| SaleProcessing.ReplaceItems | src/main/java/org/omt/labelmanager/sales/sale/application/UpdateSaleUseCase.java:61-82 | the sale's SALE movements deleted, date and notes set, and the items added as `AddCheckedItems` does against the ledger after the deletion; on success the total is the sum over the inputs of unit price times quantity |
| SaleProcessing.SaveEdited | src/main/java/org/omt/labelmanager/sales/sale/application/UpdateSaleUseCase.java:84-99 | the sale stays stored under its id with its items and total; the new movements are appended after the save |
| SaleProcessing.UpdateSale | src/main/java/org/omt/labelmanager/sales/sale/application/UpdateSaleUseCase.java:45-105 | an empty list and an unknown sale are refused first and change nothing; a failing item leaves the movements as before; on success the items are the inputs, the total is the sum over the inputs of unit price times quantity, and the movements are the ledger without the sale's old ones plus one per distinct input |
| SaleProcessing.UnitsSoldUpdate | src/main/java/org/omt/labelmanager/sales/sale/application/RegisterSaleUseCase.java:149-163 | changing one row's units sold changes the total sold by the difference |
| SaleProcessing.SellFromDirectEffects | src/main/java/org/omt/labelmanager/sales/sale/application/RegisterSaleUseCase.java:149-172 | a successful sale from the DIRECT allocation keeps every run's allocated total, counts the quantity as sold (refusing a negative one or more than is unsold) and appends one SALE movement of minus the quantity |
| SaleProcessing.RegisterStepEffects | src/main/java/org/omt/labelmanager/sales/sale/application/RegisterSaleUseCase.java:149-172 | one successful line item finds its release's run, has a non-negative quantity, keeps every run's allocated total, counts its quantity as sold from the direct allocation and appends exactly one SALE movement for it |
| SaleProcessing.RegisterItemsMovements | src/main/java/org/omt/labelmanager/sales/sale/application/RegisterSaleUseCase.java:92-99 | a successful registration appends one SALE movement per item, in order, of minus its quantity at the DIRECT distributor, with no reference |
| SaleProcessing.RegisterItemsAllocations | src/main/java/org/omt/labelmanager/sales/sale/application/RegisterSaleUseCase.java:92-99 | a successful registration keeps every run's allocated total and counts the quantities of all items, none negative, as sold |
| SaleProcessing.Quantities | src/main/java/org/omt/labelmanager/sales/sale/application/RegisterSaleUseCase.java:143 | the items' quantities, one per item |
| SaleProcessing.TotalPrepend | src/main/java/org/omt/labelmanager/sales/sale/application/RegisterSaleUseCase.java:92-99 | the total of a list with one more quantity in front grows by that quantity |
| SaleProcessing.ProcessLineItem | src/main/java/org/omt/labelmanager/sales/sale/application/RegisterSaleUseCase.java:110-178 | does what the item's registration step says: the lookups, then the line added (the total growing by the input's unit price times its quantity), the allocation reduced and the signed movement recorded, or the step's failure |
| SaleProcessing.SellAndRecord | src/main/java/org/omt/labelmanager/sales/sale/application/RegisterSaleUseCase.java:149-172 | a missing DIRECT allocation becomes the "no inventory allocated" failure, a refused increment is passed on; otherwise the allocation is reduced and the movement recorded |
| SaleProcessing.ProcessLineItems | src/main/java/org/omt/labelmanager/sales/sale/application/RegisterSaleUseCase.java:91-99 | the items processed in turn as the registration steps say, stopping at the first failure; when none fails the total is the sum over the inputs of unit price times quantity |
| SaleProcessing.RegisterSale | src/main/java/org/omt/labelmanager/sales/sale/application/RegisterSaleUseCase.java:58-108 | an unknown label, then a label without a DIRECT distributor, then an empty list are refused; a failing item leaves allocations and movements as before and saves nothing; on success a new sale with a new id holds every item and its total is the sum over the inputs of unit price times quantity |
| SaleProcessing.BuildSale | src/main/java/org/omt/labelmanager/sales/sale/application/RegisterSaleUseCase.java:82-99 | the new sale with its items processed and, on success, a total equal to the sum over the inputs of unit price times quantity; on a failure the allocations and movements are restored and no sale is kept |
| ReturnProcessing.CheckReturnItem | src/main/java/org/omt/labelmanager/sales/distributor_return/application/ReturnLineItemProcessor.java:49-81 | succeeds iff the release exists and is the label's, a run of the format exists and the distributor's current stock of the most recent run covers the quantity; then that run's id |
| ReturnProcessing.CheckReturnItemFailures | src/main/java/org/omt/labelmanager/sales/distributor_return/application/ReturnLineItemProcessor.java:55-81 | the failures in the source's order: unknown release, release of another label, no production run, and too little stock with the requested and available quantities |
| ReturnProcessing.CheckReturnItemsSplit | src/main/java/org/omt/labelmanager/sales/distributor_return/application/RegisterReturnUseCase.java:84-89 | checking two lists one after the other is checking them joined; the first failure wins |
| ReturnProcessing.CheckReturnItemsSingle | src/main/java/org/omt/labelmanager/sales/distributor_return/application/RegisterReturnUseCase.java:84-89 | checking a one-item list is checking that item |
| ReturnProcessing.CheckReturnItemsEach | src/main/java/org/omt/labelmanager/sales/distributor_return/application/RegisterReturnUseCase.java:84-89 | the items pass together iff each passes on its own against the same ledger, each going back to its own most recent run |
| ReturnProcessing.CheckReturnItemsFirstFailure | src/main/java/org/omt/labelmanager/sales/distributor_return/application/RegisterReturnUseCase.java:84-89 | a failure of the list is the failure of an item all of whose predecessors pass |
| ReturnProcessing.CheckedReturnPrefixStep | src/main/java/org/omt/labelmanager/sales/distributor_return/application/RegisterReturnUseCase.java:84-89 | one more item either fails the whole list with its own failure or extends the checked prefix by its run |
| ReturnProcessing.ReturnItemValuesSnoc | src/main/java/org/omt/labelmanager/sales/distributor_return/application/ReturnLineItemProcessor.java:83-87 | adding an entity adds its values at the end |
| ReturnProcessing.ValidateAndAdd | src/main/java/org/omt/labelmanager/sales/distributor_return/application/ReturnLineItemProcessor.java:49-95 | the result is the item's check; the return gains the item, at the end and with the input's values, only when the check passes |
| ReturnProcessing.AddCheckedItems | src/main/java/org/omt/labelmanager/sales/distributor_return/application/RegisterReturnUseCase.java:82-89 | fails iff some item fails its check, with the first failure; otherwise the return holds every item in order and the map is that of the inputs and their runs |
| ReturnProcessing.ReturnMovementsOf | src/main/java/org/omt/labelmanager/sales/distributor_return/application/RegisterReturnUseCase.java:94-106 | one RETURN movement per map entry, in the map's order, from the distributor to the warehouse, of the entry's quantity, referencing the return |
| ReturnProcessing.ReturnMovementsMoveStock | src/main/java/org/omt/labelmanager/sales/distributor_return/application/RegisterReturnUseCase.java:94-106 | recording those movements moves, for each run, what the entries send back from the distributor's stock to the warehouse |
| ReturnProcessing.RecordReturnMovements | src/main/java/org/omt/labelmanager/sales/distributor_return/application/RegisterReturnUseCase.java:94-106 | appends exactly the return movements of the entries |
| ReturnProcessing.BuildReturn | src/main/java/org/omt/labelmanager/sales/distributor_return/application/RegisterReturnUseCase.java:79-89 | a new return of the distributor, without an id, holding the items iff they all pass the check |
| ReturnProcessing.RegisterReturn | src/main/java/org/omt/labelmanager/sales/distributor_return/application/RegisterReturnUseCase.java:50-111 | an empty list, then an unknown label, then a distributor that is not the label's are refused; a failing item records nothing and saves nothing; on success the return gets a new id and one RETURN movement per distinct input references it |
| ReturnProcessing.EditReturn | src/main/java/org/omt/labelmanager/sales/distributor_return/application/UpdateReturnUseCase.java:54-93 | on a stored return: a failing item leaves the movements as before; on success its old RETURN movements are replaced by one per distinct input, checked against the ledger without the old ones, and the distributor is unchanged |
| ReturnProcessing.UpdateReturn | src/main/java/org/omt/labelmanager/sales/distributor_return/application/UpdateReturnUseCase.java:41-96 | an empty list and an unknown return are refused first and change nothing; otherwise the stored return is edited as above |
| ReleaseViews.Insert | src/main/java/org/omt/labelmanager/catalog/release/api/ReleaseController.java:274 | one more element in the list, nothing else changes in its contents |
| ReleaseViews.SortBy | src/main/java/org/omt/labelmanager/catalog/release/api/ReleaseController.java:274 | a permutation of the list: same length and same elements with the same multiplicities |
| ReleaseViews.InsertSorted | src/main/java/org/omt/labelmanager/catalog/release/api/ReleaseController.java:274 | inserting into a sorted list keeps it sorted, for a comparator that orders any two elements |
| ReleaseViews.SortByMembers | src/main/java/org/omt/labelmanager/catalog/release/api/ReleaseController.java:274 | sorting neither adds nor drops an element |
| ReleaseViews.SortBySorted | src/main/java/org/omt/labelmanager/catalog/release/api/ReleaseController.java:274 | the sorted list is in order, for a comparator that orders any two elements |
| ReleaseViews.SumOfAppend | src/main/java/org/omt/labelmanager/catalog/release/api/ReleaseController.java:136-138 | a sum over a list adds up over concatenated lists |
| ReleaseViews.InsertKeepsSum | src/main/java/org/omt/labelmanager/catalog/release/api/ReleaseController.java:324 | inserting an element adds its weight to a sum over the list |
| ReleaseViews.SortKeepsSum | src/main/java/org/omt/labelmanager/catalog/release/api/ReleaseController.java:324 | sorting does not change a sum over the list |
| ReleaseViews.CompareStringsAntisymmetric | src/main/java/org/omt/labelmanager/catalog/release/api/ReleaseController.java:274 | comparing names one way gives the negated result of comparing them the other way |
| ReleaseViews.FindDistributorName | src/main/java/org/omt/labelmanager/catalog/release/api/ReleaseController.java:305-311 | the name of the first distributor with the id; "Unknown" when none has it, and always for a null id |
| ReleaseViews.FormatLocation | src/main/java/org/omt/labelmanager/catalog/release/api/ReleaseController.java:293-303 | a distributor location reads as that distributor's name; the warehouse and the outside read as fixed labels |
| ReleaseViews.ResolveArtists | src/main/java/org/omt/labelmanager/catalog/release/api/ReleaseController.java:189-194 | only ids that have an artist contribute; every such id's artist is listed, and when every id has one there is one artist per id |
| ReleaseViews.ResolveArtistsAppend | src/main/java/org/omt/labelmanager/catalog/release/api/ReleaseController.java:189-194 | resolving keeps the order of the ids: it distributes over concatenation |
| ReleaseViews.ResolveTrackArtists | src/main/java/org/omt/labelmanager/catalog/release/api/ReleaseController.java:196-210 | one view per track, in order, with the track's fields and its artists and remixers resolved |
| ReleaseViews.AllocationsForRun | src/main/java/org/omt/labelmanager/catalog/release/api/ReleaseController.java:216-217 | exactly the stored allocations of the run |
| ReleaseViews.AllocationsForRunTotal | src/main/java/org/omt/labelmanager/catalog/release/api/ReleaseController.java:216-226 | the run's allocations add up to the run's allocated total |
| ReleaseViews.AllocatedByDistributor | src/main/java/org/omt/labelmanager/catalog/release/api/ReleaseController.java:256-260 | one key per distributor with an allocation, mapped to the sum of its quantities |
| ReleaseViews.SumOverDistributorsSplit | src/main/java/org/omt/labelmanager/catalog/release/api/ReleaseController.java:256-260 | over distinct ids, one more allocation adds its quantity to its distributor's share |
| ReleaseViews.DistinctTail | src/main/java/org/omt/labelmanager/catalog/release/api/ReleaseController.java:263-266 | the tail of a duplicate-free list is duplicate-free and lacks the head |
| ReleaseViews.GroupedSumsAddUp | src/main/java/org/omt/labelmanager/catalog/release/api/ReleaseController.java:256-260 | the grouped sums over distinct ids that cover every allocation add up to the total quantity |
| ReleaseViews.EmptySumOverDistributors | src/main/java/org/omt/labelmanager/catalog/release/api/ReleaseController.java:256-260 | no allocations give a zero share to every distributor |
| ReleaseViews.NameOrderConnex | src/main/java/org/omt/labelmanager/catalog/release/api/ReleaseController.java:274 | ordering rows by name orders any two rows one way or the other |
| ReleaseViews.NotIn | src/main/java/org/omt/labelmanager/catalog/release/api/ReleaseController.java:264-266 | the listed ids that are not keys of the map, in order, each once when the list has no duplicates |
| ReleaseViews.InventoryViews | src/main/java/org/omt/labelmanager/catalog/release/api/ReleaseController.java:268-273 | one row per listed id, each with the distributor's name and its allocated and current quantities, 0 when absent |
| ReleaseViews.InventoriesSorted | src/main/java/org/omt/labelmanager/catalog/release/api/ReleaseController.java:268-275 | the rows are sorted by name, whatever the hash maps' iteration orders |
| ReleaseViews.InventoriesCover | src/main/java/org/omt/labelmanager/catalog/release/api/ReleaseController.java:262-275 | one row per distributor that has an allocation or holds stock, and every row is one of theirs |
| ReleaseViews.InventoryIdsCount | src/main/java/org/omt/labelmanager/catalog/release/api/ReleaseController.java:262-266 | the union list has as many ids as the two key sets have together |
| ReleaseViews.InventoryIdsDistinct | src/main/java/org/omt/labelmanager/catalog/release/api/ReleaseController.java:262-266 | the union list lists no id twice |
| ReleaseViews.InventoryIdsMembers | src/main/java/org/omt/labelmanager/catalog/release/api/ReleaseController.java:262-266 | the union list holds exactly the keys of both maps |
| ReleaseViews.DistinctCardinality | src/main/java/org/omt/labelmanager/catalog/release/api/ReleaseController.java:262-266 | a duplicate-free list has as many distinct elements as entries |
| ReleaseViews.ViewsColumn | src/main/java/org/omt/labelmanager/catalog/release/api/ReleaseController.java:268-273 | the rows' allocated column adds up the map's values over the listed ids |
| ReleaseViews.MapSumAppend | src/main/java/org/omt/labelmanager/catalog/release/api/ReleaseController.java:268-273 | the per-id sum adds up over concatenated id lists |
| ReleaseViews.MapSumAbsent | src/main/java/org/omt/labelmanager/catalog/release/api/ReleaseController.java:271 | ids missing from the map contribute 0 |
| ReleaseViews.MapSumGrouped | src/main/java/org/omt/labelmanager/catalog/release/api/ReleaseController.java:256-260 | the grouped map's values over listed ids are the per-distributor sums |
| ReleaseViews.InventoriesColumn | src/main/java/org/omt/labelmanager/catalog/release/api/ReleaseController.java:262-275 | the sorted rows' allocated column adds up the grouped quantities of the allocated distributors |
| ReleaseViews.AllocatedColumnIsTotal | src/main/java/org/omt/labelmanager/catalog/release/api/ReleaseController.java:251-276 | the per-distributor rows account for every allocated unit: their allocated column sums to the quantities of all the allocations |
| ReleaseViews.BuildMovementHistory | src/main/java/org/omt/labelmanager/catalog/release/api/ReleaseController.java:278-291 | one entry per movement, in the order given, each with readable locations |
| ReleaseViews.HistoryOfKinds | src/main/java/org/omt/labelmanager/catalog/release/api/ReleaseController.java:278-303 | an allocation reads warehouse to the distributor's name, a sale the name to "External (sold)", a return the name back to the warehouse |
| ReleaseViews.BuildRunSummary | src/main/java/org/omt/labelmanager/catalog/release/api/ReleaseController.java:212-249 | the run, its allocated total and what is left of it, the warehouse stock, one allocation view per allocation, the movement history of the run, and distributor rows whose allocated column adds up to the allocated total |
| ReleaseViews.ToReleaseSaleView | src/main/java/org/omt/labelmanager/catalog/release/api/ReleaseController.java:328-339 | the sale's id, date and total amount, the units of all its lines and the distributor's name, "Unknown" for none |
| ReleaseViews.SaleViews | src/main/java/org/omt/labelmanager/catalog/release/api/ReleaseController.java:323 | one view per sale, in order |
| ReleaseViews.BuildReleaseSales | src/main/java/org/omt/labelmanager/catalog/release/api/ReleaseController.java:317-326 | the views of every run's sales, newest first, a permutation of them |
| ReleaseViews.UnitsSoldOfRelease | src/main/java/org/omt/labelmanager/catalog/release/api/ReleaseController.java:134-138 | the page's units sold are the units of every sale found for each run, added up run by run |
| ReleaseViews.ViewsKeepUnits | src/main/java/org/omt/labelmanager/catalog/release/api/ReleaseController.java:328-331 | the views carry the units of their sales |
| ReleaseForms.InputsFrom | src/main/java/org/omt/labelmanager/catalog/release/api/CreateReleaseForm.java:66-77 | the inputs of the rows from an index on exist iff each of their durations parses, one per row, numbered from that index plus one |
| ReleaseForms.TrackInputs | src/main/java/org/omt/labelmanager/catalog/release/api/CreateReleaseForm.java:66-77 | inputs exist iff every duration parses (the same conversion in `release/api/UpdateReleaseForm.java`:48-59); then one per row, in order, row k at position k + 1 with its artists, name and parsed duration |
| ReleaseForms.TrackInputsAppend | src/main/java/org/omt/labelmanager/catalog/release/api/CreateReleaseForm.java:67-77 | positions run on across rows: the inputs of two row lists joined are those of the first followed by those of the second moved down by the first's length |
| ReleaseForms.Shifted | src/main/java/org/omt/labelmanager/catalog/release/api/CreateReleaseForm.java:74 | the same inputs with their positions moved by n |
| ReleaseForms.ReleaseFormats | src/main/java/org/omt/labelmanager/catalog/release/api/CreateReleaseForm.java:60-64 | a set exists iff every name is a format; it holds exactly the named formats, so never more than there are names |
| ReleaseForms.RepeatedFormatCollapses | src/main/java/org/omt/labelmanager/catalog/release/api/CreateReleaseForm.java:60-64 | naming a format again does not change the set |
| ReleaseForms.FreshCreateFormIsEmpty | src/main/java/org/omt/labelmanager/catalog/release/api/CreateReleaseForm.java:16-18 | a form nothing was bound to yields no track inputs and an empty format set |
| ReleaseForms.FreshUpdateFormIsEmpty | src/main/java/org/omt/labelmanager/release/api/UpdateReleaseForm.java:13-14 | a fresh update form has no artists and yields no track inputs |
| ReleaseForms.LegacyCreateReleaseForm.constructor | src/main/java/org/omt/labelmanager/release/api/CreateReleaseForm.java:10-12 | a new form has no name, no date and no tracks |
| ReleaseForms.LegacyCreateReleaseForm.SetTracks | src/main/java/org/omt/labelmanager/release/api/CreateReleaseForm.java:34-36 | only the tracks change |
| ReleaseForms.LegacyCreateReleaseForm.ToTrackInputs | src/main/java/org/omt/labelmanager/release/api/CreateReleaseForm.java:38-50 | the indexed loop builds the same inputs as the stream conversion: none when a duration does not parse, otherwise one per row at position k + 1 |
| ContactForms.ToAddress | src/main/java/org/omt/labelmanager/catalog/api/label/CreateLabelForm.java:90-95 | no address iff the street is missing or blank (the same rule in `catalog/artist/api/CreateArtistForm.java`:81-86); otherwise the address holds exactly the form's fields |
| ContactForms.AddressRoundTrip | src/main/java/org/omt/labelmanager/catalog/api/label/CreateLabelForm.java:90-95 | an address with a non-blank street, put in a form and read back, is that address |
| ContactForms.BlankStreetDropsAddress | src/main/java/org/omt/labelmanager/catalog/api/label/CreateLabelForm.java:91 | with a blank street, whatever the other fields hold, there is no address |
| ContactForms.ToPerson | src/main/java/org/omt/labelmanager/catalog/api/label/CreateLabelForm.java:97-102 | no person iff the name is missing or blank; otherwise the person carries the name as typed |
| ContactForms.LabelOwner | src/main/java/org/omt/labelmanager/catalog/api/label/CreateLabelForm.java:97-102 | the owner exists iff the owner field is filled in, and carries that name |
| ContactForms.ArtistRealName | src/main/java/org/omt/labelmanager/catalog/artist/api/CreateArtistForm.java:88-93 | the real name exists iff the field is filled in, and carries that name |
| ContactForms.NamesAreNotTrimmed | src/main/java/org/omt/labelmanager/catalog/api/label/CreateLabelForm.java:97-102 | surrounding spaces are kept: a padded name gives a different person from the bare one |
| Common.IntToString | src/main/java/org/omt/labelmanager/sales/sale/application/UpdateSaleUseCase.java:59 | Java's decimal rendering of an id: the digits of its magnitude, with a minus sign iff it is negative |
| Common.NatToStringInjective | src/main/java/org/omt/labelmanager/sales/sale/application/UpdateSaleUseCase.java:59 | distinct numbers render differently |
| Common.IsBlank | src/main/java/org/omt/labelmanager/infrastructure/llm/OllamaInvoiceParserAdapter.java:54 | `isBlank`: every character is whitespace |
| Common.Trim | src/main/java/org/omt/labelmanager/infrastructure/llm/OllamaInvoiceParserAdapter.java:116 | `trim`: the longest middle part with no character up to a space at either end |
| Common.TrimIdentity | src/main/java/org/omt/labelmanager/infrastructure/llm/OllamaInvoiceParserAdapter.java:116 | trimming a string with no such character at either end changes nothing |
| Common.SumAppend | src/main/java/org/omt/labelmanager/sales/sale/infrastructure/SaleEntity.java:106-108 | a sum adds up over concatenated lists |
| InvoiceParsing.PadDigits | src/main/java/org/omt/labelmanager/infrastructure/llm/OllamaInvoiceParserAdapter.java:148 | the value in exactly w digits, zero-padded, reading back as the value |
| InvoiceParsing.PadDigitsOfValue | src/main/java/org/omt/labelmanager/infrastructure/llm/OllamaInvoiceParserAdapter.java:148 | reading a digit string and writing it back at its width gives the string |
| InvoiceParsing.SignedInteger | src/main/java/org/omt/labelmanager/infrastructure/llm/OllamaInvoiceParserAdapter.java:136 | an optionally signed, non-empty run of digits, or nothing |
| InvoiceParsing.SignedIntegerOfIntToString | src/main/java/org/omt/labelmanager/infrastructure/llm/OllamaInvoiceParserAdapter.java:136 | every integer's decimal rendering reads back as that integer |
| InvoiceParsing.ExponentMark | src/main/java/org/omt/labelmanager/infrastructure/llm/OllamaInvoiceParserAdapter.java:136 | the first exponent mark from an index on, or -1 iff there is none |
| InvoiceParsing.Scaled | src/main/java/org/omt/labelmanager/infrastructure/llm/OllamaInvoiceParserAdapter.java:136 | a decimal exists iff both the significand and the exponent read |
| InvoiceParsing.UnsignedDecimal | src/main/java/org/omt/labelmanager/infrastructure/llm/OllamaInvoiceParserAdapter.java:136 | an unsigned number never reads as a negative decimal |
| InvoiceParsing.ParseDecimal | src/main/java/org/omt/labelmanager/infrastructure/llm/OllamaInvoiceParserAdapter.java:136 | `new BigDecimal(text)`: a leading minus gives a non-positive value, anything else a non-negative one; empty text never reads |
| InvoiceParsing.SignificandOfDigits | src/main/java/org/omt/labelmanager/infrastructure/llm/OllamaInvoiceParserAdapter.java:136 | a run of digits is a significand with no fraction digits |
| InvoiceParsing.ExponentMarkAfterDigits | src/main/java/org/omt/labelmanager/infrastructure/llm/OllamaInvoiceParserAdapter.java:136 | after leading digits, the first exponent mark is the first one of the rest |
| InvoiceParsing.ExponentAfterDigits | src/main/java/org/omt/labelmanager/infrastructure/llm/OllamaInvoiceParserAdapter.java:136 | in digits, "E" and more, the exponent mark is right after the digits |
| InvoiceParsing.UnsignedSplit | src/main/java/org/omt/labelmanager/infrastructure/llm/OllamaInvoiceParserAdapter.java:136 | digits, a mark and the rest: the digits are the significand and the rest the exponent |
| InvoiceParsing.UnsignedScientific | src/main/java/org/omt/labelmanager/infrastructure/llm/OllamaInvoiceParserAdapter.java:136 | "nEe" with no sign reads as n with scale -e |
| InvoiceParsing.NegativeScientific | src/main/java/org/omt/labelmanager/infrastructure/llm/OllamaInvoiceParserAdapter.java:136 | "-nEe" reads as -n with scale -e |
| InvoiceParsing.UnsignedParse | src/main/java/org/omt/labelmanager/infrastructure/llm/OllamaInvoiceParserAdapter.java:136 | text starting with a digit has no sign to take off |
| InvoiceParsing.PositiveScientific | src/main/java/org/omt/labelmanager/infrastructure/llm/OllamaInvoiceParserAdapter.java:136 | "nEe" reads as n with scale -e |
| InvoiceParsing.Scientific | src/main/java/org/omt/labelmanager/infrastructure/llm/OllamaInvoiceParserAdapter.java:136 | writing a decimal as `<unscaled>E<-scale>` gives text the parse reads back as the same decimal, scale included |
| InvoiceParsing.ScientificText | src/main/java/org/omt/labelmanager/infrastructure/llm/OllamaInvoiceParserAdapter.java:136 | "uEe", for any integers u and e, reads as u with scale -e, whatever the signs |
| InvoiceParsing.NoExponentInPlain | src/main/java/org/omt/labelmanager/infrastructure/llm/OllamaInvoiceParserAdapter.java:136 | digits, a point and digits contain no exponent mark |
| InvoiceParsing.SignificandWithPoint | src/main/java/org/omt/labelmanager/infrastructure/llm/OllamaInvoiceParserAdapter.java:136 | digits, a point and digits are one number scaled by the digits after the point |
| InvoiceParsing.PointAfterDigits | src/main/java/org/omt/labelmanager/infrastructure/llm/OllamaInvoiceParserAdapter.java:136 | in digits, a point and more, the point is right after the digits |
| InvoiceParsing.UnsignedPlain | src/main/java/org/omt/labelmanager/infrastructure/llm/OllamaInvoiceParserAdapter.java:136 | unsigned "w.f" reads with the digits of w and f and scale `\|f\|` |
| InvoiceParsing.PlainDecimal | src/main/java/org/omt/labelmanager/infrastructure/llm/OllamaInvoiceParserAdapter.java:136 | "w.f" reads with the digits of w and f and scale `\|f\|`, so trailing zeros are kept |
| InvoiceParsing.ParseAmount | src/main/java/org/omt/labelmanager/infrastructure/llm/OllamaInvoiceParserAdapter.java:128-141 | null stays absent, a JSON number is taken as it is, and text is trimmed and read as a decimal, absent when it does not read |
| InvoiceParsing.TrimSurrounded | src/main/java/org/omt/labelmanager/infrastructure/llm/OllamaInvoiceParserAdapter.java:136 | spaces and line breaks around a value are cut off before it is read |
| InvoiceParsing.PaddedTextAmount | src/main/java/org/omt/labelmanager/infrastructure/llm/OllamaInvoiceParserAdapter.java:128-141 | a number sent as padded text reads as the number |
| InvoiceParsing.DaysInMonth | src/main/java/org/omt/labelmanager/infrastructure/llm/OllamaInvoiceParserAdapter.java:148 | between 28 and 31 days, and 29 exactly for February of a leap year |
| InvoiceParsing.FormatDate | src/main/java/org/omt/labelmanager/infrastructure/llm/OllamaInvoiceParserAdapter.java:148 | `yyyy-MM-dd` is ten characters long |
| InvoiceParsing.ParseIsoDate | src/main/java/org/omt/labelmanager/infrastructure/llm/OllamaInvoiceParserAdapter.java:148 | only a day that exists reads, and it reads only from its own `yyyy-MM-dd` form |
| InvoiceParsing.ParseDate | src/main/java/org/omt/labelmanager/infrastructure/llm/OllamaInvoiceParserAdapter.java:143-153 | absent for a missing or blank value; a day read is a real day whose form is the trimmed value |
| InvoiceParsing.FormatDateReadsBack | src/main/java/org/omt/labelmanager/infrastructure/llm/OllamaInvoiceParserAdapter.java:148 | the written form of a day reads back as that day |
| InvoiceParsing.DateRoundTrip | src/main/java/org/omt/labelmanager/infrastructure/llm/OllamaInvoiceParserAdapter.java:143-153 | every day of the years 0 to 9999 written as `yyyy-MM-dd` reads back as that day |
| InvoiceParsing.NoThirtiethOfFebruary | src/main/java/org/omt/labelmanager/infrastructure/llm/OllamaInvoiceParserAdapter.java:148 | the 30th of February is never a day |
| InvoiceParsing.ObjectSpan | src/main/java/org/omt/labelmanager/infrastructure/llm/OllamaInvoiceParserAdapter.java:118-121 | a span exists iff some '{' comes before some '}'; it runs from the first '{' to the last '}' |
| InvoiceParsing.ExtractJson | src/main/java/org/omt/labelmanager/infrastructure/llm/OllamaInvoiceParserAdapter.java:115-126 | the span from the first '{' to the last '}' of the trimmed reply when there is one, otherwise the whole trimmed reply |
| InvoiceParsing.ExtractJsonIdempotent | src/main/java/org/omt/labelmanager/infrastructure/llm/OllamaInvoiceParserAdapter.java:115-126 | extracting again from what was extracted changes nothing |
| InvoiceParsing.FromParsed | src/main/java/org/omt/labelmanager/infrastructure/llm/OllamaInvoiceParserAdapter.java:98-113 | every amount read as `ParseAmount` reads it, the date as `ParseDate` reads it, the reference kept, and a currency always present: the reply's, or the default when the reply has none |
| InvoiceParsing.ParseInvoice | src/main/java/org/omt/labelmanager/infrastructure/llm/OllamaInvoiceParserAdapter.java:53-70 | no data for missing or blank text and for a failed call; data (with a currency) iff the text is not blank and the reply's JSON reads |
| InvoiceParsing.BlankTextIgnoresReply | src/main/java/org/omt/labelmanager/infrastructure/llm/OllamaInvoiceParserAdapter.java:54-57 | for blank text the model's reply is never looked at |
| InvoiceParsing.MissingCurrencyDefaults | src/main/java/org/omt/labelmanager/infrastructure/llm/OllamaInvoiceParserAdapter.java:111 | a reply without a currency reads as one naming the default currency |
| InvoiceDocuments.ExtractInvoice | src/main/java/org/omt/labelmanager/finance/extraction/application/ExtractInvoiceDataUseCase.java:35-56 | no data when the recognised text is missing or blank, otherwise what the parser makes of the text |
| InvoiceDocuments.BlankTextSkipsParser | src/main/java/org/omt/labelmanager/finance/extraction/application/ExtractInvoiceDataUseCase.java:40-43 | for blank text the parser is never consulted |
| InvoiceDocuments.ExtractWithModelParser | src/main/java/org/omt/labelmanager/finance/extraction/application/ExtractInvoiceDataUseCase.java:35-56 | with the model-backed parser, extraction is that parser's reading of the recognised text |
| InvoiceDocuments.ExtractionTypesWithinCostTypes | src/main/java/org/omt/labelmanager/finance/extraction/api/InvoiceExtractionController.java:21-25 | the extraction endpoint accepts strictly fewer types than cost uploads: every extractable type is uploadable, and a Word document is only uploadable |
| InvoiceDocuments.BrowserGateMatchesEndpoint | src/main/resources/static/js/invoice-extraction.js:6 | the page offers extraction for exactly the types the endpoint accepts |
| InvoiceDocuments.ExtractInvoiceData | src/main/java/org/omt/labelmanager/finance/extraction/api/InvoiceExtractionController.java:35-56 | a missing or empty file is a bad request; a missing type fails the allow-list lookup; a type not in the list is refused with that type; otherwise OK with the extracted data |
| InvoiceDocuments.AcceptedDocumentIsParsed | src/main/java/org/omt/labelmanager/finance/extraction/api/InvoiceExtractionController.java:50-55 | an accepted document's data is what extraction gives |
| InvoiceDocuments.ToDocumentUpload | src/main/java/org/omt/labelmanager/finance/cost/api/CostController.java:158-173 | no upload for a missing or empty file; a missing or unlisted type is rejected (the same rule in `finance/api/cost/CostController.java`:105-120); otherwise the name and type are kept and the type is uploadable |
| InvoiceDocuments.ExtractableDocumentIsUploadable | src/main/java/org/omt/labelmanager/finance/cost/api/CostController.java:163-166 | a file the extraction endpoint accepts is also accepted as a cost document |
| InvoiceDocuments.MissingTypeHandledDifferently | src/main/java/org/omt/labelmanager/finance/cost/api/CostController.java:164 | a file without a type is rejected by the cost upload but fails the extraction endpoint's lookup |
| InvoiceDocuments.Disposition | src/main/java/org/omt/labelmanager/finance/cost/api/CostController.java:85-87 | the header reads back as the download flag and the file name, so the action and name are recoverable |
| InvoiceDocuments.DispositionInjective | src/main/java/org/omt/labelmanager/finance/cost/api/CostController.java:85-87 | different actions or names never give the same header |
| InvoiceDocuments.GetDocument | src/main/java/org/omt/labelmanager/finance/api/cost/CostController.java:86-103 | an unknown document is not found; otherwise served with its type, its length and a disposition attaching it iff the action is "download" (the same handler in `finance/cost/api/CostController.java`:77-94) |
| InvoiceDocuments.DefaultActionIsInline | src/main/java/org/omt/labelmanager/finance/api/cost/CostController.java:89 | with no action given the document is shown inline |
| InvoiceDocuments.Redirect | src/main/java/org/omt/labelmanager/finance/cost/api/CostController.java:54 | back to the label's page, followed by the release's path when the cost was on a release |
| InvoiceDocuments.ScopeSuffix | src/main/java/org/omt/labelmanager/finance/cost/api/CostController.java:54 | empty for a label, a path starting with '/' for a release |
| InvoiceDocuments.IntToStringHasNoSlash | src/main/java/org/omt/labelmanager/finance/cost/api/CostController.java:54 | an id's rendering contains no '/' |
| InvoiceDocuments.IntToStringInjective | src/main/java/org/omt/labelmanager/finance/cost/api/CostController.java:54 | different ids render differently |
| InvoiceDocuments.RedirectInjective | src/main/java/org/omt/labelmanager/finance/cost/api/CostController.java:54 | different labels or scopes never redirect to the same page |
| InvoiceDocuments.ReleaseRedirectExtendsLabelRedirect | src/main/java/org/omt/labelmanager/finance/cost/api/CostController.java:74 | a release's redirect is its label's redirect followed by the release path |

## Left out

- HTTP and Spring MVC plumbing: request binding, model attributes, view names other than the redirects, flash messages and CSRF tokens.
- The browser's `fetch`, `FormData` and CSRF header in the invoice extraction: the reply is a parameter, and each extraction is one atomic step, so overlapping requests are not modelled.
- The 3000 ms timer that removes the highlight from autofilled fields, because timers are outside the model.
- Markup, Bootstrap classes, labels and modal handling inside the HTML templates: only field names, ids, ordinals, escaping and button visibility are kept.
- `console.error` and server-side logging, which have no effect on state.
- The VAT-rate conversion `(vatRate/100).toFixed(2)` is floating point; it is the `toFixed` parameter of the invoice extraction model.
- The prompt text and the HTTP call to the language model, OCR, S3 storage and the JSON reader: their results are parameters.
- Document bytes and streams, and the parsing of media types beyond the exact strings compared.
- The framework's transactions: each use case is modelled as all-or-nothing, the methods putting back the state they changed before they report a failure; JPA cascades and orphan removal are not modelled.
- Timestamps such as `occurredAt`, `allocatedAt` and `createdAt`: the clock is a parameter or the field is omitted.
- `Address` and `Person` are kept to the fields the forms fill; their other behaviour is not part of this model.
- BigDecimal scale: amounts are exact reals, so `1.0` and `1.00` are one value here while `BigDecimal.equals` tells them apart.
- InvoiceParsing.ParseAmount: a JSON number is taken as its exact decimal value, not rounded through `BigDecimal.valueOf(double)`, because the double conversion is floating point.
- InvoiceParsing.ParseDecimal: digits outside ASCII, which `new BigDecimal` accepts, are rejected here; an exponent or scale beyond `int` range, which it rejects, is accepted here.
- InvoiceParsing.ParseIsoDate: only years 0000-9999 are read; the signed and longer years ISO_LOCAL_DATE accepts are not.
- InvoiceParsing.ParseDate: inherits the year range of `ParseIsoDate`.
- Integer width: quantities, units sold, balances and their sums (`ChannelAllocationEntity` fields, `unitsSold += amount`, the `mapToInt(...).sum()` stock queries and the sums in the release views) are Java `int`, which wraps past 2^31 - 1; the model keeps every quantity and balance as an unbounded integer, so it does not capture that overflow.
- ReleaseViews.CompareStrings: Java's `String.compareTo` compares UTF-16 code units, while this model compares Unicode scalar values; the two orders differ only between a character above U+FFFF and one in U+E000-U+FFFF, so `InventoriesSorted` may order such distributor names differently from the source.
- Allocations.FindAllocation: takes the first row for the run and distributor. The source's lookup is a single-result repository finder, which fails when two rows match, and nothing in `CreateAllocation` prevents two allocations of one run to one distributor. The model does not capture that failure. The repository interface is not part of this model, so the failure follows the framework's convention.
- Allocations.AllocationStore.ReduceAllocation: inherits the first-row choice of `FindAllocation`; with two rows for one run and distributor it reduces the first, where the source fails (and so does a sale from DIRECT in `RegisterSale`, which sells through it).
- Two versions of the sale entity: `RegisterSale` builds its `SaleEntity` with five arguments and no distributor, while `SaleEntity` itself only has a six-argument constructor with a non-null distributor column. The model follows the use case: the sale's distributor is optional, and the registration path leaves it unset.
- Two versions of the invoice parser port: the language-model adapter implements the port in the `finance.application.extraction` package, while `ExtractInvoiceDataUseCase` uses the one in `finance.extraction.infrastructure`. The model treats them as one port, so `ExtractWithModelParser` and `AcceptedDocumentIsParsed` describe the intended wiring, not a wiring the code as it stands contains.
- Repository ordering queries (`findMostRecent`, newest-first movement lists) take the order as given: the ordering is a parameter or the stored sequence order.

=== FILE: allocate.dfy ===
/**
 * The allocation use cases: hand part of a production run to a sales channel
 * or distributor. All three admit a request exactly when it fits in what is
 * not yet allocated (manufactured minus the run's allocations, an unknown
 * run counting as manufactured 0), check before they save anything, and on
 * success save one allocation and one ALLOCATION movement of the same
 * quantity that references it. The clock is the `now` parameters.
 */
module Allocate {
  import opened Common
  import opened ProductionRuns
  import opened Allocations
  import opened Ledger

  /** What is not yet allocated from a run. */
  function Unallocated(runs: seq<ProductionRun>, rows: seq<ChannelAllocation>, run: int): int
  {
    GetManufacturedQuantity(runs, run) - TotalAllocated(rows, run)
  }

  /**
   * The admission rule (`validateQuantityIsAvailable` of the use cases): a
   * request is refused, with the requested and the unallocated quantity,
   * exactly when it would take the run's allocations above what was made.
   */
  function CheckAvailable(runs: seq<ProductionRun>, rows: seq<ChannelAllocation>, run: int, quantity: int): (err: Option<RunError>)
    ensures err.None? <==> TotalAllocated(rows, run) + quantity <= GetManufacturedQuantity(runs, run)
    ensures err.Some? ==> err.value == InsufficientInventory(quantity, Unallocated(runs, rows, run))
    ensures FindById(runs, run).None? ==> (err.None? <==> TotalAllocated(rows, run) + quantity <= 0)
  {
    var unallocated := Unallocated(runs, rows, run);
    if quantity > unallocated then Some(InsufficientInventory(quantity, unallocated)) else None
  }

  /**
   * The rule agrees with the production-run query's validation for a known
   * run; for an unknown run the query refuses outright while the rule treats
   * the run as empty.
   */
  lemma AdmissionMatchesRunValidation(runs: seq<ProductionRun>, rows: seq<ChannelAllocation>, run: int, quantity: int)
    ensures FindById(runs, run).Some? ==>
              CheckAvailable(runs, rows, run, quantity) == ValidateQuantityIsAvailable(runs, run, quantity, TotalAllocated(rows, run))
    ensures FindById(runs, run).None? ==>
              ValidateQuantityIsAvailable(runs, run, quantity, TotalAllocated(rows, run)) == Some(RunNotFound(run))
  {
  }

  predicate ForRunNonNegative(news: seq<ChannelAllocation>, run: int)
  {
    forall k :: 0 <= k < |news| ==> news[k].productionRunId == run && news[k].quantity >= 0
  }

  lemma {:induction false} TotalAllocatedConcat(rows: seq<ChannelAllocation>, news: seq<ChannelAllocation>, run: int)
    requires ForRunNonNegative(news, run)
    ensures TotalAllocated(rows + news, run) >= TotalAllocated(rows, run)
    decreases |news|
  {
    if news == [] {
      assert rows + news == rows;
    } else {
      var init := news[..|news| - 1];
      assert rows + news == (rows + init) + [news[|news| - 1]];
      TotalAllocatedAppend(rows + init, news[|news| - 1], run);
      assert ForRunNonNegative(init, run) by {
        forall k | 0 <= k < |init| ensures init[k].productionRunId == run && init[k].quantity >= 0 {
          assert init[k] == news[k];
        }
      }
      TotalAllocatedConcat(rows, init, run);
    }
  }

  /**
   * Requests that together fit exactly (or less) are all accepted: when a
   * series of non-negative allocations of a run ends at most at the
   * manufactured quantity, each one was admitted given those before it.
   */
  lemma SeriesWithinManufacturedAccepted(runs: seq<ProductionRun>, rows: seq<ChannelAllocation>,
                                         news: seq<ChannelAllocation>, run: int)
    requires ForRunNonNegative(news, run)
    requires TotalAllocated(rows + news, run) <= GetManufacturedQuantity(runs, run)
    ensures forall k :: 0 <= k < |news| ==> CheckAvailable(runs, rows + news[..k], run, news[k].quantity).None?
  {
    forall k | 0 <= k < |news|
      ensures TotalAllocated(rows + news[..k], run) + news[k].quantity <= GetManufacturedQuantity(runs, run)
    {
      PrefixWithinTotal(rows, news, run, k);
    }
  }

  /** What was allocated before the k-th request, plus that request, is part of the whole series' total. */
  lemma PrefixWithinTotal(rows: seq<ChannelAllocation>, news: seq<ChannelAllocation>, run: int, k: nat)
    requires ForRunNonNegative(news, run) && k < |news|
    ensures TotalAllocated(rows + news[..k], run) + news[k].quantity <= TotalAllocated(rows + news, run)
  {
    var head := rows + news[..k] + [news[k]];
    var tail := news[k + 1..];
    TotalAllocatedAppend(rows + news[..k], news[k], run);
    assert rows + news == head + tail;
    assert ForRunNonNegative(tail, run) by {
      forall j | 0 <= j < |tail| ensures tail[j].productionRunId == run && tail[j].quantity >= 0 {
        assert tail[j] == news[k + 1 + j];
      }
    }
    TotalAllocatedConcat(head, tail, run);
  }

  /** `AllocationCRUDHandler.create(productionRunId, salesChannelId, quantity)`. */
  method CreateAllocation(runs: seq<ProductionRun>, allocations: AllocationStore, movements: LegacyMovementStore,
                          run: int, channel: int, quantity: int, now: int)
    returns (r: Result<ChannelAllocation, RunError>)
    modifies allocations, movements
    ensures r.Failure? <==> CheckAvailable(runs, old(allocations.allocations), run, quantity).Some?
    ensures r.Failure? ==> Some(r.error) == CheckAvailable(runs, old(allocations.allocations), run, quantity)
                           && allocations.allocations == old(allocations.allocations) && allocations.nextId == old(allocations.nextId)
                           && movements.movements == old(movements.movements)
    ensures r.Success? ==> r.value == ChannelAllocation(old(allocations.nextId), run, channel, quantity, 0, now)
                           && allocations.allocations == old(allocations.allocations) + [r.value]
                           && movements.movements == old(movements.movements) + [LegacyMovement(run, channel, quantity, Allocation, now, Some(r.value.id))]
                           && TotalAllocated(allocations.allocations, run) <= GetManufacturedQuantity(runs, run)
  {
    var manufactured := GetManufacturedQuantity(runs, run);
    var alreadyAllocated := TotalAllocated(allocations.allocations, run);
    var unallocated := manufactured - alreadyAllocated;
    if quantity > unallocated {
      return Failure(InsufficientInventory(quantity, unallocated));
    }
    var entity := new ChannelAllocationEntity(run, channel, quantity, now);
    var saved := allocations.SaveNew(entity);
    TotalAllocatedAppend(old(allocations.allocations), saved, run);
    movements.RecordMovement(run, channel, quantity, Allocation, Some(saved.id), now);
    r := Success(saved);
  }

  /** `AllocateProductionRunToSalesChannelUseCase.invoke(productionRunId, salesChannelId, quantity)`. */
  method AllocateToSalesChannel(runs: seq<ProductionRun>, allocations: AllocationStore, movements: LegacyMovementStore,
                                run: int, channel: int, quantity: int, now: int)
    returns (r: Result<ChannelAllocation, RunError>)
    modifies allocations, movements
    ensures r.Failure? ==> Some(r.error) == CheckAvailable(runs, old(allocations.allocations), run, quantity)
                           && allocations.allocations == old(allocations.allocations) && allocations.nextId == old(allocations.nextId)
                           && movements.movements == old(movements.movements)
    ensures r.Success? ==> CheckAvailable(runs, old(allocations.allocations), run, quantity).None?
                           && r.value == ChannelAllocation(old(allocations.nextId), run, channel, quantity, 0, now)
                           && allocations.allocations == old(allocations.allocations) + [r.value]
                           && movements.movements == old(movements.movements) + [LegacyMovement(run, channel, quantity, Allocation, now, Some(r.value.id))]
  {
    var err := CheckAvailable(runs, allocations.allocations, run, quantity);
    if err.Some? {
      return Failure(err.value);
    }
    var entity := new ChannelAllocationEntity(run, channel, quantity, now);
    var saved := allocations.SaveNew(entity);
    movements.RecordMovement(run, channel, quantity, Allocation, Some(saved.id), now);
    r := Success(saved);
  }

  /**
   * `AllocateProductionRunToDistributorUseCase.invoke(productionRunId,
   * distributorId, quantity)`: the allocation is created through the
   * allocation command interface (at `allocatedAt`) and the movement recorded
   * through the movement command interface (at `recordedAt`); the created
   * allocation is returned as it was created.
   */
  method AllocateToDistributor(runs: seq<ProductionRun>, allocations: AllocationStore, movements: LegacyMovementStore,
                               run: int, distributor: int, quantity: int, allocatedAt: int, recordedAt: int)
    returns (r: Result<ChannelAllocation, RunError>)
    modifies allocations, movements
    ensures r.Failure? ==> Some(r.error) == CheckAvailable(runs, old(allocations.allocations), run, quantity)
                           && allocations.allocations == old(allocations.allocations) && allocations.nextId == old(allocations.nextId)
                           && movements.movements == old(movements.movements)
    ensures r.Success? ==> CheckAvailable(runs, old(allocations.allocations), run, quantity).None?
                           && r.value == ChannelAllocation(old(allocations.nextId), run, distributor, quantity, 0, allocatedAt)
                           && allocations.allocations == old(allocations.allocations) + [r.value]
                           && movements.movements == old(movements.movements)
                                + [LegacyMovement(run, distributor, quantity, Allocation, recordedAt, Some(r.value.id))]
                           && NetDelta(movements.movements, run, distributor) == NetDelta(old(movements.movements), run, distributor) + quantity
  {
    var err := CheckAvailable(runs, allocations.allocations, run, quantity);
    if err.Some? {
      return Failure(err.value);
    }
    var allocation := allocations.CreateAllocation(run, distributor, quantity, allocatedAt);
    movements.RecordMovement(run, distributor, quantity, Allocation, Some(allocation.id), recordedAt);
    r := Success(allocation);
  }
}

=== FILE: allocations.dfy ===
/**
 * Channel allocations: the part of a production run handed to one
 * distributor. The entity keeps how many units were allocated and how many
 * of them have been sold; selling more than is left is refused.
 *
 * The repository is the sequence of stored rows (`allocations`); loading a row
 * gives an entity object, and saving it writes its state back.
 */
module Allocations {
  import opened Common

  datatype AllocationError =
    | NegativeAmount                                   // IllegalArgumentException, "Amount must be positive"
    | InsufficientQuantity(available: int, requested: int) // IllegalStateException, "Insufficient quantity"
    | NoAllocation(productionRunId: int, distributorId: int) // EntityNotFoundException, "No allocation found"

  /** A stored allocation row, and the `ChannelAllocation` record the API hands out. */
  datatype ChannelAllocation = ChannelAllocation(id: int, productionRunId: int, distributorId: int,
                                                 quantity: int, unitsSold: int, allocatedAt: int)

  /**
   * `incrementUnitsSold(amount)` on an allocation of `quantity` units of which
   * `unitsSold` are sold: the new number sold, or the error thrown.
   */
  function Increment(quantity: int, unitsSold: int, amount: int): (r: Result<int, AllocationError>)
    ensures amount < 0 ==> r == Failure(NegativeAmount)
    ensures 0 <= amount && quantity - unitsSold < amount ==> r == Failure(InsufficientQuantity(quantity - unitsSold, amount))
    ensures r.Success? <==> 0 <= amount <= quantity - unitsSold
    ensures r.Success? ==> r.value == unitsSold + amount
    ensures r.Success? && 0 <= unitsSold <= quantity ==> unitsSold <= r.value <= quantity
  {
    if amount < 0 then Failure(NegativeAmount)
    else
      var unitsRemaining := quantity - unitsSold;
      if unitsRemaining < amount then Failure(InsufficientQuantity(unitsRemaining, amount))
      else Success(unitsSold + amount)
  }

  /** A series of increments applied in turn, stopping at the first refusal. */
  function IncrementAll(quantity: int, unitsSold: int, amounts: seq<int>): Result<int, AllocationError>
    decreases |amounts|
  {
    if amounts == [] then Success(unitsSold)
    else match Increment(quantity, unitsSold, amounts[0])
      case Failure(e) => Failure(e)
      case Success(u) => IncrementAll(quantity, u, amounts[1..])
  }

  function Total(xs: seq<int>): int
  {
    if xs == [] then 0 else xs[0] + Total(xs[1..])
  }

  predicate AllNonNegative(xs: seq<int>)
  {
    forall k :: 0 <= k < |xs| ==> xs[k] >= 0
  }

  /**
   * Successive increments accumulate: a series of non-negative amounts all
   * succeed exactly when their total fits in what is left, and then the
   * units sold grow by that total.
   */
  lemma {:induction false} IncrementsAccumulate(quantity: int, unitsSold: int, amounts: seq<int>)
    requires 0 <= unitsSold <= quantity && AllNonNegative(amounts)
    ensures IncrementAll(quantity, unitsSold, amounts).Success? <==> unitsSold + Total(amounts) <= quantity
    ensures IncrementAll(quantity, unitsSold, amounts).Success? ==>
              IncrementAll(quantity, unitsSold, amounts).value == unitsSold + Total(amounts)
    decreases |amounts|
  {
    if amounts != [] {
      assert AllNonNegative(amounts[1..]) by {
        forall k | 0 <= k < |amounts[1..]| ensures amounts[1..][k] >= 0 {
          assert amounts[1..][k] == amounts[k + 1];
        }
      }
      NonNegativeTotal(amounts[1..]);
      assert Total(amounts) == amounts[0] + Total(amounts[1..]);
      if amounts[0] <= quantity - unitsSold {
        assert IncrementAll(quantity, unitsSold, amounts) == IncrementAll(quantity, unitsSold + amounts[0], amounts[1..]);
        IncrementsAccumulate(quantity, unitsSold + amounts[0], amounts[1..]);
      } else {
        assert IncrementAll(quantity, unitsSold, amounts).Failure?;
      }
    }
  }

  lemma {:induction false} NonNegativeTotal(xs: seq<int>)
    requires AllNonNegative(xs)
    ensures Total(xs) >= 0
    decreases |xs|
  {
    if xs != [] {
      assert AllNonNegative(xs[1..]) by {
        forall k | 0 <= k < |xs[1..]| ensures xs[1..][k] >= 0 {
          assert xs[1..][k] == xs[k + 1];
        }
      }
      NonNegativeTotal(xs[1..]);
    }
  }

  /** `ChannelAllocationEntity`: only the units sold and the generated id ever change. */
  class ChannelAllocationEntity {
    var id: Option<int>
    const productionRunId: int
    const distributorId: int
    const quantity: int
    var unitsSold: int
    const allocatedAt: int

    /** A new allocation: nothing sold yet, no id until it is saved. */
    constructor (productionRunId: int, distributorId: int, quantity: int, allocatedAt: int)
      ensures id.None? && unitsSold == 0
      ensures this.productionRunId == productionRunId && this.distributorId == distributorId
      ensures this.quantity == quantity && this.allocatedAt == allocatedAt
    {
      this.id := None;
      this.productionRunId := productionRunId;
      this.distributorId := distributorId;
      this.quantity := quantity;
      this.unitsSold := 0;
      this.allocatedAt := allocatedAt;
    }

    /** The entity as loaded from a stored row. */
    constructor Load(row: ChannelAllocation)
      ensures id == Some(row.id) && Row() == row
    {
      this.id := Some(row.id);
      this.productionRunId := row.productionRunId;
      this.distributorId := row.distributorId;
      this.quantity := row.quantity;
      this.unitsSold := row.unitsSold;
      this.allocatedAt := row.allocatedAt;
    }

    /** The row this entity saves as. */
    function Row(): ChannelAllocation
      reads this
      requires id.Some?
    {
      ChannelAllocation(id.value, productionRunId, distributorId, quantity, unitsSold, allocatedAt)
    }

    /** `incrementUnitsSold(amount)`: on refusal nothing changes. */
    method IncrementUnitsSold(amount: int) returns (err: Option<AllocationError>)
      modifies this
      ensures id == old(id)
      ensures var r := Increment(quantity, old(unitsSold), amount);
              (r.Success? ==> err.None? && unitsSold == r.value)
              && (r.Failure? ==> err == Some(r.error) && unitsSold == old(unitsSold))
    {
      if amount < 0 {
        return Some(NegativeAmount);
      }
      var unitsRemaining := quantity - unitsSold;
      if unitsRemaining < amount {
        return Some(InsufficientQuantity(unitsRemaining, amount));
      }
      unitsSold := unitsSold + amount;
      err := None;
    }
  }

  // ---------------------------------------------------------------------------
  // Queries over the stored rows

  /** `findByProductionRunIdAndDistributorId`: the position of the first matching row, if any. */
  function FindAllocation(rows: seq<ChannelAllocation>, run: int, distributor: int): (i: Option<nat>)
    ensures i.Some? ==> i.value < |rows| && rows[i.value].productionRunId == run && rows[i.value].distributorId == distributor
    ensures i.Some? ==> forall k :: 0 <= k < i.value ==> !(rows[k].productionRunId == run && rows[k].distributorId == distributor)
    ensures i.None? <==> forall k :: 0 <= k < |rows| ==> !(rows[k].productionRunId == run && rows[k].distributorId == distributor)
  {
    if rows == [] then None
    else if rows[0].productionRunId == run && rows[0].distributorId == distributor then Some(0)
    else
      var rest := FindAllocation(rows[1..], run, distributor);
      assert forall k :: 1 <= k < |rows| ==> rows[k] == rows[1..][k - 1];
      if rest.None? then None else Some(rest.value + 1)
  }

  /** `getAllocationsForProductionRun(run)` contains one for the distributor. */
  predicate HasAllocation(rows: seq<ChannelAllocation>, run: int, distributor: int)
  {
    exists k :: 0 <= k < |rows| && rows[k].productionRunId == run && rows[k].distributorId == distributor
  }

  /** `sumQuantityByProductionRunId` / `getTotalAllocated`: the quantities allocated from a run. */
  function TotalAllocated(rows: seq<ChannelAllocation>, run: int): int
  {
    if rows == [] then 0
    else TotalAllocated(rows[..|rows| - 1], run)
         + (if rows[|rows| - 1].productionRunId == run then rows[|rows| - 1].quantity else 0)
  }

  lemma TotalAllocatedAppend(rows: seq<ChannelAllocation>, a: ChannelAllocation, run: int)
    ensures TotalAllocated(rows + [a], run) == TotalAllocated(rows, run) + (if a.productionRunId == run then a.quantity else 0)
  {
    assert (rows + [a])[..|rows + [a]| - 1] == rows;
  }

  /** Changing the units sold of one row leaves every run's total allocation alone. */
  lemma {:induction false} TotalAllocatedIgnoresUnitsSold(rows: seq<ChannelAllocation>, i: nat, u: int, run: int)
    requires i < |rows|
    ensures TotalAllocated(rows[i := rows[i].(unitsSold := u)], run) == TotalAllocated(rows, run)
    decreases |rows|
  {
    var rows' := rows[i := rows[i].(unitsSold := u)];
    if i < |rows| - 1 {
      assert rows'[..|rows'| - 1] == rows[..|rows| - 1][i := rows[i].(unitsSold := u)];
      TotalAllocatedIgnoresUnitsSold(rows[..|rows| - 1], i, u, run);
    } else {
      assert rows'[..|rows'| - 1] == rows[..|rows| - 1];
    }
  }

  /** The allocation repository and `AllocationCommandApi` over it. */
  class AllocationStore {
    var allocations: seq<ChannelAllocation>
    var nextId: int

    constructor Empty()
      ensures allocations == []
    {
      allocations := [];
      nextId := 1;
    }

    /** `save(entity)` of a new entity: the store assigns the next id. */
    method SaveNew(e: ChannelAllocationEntity) returns (row: ChannelAllocation)
      modifies this, e
      ensures e.id == Some(old(nextId)) && nextId == old(nextId) + 1
      ensures row == e.Row() && row.id == old(nextId)
      ensures e.unitsSold == old(e.unitsSold)
      ensures allocations == old(allocations) + [row]
    {
      e.id := Some(nextId);
      nextId := nextId + 1;
      row := e.Row();
      allocations := allocations + [row];
    }

    /**
     * `createAllocation(run, distributor, quantity)` at time `now`: no
     * availability check; the new row has nothing sold.
     */
    method CreateAllocation(run: int, distributor: int, quantity: int, now: int) returns (a: ChannelAllocation)
      modifies this
      ensures a == ChannelAllocation(old(nextId), run, distributor, quantity, 0, now)
      ensures allocations == old(allocations) + [a] && nextId == old(nextId) + 1
      ensures TotalAllocated(allocations, run) == TotalAllocated(old(allocations), run) + quantity
    {
      var e := new ChannelAllocationEntity(run, distributor, quantity, now);
      a := SaveNew(e);
      TotalAllocatedAppend(old(allocations), a, run);
    }

    /**
     * `reduceAllocation(run, distributor, quantity)`: counts `quantity` more
     * units as sold on the (run, distributor) allocation; with no such
     * allocation, or when the increment is refused, nothing is saved.
     */
    method ReduceAllocation(run: int, distributor: int, quantity: int) returns (err: Option<AllocationError>)
      modifies this
      ensures nextId == old(nextId)
      ensures FindAllocation(old(allocations), run, distributor).None? ==>
                err == Some(NoAllocation(run, distributor)) && allocations == old(allocations)
      ensures FindAllocation(old(allocations), run, distributor).Some? ==>
                var i := FindAllocation(old(allocations), run, distributor).value;
                var r := Increment(old(allocations)[i].quantity, old(allocations)[i].unitsSold, quantity);
                (r.Failure? ==> err == Some(r.error) && allocations == old(allocations))
                && (r.Success? ==> err.None? && allocations == old(allocations)[i := old(allocations)[i].(unitsSold := r.value)])
      ensures forall r :: TotalAllocated(allocations, r) == TotalAllocated(old(allocations), r)
    {
      var found := FindAllocation(allocations, run, distributor);
      if found.None? {
        return Some(NoAllocation(run, distributor));
      }
      var i := found.value;
      var e := new ChannelAllocationEntity.Load(allocations[i]);
      err := e.IncrementUnitsSold(quantity);
      if err.Some? {
        return;
      }
      forall r {
        TotalAllocatedIgnoresUnitsSold(allocations, i, e.unitsSold, r);
      }
      allocations := allocations[i := e.Row()];
    }
  }
}

=== FILE: artist_selection.dfy ===
/**
 * The artist selection registry behind the release and track artist pickers.
 * It keeps an ordered list of selected artist ids as strings; each selected id
 * has one tag element (showing the artist name) and one hidden input (named by
 * the registry's `inputName`, holding the id). The select element, when there
 * is one, is reset to the empty choice after each addition and on clear, and
 * the optional `onAdd` / `onRemove` callbacks are recorded as events.
 */
module ArtistSelection {
  import opened Common
  import opened FormNames

  /** A JavaScript value passed as an artist id: `undefined`, `null`, a string or an integer. */
  datatype IdArg = Undefined | Null | Text(s: string) | Number(n: int)

  /** JavaScript truthiness of an id argument. */
  predicate Falsy(a: IdArg)
  {
    a.Undefined? || a.Null? || a == Text("") || a == Number(0)
  }

  /** `String(a)`. */
  function JsString(a: IdArg): string
  {
    match a
    case Undefined => "undefined"
    case Null => "null"
    case Text(s) => s
    case Number(n) => if n < 0 then "-" + NatToString(-n) else NatToString(n)
  }

  /** An artist as the page embeds it; `id` is the artist id as `String` renders it. */
  datatype Artist = Artist(id: string, artistName: string)

  /**
   * `getArtistById(artists, id)`: the first artist whose id renders as `id`.
   * artist-utils.js is not part of this model; this is the lookup its tests
   * describe (numeric and string ids match alike, a miss is `undefined`).
   */
  function FindArtist(artists: seq<Artist>, id: string): (r: Option<Artist>)
    ensures r.Some? ==> r.value in artists && r.value.id == id
    ensures r.None? <==> forall k :: 0 <= k < |artists| ==> artists[k].id != id
  {
    if artists == [] then None
    else if artists[0].id == id then Some(artists[0])
    else FindArtist(artists[1..], id)
  }

  /** The guard of `add`: a truthy id, not yet selected, naming a known artist. */
  predicate Admits(selected: seq<string>, artists: seq<Artist>, a: IdArg)
  {
    !Falsy(a) && JsString(a) !in selected && FindArtist(artists, JsString(a)).Some?
  }

  /** The ids a run of `add` calls leaves selected, starting from `selected`. */
  function AddAll(selected: seq<string>, artists: seq<Artist>, args: seq<IdArg>): (r: seq<string>)
    ensures |selected| <= |r| && r[..|selected|] == selected
    ensures forall k :: |selected| <= k < |r| ==> FindArtist(artists, r[k]).Some?
    decreases |args|
  {
    if args == [] then selected
    else
      var next := if Admits(selected, artists, args[0]) then selected + [JsString(args[0])] else selected;
      var r := AddAll(next, artists, args[1..]);
      assert r[..|selected|] == next[..|selected|];
      r
  }

  /** A run of additions keeps the selection free of duplicates. */
  lemma {:induction false} AddAllKeepsNoDuplicates(selected: seq<string>, artists: seq<Artist>, args: seq<IdArg>)
    requires NoDuplicates(selected)
    ensures NoDuplicates(AddAll(selected, artists, args))
    decreases |args|
  {
    if args != [] {
      var next := if Admits(selected, artists, args[0]) then selected + [JsString(args[0])] else selected;
      AddAllKeepsNoDuplicates(next, artists, args[1..]);
    }
  }

  /** A tag element: `data-artist-id` and the artist name it shows. */
  datatype Tag = Tag(artistId: string, text: string)

  datatype HiddenInput = HiddenInput(name: string, value: string)

  datatype Event = Added(id: string, artist: Artist) | Removed(id: string)

  /** `tagsContainer.querySelector('[data-artist-id="id"]')`: the first tag for `id`, or -1. */
  function FirstTag(tags: seq<Tag>, id: string): (i: int)
    ensures -1 <= i < |tags|
    ensures i >= 0 ==> tags[i].artistId == id && forall k :: 0 <= k < i ==> tags[k].artistId != id
    ensures i == -1 ==> forall k :: 0 <= k < |tags| ==> tags[k].artistId != id
  {
    if tags == [] then -1
    else if tags[0].artistId == id then 0
    else
      var j := FirstTag(tags[1..], id);
      if j == -1 then -1 else j + 1
  }

  /** `inputsContainer.querySelector('input[value="id"]')`: the first hidden input holding `id`, or -1. */
  function FirstInput(inputs: seq<HiddenInput>, id: string): (i: int)
    ensures -1 <= i < |inputs|
    ensures i >= 0 ==> inputs[i].value == id && forall k :: 0 <= k < i ==> inputs[k].value != id
    ensures i == -1 ==> forall k :: 0 <= k < |inputs| ==> inputs[k].value != id
  {
    if inputs == [] then -1
    else if inputs[0].value == id then 0
    else
      var j := FirstInput(inputs[1..], id);
      if j == -1 then -1 else j + 1
  }

  function RemoveAt<T>(xs: seq<T>, i: int): (r: seq<T>)
    ensures 0 <= i < |xs| ==> |r| == |xs| - 1
  {
    if 0 <= i < |xs| then xs[..i] + xs[i + 1..] else xs
  }

  /** Removing one position of a duplicate-free list keeps it duplicate-free and drops exactly that element. */
  lemma RemoveAtKeepsNoDuplicates(xs: seq<string>, i: nat)
    requires NoDuplicates(xs) && i < |xs|
    ensures NoDuplicates(RemoveAt(xs, i)) && xs[i] !in RemoveAt(xs, i)
    ensures forall x :: x in RemoveAt(xs, i) <==> x in xs && x != xs[i]
  {
    var r := RemoveAt(xs, i);
    forall a, b | 0 <= a < b < |r| ensures r[a] != r[b] {
      var a' := if a < i then a else a + 1;
      var b' := if b < i then b else b + 1;
      assert r[a] == xs[a'] && r[b] == xs[b'];
    }
    forall k | 0 <= k < |r| ensures r[k] != xs[i] {
      var k' := if k < i then k else k + 1;
      assert r[k] == xs[k'];
    }
    forall x | x in xs && x != xs[i] ensures x in r {
      var k :| 0 <= k < |xs| && xs[k] == x;
      if k < i { assert r[k] == x; } else { assert r[k - 1] == x; }
    }
  }

  /** Ids, tags and hidden inputs stay one-to-one, in the same order, with no id twice. */
  ghost predicate Aligned(artists: seq<Artist>, inputName: string,
                          ids: seq<string>, tags: seq<Tag>, inputs: seq<HiddenInput>)
  {
    NoDuplicates(ids) && |tags| == |ids| && |inputs| == |ids|
    && forall i :: 0 <= i < |ids| ==>
         FindArtist(artists, ids[i]).Some?
         && tags[i] == Tag(ids[i], FindArtist(artists, ids[i]).value.artistName)
         && inputs[i] == HiddenInput(inputName, ids[i])
  }

  /** In an aligned registry the selectors find a selected id's tag and hidden input at the id's own position. */
  lemma AlignedLookup(artists: seq<Artist>, inputName: string,
                      ids: seq<string>, tags: seq<Tag>, inputs: seq<HiddenInput>, index: nat)
    requires Aligned(artists, inputName, ids, tags, inputs) && index < |ids|
    ensures FirstTag(tags, ids[index]) == index && FirstInput(inputs, ids[index]) == index
  {
    var id := ids[index];
    forall k | 0 <= k < index ensures tags[k].artistId != id && inputs[k].value != id {
      assert ids[k] != id;
    }
  }

  /**
   * Removing a selected id together with the tag and the hidden input at its
   * position keeps the registry aligned, and the id is no longer selected.
   */
  lemma RemoveKeepsAlignment(artists: seq<Artist>, inputName: string,
                             ids: seq<string>, tags: seq<Tag>, inputs: seq<HiddenInput>, index: nat)
    requires Aligned(artists, inputName, ids, tags, inputs) && index < |ids|
    ensures Aligned(artists, inputName, RemoveAt(ids, index), RemoveAt(tags, index), RemoveAt(inputs, index))
    ensures ids[index] !in RemoveAt(ids, index)
  {
    RemoveAtKeepsNoDuplicates(ids, index);
    var ids', tags', inputs' := RemoveAt(ids, index), RemoveAt(tags, index), RemoveAt(inputs, index);
    forall i | 0 <= i < |ids'|
      ensures FindArtist(artists, ids'[i]).Some?
      ensures tags'[i] == Tag(ids'[i], FindArtist(artists, ids'[i]).value.artistName)
      ensures inputs'[i] == HiddenInput(inputName, ids'[i])
    {
      var j := if i < index then i else i + 1;
      assert ids'[i] == ids[j] && tags'[i] == tags[j] && inputs'[i] == inputs[j];
    }
  }

  /** Appending a new id that names a known artist, with its tag and hidden input, keeps the registry aligned. */
  lemma AppendKeepsAlignment(artists: seq<Artist>, inputName: string,
                             ids: seq<string>, tags: seq<Tag>, inputs: seq<HiddenInput>, id: string)
    requires Aligned(artists, inputName, ids, tags, inputs)
    requires id !in ids && FindArtist(artists, id).Some?
    ensures Aligned(artists, inputName, ids + [id],
                    tags + [Tag(id, FindArtist(artists, id).value.artistName)],
                    inputs + [HiddenInput(inputName, id)])
  {
    var ids' := ids + [id];
    forall i, j | 0 <= i < j < |ids'| ensures ids'[i] != ids'[j] {
      if j < |ids| { assert ids'[i] == ids[i] && ids'[j] == ids[j]; }
    }
  }

  class Selection {
    const artists: seq<Artist>
    const inputName: string
    const hasOnAdd: bool
    const hasOnRemove: bool
    var selectedIds: seq<string>
    var tags: seq<Tag>
    var inputs: seq<HiddenInput>
    /** The select element's value, or None when the registry has no select element. */
    var selectValue: Option<string>
    var events: seq<Event>

    ghost predicate Valid()
      reads this
    {
      Aligned(artists, inputName, selectedIds, tags, inputs)
    }

    /** `createArtistSelection(config)`: nothing selected. */
    constructor Create(artists: seq<Artist>, select: Option<string>, inputName: string,
                       hasOnAdd: bool, hasOnRemove: bool)
      ensures Valid()
      ensures this.artists == artists && this.inputName == inputName
      ensures this.hasOnAdd == hasOnAdd && this.hasOnRemove == hasOnRemove
      ensures selectedIds == [] && tags == [] && inputs == [] && events == [] && selectValue == select
    {
      this.artists := artists;
      this.inputName := inputName;
      this.hasOnAdd := hasOnAdd;
      this.hasOnRemove := hasOnRemove;
      selectedIds := [];
      tags := [];
      inputs := [];
      selectValue := select;
      events := [];
    }

    /** `createTrackArtistSelection`: the hidden inputs are named after the track index given at creation. */
    constructor ForTrack(artists: seq<Artist>, trackIndex: nat, hasOnAdd: bool)
      ensures Valid()
      ensures this.artists == artists && inputName == TrackArtistInputName(trackIndex)
      ensures this.hasOnAdd == hasOnAdd && !hasOnRemove
      ensures selectedIds == [] && tags == [] && inputs == [] && events == [] && selectValue == Some("")
    {
      this.artists := artists;
      inputName := TrackArtistInputName(trackIndex);
      this.hasOnAdd := hasOnAdd;
      hasOnRemove := false;
      selectedIds := [];
      tags := [];
      inputs := [];
      selectValue := Some("");
      events := [];
    }

    /**
     * `add(artistId)`: refused (nothing changes) for a falsy id, an id already
     * selected or one naming no artist; otherwise the id, its tag and its hidden
     * input are appended, the select is reset and `onAdd` is called.
     */
    method Add(a: IdArg) returns (added: bool)
      requires Valid()
      modifies this
      ensures Valid()
      ensures added <==> Admits(old(selectedIds), artists, a)
      ensures !added ==> selectedIds == old(selectedIds) && tags == old(tags) && inputs == old(inputs)
                         && selectValue == old(selectValue) && events == old(events)
      ensures added ==> var id := JsString(a); var artist := FindArtist(artists, id).value;
                        selectedIds == old(selectedIds) + [id]
                        && tags == old(tags) + [Tag(id, artist.artistName)]
                        && inputs == old(inputs) + [HiddenInput(inputName, id)]
                        && selectValue == (if old(selectValue).Some? then Some("") else None)
                        && events == old(events) + (if hasOnAdd then [Added(id, artist)] else [])
    {
      if Falsy(a) {
        return false;
      }
      var id := JsString(a);
      if id in selectedIds {
        return false;
      }
      var artist := FindArtist(artists, id);
      if artist.None? {
        return false;
      }
      AppendKeepsAlignment(artists, inputName, selectedIds, tags, inputs, id);
      selectedIds := selectedIds + [id];
      tags := tags + [Tag(id, artist.value.artistName)];
      inputs := inputs + [HiddenInput(inputName, id)];
      if selectValue.Some? {
        selectValue := Some("");
      }
      if hasOnAdd {
        events := events + [Added(id, artist.value)];
      }
      added := true;
    }

    /**
     * `remove(artistId)`: refused for an id that is not selected; otherwise the
     * id leaves the list, its tag and one hidden input holding it are removed
     * and `onRemove` is called.
     */
    method Remove(a: IdArg) returns (removed: bool)
      requires Valid()
      modifies this
      ensures Valid()
      ensures removed <==> JsString(a) in old(selectedIds)
      ensures !removed ==> selectedIds == old(selectedIds) && tags == old(tags) && inputs == old(inputs)
                           && events == old(events)
      ensures removed ==> var i := IndexOf(old(selectedIds), JsString(a));
                          selectedIds == RemoveAt(old(selectedIds), i)
                          && tags == RemoveAt(old(tags), i) && inputs == RemoveAt(old(inputs), i)
                          && JsString(a) !in selectedIds
                          && events == old(events) + (if hasOnRemove then [Removed(JsString(a))] else [])
      ensures selectValue == old(selectValue)
    {
      var id := JsString(a);
      var index := IndexOf(selectedIds, id);
      if index == -1 {
        return false;
      }
      AlignedLookup(artists, inputName, selectedIds, tags, inputs, index);
      RemoveKeepsAlignment(artists, inputName, selectedIds, tags, inputs, index);
      var t := FirstTag(tags, id);
      var h := FirstInput(inputs, id);
      selectedIds := RemoveAt(selectedIds, index);
      tags := RemoveAt(tags, t);
      inputs := RemoveAt(inputs, h);
      if hasOnRemove {
        events := events + [Removed(id)];
      }
      removed := true;
    }

    /** `clear()`: nothing selected, no tags, no hidden inputs; the select is reset. No callback fires. */
    method Clear()
      modifies this
      ensures Valid()
      ensures selectedIds == [] && tags == [] && inputs == []
      ensures selectValue == (if old(selectValue).Some? then Some("") else None)
      ensures events == old(events)
    {
      selectedIds := [];
      tags := [];
      inputs := [];
      if selectValue.Some? {
        selectValue := Some("");
      }
    }

    /** `getSelectedIds()`: the ids in selection order; a sequence is a value, so the caller holds a copy. */
    method GetSelectedIds() returns (ids: seq<string>)
      requires Valid()
      ensures ids == selectedIds && NoDuplicates(ids) && |ids| == |tags| == |inputs|
    {
      ids := selectedIds;
    }

    /** `isSelected(artistId)`. */
    method IsSelected(a: IdArg) returns (b: bool)
      ensures b <==> JsString(a) in selectedIds
    {
      b := JsString(a) in selectedIds;
    }

    /** The select's change listener: the chosen value is offered to `add`. */
    method SelectChanged(value: string) returns (added: bool)
      requires Valid() && selectValue.Some?
      modifies this
      ensures Valid()
      ensures added <==> Admits(old(selectedIds), artists, Text(value))
      ensures added ==> selectedIds == old(selectedIds) + [value] && selectValue == Some("")
      ensures !added ==> selectedIds == old(selectedIds) && selectValue == Some(value)
    {
      selectValue := Some(value);
      added := Add(Text(value));
    }
  }

  /**
   * The hidden-input name a track's registry uses, fixed when it is created:
   * `tracks[<trackIndex>].artistIds`. The track list's renumbering rewrites
   * such a name to any other index and keeps its field.
   */
  function TrackArtistInputName(trackIndex: nat): (name: string)
    ensures name == IndexedName("tracks", trackIndex, "artistIds")
    ensures FieldSuffix(name) == "artistIds"
    ensures forall k: nat :: ReplaceIndex(name, "tracks", k) == IndexedName("tracks", k, "artistIds")
  {
    SuffixOfIndexedName("tracks", trackIndex, "artistIds");
    forall k: nat ensures ReplaceIndex(IndexedName("tracks", trackIndex, "artistIds"), "tracks", k)
                          == IndexedName("tracks", k, "artistIds") {
      ReindexTracksName(trackIndex, "artistIds", k);
    }
    IndexedName("tracks", trackIndex, "artistIds")
  }
}

=== FILE: common.dfy ===
/**
 * Values and string helpers shared by the rest of the model: an Option type for
 * the source's null / Optional / undefined, decimal rendering of naturals as
 * JavaScript template literals and Java string concatenation print them, the
 * character classes used by the regular expressions in the client scripts, and
 * Java's `String.isBlank` and `String.trim`.
 */
module Common {

  datatype Option<T> = None | Some(value: T)

  /** An operation that either yields a value or fails with the error the source throws. */
  datatype Result<T, E> = Success(value: T) | Failure(error: E)

  // ---------------------------------------------------------------------------
  // Digits and decimal rendering

  /** `\d` in a JavaScript regular expression: the ASCII digits only. */
  predicate IsDigit(c: char) { '0' <= c <= '9' }

  predicate AllDigits(s: string) { forall k :: 0 <= k < |s| ==> IsDigit(s[k]) }

  /** `\w` in a JavaScript regular expression without the `u` flag. */
  predicate IsWordChar(c: char)
  {
    ('a' <= c <= 'z') || ('A' <= c <= 'Z') || IsDigit(c) || c == '_'
  }

  predicate AllWordChars(s: string) { forall k :: 0 <= k < |s| ==> IsWordChar(s[k]) }

  function DigitChar(d: nat): (c: char)
    requires d < 10
    ensures IsDigit(c)
  {
    ['0', '1', '2', '3', '4', '5', '6', '7', '8', '9'][d]
  }

  function DigitValue(c: char): (d: nat)
    requires IsDigit(c)
    ensures d < 10 && DigitChar(d) == c
  {
    (c as int - '0' as int) as nat
  }

  /** The number written by a string of decimal digits (leading zeros allowed). */
  function DigitsValue(s: string): nat
    requires AllDigits(s)
  {
    if s == [] then 0 else 10 * DigitsValue(s[..|s| - 1]) + DigitValue(s[|s| - 1])
  }

  /** Decimal rendering of a natural number with no leading zero. */
  function NatToString(n: nat): (s: string)
    ensures 1 <= |s| && AllDigits(s)
    ensures DigitsValue(s) == n
    ensures s[0] == '0' ==> n == 0 && s == "0"
  {
    if n < 10 then [DigitChar(n)]
    else
      var head := NatToString(n / 10);
      assert (head + [DigitChar(n % 10)])[..|head|] == head;
      head + [DigitChar(n % 10)]
  }

  /** Java's decimal rendering of an integer (`"" + n`, `Long.toString`). */
  function IntToString(n: int): (s: string)
    ensures n >= 0 ==> s == NatToString(n)
    ensures n < 0 ==> s == "-" + NatToString(-n)
  {
    if n >= 0 then NatToString(n) else "-" + NatToString(-n)
  }

  /** Rendering is injective, so names built from different indices differ. */
  lemma NatToStringInjective(m: nat, n: nat)
    requires NatToString(m) == NatToString(n)
    ensures m == n
  {
  }

  // ---------------------------------------------------------------------------
  // Java whitespace, isBlank and trim

  /**
   * `Character.isWhitespace`: the Unicode space, line and paragraph separators
   * other than the no-break spaces U+00A0, U+2007 and U+202F, plus the controls
   * TAB, LF, VT, FF, CR and U+001C..U+001F.
   */
  predicate JavaWhitespace(c: char)
  {
    ('\U{9}' <= c <= '\U{D}') || ('\U{1C}' <= c <= '\U{20}')
    || c == '\U{1680}' || ('\U{2000}' <= c <= '\U{2006}') || ('\U{2008}' <= c <= '\U{200A}')
    || c == '\U{2028}' || c == '\U{2029}' || c == '\U{205F}' || c == '\U{3000}'
  }

  /** `String.isBlank`: empty or whitespace only. */
  predicate IsBlank(s: string) { forall k :: 0 <= k < |s| ==> JavaWhitespace(s[k]) }

  /** A nullable string that Java code would reject with `s == null || s.isBlank()`. */
  predicate NullOrBlank(s: Option<string>) { s.None? || IsBlank(s.value) }

  /** `String.trim` strips every leading and trailing character up to U+0020. */
  predicate Trimmable(c: char) { c <= '\U{20}' }

  /** Index of the first character `trim` keeps, scanning forward from `i`. */
  function TrimStart(s: string, i: nat): (st: nat)
    requires i <= |s|
    ensures i <= st <= |s| && (st == |s| || !Trimmable(s[st]))
    ensures forall k :: i <= k < st ==> Trimmable(s[k])
    decreases |s| - i
  {
    if i < |s| && Trimmable(s[i]) then TrimStart(s, i + 1) else i
  }

  /** One past the last character `trim` keeps, scanning backward from `len` down to `st`. */
  function TrimEnd(s: string, st: nat, len: nat): (end: nat)
    requires st <= len <= |s|
    ensures st <= end <= len && (end == st || !Trimmable(s[end - 1]))
    ensures forall k :: end <= k < len ==> Trimmable(s[k])
  {
    if st < len && Trimmable(s[len - 1]) then TrimEnd(s, st, len - 1) else len
  }

  /**
   * `String.trim`: the longest slice that neither starts nor ends with a
   * character up to U+0020; everything cut off on either side is such a character.
   */
  function Trim(s: string): (r: string)
    ensures r == [] || (!Trimmable(r[0]) && !Trimmable(r[|r| - 1]))
    ensures var st := TrimStart(s, 0);
            st + |r| <= |s| && r == s[st..st + |r|]
            && (forall k :: 0 <= k < st ==> Trimmable(s[k]))
            && (forall k :: st + |r| <= k < |s| ==> Trimmable(s[k]))
  {
    var st := TrimStart(s, 0);
    var end := TrimEnd(s, st, |s|);
    assert st < end ==> s[st..end][0] == s[st];
    s[st..end]
  }

  /** Trimming a string that already starts and ends with a visible character changes nothing. */
  lemma TrimIdentity(s: string)
    requires s == [] || (!Trimmable(s[0]) && !Trimmable(s[|s| - 1]))
    ensures Trim(s) == s
  {
  }

  // ---------------------------------------------------------------------------
  // Searching and collections

  /** No element occurs twice. */
  predicate NoDuplicates<T(==)>(xs: seq<T>)
  {
    forall i, j :: 0 <= i < j < |xs| ==> xs[i] != xs[j]
  }

  /** `s.indexOf(c)` / `list.indexOf(c)`: the first position of `c`, or -1. */
  function IndexOf<T(==)>(s: seq<T>, c: T): (i: int)
    ensures -1 <= i < |s|
    ensures i >= 0 ==> s[i] == c && forall k :: 0 <= k < i ==> s[k] != c
    ensures i == -1 <==> c !in s
  {
    if s == [] then -1
    else if s[0] == c then 0
    else
      var j := IndexOf(s[1..], c);
      if j == -1 then -1 else j + 1
  }

  /** `s.lastIndexOf(c)`: the last position of `c`, or -1. */
  function LastIndexOf<T(==)>(s: seq<T>, c: T): (i: int)
    ensures -1 <= i < |s|
    ensures i >= 0 ==> s[i] == c && forall k :: i < k < |s| ==> s[k] != c
    ensures i == -1 <==> c !in s
  {
    if s == [] then -1
    else if s[|s| - 1] == c then |s| - 1
    else LastIndexOf(s[..|s| - 1], c)
  }

  /** Sum of a sequence of integers, left to right as a stream reduction adds them. */
  function Sum(xs: seq<int>): int
  {
    if xs == [] then 0 else Sum(xs[..|xs| - 1]) + xs[|xs| - 1]
  }

  lemma {:induction false} SumAppend(xs: seq<int>, ys: seq<int>)
    ensures Sum(xs + ys) == Sum(xs) + Sum(ys)
  {
    if ys != [] {
      assert (xs + ys)[..|xs + ys| - 1] == xs + ys[..|ys| - 1];
      SumAppend(xs, ys[..|ys| - 1]);
    } else {
      assert xs + ys == xs;
    }
  }

  /** A prefix one element longer is the prefix with that element appended. */
  lemma PrefixSnoc<T>(s: seq<T>, i: nat)
    requires i < |s|
    ensures s[..i + 1] == s[..i] + [s[i]]
  {
  }

  lemma AppendAssociative<T>(a: seq<T>, b: seq<T>, c: seq<T>)
    ensures a + (b + c) == (a + b) + c
  {
  }

  /** A sequence that starts with `a + [x]` starts with `a`, followed by `x`. */
  lemma PrefixThrough<T>(s: seq<T>, a: seq<T>, x: T)
    requires |a| < |s| && s[..|a| + 1] == a + [x]
    ensures s[..|a|] == a && s[|a|] == x
  {
    assert s[..|a|] == (a + [x])[..|a|];
  }
}

=== FILE: contact_forms.dfy ===
/**
 * The label and artist create forms and how they turn their optional contact
 * fields into the domain's `Address` and `Person` values. Both forms hold the
 * same five address fields and apply the same rule to them; the person (the
 * label's owner, the artist's real name) follows the same null-or-blank rule.
 * Nothing is trimmed: a non-blank value is carried over as typed.
 */
module ContactForms {
  import opened Common

  /** The five address fields both forms carry. */
  datatype AddressFields = AddressFields(street: Option<string>, street2: Option<string>, city: Option<string>,
                                         postalCode: Option<string>, country: Option<string>)

  /** The domain address: only the street is required. */
  datatype Address = Address(street: string, street2: Option<string>, city: Option<string>,
                             postalCode: Option<string>, country: Option<string>)

  datatype Person = Person(name: string)

  /** `CreateLabelForm` as bound from the request. */
  datatype CreateLabelForm = CreateLabelForm(labelName: Option<string>, email: Option<string>, website: Option<string>,
                                             ownerName: Option<string>, address: AddressFields)

  /** `CreateArtistForm` as bound from the request. */
  datatype CreateArtistForm = CreateArtistForm(artistName: Option<string>, realName: Option<string>,
                                               email: Option<string>, address: AddressFields)

  /** The form fields an address would be shown in. */
  function FieldsOf(a: Address): AddressFields
  {
    AddressFields(Some(a.street), a.street2, a.city, a.postalCode, a.country)
  }

  /**
   * `toAddress` of either form: no address when the street is missing or
   * blank, whatever the other fields hold; otherwise the address whose fields
   * are exactly the form's.
   */
  function ToAddress(f: AddressFields): (r: Option<Address>)
    ensures r.None? <==> NullOrBlank(f.street)
    ensures r.Some? ==> FieldsOf(r.value) == f
  {
    if NullOrBlank(f.street) then None
    else Some(Address(f.street.value, f.street2, f.city, f.postalCode, f.country))
  }

  /** Every address with a non-blank street survives being put in a form and read back. */
  lemma AddressRoundTrip(a: Address)
    requires !IsBlank(a.street)
    ensures ToAddress(FieldsOf(a)) == Some(a)
  {
  }

  /** A filled-in city, postal code or country is dropped with a blank street. */
  lemma BlankStreetDropsAddress(f: AddressFields, g: AddressFields)
    requires NullOrBlank(f.street) && g.street == f.street
    ensures ToAddress(f) == ToAddress(g) == None
  {
  }

  /** `toOwner` and `toRealName`: no person for a missing or blank name, otherwise the name as typed. */
  function ToPerson(name: Option<string>): (r: Option<Person>)
    ensures r.None? <==> NullOrBlank(name)
    ensures r.Some? ==> name == Some(r.value.name)
  {
    if NullOrBlank(name) then None else Some(Person(name.value))
  }

  /** The label's owner is the person named in the owner field. */
  function LabelOwner(form: CreateLabelForm): (r: Option<Person>)
    ensures r.None? <==> NullOrBlank(form.ownerName)
    ensures r.Some? ==> form.ownerName == Some(r.value.name)
  {
    ToPerson(form.ownerName)
  }

  /** The artist's real name is the person named in the real-name field. */
  function ArtistRealName(form: CreateArtistForm): (r: Option<Person>)
    ensures r.None? <==> NullOrBlank(form.realName)
    ensures r.Some? ==> form.realName == Some(r.value.name)
  {
    ToPerson(form.realName)
  }

  /** Surrounding spaces are kept: a padded name gives a different person from the bare one. */
  lemma NamesAreNotTrimmed(name: string)
    requires !IsBlank(name)
    ensures ToPerson(Some(" " + name)) == Some(Person(" " + name))
    ensures ToPerson(Some(" " + name)) != ToPerson(Some(name))
  {
    assert !IsBlank(" " + name) by {
      var k :| 0 <= k < |name| && !JavaWhitespace(name[k]);
      assert (" " + name)[k + 1] == name[k];
    }
    assert |" " + name| != |name|;
  }
}

=== FILE: escaping.dfy ===
/**
 * The two escapers of the client scripts.
 *
 * `escapeHtml` in the sale and return forms writes the text into a detached
 * element's `textContent` and reads back `innerHTML`, so its result is the
 * browser's serialisation of a text node: "Escaping a string" in the HTML
 * fragment serialisation algorithm (section 13.3 of the WHATWG HTML Living
 * Standard), not in attribute mode. That replaces `&`, U+00A0, `<` and `>` and
 * leaves quotes alone.
 *
 * `escapeAttr` in the track row builder chains five global replacements,
 * ampersand first.
 *
 * One decoder for the six entities the two escapers produce serves as the
 * inverse of both.
 */
module Escaping {
  import opened Common

  predicate HasPrefix(s: string, p: string) { |p| <= |s| && s[..|p|] == p }

  // ---------------------------------------------------------------------------
  // Text-node escaping (escapeHtml)

  function EscapeTextChar(c: char): string
  {
    if c == '&' then "&amp;"
    else if c == '\U{A0}' then "&nbsp;"
    else if c == '<' then "&lt;"
    else if c == '>' then "&gt;"
    else [c]
  }

  /** The `innerHTML` of an element whose `textContent` is `text`. */
  function EscapeHtml(text: string): (r: string)
    ensures |r| >= |text|
  {
    if text == [] then [] else EscapeTextChar(text[0]) + EscapeHtml(text[1..])
  }

  lemma {:induction false} EscapeHtmlAppend(a: string, b: string)
    ensures EscapeHtml(a + b) == EscapeHtml(a) + EscapeHtml(b)
  {
    if a != [] {
      assert (a + b)[1..] == a[1..] + b;
      EscapeHtmlAppend(a[1..], b);
    } else {
      assert a + b == b;
    }
  }

  /** The escaped text holds no raw `<` or `>`, so it cannot open or close a tag. */
  lemma {:induction false} EscapeHtmlHasNoAngleBrackets(text: string)
    ensures '<' !in EscapeHtml(text) && '>' !in EscapeHtml(text)
  {
    if text != [] {
      EscapeHtmlHasNoAngleBrackets(text[1..]);
    }
  }

  /** Quotes and apostrophes pass through: escaping is the identity on text without `&`, U+00A0, `<`, `>`. */
  lemma {:induction false} EscapeHtmlIdentity(text: string)
    requires forall k :: 0 <= k < |text| ==> text[k] !in {'&', '\U{A0}', '<', '>'}
    ensures EscapeHtml(text) == text
  {
    if text != [] {
      EscapeHtmlIdentity(text[1..]);
    }
  }

  // ---------------------------------------------------------------------------
  // Attribute escaping (escapeAttr)

  /** `s.replace(/c/g, rep)`: every occurrence of `c` replaced by `rep`. */
  function ReplaceAll(s: string, c: char, rep: string): (r: string)
    ensures c !in rep ==> c !in r
  {
    if s == [] then [] else (if s[0] == c then rep else [s[0]]) + ReplaceAll(s[1..], c, rep)
  }

  lemma {:induction false} ReplaceAllAppend(a: string, b: string, c: char, rep: string)
    ensures ReplaceAll(a + b, c, rep) == ReplaceAll(a, c, rep) + ReplaceAll(b, c, rep)
  {
    if a != [] {
      assert (a + b)[0] == a[0] && (a + b)[1..] == a[1..] + b;
      ReplaceAllAppend(a[1..], b, c, rep);
      var head := if a[0] == c then rep else [a[0]];
      assert ReplaceAll(a + b, c, rep) == head + (ReplaceAll(a[1..], c, rep) + ReplaceAll(b, c, rep));
    } else {
      assert a + b == b;
    }
  }

  lemma {:induction false} ReplaceAllAbsent(s: string, c: char, rep: string)
    requires c !in s
    ensures ReplaceAll(s, c, rep) == s
  {
    if s != [] {
      ReplaceAllAbsent(s[1..], c, rep);
    }
  }

  /** `escapeAttr`: a falsy value (null, undefined, the empty string) gives the empty string. */
  function EscapeAttr(text: Option<string>): string
  {
    if text.None? || text.value == [] then ""
    else
      var amp := ReplaceAll(text.value, '&', "&amp;");
      var quot := ReplaceAll(amp, '"', "&quot;");
      var apos := ReplaceAll(quot, '\'', "&#39;");
      var lt := ReplaceAll(apos, '<', "&lt;");
      ReplaceAll(lt, '>', "&gt;")
  }

  /** The one-pass reading of the five replacements. */
  function EscapeAttrChar(c: char): string
  {
    if c == '&' then "&amp;"
    else if c == '"' then "&quot;"
    else if c == '\'' then "&#39;"
    else if c == '<' then "&lt;"
    else if c == '>' then "&gt;"
    else [c]
  }

  function EscapeAttrChars(s: string): string
  {
    if s == [] then [] else EscapeAttrChar(s[0]) + EscapeAttrChars(s[1..])
  }

  function ReplaceChain(s: string): string
  {
    ReplaceAll(ReplaceAll(ReplaceAll(ReplaceAll(ReplaceAll(s, '&', "&amp;"), '"', "&quot;"), '\'', "&#39;"), '<', "&lt;"), '>', "&gt;")
  }

  lemma ReplaceAllSingle(c: char, d: char, rep: string)
    ensures ReplaceAll([c], d, rep) == if c == d then rep else [c]
  {
    assert [c][1..] == [];
  }

  /** The last replacements of the chain leave text without their characters alone. */
  lemma LastTwoAbsent(s: string)
    requires '<' !in s && '>' !in s
    ensures ReplaceAll(ReplaceAll(s, '<', "&lt;"), '>', "&gt;") == s
  {
    ReplaceAllAbsent(s, '<', "&lt;");
    ReplaceAllAbsent(s, '>', "&gt;");
  }

  lemma LastThreeAbsent(s: string)
    requires '\'' !in s && '<' !in s && '>' !in s
    ensures ReplaceAll(ReplaceAll(ReplaceAll(s, '\'', "&#39;"), '<', "&lt;"), '>', "&gt;") == s
  {
    ReplaceAllAbsent(s, '\'', "&#39;");
    LastTwoAbsent(s);
  }

  lemma LastFourAbsent(s: string)
    requires '"' !in s && '\'' !in s && '<' !in s && '>' !in s
    ensures ReplaceAll(ReplaceAll(ReplaceAll(ReplaceAll(s, '"', "&quot;"), '\'', "&#39;"), '<', "&lt;"), '>', "&gt;") == s
  {
    ReplaceAllAbsent(s, '"', "&quot;");
    LastThreeAbsent(s);
  }

  /** The chain on a single special character yields its entity and never touches it again. */
  lemma ChainOnAmp(c: char)
    requires c == '&'
    ensures ReplaceChain([c]) == "&amp;"
  {
    assert ReplaceAll([c], '&', "&amp;") == "&amp;" by { ReplaceAllSingle(c, '&', "&amp;"); }
    LastFourAbsent("&amp;");
  }

  lemma ChainOnQuote(c: char)
    requires c == '"'
    ensures ReplaceChain([c]) == "&quot;"
  {
    assert ReplaceAll([c], '&', "&amp;") == [c] by { ReplaceAllSingle(c, '&', "&amp;"); }
    assert ReplaceAll([c], '"', "&quot;") == "&quot;" by { ReplaceAllSingle(c, '"', "&quot;"); }
    LastThreeAbsent("&quot;");
  }

  lemma ChainOnApostrophe(c: char)
    requires c == '\''
    ensures ReplaceChain([c]) == "&#39;"
  {
    assert ReplaceAll([c], '&', "&amp;") == [c] by { ReplaceAllSingle(c, '&', "&amp;"); }
    assert ReplaceAll([c], '"', "&quot;") == [c] by { ReplaceAllSingle(c, '"', "&quot;"); }
    assert ReplaceAll([c], '\'', "&#39;") == "&#39;" by { ReplaceAllSingle(c, '\'', "&#39;"); }
    LastTwoAbsent("&#39;");
  }

  lemma ChainOnLess(c: char)
    requires c == '<'
    ensures ReplaceChain([c]) == "&lt;"
  {
    var s1 := ReplaceAll([c], '&', "&amp;");
    assert s1 == [c] by { ReplaceAllSingle(c, '&', "&amp;"); }
    var s2 := ReplaceAll(s1, '"', "&quot;");
    assert s2 == [c] by { ReplaceAllSingle(c, '"', "&quot;"); }
    var s3 := ReplaceAll(s2, '\'', "&#39;");
    assert s3 == [c] by { ReplaceAllSingle(c, '\'', "&#39;"); }
    var s4 := ReplaceAll(s3, '<', "&lt;");
    assert s4 == "&lt;" by { ReplaceAllSingle(c, '<', "&lt;"); }
    var s5 := ReplaceAll(s4, '>', "&gt;");
    assert s5 == "&lt;" by { ReplaceAllAbsent(s4, '>', "&gt;"); }
  }

  lemma ChainOnGreater(c: char)
    requires c == '>'
    ensures ReplaceChain([c]) == "&gt;"
  {
    var s1 := ReplaceAll([c], '&', "&amp;");
    assert s1 == [c] by { ReplaceAllSingle(c, '&', "&amp;"); }
    var s2 := ReplaceAll(s1, '"', "&quot;");
    assert s2 == [c] by { ReplaceAllSingle(c, '"', "&quot;"); }
    var s3 := ReplaceAll(s2, '\'', "&#39;");
    assert s3 == [c] by { ReplaceAllSingle(c, '\'', "&#39;"); }
    var s4 := ReplaceAll(s3, '<', "&lt;");
    assert s4 == [c] by { ReplaceAllSingle(c, '<', "&lt;"); }
    var s5 := ReplaceAll(s4, '>', "&gt;");
    assert s5 == "&gt;" by { ReplaceAllSingle(c, '>', "&gt;"); }
  }

  lemma ChainOnPlain(c: char)
    requires c !in {'&', '"', '\'', '<', '>'}
    ensures ReplaceChain([c]) == [c]
  {
    var s1 := ReplaceAll([c], '&', "&amp;");
    assert s1 == [c] by { ReplaceAllSingle(c, '&', "&amp;"); }
    var s2 := ReplaceAll(s1, '"', "&quot;");
    assert s2 == [c] by { ReplaceAllSingle(c, '"', "&quot;"); }
    var s3 := ReplaceAll(s2, '\'', "&#39;");
    assert s3 == [c] by { ReplaceAllSingle(c, '\'', "&#39;"); }
    var s4 := ReplaceAll(s3, '<', "&lt;");
    assert s4 == [c] by { ReplaceAllSingle(c, '<', "&lt;"); }
    var s5 := ReplaceAll(s4, '>', "&gt;");
    assert s5 == [c] by { ReplaceAllSingle(c, '>', "&gt;"); }
  }

  lemma ReplaceChainChar(c: char)
    ensures ReplaceChain([c]) == EscapeAttrChar(c)
  {
    if c == '&' { ChainOnAmp(c); }
    else if c == '"' { ChainOnQuote(c); }
    else if c == '\'' { ChainOnApostrophe(c); }
    else if c == '<' { ChainOnLess(c); }
    else if c == '>' { ChainOnGreater(c); }
    else { ChainOnPlain(c); }
  }

  lemma {:induction false} ReplaceChainAppend(a: string, b: string)
    ensures ReplaceChain(a + b) == ReplaceChain(a) + ReplaceChain(b)
  {
    ReplaceAllAppend(a, b, '&', "&amp;");
    var a1, b1 := ReplaceAll(a, '&', "&amp;"), ReplaceAll(b, '&', "&amp;");
    ReplaceAllAppend(a1, b1, '"', "&quot;");
    var a2, b2 := ReplaceAll(a1, '"', "&quot;"), ReplaceAll(b1, '"', "&quot;");
    ReplaceAllAppend(a2, b2, '\'', "&#39;");
    var a3, b3 := ReplaceAll(a2, '\'', "&#39;"), ReplaceAll(b2, '\'', "&#39;");
    ReplaceAllAppend(a3, b3, '<', "&lt;");
    var a4, b4 := ReplaceAll(a3, '<', "&lt;"), ReplaceAll(b3, '<', "&lt;");
    ReplaceAllAppend(a4, b4, '>', "&gt;");
  }

  /**
   * Because `&` is replaced first and no later replacement text holds one of
   * the later characters, the chain escapes each character exactly once.
   */
  lemma {:induction false} ReplaceChainIsCharwise(s: string)
    ensures ReplaceChain(s) == EscapeAttrChars(s)
  {
    if s != [] {
      assert s == [s[0]] + s[1..];
      ReplaceChainAppend([s[0]], s[1..]);
      ReplaceChainChar(s[0]);
      ReplaceChainIsCharwise(s[1..]);
    }
  }

  lemma EscapeAttrIsCharwise(text: Option<string>)
    ensures EscapeAttr(text) == if text.None? then "" else EscapeAttrChars(text.value)
  {
    if text.Some? { ReplaceChainIsCharwise(text.value); }
  }

  /** The output holds no raw quote, apostrophe or angle bracket. */
  lemma {:induction false} EscapeAttrCharsHasNoSpecials(s: string)
    ensures forall c :: c in EscapeAttrChars(s) ==> c !in {'"', '\'', '<', '>'}
  {
    if s != [] {
      EscapeAttrCharsHasNoSpecials(s[1..]);
    }
  }

  lemma EscapeAttrHasNoSpecials(text: Option<string>)
    ensures forall c :: c in EscapeAttr(text) ==> c !in {'"', '\'', '<', '>'}
  {
    EscapeAttrIsCharwise(text);
    if text.Some? { EscapeAttrCharsHasNoSpecials(text.value); }
  }

  /** On text without any of the five special characters escaping changes nothing. */
  lemma {:induction false} EscapeAttrCharsIdentity(s: string)
    requires forall k :: 0 <= k < |s| ==> s[k] !in {'&', '"', '\'', '<', '>'}
    ensures EscapeAttrChars(s) == s
  {
    if s != [] {
      EscapeAttrCharsIdentity(s[1..]);
    }
  }

  lemma EscapeAttrIdentity(s: string)
    requires forall k :: 0 <= k < |s| ==> s[k] !in {'&', '"', '\'', '<', '>'}
    ensures EscapeAttr(Some(s)) == s
  {
    EscapeAttrIsCharwise(Some(s));
    EscapeAttrCharsIdentity(s);
  }

  /** Replacing `&` last instead of first would escape the entities already produced. */
  lemma AmpersandMustComeFirst(c: char)
    requires c == '<'
    ensures EscapeAttr(Some([c])) == "&lt;"
    ensures ReplaceAll(ReplaceAll([c], '<', "&lt;"), '&', "&amp;") == "&amp;lt;"
  {
    ChainOnLess(c);
    var s1 := ReplaceAll([c], '<', "&lt;");
    assert s1 == ['&'] + "lt;" by { ReplaceAllSingle(c, '<', "&lt;"); }
    ReplaceAllAppend(['&'], "lt;", '&', "&amp;");
    ReplaceAllSingle('&', '&', "&amp;");
    ReplaceAllAbsent("lt;", '&', "&amp;");
  }

  // ---------------------------------------------------------------------------
  // Decoding: the inverse of both escapers

  /** Reads back the entities `&amp;` `&lt;` `&gt;` `&quot;` `&#39;` `&nbsp;`; any other `&` stays as it is. */
  function DecodeEntities(s: string): string
    decreases |s|
  {
    if s == [] then []
    else if s[0] != '&' then [s[0]] + DecodeEntities(s[1..])
    else if HasPrefix(s, "&amp;") then "&" + DecodeEntities(s[5..])
    else if HasPrefix(s, "&lt;") then "<" + DecodeEntities(s[4..])
    else if HasPrefix(s, "&gt;") then ">" + DecodeEntities(s[4..])
    else if HasPrefix(s, "&quot;") then "\"" + DecodeEntities(s[6..])
    else if HasPrefix(s, "&#39;") then "'" + DecodeEntities(s[5..])
    else if HasPrefix(s, "&nbsp;") then "\U{A0}" + DecodeEntities(s[6..])
    else "&" + DecodeEntities(s[1..])
  }

  lemma DecodeAfterPrefix(e: string, rest: string)
    requires e in ["&amp;", "&lt;", "&gt;", "&quot;", "&#39;", "&nbsp;"]
    ensures DecodeEntities(e + rest) == [DecodeEntity(e)] + DecodeEntities(rest)
  {
    var s := e + rest;
    assert s[..|e|] == e && s[|e|..] == rest;
    assert s[0] == '&' && s[1] == e[1];
    if e == "&amp;" {
      assert HasPrefix(s, "&amp;");
    } else if e == "&lt;" {
      assert !HasPrefix(s, "&amp;") by { assert s[1] == 'l'; }
      assert HasPrefix(s, "&lt;");
    } else if e == "&gt;" {
      assert !HasPrefix(s, "&amp;") && !HasPrefix(s, "&lt;") by { assert s[1] == 'g'; }
      assert HasPrefix(s, "&gt;");
    } else if e == "&quot;" {
      assert !HasPrefix(s, "&amp;") && !HasPrefix(s, "&lt;") && !HasPrefix(s, "&gt;") by { assert s[1] == 'q'; }
      assert HasPrefix(s, "&quot;");
    } else if e == "&#39;" {
      assert !HasPrefix(s, "&amp;") && !HasPrefix(s, "&lt;") && !HasPrefix(s, "&gt;") && !HasPrefix(s, "&quot;") by { assert s[1] == '#'; }
      assert HasPrefix(s, "&#39;");
    } else {
      assert !HasPrefix(s, "&amp;") && !HasPrefix(s, "&lt;") && !HasPrefix(s, "&gt;") && !HasPrefix(s, "&quot;") && !HasPrefix(s, "&#39;") by { assert s[1] == 'n'; }
      assert HasPrefix(s, "&nbsp;");
    }
  }

  function DecodeEntity(e: string): char
  {
    if e == "&amp;" then '&'
    else if e == "&lt;" then '<'
    else if e == "&gt;" then '>'
    else if e == "&quot;" then '"'
    else if e == "&#39;" then '\''
    else '\U{A0}'
  }

  /** Decoding undoes `escapeHtml`. */
  lemma {:induction false} DecodeEscapeHtml(text: string)
    ensures DecodeEntities(EscapeHtml(text)) == text
  {
    if text != [] {
      var c := text[0];
      var rest := EscapeHtml(text[1..]);
      DecodeEscapeHtml(text[1..]);
      if c in {'&', '\U{A0}', '<', '>'} {
        DecodeAfterPrefix(EscapeTextChar(c), rest);
      } else {
        assert ([c] + rest)[1..] == rest;
      }
      assert text == [c] + text[1..];
    }
  }

  /** Decoding undoes `escapeAttr` on every non-empty string. */
  lemma {:induction false} DecodeEscapeAttrChars(s: string)
    ensures DecodeEntities(EscapeAttrChars(s)) == s
  {
    if s != [] {
      var c := s[0];
      var rest := EscapeAttrChars(s[1..]);
      DecodeEscapeAttrChars(s[1..]);
      if c in {'&', '"', '\'', '<', '>'} {
        DecodeAfterPrefix(EscapeAttrChar(c), rest);
      } else {
        assert ([c] + rest)[1..] == rest;
      }
      assert s == [c] + s[1..];
    }
  }

  lemma DecodeEscapeAttr(s: string)
    ensures DecodeEntities(EscapeAttr(Some(s))) == s
  {
    EscapeAttrIsCharwise(Some(s));
    DecodeEscapeAttrChars(s);
  }
}

=== FILE: form_names.dfy ===
/**
 * The field names of the repeatable-row forms embed the row's position:
 * `lineItems[3].quantity`, `tracks[3].name`. Renumbering rewrites them with
 * two regular expressions, modelled here exactly:
 *
 *  - `name.replace(/\[\d+\]/, "[k]")` and `name.replace(/tracks\[\d+\]/, "tracks[k]")`
 *    replace the leftmost bracketed digit run (optionally preceded by a literal);
 *  - `name.match(/\.(\w+)$/)?.[1] || ''` extracts the field suffix after the
 *    last dot, or the empty string.
 *
 * Each regular expression has a declarative reading (`TokenMatch`,
 * `SuffixMatch`) and the scanning functions are proved to agree with it.
 */
module FormNames {
  import opened Common

  // ---------------------------------------------------------------------------
  // The index token `lit[digits]`

  /** The regular expression `lit\[\d+\]` matches `s[p..e+1]`. */
  predicate TokenMatch(s: string, lit: string, p: int, e: int)
  {
    var open := p + |lit|;
    0 <= p && open + 1 < e < |s| && s[p..open] == lit && s[open] == '['
    && AllDigits(s[open + 1..e]) && s[e] == ']'
  }

  /** End of the maximal run of digits that starts at `i`. */
  function DigitRunEnd(s: string, i: nat): (e: nat)
    requires i <= |s|
    ensures i <= e <= |s| && AllDigits(s[i..e])
    ensures e < |s| ==> !IsDigit(s[e])
    decreases |s| - i
  {
    if i < |s| && IsDigit(s[i]) then
      var e := DigitRunEnd(s, i + 1);
      assert s[i..e] == [s[i]] + s[i + 1..e];
      e
    else i
  }

  /**
   * Attempt the match at position `p`. `\d+` is greedy, and backtracking to a
   * shorter run cannot help because a digit is never `]`; so only the
   * maximal run needs to be tried.
   */
  function TokenAt(s: string, lit: string, p: nat): (r: Option<nat>)
    ensures r.Some? ==> TokenMatch(s, lit, p, r.value)
    ensures r.None? ==> forall e :: !TokenMatch(s, lit, p, e)
  {
    var open := p + |lit|;
    if open < |s| && s[p..open] == lit && s[open] == '[' then
      var e := DigitRunEnd(s, open + 1);
      if e > open + 1 && e < |s| && s[e] == ']' then Some(e)
      else
        NoTokenWithoutClosingBracket(s, lit, p);
        None
    else None
  }

  /** When the maximal digit run is empty or not closed by `]`, nothing matches at `p`. */
  lemma NoTokenWithoutClosingBracket(s: string, lit: string, p: nat)
    requires p + |lit| < |s|
    requires var open := p + |lit|; var e := DigitRunEnd(s, open + 1);
             !(e > open + 1 && e < |s| && s[e] == ']')
    ensures forall e' :: !TokenMatch(s, lit, p, e')
  {
    forall e' ensures !TokenMatch(s, lit, p, e') {
      NoClosedRunAt(s, p + |lit| + 1, e');
    }
  }

  /** No `]` closes a run of digits starting at `i` unless it closes the maximal one. */
  lemma NoClosedRunAt(s: string, i: nat, e': int)
    requires i <= |s|
    requires var e := DigitRunEnd(s, i); !(e > i && e < |s| && s[e] == ']')
    ensures !(i < e' < |s| && AllDigits(s[i..e']) && s[e'] == ']')
  {
    var e := DigitRunEnd(s, i);
    if i < e' < |s| {
      if e' < e {
        assert s[e'] == s[i..e][e' - i];
      } else if e' > e {
        assert s[e] == s[i..e'][e - i];
      }
    }
  }

  /** The leftmost match at or after `from`, as a (start, closing bracket) pair. */
  function FirstToken(s: string, lit: string, from: nat): (r: Option<(nat, nat)>)
    ensures r.Some? ==> from <= r.value.0 && TokenMatch(s, lit, r.value.0, r.value.1)
    ensures r.Some? ==> forall q, e :: from <= q < r.value.0 ==> !TokenMatch(s, lit, q, e)
    ensures r.None? ==> forall q, e :: from <= q ==> !TokenMatch(s, lit, q, e)
    decreases |s| - from
  {
    if from >= |s| then None
    else match TokenAt(s, lit, from)
      case Some(e) => Some((from, e))
      case None => FirstToken(s, lit, from + 1)
  }

  /** `name.replace(/lit\[\d+\]/, lit + "[" + k + "]")`: only the leftmost token is rewritten. */
  function ReplaceIndex(s: string, lit: string, k: nat): string
  {
    match FirstToken(s, lit, 0)
    case None => s
    case Some((p, e)) => s[..p] + lit + "[" + NatToString(k) + "]" + s[e + 1..]
  }

  // ---------------------------------------------------------------------------
  // The field suffix `.word` at the end of a name

  /** The regular expression `\.(\w+)$` matches from position `p`. */
  predicate SuffixMatch(s: string, p: int)
  {
    0 <= p && p + 1 < |s| && s[p] == '.' && AllWordChars(s[p + 1..])
  }

  /** Start of the maximal run of word characters that ends the string. */
  function WordRunStart(s: string): (i: nat)
    ensures i <= |s| && AllWordChars(s[i..])
    ensures i > 0 ==> !IsWordChar(s[i - 1])
  {
    if s != [] && IsWordChar(s[|s| - 1]) then
      var i := WordRunStart(s[..|s| - 1]);
      assert s[i..] == s[..|s| - 1][i..] + [s[|s| - 1]];
      i
    else |s|
  }

  lemma WordRunFacts(s: string, i: nat)
    requires i <= |s| && AllWordChars(s[i..])
    ensures forall k :: i <= k < |s| ==> IsWordChar(s[k])
  {
    forall k | i <= k < |s| ensures IsWordChar(s[k]) { assert s[k] == s[i..][k - i]; }
  }

  /** When the trailing word run is empty or not preceded by a dot, the suffix expression fails. */
  lemma NoSuffixWithoutDot(s: string, i: nat)
    requires i == WordRunStart(s)
    requires !(0 < i < |s| && s[i - 1] == '.')
    ensures forall p :: !SuffixMatch(s, p)
  {
    forall p ensures !SuffixMatch(s, p) {
      if 0 <= p && p + 1 < |s| {
        if p + 1 < i {
          assert s[p + 1..][i - 1 - (p + 1)] == s[i - 1];
        } else if p + 1 > i {
          assert s[p] == s[i..][p - i];
        }
      }
    }
  }

  /** `name.match(/\.(\w+)$/)?.[1] || ''`. */
  function FieldSuffix(s: string): (r: string)
    ensures r != [] ==> SuffixMatch(s, |s| - |r| - 1) && r == s[|s| - |r|..]
    ensures r == [] ==> forall p :: !SuffixMatch(s, p)
  {
    var i := WordRunStart(s);
    if 0 < i < |s| && s[i - 1] == '.' then s[i..]
    else
      NoSuffixWithoutDot(s, i);
      []
  }

  // ---------------------------------------------------------------------------
  // Canonical names and ids

  /** `head[index].field`, the name the row templates give a field. */
  function IndexedName(head: string, index: nat, field: string): string
  {
    head + "[" + NatToString(index) + "]." + field
  }

  /** A field name the templates use: a non-empty run of word characters. */
  predicate IsFieldName(field: string) { field != [] && AllWordChars(field) }

  lemma TokenInIndexedName(head: string, lit: string, index: nat, field: string)
    requires |lit| <= |head| && head[|head| - |lit|..] == lit
    ensures TokenMatch(IndexedName(head, index, field), lit, |head| - |lit|,
                       |head| + 1 + |NatToString(index)|)
  {
    var s := IndexedName(head, index, field);
    var digits := NatToString(index);
    var p := |head| - |lit|;
    assert s[p..|head|] == lit;
    assert s[|head|] == '[';
    assert s[|head| + 1..|head| + 1 + |digits|] == digits;
    assert s[|head| + 1 + |digits|] == ']';
  }

  /** The parts of a canonical name before and after its index token. */
  lemma IndexedNameParts(head: string, lit: string, index: nat, field: string)
    requires |lit| <= |head| && head[|head| - |lit|..] == lit
    ensures var s := IndexedName(head, index, field);
            var p, e := |head| - |lit|, |head| + 1 + |NatToString(index)|;
            e + 1 <= |s| && s[..p] + lit == head && s[e + 1..] == "." + field
  {
    var s := IndexedName(head, index, field);
    var d := NatToString(index);
    var p, e := |head| - |lit|, |head| + 1 + |d|;
    assert s == head + ("[" + d + "]") + ("." + field);
    assert s[..p] == head[..p];
    assert head[..p] + lit == head;
  }

  /** Splicing index `k` over the token of a canonical name gives the canonical name for `k`. */
  lemma SpliceIndexedName(head: string, lit: string, index: nat, field: string, k: nat)
    requires |lit| <= |head| && head[|head| - |lit|..] == lit
    ensures var s := IndexedName(head, index, field);
            var p, e := |head| - |lit|, |head| + 1 + |NatToString(index)|;
            s[..p] + lit + "[" + NatToString(k) + "]" + s[e + 1..] == IndexedName(head, k, field)
  {
    var s := IndexedName(head, index, field);
    var p, e := |head| - |lit|, |head| + 1 + |NatToString(index)|;
    IndexedNameParts(head, lit, index, field);
    SpliceJoin(s[..p], lit, NatToString(k), s[e + 1..], head, field);
  }

  lemma SpliceJoin(before: string, lit: string, digits: string, after: string, head: string, field: string)
    requires before + lit == head && after == "." + field
    ensures before + lit + "[" + digits + "]" + after == head + "[" + digits + "]." + field
  {
    assert "]" + after == "]." + field;
  }

  /** The leftmost match is found at `p` when nothing matches between `from` and `p`. */
  lemma {:induction false} FirstTokenAt(s: string, lit: string, from: nat, p: nat, e: nat)
    requires from <= p && TokenMatch(s, lit, p, e)
    requires forall q, e' :: from <= q < p ==> !TokenMatch(s, lit, q, e')
    ensures FirstToken(s, lit, from) == Some((p, e))
    decreases p - from
  {
    if from < p {
      assert TokenAt(s, lit, from).None?;
      FirstTokenAt(s, lit, from + 1, p, e);
    } else {
      assert TokenAt(s, lit, p) == Some(e);
    }
  }

  /**
   * Renumbering `lineItems[j].f` with `/\[\d+\]/` gives `lineItems[k].f`: the
   * head holds no `[`, so the leftmost token is the index.
   */
  lemma ReindexBracketName(head: string, index: nat, field: string, k: nat)
    requires '[' !in head
    ensures ReplaceIndex(IndexedName(head, index, field), "", k) == IndexedName(head, k, field)
  {
    var s := IndexedName(head, index, field);
    var e := |head| + 1 + |NatToString(index)|;
    TokenInIndexedName(head, "", index, field);
    forall q, e' | 0 <= q < |head| ensures !TokenMatch(s, "", q, e') {
      assert s[q] == head[q];
    }
    FirstTokenAt(s, "", 0, |head|, e);
    SpliceIndexedName(head, "", index, field, k);
  }

  /** Renumbering `tracks[j].f` with `/tracks\[\d+\]/` gives `tracks[k].f`. */
  lemma ReindexTracksName(index: nat, field: string, k: nat)
    ensures ReplaceIndex(IndexedName("tracks", index, field), "tracks", k) == IndexedName("tracks", k, field)
  {
    var s := IndexedName("tracks", index, field);
    var e := |"tracks"| + 1 + |NatToString(index)|;
    TokenInIndexedName("tracks", "tracks", index, field);
    FirstTokenAt(s, "tracks", 0, 0, e);
    SpliceIndexedName("tracks", "tracks", index, field, k);
  }

  /** The suffix regular expression recovers the field of a canonical name. */
  lemma SuffixOfIndexedName(head: string, index: nat, field: string)
    requires IsFieldName(field)
    ensures FieldSuffix(IndexedName(head, index, field)) == field
  {
    var s := IndexedName(head, index, field);
    var p := |s| - |field| - 1;
    assert s[p] == '.';
    assert s[p + 1..] == field;
    assert SuffixMatch(s, p);
    var r := FieldSuffix(s);
    var q := |s| - |r| - 1;
    WordRunFacts(s, p + 1);
    WordRunFacts(s, q + 1);
  }
}

=== FILE: invoice_documents.dfy ===
/**
 * Invoice documents on the server: the extraction use case that runs OCR and
 * then the invoice parser, the endpoint that accepts a document for
 * extraction, and the cost controller's handling of an uploaded cost document
 * (the upload check, the `Content-Disposition` of a download, the redirect
 * after each cost command).
 *
 * A multipart file is reduced to what the guards look at: its size, its
 * declared content type and its original filename. The bytes, the OCR engine
 * and the extraction use case behind the endpoint are parameters.
 */
module InvoiceDocuments {
  import opened Common
  import opened InvoiceParsing
  import InvoiceExtraction

  // ---------------------------------------------------------------------------
  // The extraction use case

  /**
   * `ExtractInvoiceDataUseCase.extract`. `ocrText` is what the OCR port made
   * of the document (`None` for null) and `parse` the invoice parser port.
   * Blank or missing text gives the empty result without consulting the
   * parser; otherwise the parser's result is returned as it is, partial
   * results included.
   */
  function ExtractInvoice(ocrText: Option<string>, parse: string -> ExtractedInvoiceData): (d: ExtractedInvoiceData)
    ensures NullOrBlank(ocrText) ==> d == NoData
    ensures !NullOrBlank(ocrText) ==> d == parse(ocrText.value)
  {
    if NullOrBlank(ocrText) then NoData else parse(ocrText.value)
  }

  /** Blank OCR text never reaches the parser: any two parsers give the same result. */
  lemma BlankTextSkipsParser(ocrText: Option<string>, p: string -> ExtractedInvoiceData, q: string -> ExtractedInvoiceData)
    requires NullOrBlank(ocrText)
    ensures ExtractInvoice(ocrText, p) == ExtractInvoice(ocrText, q) == NoData
  {
  }

  /**
   * With the language-model parser behind the port, the use case's own blank
   * check agrees with the parser's: extracting is parsing the OCR text.
   */
  lemma ExtractWithModelParser(ocrText: Option<string>, reply: Option<string>,
                               read: string -> Option<ParsedInvoice>, defaultCurrency: string)
    ensures ExtractInvoice(ocrText, t => ParseInvoice(Some(t), reply, read, defaultCurrency))
            == ParseInvoice(ocrText, reply, read, defaultCurrency)
  {
    if !NullOrBlank(ocrText) {
      assert Some(ocrText.value) == ocrText;
    }
  }

  // ---------------------------------------------------------------------------
  // Uploaded files and content types

  /** What the guards see of a multipart file. */
  datatype UploadedFile = UploadedFile(size: nat, contentType: Option<string>, originalFilename: Option<string>)

  /** `MultipartFile.isEmpty`: no file chosen or a zero-byte file. */
  predicate IsEmptyFile(file: UploadedFile)
  {
    file.size == 0
  }

  /** The types the extraction endpoint accepts. */
  const ExtractionTypes: set<string> := {"application/pdf", "image/png", "image/jpeg"}

  /** The types a cost document may have: the extraction types plus Word and Excel files. */
  const CostDocumentTypes: set<string> :=
    ExtractionTypes + {"application/msword",
                       "application/vnd.openxmlformats-officedocument.wordprocessingml.document",
                       "application/vnd.ms-excel",
                       "application/vnd.openxmlformats-officedocument.spreadsheetml.sheet"}

  /** Every extractable document is also a valid cost document, but not the other way round. */
  lemma ExtractionTypesWithinCostTypes()
    ensures ExtractionTypes < CostDocumentTypes
    ensures "application/msword" in CostDocumentTypes - ExtractionTypes
  {
    assert "application/msword" !in ExtractionTypes;
  }

  /** The browser shows the extract button for exactly the types the endpoint accepts. */
  lemma BrowserGateMatchesEndpoint(contentType: string)
    ensures contentType in InvoiceExtraction.ExtractableTypes <==> contentType in ExtractionTypes
  {
  }

  // ---------------------------------------------------------------------------
  // The extraction endpoint

  /**
   * The response of `extractInvoiceData`: 400 without a document, the
   * invalid-type exception, the `NullPointerException` that `Set.contains`
   * throws for a missing content type, or 200 with the extracted data.
   */
  datatype ExtractionResponse =
    | BadRequest
    | InvalidDocumentType(contentType: string)
    | NullContentType
    | Ok(data: ExtractedInvoiceData)

  /**
   * `extractInvoiceData`. `extract` is the extraction use case applied to the
   * document's content, given the content type.
   */
  function ExtractInvoiceData(document: Option<UploadedFile>, extract: string -> ExtractedInvoiceData)
    : (r: ExtractionResponse)
    ensures r.BadRequest? <==> document.None? || IsEmptyFile(document.value)
    ensures r.NullContentType? <==> document.Some? && !IsEmptyFile(document.value) && document.value.contentType.None?
    ensures r.InvalidDocumentType? <==> document.Some? && !IsEmptyFile(document.value)
                                        && document.value.contentType.Some?
                                        && document.value.contentType.value !in ExtractionTypes
    ensures r.InvalidDocumentType? ==> Some(r.contentType) == document.value.contentType
    ensures r.Ok? ==> document.value.contentType.value in ExtractionTypes
                      && r.data == extract(document.value.contentType.value)
  {
    match document
    case None => BadRequest
    case Some(file) =>
      if IsEmptyFile(file) then BadRequest
      else match file.contentType
        case None => NullContentType
        case Some(t) =>
          if t !in ExtractionTypes then InvalidDocumentType(t)
          else Ok(extract(t))
  }

  /**
   * A non-empty PDF, PNG or JPEG with text the model can read comes back as
   * 200 with what the parser made of that text.
   */
  lemma AcceptedDocumentIsParsed(document: UploadedFile, ocrText: Option<string>, reply: Option<string>,
                                 read: string -> Option<ParsedInvoice>, defaultCurrency: string)
    requires !IsEmptyFile(document) && document.contentType.Some? && document.contentType.value in ExtractionTypes
    ensures ExtractInvoiceData(Some(document),
                               _ => ExtractInvoice(ocrText, t => ParseInvoice(Some(t), reply, read, defaultCurrency)))
            == Ok(ParseInvoice(ocrText, reply, read, defaultCurrency))
  {
    ExtractWithModelParser(ocrText, reply, read, defaultCurrency);
  }

  // ---------------------------------------------------------------------------
  // Cost documents

  /** `DocumentUpload`: the stored document's name and type (its stream is not modelled). */
  datatype DocumentUpload = DocumentUpload(originalFilename: Option<string>, contentType: string)

  /** What `toDocumentUpload` does with a file: no document, a thrown type error, or an upload. */
  datatype UploadOutcome =
    | NoDocument
    | RejectedType(contentType: Option<string>)
    | Accepted(upload: DocumentUpload)

  /**
   * `toDocumentUpload` of both cost controllers: a missing or empty file is
   * no document; a file without a content type, or with one outside the
   * seven allowed types, is rejected naming that type; anything else is
   * uploaded under its original name and type.
   */
  function ToDocumentUpload(file: Option<UploadedFile>): (r: UploadOutcome)
    ensures r.NoDocument? <==> file.None? || IsEmptyFile(file.value)
    ensures r.RejectedType? <==> file.Some? && !IsEmptyFile(file.value)
                                 && (file.value.contentType.None? || file.value.contentType.value !in CostDocumentTypes)
    ensures r.RejectedType? ==> r.contentType == file.value.contentType
    ensures r.Accepted? ==> r.upload.contentType in CostDocumentTypes
                            && Some(r.upload.contentType) == file.value.contentType
                            && r.upload.originalFilename == file.value.originalFilename
  {
    match file
    case None => NoDocument
    case Some(f) =>
      if IsEmptyFile(f) then NoDocument
      else if f.contentType.None? || f.contentType.value !in CostDocumentTypes then RejectedType(f.contentType)
      else Accepted(DocumentUpload(f.originalFilename, f.contentType.value))
  }

  /** A document the extraction endpoint accepts can also be attached to a cost, unchanged. */
  lemma ExtractableDocumentIsUploadable(document: UploadedFile, extract: string -> ExtractedInvoiceData)
    requires ExtractInvoiceData(Some(document), extract).Ok?
    ensures ToDocumentUpload(Some(document))
            == Accepted(DocumentUpload(document.originalFilename, document.contentType.value))
  {
    ExtractionTypesWithinCostTypes();
  }

  /** A missing content type is rejected by the cost controller but crashes the extraction endpoint. */
  lemma MissingTypeHandledDifferently(document: UploadedFile, extract: string -> ExtractedInvoiceData)
    requires !IsEmptyFile(document) && document.contentType.None?
    ensures ToDocumentUpload(Some(document)) == RejectedType(None)
    ensures ExtractInvoiceData(Some(document), extract) == NullContentType
  {
  }

  // ---------------------------------------------------------------------------
  // Downloading a cost document

  const AttachmentPrefix := "attachment; filename=\""
  const InlinePrefix := "inline; filename=\""

  /**
   * The `Content-Disposition` chosen in `getDocument`: an attachment when the
   * action is exactly "download", shown inline otherwise; the filename is
   * quoted as stored.
   */
  function Disposition(action: string, filename: string): (r: string)
    ensures ReadDisposition(r) == Some((action == "download", filename))
  {
    var prefix := if action == "download" then AttachmentPrefix else InlinePrefix;
    var r := prefix + filename + "\"";
    assert r[..|prefix|] == prefix && r[|prefix|..|r| - 1] == filename;
    assert action != "download" ==> r[0] == 'i' != AttachmentPrefix[0];
    r
  }

  /**
   * Reads a header of the two shapes `getDocument` writes back: whether it
   * is an attachment, and the filename between the quotes.
   */
  function ReadDisposition(header: string): Option<(bool, string)>
  {
    if |header| > |AttachmentPrefix| && header[..|AttachmentPrefix|] == AttachmentPrefix && header[|header| - 1] == '"' then
      Some((true, header[|AttachmentPrefix|..|header| - 1]))
    else if |header| > |InlinePrefix| && header[..|InlinePrefix|] == InlinePrefix && header[|header| - 1] == '"' then
      Some((false, header[|InlinePrefix|..|header| - 1]))
    else None
  }

  /** Two different filenames or actions never produce the same header. */
  lemma DispositionInjective(a1: string, f1: string, a2: string, f2: string)
    requires Disposition(a1, f1) == Disposition(a2, f2)
    ensures f1 == f2 && (a1 == "download" <==> a2 == "download")
  {
  }

  /** `RetrievedDocument`: the stored document's name, type and length. */
  datatype RetrievedDocument = RetrievedDocument(filename: string, contentType: string, contentLength: nat)

  /** The response of `getDocument`. */
  datatype DocumentResponse =
    | DocumentNotFound(costId: int)
    | Served(disposition: string, contentType: string, contentLength: nat)

  /**
   * `getDocument` of both cost controllers: `action` is the request
   * parameter (`None` when absent, which defaults to "view") and `retrieve`
   * the document query. A cost without a document is not found; otherwise
   * the document is served with its own type and length, as an attachment
   * exactly when the action is "download".
   */
  function GetDocument(costId: int, action: Option<string>, retrieve: int -> Option<RetrievedDocument>)
    : (r: DocumentResponse)
    ensures r.DocumentNotFound? <==> retrieve(costId).None?
    ensures r.DocumentNotFound? ==> r.costId == costId
    ensures r.Served? ==> var doc := retrieve(costId).value;
                          r.contentType == doc.contentType && r.contentLength == doc.contentLength
                          && ReadDisposition(r.disposition) == Some((action == Some("download"), doc.filename))
  {
    var requested := if action.Some? then action.value else "view";
    match retrieve(costId)
    case None => DocumentNotFound(costId)
    case Some(doc) => Served(Disposition(requested, doc.filename), doc.contentType, doc.contentLength)
  }

  /** Without an action the document is shown inline. */
  lemma DefaultActionIsInline(costId: int, retrieve: int -> Option<RetrievedDocument>)
    requires retrieve(costId).Some?
    ensures ReadDisposition(GetDocument(costId, None, retrieve).disposition)
            == Some((false, retrieve(costId).value.filename))
  {
  }

  // ---------------------------------------------------------------------------
  // Redirects after a cost command

  /** Whom a cost belongs to, as given by the route. */
  datatype CostScope = ReleaseScope(labelId: int, releaseId: int) | LabelScope(labelId: int)

  /**
   * The view name returned by the register, update and delete endpoints:
   * back to the release page for a release's cost, to the label page for a
   * label's cost.
   */
  function Redirect(scope: CostScope): (r: string)
    ensures r == "redirect:/labels/" + IntToString(scope.labelId) + ScopeSuffix(scope)
  {
    match scope
    case ReleaseScope(l, rel) => "redirect:/labels/" + IntToString(l) + "/releases/" + IntToString(rel)
    case LabelScope(l) => "redirect:/labels/" + IntToString(l)
  }

  /** The part of the target after the label id. */
  function ScopeSuffix(scope: CostScope): (r: string)
    ensures r == [] || r[0] == '/'
  {
    match scope
    case ReleaseScope(_, rel) => "/releases/" + IntToString(rel)
    case LabelScope(_) => ""
  }

  /** No slash in a rendered number. */
  lemma IntToStringHasNoSlash(n: int)
    ensures forall k :: 0 <= k < |IntToString(n)| ==> IntToString(n)[k] != '/'
  {
    var s := NatToString(if n >= 0 then n else -n);
    assert forall k :: 0 <= k < |s| ==> IsDigit(s[k]);
  }

  /** Different numbers render differently. */
  lemma IntToStringInjective(m: int, n: int)
    requires IntToString(m) == IntToString(n)
    ensures m == n
  {
    assert IsDigit(NatToString(if m >= 0 then m else -m)[0]);
    assert IsDigit(NatToString(if n >= 0 then n else -n)[0]);
    assert m >= 0 <==> IntToString(m)[0] != '-';
    if m >= 0 {
      NatToStringInjective(m, n);
    } else {
      assert NatToString(-m) == IntToString(m)[1..] == IntToString(n)[1..] == NatToString(-n);
      NatToStringInjective(-m, -n);
    }
  }

  /** The text up to its first slash. */
  function Word(s: string): (w: string)
    ensures w <= s
    ensures forall k :: 0 <= k < |w| ==> w[k] != '/'
  {
    if s == [] || s[0] == '/' then [] else [s[0]] + Word(s[1..])
  }

  /** A slash-free word followed by nothing or by a slash is read back as that word. */
  lemma {:induction false} WordOf(a: string, x: string)
    requires forall k :: 0 <= k < |a| ==> a[k] != '/'
    requires x == [] || x[0] == '/'
    ensures Word(a + x) == a
  {
    if a == [] {
      assert a + x == x;
    } else {
      assert (a + x)[0] == a[0] && (a + x)[1..] == a[1..] + x;
      WordOf(a[1..], x);
    }
  }

  /** Text after a common prefix determines the rest. */
  lemma DropPrefix(p: string, u: string, v: string)
    requires p + u == p + v
    ensures u == v
  {
    assert u == (p + u)[|p|..] && v == (p + v)[|p|..];
  }

  /** After a common prefix, a slash-free word and a suffix starting with a slash are read back uniquely. */
  lemma SplitAfterPrefix(p: string, a: string, x: string, b: string, y: string)
    requires p + a + x == p + b + y
    requires forall k :: 0 <= k < |a| ==> a[k] != '/'
    requires forall k :: 0 <= k < |b| ==> b[k] != '/'
    requires x == [] || x[0] == '/'
    requires y == [] || y[0] == '/'
    ensures a == b && x == y
  {
    assert p + a + x == p + (a + x) && p + b + y == p + (b + y);
    DropPrefix(p, a + x, b + y);
    WordOf(a, x);
    WordOf(b, y);
    DropPrefix(a, x, y);
  }

  /** Each scope has its own redirect target. */
  lemma RedirectInjective(s: CostScope, t: CostScope)
    requires Redirect(s) == Redirect(t)
    ensures s == t
  {
    IntToStringHasNoSlash(s.labelId);
    IntToStringHasNoSlash(t.labelId);
    SplitAfterPrefix("redirect:/labels/", IntToString(s.labelId), ScopeSuffix(s), IntToString(t.labelId), ScopeSuffix(t));
    IntToStringInjective(s.labelId, t.labelId);
    if s.ReleaseScope? && t.ReleaseScope? {
      DropPrefix("/releases/", IntToString(s.releaseId), IntToString(t.releaseId));
      IntToStringInjective(s.releaseId, t.releaseId);
    }
  }

  /** A release's cost leads back under its label's page. */
  lemma ReleaseRedirectExtendsLabelRedirect(labelId: int, releaseId: int)
    ensures Redirect(ReleaseScope(labelId, releaseId))
            == Redirect(LabelScope(labelId)) + "/releases/" + IntToString(releaseId)
  {
  }
}

=== FILE: invoice_extraction.dfy ===
/**
 * The autofill of the cost form from an uploaded invoice. The extract button
 * starts hidden and is shown only while an extractable file is chosen; a
 * click disables it and shows "Extracting..." for the duration of the
 * request, and every exit path re-enables it with its idle label. A
 * successful response writes each non-null value into the form field mapped
 * to it, when that field exists on the page.
 *
 * The request itself is not modelled: its outcome is an argument. Field
 * values are the strings the browser stores for the response's values. The
 * VAT rate's conversion `(vatRate / 100).toFixed(2)` is floating point; its
 * result is an argument as well.
 */
module InvoiceExtraction {
  import opened Common

  const ExtractableTypes: seq<string> := ["application/pdf", "image/png", "image/jpeg"]
  const ExtractingLabel := "Extracting..."
  const IdleLabel := "Extract from Document"

  /** A chosen file; only its MIME type matters here. */
  datatype File = File(contentType: string)

  /** The ids of the form fields the extracted values go to. */
  datatype FieldIds = FieldIds(netAmount: string, vatAmount: string, grossAmount: string,
                               incurredOn: string, documentReference: string, vatRate: string)

  /** The response body; a missing or null member is None. */
  datatype ExtractedData = ExtractedData(netAmount: Option<string>, vatAmount: Option<string>,
                                         grossAmount: Option<string>, invoiceDate: Option<string>,
                                         invoiceReference: Option<string>, vatRate: Option<real>)

  /** How the request ended: a JSON body, a non-OK status, or a thrown error (network, JSON). */
  datatype Outcome = Ok(data: ExtractedData) | NotOk(status: int) | Failed

  /** One entry of the mapping table: the value from the response and the id of the field it fills. */
  datatype Mapping = Mapping(value: Option<string>, fieldId: string)

  /** The five plain mappings, in the order the source lists them. */
  function Mappings(data: ExtractedData, ids: FieldIds): (ms: seq<Mapping>)
    ensures |ms| == 5
    ensures ms[0] == Mapping(data.netAmount, ids.netAmount) && ms[1] == Mapping(data.vatAmount, ids.vatAmount)
    ensures ms[2] == Mapping(data.grossAmount, ids.grossAmount) && ms[3] == Mapping(data.invoiceDate, ids.incurredOn)
    ensures ms[4] == Mapping(data.invoiceReference, ids.documentReference)
  {
    [Mapping(data.netAmount, ids.netAmount), Mapping(data.vatAmount, ids.vatAmount),
     Mapping(data.grossAmount, ids.grossAmount), Mapping(data.invoiceDate, ids.incurredOn),
     Mapping(data.invoiceReference, ids.documentReference)]
  }

  /** One step of the mapping loop: a non-null value goes into its field if the page has that field. */
  function Apply(fields: map<string, string>, m: Mapping): map<string, string>
  {
    if m.value.Some? && m.fieldId in fields then fields[m.fieldId := m.value.value] else fields
  }

  /** The mapping loop run over `ms` in order. */
  function ApplyAll(fields: map<string, string>, ms: seq<Mapping>): map<string, string>
    decreases |ms|
  {
    if ms == [] then fields else ApplyAll(Apply(fields, ms[0]), ms[1..])
  }

  /** The field ids a run of the loop highlights, in order. */
  function Written(fields: map<string, string>, ms: seq<Mapping>): seq<string>
  {
    if ms == [] then []
    else (if ms[0].value.Some? && ms[0].fieldId in fields then [ms[0].fieldId] else [])
         + Written(Apply(fields, ms[0]), ms[1..])
  }

  /** The ids of `ms` are pairwise distinct. */
  predicate DistinctIds(ms: seq<Mapping>)
  {
    forall i, j :: 0 <= i < j < |ms| ==> ms[i].fieldId != ms[j].fieldId
  }

  lemma {:induction false} ApplyAllSnoc(fields: map<string, string>, ms: seq<Mapping>, m: Mapping)
    ensures ApplyAll(fields, ms + [m]) == Apply(ApplyAll(fields, ms), m)
    ensures Written(fields, ms + [m]) == Written(fields, ms)
              + (if m.value.Some? && m.fieldId in ApplyAll(fields, ms) then [m.fieldId] else [])
    decreases |ms|
  {
    if ms == [] {
      assert [m][1..] == [];
    } else {
      assert (ms + [m])[0] == ms[0] && (ms + [m])[1..] == ms[1..] + [m];
      ApplyAllSnoc(Apply(fields, ms[0]), ms[1..], m);
    }
  }

  /**
   * Populating never adds or removes a field, leaves the fields no mapping
   * names as they were, and, when the mapped ids differ, fills a mapped field
   * exactly when its value is non-null.
   */
  lemma {:induction false} ApplyAllEffect(fields: map<string, string>, ms: seq<Mapping>)
    ensures ApplyAll(fields, ms).Keys == fields.Keys
    ensures forall id :: id in fields && (forall i :: 0 <= i < |ms| ==> ms[i].fieldId != id) ==>
              ApplyAll(fields, ms)[id] == fields[id]
    ensures DistinctIds(ms) ==> forall i :: 0 <= i < |ms| && ms[i].fieldId in fields ==>
              ApplyAll(fields, ms)[ms[i].fieldId] == (if ms[i].value.Some? then ms[i].value.value else fields[ms[i].fieldId])
    decreases |ms|
  {
    if ms != [] {
      var f1 := Apply(fields, ms[0]);
      ApplyAllEffect(f1, ms[1..]);
      forall id | id in fields && (forall i :: 0 <= i < |ms| ==> ms[i].fieldId != id)
        ensures ApplyAll(fields, ms)[id] == fields[id]
      {
        assert ms[0].fieldId != id;
        forall i | 0 <= i < |ms[1..]| ensures ms[1..][i].fieldId != id { assert ms[1..][i] == ms[i + 1]; }
      }
      if DistinctIds(ms) {
        forall i | 0 <= i < |ms| && ms[i].fieldId in fields
          ensures ApplyAll(fields, ms)[ms[i].fieldId] == (if ms[i].value.Some? then ms[i].value.value else fields[ms[i].fieldId])
        {
          if i == 0 {
            forall k | 0 <= k < |ms[1..]| ensures ms[1..][k].fieldId != ms[0].fieldId { assert ms[1..][k] == ms[k + 1]; }
          } else {
            assert ms[1..][i - 1] == ms[i];
            assert DistinctIds(ms[1..]) by {
              forall a, b | 0 <= a < b < |ms[1..]| ensures ms[1..][a].fieldId != ms[1..][b].fieldId {
                assert ms[1..][a] == ms[a + 1] && ms[1..][b] == ms[b + 1];
              }
            }
          }
        }
      }
    }
  }

  /** The VAT-rate select is set (and highlighted) only when it exists and offers an option with the converted value. */
  predicate SetsVatRate(fields: map<string, string>, vatRate: Option<real>, vatRateId: string,
                        vatOptions: set<string>, rateDecimal: string)
  {
    vatRate.Some? && vatRateId in fields && rateDecimal in vatOptions
  }

  function ApplyVatRate(fields: map<string, string>, vatRate: Option<real>, vatRateId: string,
                        vatOptions: set<string>, rateDecimal: string): (r: map<string, string>)
    ensures r.Keys == fields.Keys
    ensures !SetsVatRate(fields, vatRate, vatRateId, vatOptions, rateDecimal) ==> r == fields
    ensures SetsVatRate(fields, vatRate, vatRateId, vatOptions, rateDecimal) ==> r[vatRateId] == rateDecimal
    ensures forall id :: id in fields && id != vatRateId ==> r[id] == fields[id]
  {
    if SetsVatRate(fields, vatRate, vatRateId, vatOptions, rateDecimal) then fields[vatRateId := rateDecimal]
    else fields
  }

  /** The file-change rule: the button is visible iff a file is chosen and its type is extractable. */
  predicate ShowsButton(file: Option<File>)
  {
    file.Some? && file.value.contentType in ExtractableTypes
  }

  /** The `mappings.forEach` loop on the field values: the new values and the ids highlighted. */
  method PopulateMappings(fields: map<string, string>, ms: seq<Mapping>) returns (fs: map<string, string>, written: seq<string>)
    ensures fs == ApplyAll(fields, ms) && written == Written(fields, ms)
  {
    fs, written := fields, [];
    var i := 0;
    while i < |ms|
      invariant 0 <= i <= |ms|
      invariant fs == ApplyAll(fields, ms[..i])
      invariant written == Written(fields, ms[..i])
    {
      ApplyAllSnoc(fields, ms[..i], ms[i]);
      PrefixSnoc(ms, i);
      var m := ms[i];
      if m.value.Some? && m.fieldId in fs {
        fs := fs[m.fieldId := m.value.value];
        written := written + [m.fieldId];
      }
      i := i + 1;
    }
    assert ms[..i] == ms;
  }

  /** The page state the script touches. */
  class ExtractionForm {
    const fieldIds: FieldIds
    /** The option values of the VAT-rate select. */
    const vatOptions: set<string>
    var file: Option<File>
    var buttonHidden: bool
    var buttonDisabled: bool
    var buttonLabel: string
    /** Every label the button was given, in order. */
    var labels: seq<string>
    /** The values of the form fields present on the page, by id. */
    var fields: map<string, string>
    var highlighted: seq<string>
    var errors: seq<string>

    /** `setupInvoiceExtraction(config)`: the extract button is hidden. */
    constructor Setup(fieldIds: FieldIds, vatOptions: set<string>, fields: map<string, string>, initialLabel: string)
      ensures this.fieldIds == fieldIds && this.vatOptions == vatOptions && this.fields == fields
      ensures buttonHidden && !buttonDisabled && buttonLabel == initialLabel
      ensures file.None? && labels == [] && highlighted == [] && errors == []
    {
      this.fieldIds := fieldIds;
      this.vatOptions := vatOptions;
      this.fields := fields;
      file := None;
      buttonHidden := true;
      buttonDisabled := false;
      buttonLabel := initialLabel;
      labels := [];
      highlighted := [];
      errors := [];
    }

    /** The file input's change listener. */
    method FileChanged(chosen: Option<File>)
      modifies this
      ensures file == chosen && buttonHidden == !ShowsButton(chosen)
      ensures buttonDisabled == old(buttonDisabled) && buttonLabel == old(buttonLabel) && labels == old(labels)
      ensures fields == old(fields) && highlighted == old(highlighted) && errors == old(errors)
    {
      file := chosen;
      if chosen.Some? && chosen.value.contentType in ExtractableTypes {
        buttonHidden := false;
      } else {
        buttonHidden := true;
      }
    }

    /** `setLoading(loading)`. */
    method SetLoading(loading: bool)
      modifies this
      ensures buttonDisabled == loading
      ensures buttonLabel == (if loading then ExtractingLabel else IdleLabel)
      ensures labels == old(labels) + [buttonLabel]
      ensures file == old(file) && buttonHidden == old(buttonHidden)
      ensures fields == old(fields) && highlighted == old(highlighted) && errors == old(errors)
    {
      if loading {
        buttonDisabled := true;
        buttonLabel := ExtractingLabel;
      } else {
        buttonDisabled := false;
        buttonLabel := IdleLabel;
      }
      labels := labels + [buttonLabel];
    }

    /**
     * `populateFields(data)`: the VAT rate first, then the five mappings in
     * order. `rateDecimal` is what `(data.vatRate / 100).toFixed(2)` gives.
     */
    method PopulateFields(data: ExtractedData, rateDecimal: string)
      modifies this
      ensures var afterVat := ApplyVatRate(old(fields), data.vatRate, fieldIds.vatRate, vatOptions, rateDecimal);
              fields == ApplyAll(afterVat, Mappings(data, fieldIds))
              && highlighted == old(highlighted)
                                + (if SetsVatRate(old(fields), data.vatRate, fieldIds.vatRate, vatOptions, rateDecimal)
                                   then [fieldIds.vatRate] else [])
                                + Written(afterVat, Mappings(data, fieldIds))
      ensures file == old(file) && buttonHidden == old(buttonHidden) && buttonDisabled == old(buttonDisabled)
      ensures buttonLabel == old(buttonLabel) && labels == old(labels) && errors == old(errors)
    {
      var fs := fields;
      var hl: seq<string> := [];
      if data.vatRate.Some? && fieldIds.vatRate in fs && rateDecimal in vatOptions {
        fs := fs[fieldIds.vatRate := rateDecimal];
        hl := [fieldIds.vatRate];
      }
      var fs', written := PopulateMappings(fs, Mappings(data, fieldIds));
      fields, highlighted := fs', highlighted + hl + written;
    }

    /**
     * `extractAndPopulate()` with the request's outcome given: without a
     * file nothing happens (the type is not checked again); otherwise the
     * button is busy for the request and idle afterwards, a JSON body
     * populates the fields and a failure is logged and changes no field.
     */
    method ExtractAndPopulate(outcome: Outcome, rateDecimal: string)
      modifies this
      ensures old(file).None? ==> fields == old(fields) && labels == old(labels) && errors == old(errors)
                                  && buttonDisabled == old(buttonDisabled) && buttonLabel == old(buttonLabel)
                                  && highlighted == old(highlighted)
      ensures old(file).Some? ==> labels == old(labels) + [ExtractingLabel, IdleLabel]
                                  && !buttonDisabled && buttonLabel == IdleLabel
      ensures old(file).Some? && outcome.Ok? ==>
                fields == ApplyAll(ApplyVatRate(old(fields), outcome.data.vatRate, fieldIds.vatRate, vatOptions, rateDecimal),
                                   Mappings(outcome.data, fieldIds))
                && errors == old(errors)
      ensures old(file).Some? && !outcome.Ok? ==>
                fields == old(fields) && highlighted == old(highlighted) && |errors| == |old(errors)| + 1
      ensures file == old(file) && buttonHidden == old(buttonHidden)
    {
      if file.None? {
        return;
      }
      SetLoading(true);
      match outcome {
        case Ok(data) =>
          PopulateFields(data, rateDecimal);
        case NotOk(_) =>
          errors := errors + ["Extraction failed:"];
        case Failed =>
          errors := errors + ["Extraction failed:"];
      }
      SetLoading(false);
    }
  }

  /** The fields a successful extraction writes: each mapped field that exists, exactly when its value is non-null. */
  lemma PopulateWritesNonNull(fields: map<string, string>, data: ExtractedData, ids: FieldIds)
    requires DistinctIds(Mappings(data, ids))
    ensures var r := ApplyAll(fields, Mappings(data, ids));
            r.Keys == fields.Keys
            && (ids.netAmount in fields ==> r[ids.netAmount] == if data.netAmount.Some? then data.netAmount.value else fields[ids.netAmount])
            && (ids.incurredOn in fields ==> r[ids.incurredOn] == if data.invoiceDate.Some? then data.invoiceDate.value else fields[ids.incurredOn])
            && (ids.documentReference in fields ==>
                  r[ids.documentReference] == if data.invoiceReference.Some? then data.invoiceReference.value else fields[ids.documentReference])
  {
    var ms := Mappings(data, ids);
    ApplyAllEffect(fields, ms);
    assert ms[0].fieldId == ids.netAmount && ms[3].fieldId == ids.incurredOn && ms[4].fieldId == ids.documentReference;
  }

  /** Data with every member null changes nothing. */
  lemma {:induction false} EmptyDataChangesNothing(fields: map<string, string>, ms: seq<Mapping>)
    requires forall i :: 0 <= i < |ms| ==> ms[i].value.None?
    ensures ApplyAll(fields, ms) == fields && Written(fields, ms) == []
    decreases |ms|
  {
    if ms != [] {
      EmptyDataChangesNothing(fields, ms[1..]);
    }
  }
}

=== FILE: invoice_parsing.dfy ===
/**
 * The invoice parser adapter: the language model's reply to the extraction
 * prompt is cut down to its JSON object, the object's fields are read, and
 * each field is converted leniently — an amount that is not a number, a date
 * that is not an ISO date, become absent rather than failing the whole
 * extraction. Any failure of the call itself, or of reading the JSON, gives
 * the empty result.
 *
 * The HTTP call to the model and the JSON reader are not part of this model:
 * the model's reply is a parameter (`None` when the call failed or came back
 * empty) and the reader is a function parameter (`None` when it threw).
 */
module InvoiceParsing {
  import opened Common

  // ---------------------------------------------------------------------------
  // Powers of ten and fixed-width digit strings

  function Pow10(n: nat): (p: nat)
    ensures p >= 1
  {
    if n == 0 then 1 else 10 * Pow10(n - 1)
  }

  /** `v` written in exactly `w` digits, left-padded with zeros. */
  function PadDigits(v: nat, w: nat): (r: string)
    requires v < Pow10(w)
    ensures |r| == w && AllDigits(r)
    ensures DigitsValue(r) == v
  {
    if w == 0 then ""
    else
      var r := PadDigits(v / 10, w - 1) + [DigitChar(v % 10)];
      assert r[..|r| - 1] == PadDigits(v / 10, w - 1);
      r
  }

  lemma {:induction false} DigitsValueBound(s: string)
    requires AllDigits(s)
    ensures DigitsValue(s) < Pow10(|s|)
  {
    if s != [] {
      DigitsValueBound(s[..|s| - 1]);
    }
  }

  /** Reading a digit string and writing it back at the same width gives the string. */
  lemma {:induction false} PadDigitsOfValue(s: string)
    requires AllDigits(s)
    ensures DigitsValue(s) < Pow10(|s|)
    ensures PadDigits(DigitsValue(s), |s|) == s
  {
    DigitsValueBound(s);
    if s != [] {
      var init := s[..|s| - 1];
      var v := DigitsValue(s);
      assert v / 10 == DigitsValue(init) && v % 10 == DigitValue(s[|s| - 1]);
      PadDigitsOfValue(init);
      assert s == init + [s[|s| - 1]];
    }
  }

  lemma AllDigitsAppend(a: string, b: string)
    requires AllDigits(a) && AllDigits(b)
    ensures AllDigits(a + b)
  {
    assert forall k :: 0 <= k < |a + b| ==> (a + b)[k] == if k < |a| then a[k] else b[k - |a|];
  }

  lemma MulTen(x: int, p: int)
    ensures x * (10 * p) == 10 * (x * p)
  {
  }

  /** The digits of two strings put together read as the first shifted up past the second. */
  lemma {:induction false} DigitsValueAppend(a: string, b: string)
    requires AllDigits(a) && AllDigits(b)
    ensures AllDigits(a + b)
    ensures DigitsValue(a + b) == DigitsValue(a) * Pow10(|b|) + DigitsValue(b)
    decreases |b|
  {
    AllDigitsAppend(a, b);
    if b == [] {
      assert a + b == a;
    } else {
      var init := b[..|b| - 1];
      var last := DigitValue(b[|b| - 1]);
      assert (a + b)[..|a + b| - 1] == a + init;
      assert (a + b)[|a + b| - 1] == b[|b| - 1];
      assert DigitsValue(a + b) == 10 * DigitsValue(a + init) + last;
      assert DigitsValue(b) == 10 * DigitsValue(init) + last;
      DigitsValueAppend(a, init);
      MulTen(DigitsValue(a), Pow10(|init|));
    }
  }

  // ---------------------------------------------------------------------------
  // Decimal numbers

  /** An exact decimal as `BigDecimal` holds it: the unscaled value times ten to the power −scale. */
  datatype Decimal = Decimal(unscaled: int, scale: int)

  /** An optionally signed, non-empty run of digits. */
  function SignedInteger(s: string): (r: Option<int>)
    ensures r.Some? ==> s != []
  {
    if s != [] && (s[0] == '+' || s[0] == '-') then
      var digits := s[1..];
      if digits != [] && AllDigits(digits) then
        var v := DigitsValue(digits) as int;
        Some(if s[0] == '-' then -v else v)
      else None
    else if s != [] && AllDigits(s) then Some(DigitsValue(s) as int)
    else None
  }

  /** Every integer's decimal rendering reads back as that integer. */
  lemma SignedIntegerOfIntToString(n: int)
    ensures SignedInteger(IntToString(n)) == Some(n)
  {
    var s := IntToString(n);
    if n < 0 {
      assert s[1..] == NatToString(-n);
    } else {
      assert IsDigit(s[0]);
    }
  }

  predicate IsExponentMark(c: char) { c == 'e' || c == 'E' }

  /** The index of the first exponent mark at or after `from`, or −1. */
  function ExponentMark(s: string, from: nat): (i: int)
    requires from <= |s|
    ensures i == -1 || from <= i < |s|
    ensures i >= 0 ==> IsExponentMark(s[i]) && forall k :: from <= k < i ==> !IsExponentMark(s[k])
    ensures i == -1 ==> forall k :: from <= k < |s| ==> !IsExponentMark(s[k])
    decreases |s| - from
  {
    if from == |s| then -1
    else if IsExponentMark(s[from]) then from
    else ExponentMark(s, from + 1)
  }

  /**
   * The digits before and after the point of a significand, read as one
   * number, with the count of digits after the point; at least one digit.
   */
  function Significand(m: string): (r: Option<(nat, nat)>)
  {
    var dot := IndexOf(m, '.');
    var whole := if dot < 0 then m else m[..dot];
    var fraction := if dot < 0 then [] else m[dot + 1..];
    if AllDigits(whole) && AllDigits(fraction) && |whole| + |fraction| > 0 then
      AllDigitsAppend(whole, fraction);
      Some((DigitsValue(whole + fraction), |fraction|))
    else None
  }

  /** A significand's digits and fraction length, with the exponent taken off the scale. */
  function Scaled(significand: Option<(nat, nat)>, exponent: Option<int>): (r: Option<Decimal>)
    ensures r.Some? <==> significand.Some? && exponent.Some?
  {
    if significand.Some? && exponent.Some? then
      Some(Decimal(significand.value.0, significand.value.1 as int - exponent.value))
    else None
  }

  /** A significand and an optional exponent, with no sign in front. */
  function UnsignedDecimal(body: string): (r: Option<Decimal>)
    ensures r.Some? ==> r.value.unscaled >= 0
  {
    var e := ExponentMark(body, 0);
    Scaled(Significand(if e < 0 then body else body[..e]),
           if e < 0 then Some(0) else SignedInteger(body[e + 1..]))
  }

  /**
   * `new BigDecimal(String)`: an optional sign, a significand with an optional
   * point, an optional exponent after `e` or `E`; the scale is the number of
   * digits after the point less the exponent. `None` is the
   * `NumberFormatException`.
   */
  function ParseDecimal(s: string): (r: Option<Decimal>)
    ensures r.Some? ==> s != []
    ensures r.Some? && s[0] == '-' ==> r.value.unscaled <= 0
    ensures r.Some? && s[0] != '-' ==> r.value.unscaled >= 0
  {
    if s == [] then None
    else Signed(s[0] == '-', UnsignedDecimal(if s[0] == '-' || s[0] == '+' then s[1..] else s))
  }

  /** The decimal with its sign applied. */
  function Signed(negative: bool, d: Option<Decimal>): Option<Decimal>
  {
    if negative && d.Some? then Some(Decimal(-d.value.unscaled, d.value.scale)) else d
  }

  /** A run of digits has no point, so it is a significand with no fraction digits. */
  lemma SignificandOfDigits(w: string)
    requires AllDigits(w) && w != []
    ensures Significand(w) == Some((DigitsValue(w), 0))
  {
    assert IndexOf(w, '.') == -1 by {
      assert forall k :: 0 <= k < |w| ==> IsDigit(w[k]);
    }
    assert w + [] == w;
  }

  /** In digits followed by `rest`, the first exponent mark is the first one of `rest`. */
  lemma ExponentMarkAfterDigits(w: string, rest: string)
    requires AllDigits(w)
    ensures var i := ExponentMark(rest, 0);
            ExponentMark(w + rest, 0) == if i < 0 then -1 else |w| + i
  {
    var s := w + rest;
    var i := ExponentMark(rest, 0);
    var j := ExponentMark(s, 0);
    assert forall k :: 0 <= k < |w| ==> s[k] == w[k] && !IsExponentMark(s[k]);
    assert forall k :: 0 <= k < |rest| ==> s[|w| + k] == rest[k];
    if i >= 0 {
      assert IsExponentMark(s[|w| + i]);
    }
    if j >= 0 {
      assert IsExponentMark(rest[j - |w|]);
    }
  }

  lemma ExponentAfterDigits(w: string, x: string)
    requires AllDigits(w)
    ensures ExponentMark(w + "E" + x, 0) == |w|
  {
    var rest := "E" + x;
    assert w + "E" + x == w + rest;
    ExponentMarkAfterDigits(w, rest);
    assert ExponentMark(rest, 0) == 0;
  }

  /** Digits, a mark and the rest: the digits are the significand and the rest the exponent. */
  lemma UnsignedSplit(w: string, x: string)
    requires AllDigits(w)
    ensures UnsignedDecimal(w + "E" + x) == Scaled(Significand(w), SignedInteger(x))
  {
    var body := w + "E" + x;
    assert body[..|w|] == w;
    assert body[|w| + 1..] == x;
    ExponentAfterDigits(w, x);
  }

  /** `<n>E<e>` with no sign in front is the decimal n with scale −e. */
  lemma UnsignedScientific(n: nat, e: int)
    ensures UnsignedDecimal(NatToString(n) + "E" + IntToString(e)) == Some(Decimal(n, -e))
  {
    var w := NatToString(n);
    UnsignedSplit(w, IntToString(e));
    SignificandOfDigits(w);
    SignedIntegerOfIntToString(e);
    assert Scaled(Some((n, 0)), Some(e)) == Some(Decimal(n, -e));
  }

  /**
   * The decimal in scientific form, `<unscaled>E<-scale>`: the parse reads it
   * back as the same decimal, scale included.
   */
  function Scientific(d: Decimal): (s: string)
    ensures ParseDecimal(s) == Some(d)
  {
    var u, e := d.unscaled, -d.scale;
    ScientificText(u, e);
    assert Decimal(u, -e) == d;
    IntToString(u) + "E" + IntToString(e)
  }

  /** `-<n>E<e>` is the decimal −n with scale −e. */
  lemma NegativeScientific(n: nat, e: int)
    ensures ParseDecimal("-" + NatToString(n) + "E" + IntToString(e)) == Some(Decimal(-(n as int), -e))
  {
    AfterMinus(NatToString(n), "E", IntToString(e));
    UnsignedScientific(n, e);
  }

  lemma AfterMinus(a: string, b: string, c: string)
    ensures ("-" + a + b + c)[0] == '-' && ("-" + a + b + c)[1..] == a + b + c
  {
    assert "-" + a + b + c == "-" + (a + b + c);
  }

  /** Text that starts with a digit has no sign to take off. */
  lemma UnsignedParse(t: string)
    requires t != [] && IsDigit(t[0])
    ensures ParseDecimal(t) == UnsignedDecimal(t)
  {
  }

  /** `<n>E<e>` is the decimal n with scale −e. */
  lemma PositiveScientific(n: nat, e: int)
    ensures ParseDecimal(NatToString(n) + "E" + IntToString(e)) == Some(Decimal(n, -e))
  {
    var t := NatToString(n) + "E" + IntToString(e);
    UnsignedScientific(n, e);
    assert t[0] == NatToString(n)[0] && IsDigit(NatToString(n)[0]);
  }

  /** `<u>E<e>`, for any integers u and e, is the decimal u with scale -e. */
  lemma ScientificText(u: int, e: int)
    ensures ParseDecimal(IntToString(u) + "E" + IntToString(e)) == Some(Decimal(u, -e))
  {
    var t := IntToString(e);
    if u < 0 {
      var n: nat := -u;
      NegativeSpelling(u, t);
      NegativeScientific(n, e);
    } else {
      var n: nat := u;
      PositiveScientific(n, e);
    }
  }

  /** A negative integer is spelt with a minus sign before its magnitude. */
  lemma NegativeSpelling(u: int, t: string)
    requires u < 0
    ensures IntToString(u) + "E" + t == "-" + NatToString(-u) + "E" + t
  {
  }

  /** Digits, a point and digits: no exponent mark anywhere. */
  lemma NoExponentInPlain(w: string, f: string)
    requires AllDigits(w) && AllDigits(f)
    ensures ExponentMark(w + "." + f, 0) == -1
  {
    var rest := "." + f;
    assert w + "." + f == w + rest;
    ExponentMarkAfterDigits(w, rest);
    assert forall k :: 0 < k < |rest| ==> rest[k] == f[k - 1];
  }

  /** Digits, a point and digits: one number, scaled by the digits after the point. */
  lemma SignificandWithPoint(w: string, f: string)
    requires AllDigits(w) && AllDigits(f) && w != []
    ensures AllDigits(w + f)
    ensures Significand(w + "." + f) == Some((DigitsValue(w + f), |f|))
  {
    var s := w + "." + f;
    PointAfterDigits(w, f);
    assert s[..|w|] == w && s[|w| + 1..] == f;
  }

  lemma PointAfterDigits(w: string, f: string)
    requires AllDigits(w)
    ensures IndexOf(w + "." + f, '.') == |w|
  {
    var s := w + "." + f;
    assert forall k :: 0 <= k < |w| ==> s[k] == w[k];
    assert s[|w|] == '.';
  }

  /** Digits, a point and digits with no sign in front: the scale is the number of digits after the point. */
  lemma UnsignedPlain(w: string, f: string)
    requires AllDigits(w) && AllDigits(f) && w != []
    ensures AllDigits(w + f)
    ensures UnsignedDecimal(w + "." + f) == Some(Decimal(DigitsValue(w + f), |f|))
  {
    NoExponentInPlain(w, f);
    SignificandWithPoint(w, f);
  }

  /**
   * Digits, a point and fraction digits (leading zeros allowed): the unscaled
   * value is all the digits read as one number (see `DigitsValueAppend`), the
   * scale the number of fraction digits.
   */
  lemma PlainDecimal(whole: string, fraction: string)
    requires AllDigits(whole) && whole != [] && AllDigits(fraction)
    ensures AllDigits(whole + fraction)
    ensures ParseDecimal(whole + "." + fraction) == Some(Decimal(DigitsValue(whole + fraction), |fraction|))
  {
    var s := whole + "." + fraction;
    UnsignedPlain(whole, fraction);
    assert s[0] == whole[0] && IsDigit(whole[0]);
    UnsignedParse(s);
  }

  /**
   * A JSON field value as the reader hands it over: a number (the decimal it
   * stands for), any other value by its text (`toString`), or null.
   */
  datatype JsonValue = JNull | JNumber(n: Decimal) | JText(text: string)

  /**
   * `parseBigDecimal`: null stays absent, a number is kept, anything else is
   * trimmed and parsed, and absent when it does not parse.
   */
  function ParseAmount(v: JsonValue): (r: Option<Decimal>)
    ensures v.JNull? ==> r.None?
    ensures v.JNumber? ==> r == Some(v.n)
    ensures v.JText? ==> r == ParseDecimal(Trim(v.text))
  {
    match v
    case JNull => None
    case JNumber(n) => Some(n)
    case JText(text) => ParseDecimal(Trim(text))
  }

  /** Spaces and line breaks around a value are cut off before it is read. */
  lemma TrimSurrounded(pre: string, x: string, post: string)
    requires forall k :: 0 <= k < |pre| ==> Trimmable(pre[k])
    requires forall k :: 0 <= k < |post| ==> Trimmable(post[k])
    requires x != [] && !Trimmable(x[0]) && !Trimmable(x[|x| - 1])
    ensures Trim(pre + x + post) == x
  {
    var s := pre + x + post;
    var r := Trim(s);
    var st := TrimStart(s, 0);
    var n := |pre| + |x|;
    assert s[|pre|] == x[0];
    assert forall k :: 0 <= k < |pre| ==> s[k] == pre[k];
    assert st == |pre|;
    assert s[n - 1] == x[|x| - 1];
    assert st + |r| >= n;
    assert r != [] && r[|r| - 1] == s[st + |r| - 1];
    TrimmableAfter(pre + x, post);
    assert st + |r| == n;
    assert s[|pre|..n] == x;
  }

  /** Whatever follows a string, if trimmable throughout, is trimmable in the joined string. */
  lemma TrimmableAfter(a: string, b: string)
    requires forall k :: 0 <= k < |b| ==> Trimmable(b[k])
    ensures forall k :: |a| <= k < |a + b| ==> Trimmable((a + b)[k])
  {
    forall k | |a| <= k < |a + b| ensures Trimmable((a + b)[k]) {
      assert (a + b)[k] == b[k - |a|];
    }
  }

  /** A number sent as a padded string reads as the number. */
  lemma PaddedTextAmount(d: Decimal)
    ensures ParseAmount(JText(" " + Scientific(d) + "\n")) == Some(d)
  {
    ScientificEnds(d);
    TrimSurrounded(" ", Scientific(d), "\n");
  }

  /** The scientific form starts with a sign or a digit and ends with a digit. */
  lemma ScientificEnds(d: Decimal)
    ensures var x := Scientific(d); x != [] && !Trimmable(x[0]) && !Trimmable(x[|x| - 1])
  {
    IntToStringEnds(d.unscaled);
    IntToStringEnds(-d.scale);
    JoinEnds(IntToString(d.unscaled), IntToString(-d.scale));
  }

  lemma IntToStringEnds(n: int)
    ensures var s := IntToString(n); s != [] && !Trimmable(s[0]) && !Trimmable(s[|s| - 1])
  {
    var t := NatToString(if n >= 0 then n else -n);
    assert IsDigit(t[0]) && IsDigit(t[|t| - 1]);
  }

  lemma JoinEnds(a: string, b: string)
    requires a != [] && b != []
    ensures var s := a + "E" + b; s[0] == a[0] && s[|s| - 1] == b[|b| - 1]
  {
  }
  // ---------------------------------------------------------------------------
  // Dates

  datatype Date = Date(year: int, month: int, day: int)

  predicate LeapYear(y: int)
  {
    y % 4 == 0 && (y % 100 != 0 || y % 400 == 0)
  }

  function DaysInMonth(y: int, m: int): (n: int)
    requires 1 <= m <= 12
    ensures 28 <= n <= 31
    ensures n == 29 <==> m == 2 && LeapYear(y)
  {
    if m == 2 then (if LeapYear(y) then 29 else 28)
    else if m == 4 || m == 6 || m == 9 || m == 11 then 30
    else 31
  }

  /** A day that exists in the proleptic Gregorian calendar. */
  predicate ValidDate(d: Date)
  {
    1 <= d.month <= 12 && 1 <= d.day <= DaysInMonth(d.year, d.month)
  }

  /** `yyyy-MM-dd`, for years written in four digits. */
  function FormatDate(d: Date): (s: string)
    requires 0 <= d.year <= 9999 && 1 <= d.month <= 12 && 1 <= d.day <= 31
    ensures |s| == 10
  {
    assert Pow10(4) == 10000 && Pow10(2) == 100;
    PadDigits(d.year, 4) + "-" + PadDigits(d.month, 2) + "-" + PadDigits(d.day, 2)
  }

  /**
   * `LocalDate.parse` with `ISO_LOCAL_DATE`, for four-digit years: four
   * digits, a dash, two digits, a dash, two digits, naming a real day;
   * `None` is the `DateTimeParseException`.
   */
  function ParseIsoDate(t: string): (r: Option<Date>)
    ensures r.Some? ==> ValidDate(r.value) && 0 <= r.value.year <= 9999
    ensures r.Some? ==> FormatDate(r.value) == t
  {
    if |t| == 10 && t[4] == '-' && t[7] == '-'
       && AllDigits(t[..4]) && AllDigits(t[5..7]) && AllDigits(t[8..]) then
      var d := Date(DigitsValue(t[..4]), DigitsValue(t[5..7]), DigitsValue(t[8..]));
      if ValidDate(d) then
        IsoPieces(t);
        FormatOfDigits(t[..4], t[5..7], t[8..]);
        Some(d)
      else None
    else None
  }

  lemma IsoPieces(t: string)
    requires |t| == 10 && t[4] == '-' && t[7] == '-'
    ensures t == t[..4] + "-" + t[5..7] + "-" + t[8..]
  {
  }

  /** Four, two and two digits, read and written back at their widths, give the same text. */
  lemma FormatOfDigits(y: string, m: string, dd: string)
    requires |y| == 4 && |m| == 2 && |dd| == 2 && AllDigits(y) && AllDigits(m) && AllDigits(dd)
    requires 1 <= DigitsValue(m) <= 12 && 1 <= DigitsValue(dd) <= 31
    ensures DigitsValue(y) <= 9999
    ensures FormatDate(Date(DigitsValue(y), DigitsValue(m), DigitsValue(dd))) == y + "-" + m + "-" + dd
  {
    assert Pow10(4) == 10000 && Pow10(2) == 100;
    PadDigitsOfValue(y);
    PadDigitsOfValue(m);
    PadDigitsOfValue(dd);
  }

  /** `parseDate`: absent for a missing or blank value, otherwise the trimmed value read as an ISO date. */
  function ParseDate(value: Option<string>): (r: Option<Date>)
    ensures NullOrBlank(value) ==> r.None?
    ensures r.Some? ==> ValidDate(r.value) && 0 <= r.value.year <= 9999
    ensures r.Some? ==> FormatDate(r.value) == Trim(value.value)
  {
    if NullOrBlank(value) then None else ParseIsoDate(Trim(value.value))
  }

  /** The written form of a day reads back as that day. */
  lemma FormatDateReadsBack(d: Date)
    requires ValidDate(d) && 0 <= d.year <= 9999
    ensures ParseIsoDate(FormatDate(d)) == Some(d)
  {
    assert Pow10(4) == 10000 && Pow10(2) == 100;
    var y, m, dd := PadDigits(d.year, 4), PadDigits(d.month, 2), PadDigits(d.day, 2);
    var s := FormatDate(d);
    assert s == y + "-" + m + "-" + dd;
    assert s[..4] == y && s[5..7] == m && s[8..] == dd;
  }

  /** Every day of the years 0 to 9999 written as `yyyy-MM-dd` reads back as that day. */
  lemma DateRoundTrip(d: Date)
    requires ValidDate(d) && 0 <= d.year <= 9999
    ensures ParseDate(Some(FormatDate(d))) == Some(d)
  {
    var s := FormatDate(d);
    FormatDateReadsBack(d);
    assert s[0] == PadDigits(d.year, 4)[0] && s[9] == PadDigits(d.day, 2)[1];
    assert IsDigit(s[0]) && IsDigit(s[9]);
    TrimIdentity(s);
  }

  /** The 30th of February never parses. */
  lemma NoThirtiethOfFebruary(y: int)
    ensures !ValidDate(Date(y, 2, 30))
  {
  }

  // ---------------------------------------------------------------------------
  // Extracting the JSON object from the reply

  /**
   * Where the object sits in the trimmed reply: from the first `{` up to and
   * including the last `}`, when some `{` comes before some `}`.
   */
  function ObjectSpan(t: string): (b: Option<(nat, nat)>)
    ensures b.Some? <==> exists i, j :: 0 <= i < j < |t| && t[i] == '{' && t[j] == '}'
    ensures b.Some? ==> b.value.0 < b.value.1 <= |t| && t[b.value.0] == '{' && t[b.value.1 - 1] == '}'
    ensures b.Some? ==> (forall k :: 0 <= k < b.value.0 ==> t[k] != '{')
                        && (forall k :: b.value.1 <= k < |t| ==> t[k] != '}')
  {
    var s := IndexOf(t, '{');
    var e := LastIndexOf(t, '}');
    if s >= 0 && e > s then Some((s as nat, (e + 1) as nat)) else None
  }

  /**
   * `extractJsonFromResponse`: the reply is trimmed, and cut down to the span
   * from its first `{` to its last `}` when there is one; otherwise the
   * trimmed reply is handed on as it is, for the reader to reject.
   */
  function ExtractJson(response: string): (r: string)
    ensures var t := Trim(response);
            ObjectSpan(t).None? ==> r == t
    ensures var t := Trim(response);
            var b := ObjectSpan(t);
            b.Some? ==> |r| >= 2 && r[0] == '{' && r[|r| - 1] == '}' && r == t[b.value.0..b.value.1]
    ensures r == [] || (!Trimmable(r[0]) && !Trimmable(r[|r| - 1]))
  {
    CutObject(Trim(response))
  }

  /** The object cut out of an already trimmed reply, or the reply itself when it holds none. */
  function CutObject(t: string): (r: string)
    requires t == [] || (!Trimmable(t[0]) && !Trimmable(t[|t| - 1]))
    ensures ObjectSpan(t).None? ==> r == t
    ensures var b := ObjectSpan(t);
            b.Some? ==> |r| >= 2 && r[0] == '{' && r[|r| - 1] == '}' && r == t[b.value.0..b.value.1]
    ensures r == [] || (!Trimmable(r[0]) && !Trimmable(r[|r| - 1]))
  {
    var b := ObjectSpan(t);
    if b.None? then t else t[b.value.0..b.value.1]
  }

  /** Extracting again from what was extracted changes nothing. */
  lemma ExtractJsonIdempotent(response: string)
    ensures ExtractJson(ExtractJson(response)) == ExtractJson(response)
  {
    var r := ExtractJson(response);
    TrimIdentity(r);
    if ObjectSpan(Trim(response)).Some? {
      assert r[0] == '{' && r[|r| - 1] == '}';
      assert 0 < |r| - 1;
      var b := ObjectSpan(r);
      assert b.Some?;
      assert b.value.0 == 0;
      assert b.value.1 == |r|;
      assert r[0..|r|] == r;
    }
  }

  // ---------------------------------------------------------------------------
  // The parse

  /** What the JSON reader makes of the object: amounts of any JSON type, the rest as strings. */
  datatype ParsedInvoice = ParsedInvoice(netAmount: JsonValue, vatAmount: JsonValue, vatRate: JsonValue,
                                         grossAmount: JsonValue, invoiceDate: Option<string>,
                                         invoiceReference: Option<string>, currency: Option<string>)

  datatype ExtractedInvoiceData = ExtractedInvoiceData(netAmount: Option<Decimal>, vatAmount: Option<Decimal>,
                                                       vatRate: Option<Decimal>, grossAmount: Option<Decimal>,
                                                       invoiceDate: Option<Date>, invoiceReference: Option<string>,
                                                       currency: Option<string>)

  /** `ExtractedInvoiceData.empty()`: nothing found. */
  const NoData := ExtractedInvoiceData(None, None, None, None, None, None, None)

  /**
   * `parseResponse` after the reader: each amount converted on its own, the
   * date parsed, the reference copied, and the configured currency when the
   * reply named none.
   */
  function FromParsed(p: ParsedInvoice, defaultCurrency: string): (d: ExtractedInvoiceData)
    ensures d.currency.Some?
    ensures p.currency.Some? ==> d.currency == p.currency
    ensures p.currency.None? ==> d.currency == Some(defaultCurrency)
    ensures d.invoiceReference == p.invoiceReference
    ensures d.netAmount == ParseAmount(p.netAmount) && d.vatAmount == ParseAmount(p.vatAmount)
    ensures d.vatRate == ParseAmount(p.vatRate) && d.grossAmount == ParseAmount(p.grossAmount)
    ensures d.invoiceDate == ParseDate(p.invoiceDate)
  {
    ExtractedInvoiceData(ParseAmount(p.netAmount), ParseAmount(p.vatAmount), ParseAmount(p.vatRate),
                         ParseAmount(p.grossAmount), ParseDate(p.invoiceDate), p.invoiceReference,
                         if p.currency.Some? then p.currency else Some(defaultCurrency))
  }

  /**
   * `parse`: blank text gives the empty result without asking the model; a
   * failed call or a reply the reader cannot read gives the empty result too.
   * `reply` is the model's answer for this text and `read` the JSON reader.
   */
  function ParseInvoice(rawText: Option<string>, reply: Option<string>,
                        read: string -> Option<ParsedInvoice>, defaultCurrency: string)
    : (d: ExtractedInvoiceData)
    ensures NullOrBlank(rawText) ==> d == NoData
    ensures reply.None? ==> d == NoData
    ensures d.currency.Some? <==> !NullOrBlank(rawText) && reply.Some? && read(ExtractJson(reply.value)).Some?
    ensures d.currency.Some? ==> d == FromParsed(read(ExtractJson(reply.value)).value, defaultCurrency)
  {
    if NullOrBlank(rawText) then NoData
    else match reply
      case None => NoData
      case Some(response) =>
        match read(ExtractJson(response))
        case None => NoData
        case Some(p) => FromParsed(p, defaultCurrency)
  }

  /** For blank text the model's reply is never looked at. */
  lemma BlankTextIgnoresReply(rawText: Option<string>, a: Option<string>, b: Option<string>,
                              read: string -> Option<ParsedInvoice>, defaultCurrency: string)
    requires NullOrBlank(rawText)
    ensures ParseInvoice(rawText, a, read, defaultCurrency) == ParseInvoice(rawText, b, read, defaultCurrency)
  {
  }

  /** A reply that names no currency gets the configured one, the other fields unaffected. */
  lemma MissingCurrencyDefaults(p: ParsedInvoice, defaultCurrency: string)
    requires p.currency.None?
    ensures FromParsed(p, defaultCurrency) == FromParsed(p.(currency := Some(defaultCurrency)), defaultCurrency)
  {
  }
}

=== FILE: ledger.dfy ===
/**
 * The inventory movement ledger. Every change of stock is a movement of a
 * positive quantity of one production run from one location to another;
 * a location is the warehouse, a distributor (with its id) or the outside
 * world. Balances are not stored: a location's balance is what went into it
 * minus what came out of it.
 *
 * Movements are kept in the order they were recorded; the repository returns
 * a run's movements newest first, which here is the reverse of that order
 * (the clock is assumed not to run backwards).
 */
module Ledger {
  import opened Common

  datatype LocationType = Warehouse | Distributor | External

  datatype MovementType = Allocation | Sale | Return

  datatype Movement = Movement(productionRunId: int,
                               fromType: LocationType, fromId: Option<int>,
                               toType: LocationType, toId: Option<int>,
                               quantity: int, movementType: MovementType,
                               occurredAt: int, referenceId: Option<int>)

  /** The run's movements, newest first. */
  function MovementsFor(ledger: seq<Movement>, run: int): (ms: seq<Movement>)
    ensures forall m :: m in ms <==> m in ledger && m.productionRunId == run
    ensures |ms| <= |ledger|
  {
    if ledger == [] then []
    else
      var last := ledger[|ledger| - 1];
      var rest := MovementsFor(ledger[..|ledger| - 1], run);
      assert forall m :: m in ledger <==> m in ledger[..|ledger| - 1] || m == last;
      if last.productionRunId == run then [last] + rest else rest
  }

  /** A null expected id (the warehouse query) matches any id; otherwise the ids must be equal. */
  predicate LocationIdMatches(actual: Option<int>, expected: Option<int>)
  {
    expected.None? || expected == actual
  }

  predicate GoesTo(m: Movement, t: LocationType, id: Option<int>)
  {
    m.toType == t && LocationIdMatches(m.toId, id)
  }

  predicate ComesFrom(m: Movement, t: LocationType, id: Option<int>)
  {
    m.fromType == t && LocationIdMatches(m.fromId, id)
  }

  /** `sumQuantityTo`. */
  function SumTo(ms: seq<Movement>, t: LocationType, id: Option<int>): int
  {
    if ms == [] then 0
    else (if GoesTo(ms[0], t, id) then ms[0].quantity else 0) + SumTo(ms[1..], t, id)
  }

  /** `sumQuantityFrom`. */
  function SumFrom(ms: seq<Movement>, t: LocationType, id: Option<int>): int
  {
    if ms == [] then 0
    else (if ComesFrom(ms[0], t, id) then ms[0].quantity else 0) + SumFrom(ms[1..], t, id)
  }

  /** Inbound minus outbound at one location. */
  function Balance(ms: seq<Movement>, t: LocationType, id: Option<int>): int
  {
    SumTo(ms, t, id) - SumFrom(ms, t, id)
  }

  /** `getCurrentInventory(productionRunId, distributorId)`. */
  function CurrentInventory(ledger: seq<Movement>, run: int, distributor: int): int
  {
    Balance(MovementsFor(ledger, run), Distributor, Some(distributor))
  }

  /** `getWarehouseInventory(productionRunId)`: the id is not looked at. */
  function WarehouseInventory(ledger: seq<Movement>, run: int): int
  {
    Balance(MovementsFor(ledger, run), Warehouse, None)
  }

  /** The non-null distributor ids a movement mentions on either side. */
  function DistributorIdsOf(m: Movement): set<int>
  {
    (if m.fromType == Distributor && m.fromId.Some? then {m.fromId.value} else {})
    + (if m.toType == Distributor && m.toId.Some? then {m.toId.value} else {})
  }

  /** Every distributor id that appears on either side of some movement. */
  function DistributorIds(ms: seq<Movement>): set<int>
  {
    set k, id | 0 <= k < |ms| && id in DistributorIdsOf(ms[k]) :: id
  }

  /** `getCurrentInventoryByDistributor(productionRunId)`: the distributors with positive stock. */
  function InventoryByDistributor(ledger: seq<Movement>, run: int): (r: map<int, int>)
    ensures forall id :: id in r <==> id in DistributorIds(MovementsFor(ledger, run)) && CurrentInventory(ledger, run, id) > 0
    ensures forall id :: id in r ==> r[id] == CurrentInventory(ledger, run, id)
  {
    var ms := MovementsFor(ledger, run);
    map id | id in DistributorIds(ms) && Balance(ms, Distributor, Some(id)) > 0 :: Balance(ms, Distributor, Some(id))
  }

  // ---------------------------------------------------------------------------
  // Sums and the order of the movements

  lemma {:induction false} SumAppend(a: seq<Movement>, b: seq<Movement>, t: LocationType, id: Option<int>)
    ensures SumTo(a + b, t, id) == SumTo(a, t, id) + SumTo(b, t, id)
    ensures SumFrom(a + b, t, id) == SumFrom(a, t, id) + SumFrom(b, t, id)
    decreases |a|
  {
    if a == [] {
      assert a + b == b;
    } else {
      assert (a + b)[0] == a[0] && (a + b)[1..] == a[1..] + b;
      SumAppend(a[1..], b, t, id);
    }
  }

  lemma SumSingle(m: Movement, t: LocationType, id: Option<int>)
    ensures SumTo([m], t, id) == if GoesTo(m, t, id) then m.quantity else 0
    ensures SumFrom([m], t, id) == if ComesFrom(m, t, id) then m.quantity else 0
  {
    assert [m][1..] == [];
  }

  /** Recording a movement of another run leaves this run's movements alone; one of this run comes first. */
  lemma MovementsForAppend(ledger: seq<Movement>, m: Movement, run: int)
    ensures MovementsFor(ledger + [m], run) ==
              (if m.productionRunId == run then [m] else []) + MovementsFor(ledger, run)
  {
    assert (ledger + [m])[..|ledger + [m]| - 1] == ledger;
  }

  /** A movement's effect on a balance: what it brings in minus what it takes out. */
  function Effect(m: Movement, t: LocationType, id: Option<int>): int
  {
    (if GoesTo(m, t, id) then m.quantity else 0) - (if ComesFrom(m, t, id) then m.quantity else 0)
  }

  /** Recording one movement changes a balance of its run by that movement's effect and no other run's. */
  lemma BalanceAfterRecord(ledger: seq<Movement>, m: Movement, run: int, t: LocationType, id: Option<int>)
    ensures Balance(MovementsFor(ledger + [m], run), t, id)
            == Balance(MovementsFor(ledger, run), t, id) + (if m.productionRunId == run then Effect(m, t, id) else 0)
  {
    MovementsForAppend(ledger, m, run);
    if m.productionRunId == run {
      SumAppend([m], MovementsFor(ledger, run), t, id);
      SumSingle(m, t, id);
    } else {
      assert [] + MovementsFor(ledger, run) == MovementsFor(ledger, run);
    }
  }

  /** The three movements the command interface documents. */
  function AllocationMovement(run: int, distributor: int, q: int, at: int, ref: Option<int>): Movement
  {
    Movement(run, Warehouse, None, Distributor, Some(distributor), q, Allocation, at, ref)
  }

  function SaleMovement(run: int, distributor: int, q: int, at: int, ref: Option<int>): Movement
  {
    Movement(run, Distributor, Some(distributor), External, None, q, Sale, at, ref)
  }

  function ReturnMovement(run: int, distributor: int, q: int, at: int, ref: Option<int>): Movement
  {
    Movement(run, Distributor, Some(distributor), Warehouse, None, q, Return, at, ref)
  }

  /**
   * A sale of `q` by distributor `d` lowers d's stock by `q`, leaves every
   * other distributor's stock and the warehouse as they were.
   */
  lemma SaleLowersDistributorStock(ledger: seq<Movement>, run: int, d: int, q: int, at: int, ref: Option<int>, other: int)
    requires other != d
    ensures var l' := ledger + [SaleMovement(run, d, q, at, ref)];
            CurrentInventory(l', run, d) == CurrentInventory(ledger, run, d) - q
            && CurrentInventory(l', run, other) == CurrentInventory(ledger, run, other)
            && WarehouseInventory(l', run) == WarehouseInventory(ledger, run)
  {
    var m := SaleMovement(run, d, q, at, ref);
    BalanceAfterRecord(ledger, m, run, Distributor, Some(d));
    BalanceAfterRecord(ledger, m, run, Distributor, Some(other));
    BalanceAfterRecord(ledger, m, run, Warehouse, None);
  }

  /** An allocation moves `q` from the warehouse to the distributor. */
  lemma AllocationMovesStock(ledger: seq<Movement>, run: int, d: int, q: int, at: int, ref: Option<int>)
    ensures var l' := ledger + [AllocationMovement(run, d, q, at, ref)];
            CurrentInventory(l', run, d) == CurrentInventory(ledger, run, d) + q
            && WarehouseInventory(l', run) == WarehouseInventory(ledger, run) - q
  {
    var m := AllocationMovement(run, d, q, at, ref);
    BalanceAfterRecord(ledger, m, run, Distributor, Some(d));
    BalanceAfterRecord(ledger, m, run, Warehouse, None);
  }

  /** A return moves `q` from the distributor back to the warehouse. */
  lemma ReturnMovesStock(ledger: seq<Movement>, run: int, d: int, q: int, at: int, ref: Option<int>)
    ensures var l' := ledger + [ReturnMovement(run, d, q, at, ref)];
            CurrentInventory(l', run, d) == CurrentInventory(ledger, run, d) - q
            && WarehouseInventory(l', run) == WarehouseInventory(ledger, run) + q
  {
    var m := ReturnMovement(run, d, q, at, ref);
    BalanceAfterRecord(ledger, m, run, Distributor, Some(d));
    BalanceAfterRecord(ledger, m, run, Warehouse, None);
  }

  /** With no warehouse intake recorded, a single allocation leaves the warehouse at `-q`; every balance of an empty ledger is 0. */
  lemma WarehouseAfterOnlyAllocation(run: int, d: int, q: int, at: int, ref: Option<int>)
    ensures WarehouseInventory([], run) == 0 && CurrentInventory([], run, d) == 0
    ensures WarehouseInventory([AllocationMovement(run, d, q, at, ref)], run) == -q
  {
    AllocationMovesStock([], run, d, q, at, ref);
  }

  // ---------------------------------------------------------------------------
  // Deleting by reference

  predicate References(m: Movement, t: MovementType, ref: int)
  {
    m.movementType == t && m.referenceId == Some(ref)
  }

  /** The ledger without the movements of type `t` that reference `ref`. */
  function WithoutReference(ledger: seq<Movement>, t: MovementType, ref: int): seq<Movement>
  {
    if ledger == [] then []
    else (if References(ledger[0], t, ref) then [] else [ledger[0]]) + WithoutReference(ledger[1..], t, ref)
  }

  /** Exactly the movements of that type with that reference are dropped. */
  lemma {:induction false} WithoutReferenceMembers(ledger: seq<Movement>, t: MovementType, ref: int)
    ensures forall m :: m in WithoutReference(ledger, t, ref) <==> m in ledger && !References(m, t, ref)
    decreases |ledger|
  {
    if ledger != [] {
      WithoutReferenceMembers(ledger[1..], t, ref);
      assert forall m :: m in ledger <==> m == ledger[0] || m in ledger[1..];
    }
  }

  lemma {:induction false} WithoutReferenceAppend(a: seq<Movement>, b: seq<Movement>, t: MovementType, ref: int)
    ensures WithoutReference(a + b, t, ref) == WithoutReference(a, t, ref) + WithoutReference(b, t, ref)
    decreases |a|
  {
    if a == [] {
      assert a + b == b;
    } else {
      assert (a + b)[0] == a[0] && (a + b)[1..] == a[1..] + b;
      WithoutReferenceAppend(a[1..], b, t, ref);
      var head := if References(a[0], t, ref) then [] else [a[0]];
      AppendAssociative(head, WithoutReference(a[1..], t, ref), WithoutReference(b, t, ref));
    }
  }

  lemma {:induction false} WithoutAbsentReference(ledger: seq<Movement>, t: MovementType, ref: int)
    requires forall k :: 0 <= k < |ledger| ==> !References(ledger[k], t, ref)
    ensures WithoutReference(ledger, t, ref) == ledger
    decreases |ledger|
  {
    if ledger != [] {
      WithoutAbsentReference(ledger[1..], t, ref);
    }
  }

  lemma {:induction false} WithoutAllReferencing(ms: seq<Movement>, t: MovementType, ref: int)
    requires forall k :: 0 <= k < |ms| ==> References(ms[k], t, ref)
    ensures WithoutReference(ms, t, ref) == []
    decreases |ms|
  {
    if ms != [] {
      WithoutAllReferencing(ms[1..], t, ref);
    }
  }

  /**
   * Deleting a record's movements undoes exactly what recording them did:
   * if none of the earlier movements carries the reference and all the later
   * ones do, the ledger, and so every balance, is back to what it was.
   */
  lemma DeleteRestoresLedger(ledger: seq<Movement>, recorded: seq<Movement>, t: MovementType, ref: int)
    requires forall k :: 0 <= k < |ledger| ==> !References(ledger[k], t, ref)
    requires forall k :: 0 <= k < |recorded| ==> References(recorded[k], t, ref)
    ensures WithoutReference(ledger + recorded, t, ref) == ledger
    ensures forall run, d :: CurrentInventory(WithoutReference(ledger + recorded, t, ref), run, d)
                             == CurrentInventory(ledger, run, d)
  {
    WithoutReferenceAppend(ledger, recorded, t, ref);
    WithoutAbsentReference(ledger, t, ref);
    WithoutAllReferencing(recorded, t, ref);
    assert ledger + [] == ledger;
  }

  // ---------------------------------------------------------------------------
  // The older signed layout

  /**
   * The movement layout written by the allocation use cases and by sale
   * registration through the five-argument `recordMovement`: one distributor
   * and a signed quantity, positive into the distributor and negative out of it.
   */
  datatype LegacyMovement = LegacyMovement(productionRunId: int, distributorId: int, quantityDelta: int,
                                           movementType: MovementType, occurredAt: int, referenceId: Option<int>)

  /** The net change the signed movements record for one run at one distributor. */
  function NetDelta(ms: seq<LegacyMovement>, run: int, distributor: int): int
  {
    if ms == [] then 0
    else NetDelta(ms[..|ms| - 1], run, distributor)
         + (var m := ms[|ms| - 1]; if m.productionRunId == run && m.distributorId == distributor then m.quantityDelta else 0)
  }

  /** The movement store behind the five-argument interface and the movement repository. */
  class LegacyMovementStore {
    var movements: seq<LegacyMovement>

    constructor Empty()
      ensures movements == []
    {
      movements := [];
    }

    /** `save(movementEntity)` / `recordMovement(run, distributor, delta, type, reference)` at time `now`. */
    method RecordMovement(run: int, distributor: int, delta: int, movementType: MovementType,
                          referenceId: Option<int>, now: int)
      modifies this
      ensures movements == old(movements) + [LegacyMovement(run, distributor, delta, movementType, now, referenceId)]
      ensures NetDelta(movements, run, distributor) == NetDelta(old(movements), run, distributor) + delta
    {
      movements := movements + [LegacyMovement(run, distributor, delta, movementType, now, referenceId)];
      assert movements[..|movements| - 1] == old(movements);
    }
  }

  /** The movement store behind the command interface. */
  class MovementStore {
    var movements: seq<Movement>

    constructor Empty()
      ensures movements == []
    {
      movements := [];
    }

    /**
     * `recordMovement(...)` / `RecordMovementUseCase.execute`: appends one
     * movement carrying the arguments and the current time `now`; neither
     * the sign of the quantity nor the pairing of location types and ids is
     * checked.
     */
    method RecordMovement(run: int, fromType: LocationType, fromId: Option<int>,
                          toType: LocationType, toId: Option<int>, quantity: int,
                          movementType: MovementType, referenceId: Option<int>, now: int)
      modifies this
      ensures movements == old(movements) + [Movement(run, fromType, fromId, toType, toId, quantity, movementType, now, referenceId)]
    {
      movements := movements + [Movement(run, fromType, fromId, toType, toId, quantity, movementType, now, referenceId)];
    }

    /** `deleteMovementsByReference(movementType, referenceId)`: every such movement goes, nothing else. */
    method DeleteMovementsByReference(movementType: MovementType, referenceId: int)
      modifies this
      ensures movements == WithoutReference(old(movements), movementType, referenceId)
    {
      movements := WithoutReference(movements, movementType, referenceId);
    }
  }
}

=== FILE: line_item_rows.dfy ===
/**
 * The row model shared by the sale form and the return form: each line item
 * is a card in the `lineItemsContainer` holding selects and number inputs
 * whose `name` is `lineItems[i].field` and whose `id` is `lineItemsi.field`,
 * an ordinal label and a remove button. Only these attributes, the option
 * lists and the element identity of each card are modelled; markup and styling
 * are not.
 *
 * The functions here are the pure parts of the two scripts: the row template,
 * the attribute rewriting of `reindexLineItems` for one row, and the ordinal and
 * button refresh of `updateItemNumbers` for one row. The whole-container
 * versions (`Reindexed`, `Numbered`) specify the loops in the form classes.
 */
module LineItemRows {
  import opened Common
  import opened FormNames
  import opened Escaping

  const Head := "lineItems"
  const MinimumRowsMessage := "At least one line item is required"

  datatype Release = Release(id: nat, name: string)

  /** An `<option>` element: its `value` attribute and its inner HTML. */
  datatype OptionElement = OptionElement(value: string, html: string)

  /** A select or number input of a row. */
  datatype Field = Field(name: string, id: string)

  /**
   * One `.line-item` card. `element` is the identity of the DOM node, so that
   * the order of the survivors of a removal can be stated.
   */
  datatype Row = Row(element: nat, fields: seq<Field>, ordinal: string, removeShown: bool,
                     releaseOptions: seq<OptionElement>, formatOptions: seq<OptionElement>)

  /** Release names go through `escapeHtml`; the id is the option value. */
  function ReleaseOptions(releases: seq<Release>): (r: seq<OptionElement>)
    ensures |r| == |releases|
    ensures forall i :: 0 <= i < |r| ==> r[i].value == NatToString(releases[i].id)
    ensures forall i :: 0 <= i < |r| ==> '<' !in r[i].html && DecodeEntities(r[i].html) == releases[i].name
  {
    forall i | 0 <= i < |releases| ensures '<' !in EscapeHtml(releases[i].name) && DecodeEntities(EscapeHtml(releases[i].name)) == releases[i].name {
      EscapeHtmlHasNoAngleBrackets(releases[i].name);
      DecodeEscapeHtml(releases[i].name);
    }
    seq(|releases|, i requires 0 <= i < |releases| => OptionElement(NatToString(releases[i].id), EscapeHtml(releases[i].name)))
  }

  /** Format names are interpolated verbatim, as value and as text. */
  function FormatOptions(formats: seq<string>): (r: seq<OptionElement>)
    ensures |r| == |formats|
    ensures forall i :: 0 <= i < |r| ==> r[i].value == formats[i] && r[i].html == formats[i]
  {
    seq(|formats|, i requires 0 <= i < |formats| => OptionElement(formats[i], formats[i]))
  }

  /** The id `lineItems<index>.<field>` the template and the reindexing give a field. */
  function FieldId(index: nat, field: string): string
  {
    Head + NatToString(index) + "." + field
  }

  /** The fields of the row at `index`, one per field name, in template order. */
  function FieldsAt(index: nat, names: seq<string>): (fs: seq<Field>)
    ensures |fs| == |names|
    ensures forall k :: 0 <= k < |fs| ==> fs[k].name == IndexedName(Head, index, names[k])
  {
    seq(|names|, k requires 0 <= k < |names| => Field(IndexedName(Head, index, names[k]), FieldId(index, names[k])))
  }

  /** `createLineItemHTML(index)` for the given field list, placed in a fresh element. */
  function CreateLineItem(element: nat, index: nat, names: seq<string>,
                          releases: seq<Release>, formats: seq<string>): (row: Row)
    ensures row.fields == FieldsAt(index, names)
    ensures row.ordinal == NatToString(index + 1) && row.removeShown
  {
    Row(element, FieldsAt(index, names), NatToString(index + 1), true,
        ReleaseOptions(releases), FormatOptions(formats))
  }

  // ---------------------------------------------------------------------------
  // reindexLineItems, one row at a time

  /** A field with a (truthy) name gets the row position in its name and a rebuilt id. */
  function ReindexField(f: Field, index: nat): Field
  {
    if f.name == [] then f
    else Field(ReplaceIndex(f.name, "", index), Head + NatToString(index) + "." + FieldSuffix(f.name))
  }

  function ReindexRow(row: Row, index: nat): (r: Row)
    ensures r.element == row.element && |r.fields| == |row.fields|
    ensures r.ordinal == row.ordinal && r.removeShown == row.removeShown
    ensures r.releaseOptions == row.releaseOptions && r.formatOptions == row.formatOptions
  {
    row.(fields := seq(|row.fields|, k requires 0 <= k < |row.fields| => ReindexField(row.fields[k], index)))
  }

  /** What the reindexing loop computes for the whole container. */
  function Reindexed(rows: seq<Row>): (r: seq<Row>)
    ensures |r| == |rows|
  {
    seq(|rows|, i requires 0 <= i < |rows| => ReindexRow(rows[i], i))
  }

  // ---------------------------------------------------------------------------
  // updateItemNumbers, one row at a time

  /** Row `index` shows ordinal `index + 1`; only the first row's remove button is hidden. */
  function NumberRow(row: Row, index: nat): Row
  {
    row.(ordinal := NatToString(index + 1), removeShown := index != 0)
  }

  function Numbered(rows: seq<Row>): (r: seq<Row>)
    ensures |r| == |rows|
  {
    seq(|rows|, i requires 0 <= i < |rows| => NumberRow(rows[i], i))
  }

  // ---------------------------------------------------------------------------
  // The container invariant

  predicate AreFieldNames(names: seq<string>)
  {
    forall k :: 0 <= k < |names| ==> IsFieldName(names[k])
  }

  /** Row `index` of a well-formed container. */
  predicate RowAt(row: Row, index: nat, names: seq<string>,
                  releaseOptions: seq<OptionElement>, formatOptions: seq<OptionElement>)
  {
    row.fields == FieldsAt(index, names)
    && row.ordinal == NatToString(index + 1) && row.removeShown == (index != 0)
    && row.releaseOptions == releaseOptions && row.formatOptions == formatOptions
  }

  /** Rows sit at positions 0..n-1 and their elements are in creation order. */
  predicate Contiguous(rows: seq<Row>, names: seq<string>,
                       releaseOptions: seq<OptionElement>, formatOptions: seq<OptionElement>)
  {
    (forall i :: 0 <= i < |rows| ==> RowAt(rows[i], i, names, releaseOptions, formatOptions))
    && (forall i, j :: 0 <= i < j < |rows| ==> rows[i].element < rows[j].element)
  }

  /**
   * Cards already in the container when a form is initialised (the server
   * renders them): each carries the fields and options of its position, and
   * they are in creation order. Their ordinals and buttons are whatever the
   * page shows until `updateItemNumbers` runs.
   */
  predicate PlacedRows(rows: seq<Row>, names: seq<string>,
                       releaseOptions: seq<OptionElement>, formatOptions: seq<OptionElement>)
  {
    (forall i :: 0 <= i < |rows| ==>
       rows[i].fields == FieldsAt(i, names)
       && rows[i].releaseOptions == releaseOptions && rows[i].formatOptions == formatOptions)
    && (forall i, j :: 0 <= i < j < |rows| ==> rows[i].element < rows[j].element)
  }

  /** An element identity above every card's, for the next card the page creates. */
  function FreshElement(rows: seq<Row>): (n: nat)
    ensures forall i :: 0 <= i < |rows| ==> rows[i].element < n
  {
    if rows == [] then 0
    else
      var m := FreshElement(rows[..|rows| - 1]);
      assert forall i :: 0 <= i < |rows| - 1 ==> rows[..|rows| - 1][i] == rows[i];
      if rows[|rows| - 1].element < m then m else rows[|rows| - 1].element + 1
  }

  /**
   * Renumbering a container gives a well-formed one exactly when its cards were
   * placed at their positions; it keeps the cards and their order, and leaves a
   * well-formed container as it is.
   */
  lemma NumberingPlacedRows(rows: seq<Row>, names: seq<string>,
                            ro: seq<OptionElement>, fo: seq<OptionElement>)
    ensures Contiguous(Numbered(rows), names, ro, fo) <==> PlacedRows(rows, names, ro, fo)
    ensures Elements(Numbered(rows)) == Elements(rows)
    ensures Contiguous(rows, names, ro, fo) ==> Numbered(rows) == rows
  {
    var out := Numbered(rows);
    if Contiguous(out, names, ro, fo) {
      forall i | 0 <= i < |rows|
        ensures rows[i].fields == FieldsAt(i, names) && rows[i].releaseOptions == ro && rows[i].formatOptions == fo
      {
        assert RowAt(out[i], i, names, ro, fo);
      }
    }
    if PlacedRows(rows, names, ro, fo) {
      forall i | 0 <= i < |rows| ensures RowAt(out[i], i, names, ro, fo) {
      }
    }
    assert Elements(out) == Elements(rows);
    if Contiguous(rows, names, ro, fo) {
      forall i | 0 <= i < |rows| ensures out[i] == rows[i] {
        assert RowAt(rows[i], i, names, ro, fo);
      }
    }
  }

  function Elements(rows: seq<Row>): (es: seq<nat>)
    ensures |es| == |rows| && forall i :: 0 <= i < |rows| ==> es[i] == rows[i].element
  {
    seq(|rows|, i requires 0 <= i < |rows| => rows[i].element)
  }

  /** Reindexing the fields of a row built for position `j` gives the fields for position `k`. */
  lemma ReindexFieldsAt(j: nat, k: nat, names: seq<string>)
    requires AreFieldNames(names)
    ensures seq(|names|, i requires 0 <= i < |names| => ReindexField(FieldsAt(j, names)[i], k)) == FieldsAt(k, names)
  {
    forall i | 0 <= i < |names|
      ensures ReindexField(FieldsAt(j, names)[i], k) == FieldsAt(k, names)[i]
    {
      ReindexBracketName(Head, j, names[i], k);
      SuffixOfIndexedName(Head, j, names[i]);
    }
  }

  /**
   * After a removal the survivors still carry the fields of their old
   * positions; reindexing and renumbering put every row back at its new
   * position, in the original order.
   */
  lemma {:induction false} RemovalRestoresContiguity(rows: seq<Row>, pos: nat, names: seq<string>,
                                                    ro: seq<OptionElement>, fo: seq<OptionElement>)
    requires AreFieldNames(names) && Contiguous(rows, names, ro, fo) && pos < |rows|
    ensures var rest := rows[..pos] + rows[pos + 1..];
            Contiguous(Numbered(Reindexed(rest)), names, ro, fo)
            && Elements(Numbered(Reindexed(rest))) == Elements(rows)[..pos] + Elements(rows)[pos + 1..]
  {
    var rest := rows[..pos] + rows[pos + 1..];
    var out := Numbered(Reindexed(rest));
    forall i | 0 <= i < |rest| ensures RowAt(out[i], i, names, ro, fo) {
      var j := if i < pos then i else i + 1;
      assert rest[i] == rows[j];
      ReindexFieldsAt(j, i, names);
    }
    assert Elements(out) == Elements(rows)[..pos] + Elements(rows)[pos + 1..];
  }

  /** On a well-formed container reindexing changes nothing; so applying it twice is applying it once. */
  lemma ReindexContiguousIsIdentity(rows: seq<Row>, names: seq<string>,
                                    ro: seq<OptionElement>, fo: seq<OptionElement>)
    requires AreFieldNames(names) && Contiguous(rows, names, ro, fo)
    ensures Reindexed(rows) == rows
  {
    forall i | 0 <= i < |rows| ensures Reindexed(rows)[i] == rows[i] {
      ReindexFieldsAt(i, i, names);
    }
  }

  lemma ReindexIdempotent(rows: seq<Row>, names: seq<string>,
                          ro: seq<OptionElement>, fo: seq<OptionElement>)
    requires AreFieldNames(names) && (forall i :: 0 <= i < |rows| ==> exists j: nat :: rows[i].fields == FieldsAt(j, names))
    ensures Reindexed(Reindexed(rows)) == Reindexed(rows)
  {
    var once := Reindexed(rows);
    forall i | 0 <= i < |rows| ensures once[i].fields == FieldsAt(i, names) {
      var j: nat :| rows[i].fields == FieldsAt(j, names);
      ReindexFieldsAt(j, i, names);
    }
    forall i | 0 <= i < |rows| ensures Reindexed(once)[i] == once[i] {
      ReindexFieldsAt(i, i, names);
    }
  }

  /** Appending a fresh row at index n keeps the container well-formed. */
  lemma AppendKeepsContiguity(rows: seq<Row>, row: Row, names: seq<string>,
                              ro: seq<OptionElement>, fo: seq<OptionElement>)
    requires Contiguous(rows, names, ro, fo)
    requires row.fields == FieldsAt(|rows|, names) && row.releaseOptions == ro && row.formatOptions == fo
    requires forall i :: 0 <= i < |rows| ==> rows[i].element < row.element
    ensures var out := Numbered(rows + [row]);
            Contiguous(out, names, ro, fo)
            && out[..|rows|] == rows
            && Elements(out) == Elements(rows) + [row.element]
  {
    var out := Numbered(rows + [row]);
    forall i | 0 <= i < |rows| ensures out[i] == rows[i] {
      assert (rows + [row])[i] == rows[i];
      assert RowAt(rows[i], i, names, ro, fo);
    }
    assert RowAt(out[|rows|], |rows|, names, ro, fo);
    assert out[..|rows|] == rows;
    assert Elements(out) == Elements(rows) + [row.element];
  }
}

=== FILE: production_runs.dfy ===
/**
 * Queries over the production runs of releases: a production run is one
 * manufacturing batch of a release in one format. The repository is the
 * sequence of stored runs; ids are unique in it.
 */
module ProductionRuns {
  import opened Common

  datatype ProductionRun = ProductionRun(id: int, releaseId: int, format: string,
                                         manufacturingDate: int, quantity: int)

  /** The two failures of `validateQuantityIsAvailable` and of the allocation use cases. */
  datatype RunError =
    | RunNotFound(productionRunId: int)
    | InsufficientInventory(requested: int, available: int)

  predicate UniqueIds(runs: seq<ProductionRun>)
  {
    forall i, j :: 0 <= i < j < |runs| ==> runs[i].id != runs[j].id
  }

  /** `findById`. */
  function FindById(runs: seq<ProductionRun>, id: int): (r: Option<ProductionRun>)
    ensures r.Some? ==> r.value in runs && r.value.id == id
    ensures r.None? <==> forall k :: 0 <= k < |runs| ==> runs[k].id != id
  {
    if runs == [] then None
    else if runs[0].id == id then Some(runs[0])
    else FindById(runs[1..], id)
  }

  /** `findByReleaseId`: the release's runs in repository order. */
  function FindByReleaseId(runs: seq<ProductionRun>, release: int): (rs: seq<ProductionRun>)
    ensures forall r :: r in rs <==> r in runs && r.releaseId == release
  {
    if runs == [] then []
    else (if runs[0].releaseId == release then [runs[0]] else []) + FindByReleaseId(runs[1..], release)
  }

  predicate Matches(r: ProductionRun, release: int, format: string)
  {
    r.releaseId == release && r.format == format
  }

  /**
   * `findMostRecent(releaseId, format)`: a run of that release and format with
   * the latest manufacturing date, or none when the release has no run in
   * that format. Among runs of equal date the earliest stored one is taken.
   */
  function FindMostRecent(runs: seq<ProductionRun>, release: int, format: string): (r: Option<ProductionRun>)
    ensures r.None? <==> forall k :: 0 <= k < |runs| ==> !Matches(runs[k], release, format)
    ensures r.Some? ==> r.value in runs && Matches(r.value, release, format)
    ensures r.Some? ==> forall k :: 0 <= k < |runs| && Matches(runs[k], release, format) ==>
                          runs[k].manufacturingDate <= r.value.manufacturingDate
  {
    if runs == [] then None
    else
      var rest := FindMostRecent(runs[1..], release, format);
      assert forall k :: 1 <= k < |runs| ==> runs[k] == runs[1..][k - 1];
      if !Matches(runs[0], release, format) then rest
      else if rest.Some? && rest.value.manufacturingDate > runs[0].manufacturingDate then rest
      else Some(runs[0])
  }

  /** Runs of other formats (or other releases) never change which run is the most recent one. */
  lemma {:induction false} MostRecentIgnoresOtherFormats(runs: seq<ProductionRun>, others: seq<ProductionRun>,
                                                         release: int, format: string)
    requires forall k :: 0 <= k < |others| ==> !Matches(others[k], release, format)
    ensures FindMostRecent(runs + others, release, format) == FindMostRecent(runs, release, format)
    decreases |runs|
  {
    if runs == [] {
      assert runs + others == others;
      assert FindMostRecent(others, release, format).None?;
    } else {
      assert (runs + others)[1..] == runs[1..] + others;
      MostRecentIgnoresOtherFormats(runs[1..], others, release, format);
    }
  }

  /** `getManufacturedQuantity`: the run's quantity, or 0 for an unknown run. */
  function GetManufacturedQuantity(runs: seq<ProductionRun>, id: int): (q: int)
    ensures FindById(runs, id).None? ==> q == 0
    ensures FindById(runs, id).Some? ==> q == FindById(runs, id).value.quantity
  {
    match FindById(runs, id)
    case None => 0
    case Some(run) => run.quantity
  }

  /** `ProductionRun.getAvailableQuantity(allocated)`. */
  function AvailableQuantity(run: ProductionRun, totalAllocated: int): int
  {
    run.quantity - totalAllocated
  }

  /** `ProductionRun.canAllocate(quantity, allocated)`: the request fits in what is left. */
  predicate CanAllocate(run: ProductionRun, quantity: int, totalAllocated: int)
  {
    quantity <= AvailableQuantity(run, totalAllocated)
  }

  /**
   * `validateQuantityIsAvailable(id, quantity)` with `totalAllocated` the run's
   * total allocation: an unknown run is an error (where
   * `getManufacturedQuantity` answers 0), and a request above what is left
   * is refused with the requested and the available quantity.
   */
  function ValidateQuantityIsAvailable(runs: seq<ProductionRun>, id: int, quantity: int, totalAllocated: int): (err: Option<RunError>)
    ensures FindById(runs, id).None? ==> err == Some(RunNotFound(id))
    ensures FindById(runs, id).Some? ==>
              (err.None? <==> quantity + totalAllocated <= GetManufacturedQuantity(runs, id))
              && (err.Some? ==> err.value == InsufficientInventory(quantity, GetManufacturedQuantity(runs, id) - totalAllocated))
  {
    match FindById(runs, id)
    case None => Some(RunNotFound(id))
    case Some(run) =>
      if !CanAllocate(run, quantity, totalAllocated) then Some(InsufficientInventory(quantity, AvailableQuantity(run, totalAllocated)))
      else None
  }

  /** With unique ids, the run found for an id is the stored run with that id. */
  lemma {:induction false} FindByIdUnique(runs: seq<ProductionRun>, k: nat)
    requires UniqueIds(runs) && k < |runs|
    ensures FindById(runs, runs[k].id) == Some(runs[k])
    decreases k
  {
    if k > 0 {
      assert runs[0].id != runs[k].id;
      assert UniqueIds(runs[1..]) by {
        forall i, j | 0 <= i < j < |runs[1..]| ensures runs[1..][i].id != runs[1..][j].id {
          assert runs[1..][i] == runs[i + 1] && runs[1..][j] == runs[j + 1];
        }
      }
      FindByIdUnique(runs[1..], k - 1);
    }
  }
}

=== FILE: release_forms.dfy ===
/**
 * The release forms: what the create and update pages post, and how they
 * become the track inputs and the set of formats the release commands take.
 *
 * Track n of the form (counting from 0) becomes the input at position n + 1.
 * Durations are parsed by `TrackDuration.parse`, which is not part of this
 * model: it is the `parse` parameter, `None` standing for the exception that
 * aborts the whole conversion. Format names are turned into formats by the
 * enumeration's `valueOf`, likewise a parameter.
 */
module ReleaseForms {
  import opened Common

  /** A parsed track duration. */
  datatype TrackDuration = TrackDuration(seconds: int)

  /**
   * One track row of a form. `A` is how the row gives its artists: a list of
   * artist ids, or (in the older create form) one free-text artist.
   */
  datatype TrackForm<A> = TrackForm(artists: A, name: Option<string>, duration: Option<string>)

  datatype TrackInput<A> = TrackInput(artists: A, name: Option<string>, duration: TrackDuration, position: int)

  /** Every duration of the rows parses. */
  predicate AllParse<A>(tracks: seq<TrackForm<A>>, parse: Option<string> -> Option<TrackDuration>)
  {
    forall k :: 0 <= k < |tracks| ==> parse(tracks[k].duration).Some?
  }

  /** The input the row at index `i` becomes once its duration parsed to `d`. */
  function InputAt<A>(t: TrackForm<A>, i: int, d: TrackDuration): TrackInput<A>
  {
    TrackInput(t.artists, t.name, d, i + 1)
  }

  /** The inputs of `tracks[from..]`, numbered on from `from + 1`. */
  function InputsFrom<A>(tracks: seq<TrackForm<A>>, from: nat, parse: Option<string> -> Option<TrackDuration>)
    : (r: Option<seq<TrackInput<A>>>)
    requires from <= |tracks|
    ensures r.Some? <==> forall k :: from <= k < |tracks| ==> parse(tracks[k].duration).Some?
    ensures r.Some? ==> |r.value| == |tracks| - from
    ensures r.Some? ==> forall k :: from <= k < |tracks| ==>
                          r.value[k - from] == InputAt(tracks[k], k, parse(tracks[k].duration).value)
    decreases |tracks| - from
  {
    if from == |tracks| then Some([])
    else match parse(tracks[from].duration)
      case None => None
      case Some(d) =>
        match InputsFrom(tracks, from + 1, parse)
        case None => None
        case Some(rest) => Some([InputAt(tracks[from], from, d)] + rest)
  }

  /**
   * `toTrackInputs` of `catalog.release.api.CreateReleaseForm` and of
   * `release.api.UpdateReleaseForm`: one input per row, in order, the row at
   * index k at position k + 1 with its artists and name unchanged; no inputs
   * at all when some duration does not parse.
   */
  function TrackInputs<A>(tracks: seq<TrackForm<A>>, parse: Option<string> -> Option<TrackDuration>)
    : (r: Option<seq<TrackInput<A>>>)
    ensures r.Some? <==> AllParse(tracks, parse)
    ensures r.Some? ==> |r.value| == |tracks|
    ensures r.Some? ==> forall k :: 0 <= k < |tracks| ==>
                          r.value[k].position == k + 1
                          && r.value[k].artists == tracks[k].artists && r.value[k].name == tracks[k].name
                          && Some(r.value[k].duration) == parse(tracks[k].duration)
  {
    var r := InputsFrom(tracks, 0, parse);
    assert r.Some? ==> forall k :: 0 <= k < |tracks| ==> r.value[k] == InputAt(tracks[k], k, parse(tracks[k].duration).value);
    r
  }

  /**
   * Positions run on across rows: the inputs of two lists of rows put
   * together are those of the first list followed by those of the second,
   * moved down by the length of the first.
   */
  lemma TrackInputsAppend<A>(a: seq<TrackForm<A>>, b: seq<TrackForm<A>>, parse: Option<string> -> Option<TrackDuration>)
    requires AllParse(a + b, parse)
    ensures AllParse(a, parse) && AllParse(b, parse)
    ensures TrackInputs(a + b, parse).value
            == TrackInputs(a, parse).value + Shifted(TrackInputs(b, parse).value, |a|)
  {
    assert forall k :: 0 <= k < |a| ==> a[k] == (a + b)[k];
    assert forall k :: 0 <= k < |b| ==> b[k] == (a + b)[|a| + k];
    var whole := TrackInputs(a + b, parse).value;
    var parts := TrackInputs(a, parse).value + Shifted(TrackInputs(b, parse).value, |a|);
    assert |whole| == |parts|;
    forall k | 0 <= k < |whole| ensures whole[k] == parts[k] {
      if k >= |a| {
        assert parts[k] == Shifted(TrackInputs(b, parse).value, |a|)[k - |a|];
      }
    }
  }

  /** The inputs with their positions moved down by `n`. */
  function Shifted<A>(inputs: seq<TrackInput<A>>, n: int): (r: seq<TrackInput<A>>)
    ensures |r| == |inputs|
    ensures forall k :: 0 <= k < |inputs| ==> r[k] == inputs[k].(position := inputs[k].position + n)
  {
    seq(|inputs|, k requires 0 <= k < |inputs| => inputs[k].(position := inputs[k].position + n))
  }

  /**
   * `toReleaseFormats`: the set of the named formats, so a name given twice
   * counts once; no set at all when some name is not a format.
   */
  function ReleaseFormats<F(!new)>(names: seq<string>, valueOf: string -> Option<F>): (r: Option<set<F>>)
    ensures r.Some? <==> forall k :: 0 <= k < |names| ==> valueOf(names[k]).Some?
    ensures r.Some? ==> forall f :: f in r.value <==> exists k :: 0 <= k < |names| && valueOf(names[k]) == Some(f)
    ensures r.Some? ==> |r.value| <= |names|
  {
    if names == [] then Some({})
    else
      var init := names[..|names| - 1];
      var last := names[|names| - 1];
      assert forall k :: 0 <= k < |init| ==> init[k] == names[k];
      match valueOf(last)
      case None => None
      case Some(f) =>
        match ReleaseFormats(init, valueOf)
        case None => None
        case Some(fs) => Some(fs + {f})
  }

  /** Naming a format again does not change the set. */
  lemma RepeatedFormatCollapses<F(!new)>(names: seq<string>, valueOf: string -> Option<F>, k: nat)
    requires k < |names|
    ensures ReleaseFormats(names + [names[k]], valueOf) == ReleaseFormats(names, valueOf)
  {
    var longer := names + [names[k]];
    assert longer[..|longer| - 1] == names && longer[|longer| - 1] == names[k];
    var rest := ReleaseFormats(names, valueOf);
    if valueOf(names[k]).Some? && rest.Some? {
      assert valueOf(names[k]).value in rest.value;
      assert rest.value + {valueOf(names[k]).value} == rest.value;
    }
  }

  /** `catalog.release.api.CreateReleaseForm`, as bound from the request. */
  datatype CreateReleaseForm = CreateReleaseForm(releaseName: Option<string>, releaseDate: Option<string>,
                                                 artistIds: seq<int>, tracks: seq<TrackForm<seq<int>>>,
                                                 formats: seq<string>)

  /** A form nothing was bound to: the lists start empty. */
  const FreshCreateReleaseForm := CreateReleaseForm(None, None, [], [], [])

  /** A fresh form yields no tracks and no formats. */
  lemma FreshCreateFormIsEmpty<F(!new)>(parse: Option<string> -> Option<TrackDuration>, valueOf: string -> Option<F>)
    ensures TrackInputs(FreshCreateReleaseForm.tracks, parse) == Some([])
    ensures ReleaseFormats(FreshCreateReleaseForm.formats, valueOf) == Some({})
  {
  }

  /** `release.api.UpdateReleaseForm`. */
  datatype UpdateReleaseForm = UpdateReleaseForm(releaseName: Option<string>, releaseDate: Option<string>,
                                                 artistIds: seq<int>, tracks: seq<TrackForm<seq<int>>>)

  const FreshUpdateReleaseForm := UpdateReleaseForm(None, None, [], [])

  /** A fresh update form has no artists and yields no tracks. */
  lemma FreshUpdateFormIsEmpty(parse: Option<string> -> Option<TrackDuration>)
    ensures FreshUpdateReleaseForm.artistIds == []
    ensures TrackInputs(FreshUpdateReleaseForm.tracks, parse) == Some([])
  {
  }

  /**
   * `release.api.CreateReleaseForm`, the older create form: each track names
   * its artist as free text, and the inputs are built by an indexed loop.
   */
  class LegacyCreateReleaseForm {
    var releaseName: Option<string>
    var releaseDate: Option<string>
    var tracks: seq<TrackForm<Option<string>>>

    constructor ()
      ensures releaseName.None? && releaseDate.None? && tracks == []
    {
      releaseName := None;
      releaseDate := None;
      tracks := [];
    }

    method SetTracks(tracks: seq<TrackForm<Option<string>>>)
      modifies this
      ensures this.tracks == tracks
      ensures releaseName == old(releaseName) && releaseDate == old(releaseDate)
    {
      this.tracks := tracks;
    }

    /** `toTrackInputs`: the same inputs as the stream version, built one row at a time. */
    method ToTrackInputs(parse: Option<string> -> Option<TrackDuration>) returns (r: Option<seq<TrackInput<Option<string>>>>)
      ensures r == TrackInputs(tracks, parse)
      ensures tracks == [] ==> r == Some([])
    {
      var inputs: seq<TrackInput<Option<string>>> := [];
      for i := 0 to |tracks|
        invariant |inputs| == i
        invariant forall k :: 0 <= k < i ==> parse(tracks[k].duration).Some?
                                             && inputs[k] == InputAt(tracks[k], k, parse(tracks[k].duration).value)
      {
        var track := tracks[i];
        var duration := parse(track.duration);
        if duration.None? {
          assert !AllParse(tracks, parse);
          return None;
        }
        inputs := inputs + [TrackInput(track.artists, track.name, duration.value, i + 1)];
      }
      r := Some(inputs);
      var spec := TrackInputs(tracks, parse);
      assert spec.Some? && |spec.value| == |inputs|;
      forall k | 0 <= k < |tracks|
        ensures spec.value[k] == inputs[k]
      {
        var a, b := spec.value[k], inputs[k];
        assert a.duration == b.duration && a.position == b.position;
        assert a.artists == b.artists && a.name == b.name;
      }
      assert spec.value == inputs;
    }
  }
}

=== FILE: release_views.dfy ===
/**
 * The aggregations behind the release page: the release's artists resolved
 * from their ids, one summary per production run (allocations, warehouse
 * stock, per-distributor stock and the movement history with readable
 * locations) and the release's sales across all its runs, newest first.
 *
 * All of it is computed from query results, which are parameters here. Two
 * of those results are hash maps whose iteration order Java leaves open;
 * that order is a parameter too (a duplicate-free listing of the keys).
 * Sorting is Java's stable list sort, modelled as a stable insertion sort.
 */
module ReleaseViews {
  import opened Common
  import opened SalesCommon
  import opened ProductionRuns
  import opened Allocations
  import Ledger

  // ---------------------------------------------------------------------------
  // Stable sorting and sums over views

  /** Any two elements are ordered one way or the other. */
  ghost predicate Connex<T(!new)>(le: (T, T) -> bool)
  {
    forall a: T, b: T :: le(a, b) || le(b, a)
  }

  /**
   * Each element is ordered before its successor. Only adjacent pairs are
   * constrained: the comparators here are connex but not assumed transitive,
   * so this is not the all-pairs form.
   */
  ghost predicate SortedBy<T>(s: seq<T>, le: (T, T) -> bool)
  {
    forall k :: 0 <= k < |s| - 1 ==> le(s[k], s[k + 1])
  }

  /** `x` goes in front of the first element it may precede, so it stays ahead of its equals. */
  function Insert<T>(x: T, s: seq<T>, le: (T, T) -> bool): (r: seq<T>)
    ensures |r| == |s| + 1
    ensures multiset(r) == multiset(s) + multiset{x}
    decreases |s|
  {
    if s == [] || le(x, s[0]) then [x] + s
    else
      assert s == [s[0]] + s[1..];
      [s[0]] + Insert(x, s[1..], le)
  }

  /** `list.sort(comparator)`: stable, so equal elements keep their order. */
  function SortBy<T>(s: seq<T>, le: (T, T) -> bool): (r: seq<T>)
    ensures |r| == |s|
    ensures multiset(r) == multiset(s)
  {
    if s == [] then []
    else
      assert s == [s[0]] + s[1..];
      Insert(s[0], SortBy(s[1..], le), le)
  }

  lemma {:induction false} InsertSorted<T(!new)>(x: T, s: seq<T>, le: (T, T) -> bool)
    requires Connex(le)
    requires SortedBy(s, le)
    ensures SortedBy(Insert(x, s, le), le)
    decreases |s|
  {
    if s != [] && !le(x, s[0]) {
      assert le(s[0], x);
      var tail := Insert(x, s[1..], le);
      InsertSorted(x, s[1..], le);
      assert tail[0] == x || tail[0] == s[1];
    }
  }

  /** Sorting neither adds nor drops an element. */
  lemma SortByMembers<T>(s: seq<T>, le: (T, T) -> bool)
    ensures forall x :: x in SortBy(s, le) <==> x in s
  {
    var r := SortBy(s, le);
    forall x ensures x in r <==> x in s {
      assert x in r <==> x in multiset(r);
      assert x in s <==> x in multiset(s);
    }
  }

  /** The sorted list is in order, given a comparator that orders any two elements. */
  lemma {:induction false} SortBySorted<T(!new)>(s: seq<T>, le: (T, T) -> bool)
    requires Connex(le)
    ensures SortedBy(SortBy(s, le), le)
  {
    if s != [] {
      SortBySorted(s[1..], le);
      InsertSorted(s[0], SortBy(s[1..], le), le);
    }
  }

  /** `stream().mapToInt(w).sum()`. */
  function SumOf<T>(s: seq<T>, w: T -> int): int
  {
    if s == [] then 0 else w(s[0]) + SumOf(s[1..], w)
  }

  lemma {:induction false} SumOfAppend<T>(a: seq<T>, b: seq<T>, w: T -> int)
    ensures SumOf(a + b, w) == SumOf(a, w) + SumOf(b, w)
  {
    if a == [] {
      assert a + b == b;
    } else {
      assert (a + b)[0] == a[0] && (a + b)[1..] == a[1..] + b;
      SumOfAppend(a[1..], b, w);
    }
  }

  lemma {:induction false} InsertKeepsSum<T>(x: T, s: seq<T>, le: (T, T) -> bool, w: T -> int)
    ensures SumOf(Insert(x, s, le), w) == w(x) + SumOf(s, w)
    decreases |s|
  {
    if s != [] && !le(x, s[0]) {
      InsertKeepsSum(x, s[1..], le, w);
    }
  }

  /** Sorting does not change a sum over the list. */
  lemma {:induction false} SortKeepsSum<T>(s: seq<T>, le: (T, T) -> bool, w: T -> int)
    ensures SumOf(SortBy(s, le), w) == SumOf(s, w)
  {
    if s != [] {
      SortKeepsSum(s[1..], le, w);
      InsertKeepsSum(s[0], SortBy(s[1..], le), le, w);
    }
  }

  // ---------------------------------------------------------------------------
  // Names

  /** `String.compareTo`: the difference of the first differing characters, else of the lengths. */
  function CompareStrings(a: string, b: string): int
  {
    if a == [] || b == [] then |a| - |b|
    else if a[0] != b[0] then a[0] as int - b[0] as int
    else CompareStrings(a[1..], b[1..])
  }

  lemma {:induction false} CompareStringsAntisymmetric(a: string, b: string)
    ensures CompareStrings(a, b) == -CompareStrings(b, a)
  {
    if a != [] && b != [] && a[0] == b[0] {
      CompareStringsAntisymmetric(a[1..], b[1..]);
    }
  }

  const UnknownDistributor := "Unknown"

  /** `findDistributorName`: the first distributor with the id, or "Unknown" (always so for a null id). */
  function FindDistributorName(id: Option<int>, ds: seq<Distributor>): (name: string)
    ensures id.None? ==> name == UnknownDistributor
    ensures (forall k :: 0 <= k < |ds| ==> Some(ds[k].id) != id) ==> name == UnknownDistributor
    ensures forall k :: 0 <= k < |ds| && Some(ds[k].id) == id && (forall j :: 0 <= j < k ==> Some(ds[j].id) != id)
                        ==> name == ds[k].name
  {
    if ds == [] then UnknownDistributor
    else if Some(ds[0].id) == id then ds[0].name
    else
      var name := FindDistributorName(id, ds[1..]);
      assert forall k :: 1 <= k < |ds| ==> ds[k] == ds[1..][k - 1];
      name
  }

  /** `formatLocation`: a distributor location is shown by the distributor's name. */
  function FormatLocation(t: Ledger.LocationType, id: Option<int>, ds: seq<Distributor>): (s: string)
    ensures t == Ledger.Distributor ==> s == FindDistributorName(id, ds)
  {
    match t
    case Warehouse => "Warehouse"
    case External => "External (sold)"
    case Distributor => FindDistributorName(id, ds)
  }

  // ---------------------------------------------------------------------------
  // Artists

  datatype Artist = Artist(id: int, name: string)

  /** `resolveArtists`: the artists of the ids that have one, in the order of the ids. */
  function ResolveArtists(ids: seq<int>, artists: map<int, Artist>): (r: seq<Artist>)
    ensures |r| <= |ids|
    ensures forall a :: a in r ==> exists id :: id in ids && id in artists && artists[id] == a
    ensures forall id :: id in ids && id in artists ==> artists[id] in r
    ensures (forall id :: id in ids ==> id in artists) ==> |r| == |ids|
  {
    if ids == [] then []
    else
      var rest := ResolveArtists(ids[1..], artists);
      assert forall id :: id in ids[1..] ==> id in ids;
      assert forall id :: id in ids ==> id == ids[0] || id in ids[1..];
      (if ids[0] in artists then [artists[ids[0]]] else []) + rest
  }

  /** Resolving keeps the order of the ids: it distributes over concatenation. */
  lemma {:induction false} ResolveArtistsAppend(a: seq<int>, b: seq<int>, artists: map<int, Artist>)
    ensures ResolveArtists(a + b, artists) == ResolveArtists(a, artists) + ResolveArtists(b, artists)
  {
    if a == [] {
      assert a + b == b;
    } else {
      assert (a + b)[0] == a[0] && (a + b)[1..] == a[1..] + b;
      ResolveArtistsAppend(a[1..], b, artists);
    }
  }

  datatype Track = Track(id: int, artistIds: seq<int>, name: string, duration: int, position: int, remixerIds: seq<int>)

  datatype TrackView = TrackView(id: int, artists: seq<Artist>, name: string, duration: int, position: int,
                                 remixers: seq<Artist>)

  /** `resolveTrackArtists`: one view per track, in order, with artists and remixers resolved. */
  function ResolveTrackArtists(tracks: seq<Track>, artists: map<int, Artist>): (r: seq<TrackView>)
    ensures |r| == |tracks|
    ensures forall k :: 0 <= k < |tracks| ==>
              r[k].id == tracks[k].id && r[k].name == tracks[k].name && r[k].duration == tracks[k].duration
              && r[k].position == tracks[k].position
              && r[k].artists == ResolveArtists(tracks[k].artistIds, artists)
              && r[k].remixers == ResolveArtists(tracks[k].remixerIds, artists)
  {
    seq(|tracks|, k requires 0 <= k < |tracks| =>
      TrackView(tracks[k].id, ResolveArtists(tracks[k].artistIds, artists), tracks[k].name, tracks[k].duration,
                tracks[k].position, ResolveArtists(tracks[k].remixerIds, artists)))
  }

  // ---------------------------------------------------------------------------
  // Allocations grouped by distributor

  /** The quantities allocated to one distributor. */
  function AllocatedSum(allocs: seq<ChannelAllocation>, d: int): int
  {
    if allocs == [] then 0
    else AllocatedSum(allocs[..|allocs| - 1], d)
         + (if allocs[|allocs| - 1].distributorId == d then allocs[|allocs| - 1].quantity else 0)
  }

  /** The quantities of all the allocations. */
  function QuantityTotal(allocs: seq<ChannelAllocation>): int
  {
    if allocs == [] then 0 else QuantityTotal(allocs[..|allocs| - 1]) + allocs[|allocs| - 1].quantity
  }

  /** `getAllocationsForProductionRun(run)`, in repository order. */
  function AllocationsForRun(rows: seq<ChannelAllocation>, run: int): (r: seq<ChannelAllocation>)
    ensures forall a :: a in r <==> a in rows && a.productionRunId == run
  {
    if rows == [] then []
    else
      var init := rows[..|rows| - 1];
      var last := rows[|rows| - 1];
      assert forall a :: a in rows <==> a in init || a == last;
      AllocationsForRun(init, run) + (if last.productionRunId == run then [last] else [])
  }

  /** The run's allocations add up to what `getTotalAllocated` reports for it. */
  lemma {:induction false} AllocationsForRunTotal(rows: seq<ChannelAllocation>, run: int)
    ensures QuantityTotal(AllocationsForRun(rows, run)) == TotalAllocated(rows, run)
  {
    if rows != [] {
      var init := rows[..|rows| - 1];
      var last := rows[|rows| - 1];
      AllocationsForRunTotal(init, run);
      var r := AllocationsForRun(rows, run);
      if last.productionRunId == run {
        assert r[..|r| - 1] == AllocationsForRun(init, run);
      } else {
        assert r == AllocationsForRun(init, run);
      }
    }
  }

  function DistributorsAllocated(allocs: seq<ChannelAllocation>): set<int>
  {
    set k | 0 <= k < |allocs| :: allocs[k].distributorId
  }

  /** `groupingBy(distributorId, summingInt(quantity))`. */
  function AllocatedByDistributor(allocs: seq<ChannelAllocation>): (m: map<int, int>)
    ensures forall d :: d in m <==> exists k :: 0 <= k < |allocs| && allocs[k].distributorId == d
    ensures forall d :: d in m ==> m[d] == AllocatedSum(allocs, d)
  {
    map d | d in DistributorsAllocated(allocs) :: AllocatedSum(allocs, d)
  }

  /** Adds up one distributor's quantity per listed id. */
  function SumOverDistributors(ids: seq<int>, allocs: seq<ChannelAllocation>): int
  {
    if ids == [] then 0 else AllocatedSum(allocs, ids[0]) + SumOverDistributors(ids[1..], allocs)
  }

  lemma {:induction false} SumOverDistributorsSplit(ids: seq<int>, init: seq<ChannelAllocation>, last: ChannelAllocation)
    requires NoDuplicates(ids)
    ensures SumOverDistributors(ids, init + [last])
            == SumOverDistributors(ids, init) + (if last.distributorId in ids then last.quantity else 0)
  {
    if ids != [] {
      assert (init + [last])[..|init + [last]| - 1] == init;
      DistinctTail(ids);
      assert forall x :: x in ids <==> x == ids[0] || x in ids[1..];
      SumOverDistributorsSplit(ids[1..], init, last);
    }
  }

  /** Dropping the head of a duplicate-free list leaves a duplicate-free list without the head. */
  lemma DistinctTail(xs: seq<int>)
    requires xs != [] && NoDuplicates(xs)
    ensures NoDuplicates(xs[1..]) && xs[0] !in xs[1..]
  {
    forall i, j | 0 <= i < j < |xs[1..]| ensures xs[1..][i] != xs[1..][j] {
      assert xs[1..][i] == xs[i + 1] && xs[1..][j] == xs[j + 1];
    }
    forall j | 0 <= j < |xs[1..]| ensures xs[1..][j] != xs[0] {
      assert xs[1..][j] == xs[j + 1];
    }
  }

  /**
   * The grouped sums add up to the total: summing the per-distributor
   * quantity over distinct ids that cover every allocation gives the sum of
   * all quantities.
   */
  lemma {:induction false} GroupedSumsAddUp(ids: seq<int>, allocs: seq<ChannelAllocation>)
    requires NoDuplicates(ids)
    requires forall k :: 0 <= k < |allocs| ==> allocs[k].distributorId in ids
    ensures SumOverDistributors(ids, allocs) == QuantityTotal(allocs)
    decreases |allocs|
  {
    if allocs == [] {
      EmptySumOverDistributors(ids);
    } else {
      var init := allocs[..|allocs| - 1];
      var last := allocs[|allocs| - 1];
      assert allocs == init + [last];
      GroupedSumsAddUp(ids, init);
      SumOverDistributorsSplit(ids, init, last);
    }
  }

  lemma {:induction false} EmptySumOverDistributors(ids: seq<int>)
    ensures SumOverDistributors(ids, []) == 0
  {
    if ids != [] {
      EmptySumOverDistributors(ids[1..]);
    }
  }

  // ---------------------------------------------------------------------------
  // Distributor inventories

  datatype DistributorInventoryView = DistributorInventoryView(name: string, allocatedUnits: int, current: int)

  /** The order of the distributor inventories: `comparing(name)`. */
  predicate NameOrder(v: DistributorInventoryView, w: DistributorInventoryView)
  {
    CompareStrings(v.name, w.name) <= 0
  }

  lemma NameOrderConnex()
    ensures Connex(NameOrder)
  {
    forall v: DistributorInventoryView, w: DistributorInventoryView ensures NameOrder(v, w) || NameOrder(w, v) {
      CompareStringsAntisymmetric(v.name, w.name);
    }
  }

  function GetOrDefault(m: map<int, int>, id: int): int
  {
    if id in m then m[id] else 0
  }

  /** A hash map's key set in its iteration order: every key once. */
  ghost predicate ListsKeys(order: seq<int>, m: map<int, int>)
  {
    NoDuplicates(order) && forall id :: id in order <==> id in m
  }

  /** The ids of `order` not among the keys of `m`, in order. */
  function NotIn(order: seq<int>, m: map<int, int>): (r: seq<int>)
    ensures forall id :: id in r <==> id in order && id !in m
    ensures NoDuplicates(order) ==> NoDuplicates(r)
  {
    if order == [] then []
    else
      var rest := NotIn(order[1..], m);
      assert forall id :: id in order <==> id == order[0] || id in order[1..];
      assert NoDuplicates(order) ==> NoDuplicates(order[1..]) && order[0] !in order[1..] by {
        if NoDuplicates(order) {
          DistinctTail(order);
        }
      }
      (if order[0] !in m then [order[0]] else []) + rest
  }

  /** One distributor's row: its name, what it was allocated and what it holds, both 0 when absent. */
  function InventoryView(id: int, allocatedBy: map<int, int>, current: map<int, int>, ds: seq<Distributor>)
    : DistributorInventoryView
  {
    DistributorInventoryView(FindDistributorName(Some(id), ds), GetOrDefault(allocatedBy, id), GetOrDefault(current, id))
  }

  function InventoryViews(ids: seq<int>, allocatedBy: map<int, int>, current: map<int, int>, ds: seq<Distributor>)
    : (vs: seq<DistributorInventoryView>)
    ensures |vs| == |ids|
    ensures forall k :: 0 <= k < |ids| ==> vs[k] == InventoryView(ids[k], allocatedBy, current, ds)
  {
    if ids == [] then []
    else [InventoryView(ids[0], allocatedBy, current, ds)] + InventoryViews(ids[1..], allocatedBy, current, ds)
  }

  /** The ids in the order the source lists them: the allocated ones, then the others holding stock. */
  function InventoryIds(allocatedOrder: seq<int>, allocatedBy: map<int, int>, currentOrder: seq<int>): seq<int>
  {
    allocatedOrder + NotIn(currentOrder, allocatedBy)
  }

  /** The rows for given grouped allocations and stock, sorted by name. */
  function Inventories(allocatedBy: map<int, int>, allocatedOrder: seq<int>, current: map<int, int>,
                       currentOrder: seq<int>, ds: seq<Distributor>): seq<DistributorInventoryView>
  {
    SortBy(InventoryViews(InventoryIds(allocatedOrder, allocatedBy, currentOrder), allocatedBy, current, ds), NameOrder)
  }

  /** `buildDistributorInventories`. */
  function BuildDistributorInventories(allocs: seq<ChannelAllocation>, allocatedOrder: seq<int>,
                                       current: map<int, int>, currentOrder: seq<int>, ds: seq<Distributor>)
    : seq<DistributorInventoryView>
  {
    Inventories(AllocatedByDistributor(allocs), allocatedOrder, current, currentOrder, ds)
  }

  /** The rows are sorted by name, whatever the hash orders. */
  lemma InventoriesSorted(allocatedBy: map<int, int>, allocatedOrder: seq<int>, current: map<int, int>,
                          currentOrder: seq<int>, ds: seq<Distributor>)
    ensures SortedBy(Inventories(allocatedBy, allocatedOrder, current, currentOrder, ds), NameOrder)
  {
    NameOrderConnex();
    SortBySorted(InventoryViews(InventoryIds(allocatedOrder, allocatedBy, currentOrder), allocatedBy, current, ds), NameOrder);
  }

  /**
   * One row per distributor that has an allocation or holds stock, and no
   * other: the rows are as many as those distributors, each of them has its
   * row, and every row is one of theirs.
   */
  lemma InventoriesCover(allocatedBy: map<int, int>, allocatedOrder: seq<int>, current: map<int, int>,
                         currentOrder: seq<int>, ds: seq<Distributor>)
    requires ListsKeys(allocatedOrder, allocatedBy)
    requires ListsKeys(currentOrder, current)
    ensures var r := Inventories(allocatedBy, allocatedOrder, current, currentOrder, ds);
            |r| == |allocatedBy.Keys + current.Keys|
            && (forall id :: id in allocatedBy.Keys + current.Keys ==> InventoryView(id, allocatedBy, current, ds) in r)
            && (forall v :: v in r ==> exists id :: id in allocatedBy.Keys + current.Keys
                                                  && v == InventoryView(id, allocatedBy, current, ds))
  {
    var keys := allocatedBy.Keys + current.Keys;
    var ids := InventoryIds(allocatedOrder, allocatedBy, currentOrder);
    var views := InventoryViews(ids, allocatedBy, current, ds);
    var r := SortBy(views, NameOrder);
    assert r == Inventories(allocatedBy, allocatedOrder, current, currentOrder, ds);
    InventoryIdsCount(allocatedOrder, allocatedBy, currentOrder, current);
    InventoryIdsMembers(allocatedOrder, allocatedBy, currentOrder, current);
    SortByMembers(views, NameOrder);
    ViewsCover(ids, keys, allocatedBy, current, ds);
    forall id | id in keys ensures InventoryView(id, allocatedBy, current, ds) in r {
      assert InventoryView(id, allocatedBy, current, ds) in views;
    }
    forall v | v in r ensures exists id :: id in keys && v == InventoryView(id, allocatedBy, current, ds) {
      assert v in views;
    }
  }

  /** The views of a list of ids are exactly the views of the ids in a set, when both hold the same ids. */
  lemma ViewsCover(ids: seq<int>, keys: set<int>, allocatedBy: map<int, int>, current: map<int, int>,
                   ds: seq<Distributor>)
    requires forall id :: id in ids <==> id in keys
    ensures var views := InventoryViews(ids, allocatedBy, current, ds);
            (forall id :: id in keys ==> InventoryView(id, allocatedBy, current, ds) in views)
            && (forall v :: v in views ==> exists id :: id in keys && v == InventoryView(id, allocatedBy, current, ds))
  {
    var views := InventoryViews(ids, allocatedBy, current, ds);
    forall id | id in keys ensures InventoryView(id, allocatedBy, current, ds) in views {
      var k :| 0 <= k < |ids| && ids[k] == id;
      assert views[k] == InventoryView(id, allocatedBy, current, ds);
    }
    forall v | v in views
      ensures exists id :: id in keys && v == InventoryView(id, allocatedBy, current, ds)
    {
      var k :| 0 <= k < |views| && views[k] == v;
      assert ids[k] in ids;
    }
  }

  lemma InventoryIdsCount(allocatedOrder: seq<int>, allocatedBy: map<int, int>, currentOrder: seq<int>, current: map<int, int>)
    requires ListsKeys(allocatedOrder, allocatedBy)
    requires ListsKeys(currentOrder, current)
    ensures |InventoryIds(allocatedOrder, allocatedBy, currentOrder)| == |allocatedBy.Keys + current.Keys|
  {
    var ids := InventoryIds(allocatedOrder, allocatedBy, currentOrder);
    InventoryIdsDistinct(allocatedOrder, allocatedBy, currentOrder, current);
    InventoryIdsMembers(allocatedOrder, allocatedBy, currentOrder, current);
    DistinctCardinality(ids);
    assert (set x | x in ids) == allocatedBy.Keys + current.Keys;
  }

  lemma InventoryIdsDistinct(allocatedOrder: seq<int>, allocatedBy: map<int, int>, currentOrder: seq<int>, current: map<int, int>)
    requires ListsKeys(allocatedOrder, allocatedBy)
    requires ListsKeys(currentOrder, current)
    ensures NoDuplicates(InventoryIds(allocatedOrder, allocatedBy, currentOrder))
  {
    var others := NotIn(currentOrder, allocatedBy);
    var ids := allocatedOrder + others;
    forall i, j | 0 <= i < j < |ids| ensures ids[i] != ids[j] {
      if j < |allocatedOrder| {
      } else if i >= |allocatedOrder| {
        assert ids[i] == others[i - |allocatedOrder|] && ids[j] == others[j - |allocatedOrder|];
      } else {
        assert ids[j] in others;
      }
    }
  }

  lemma InventoryIdsMembers(allocatedOrder: seq<int>, allocatedBy: map<int, int>, currentOrder: seq<int>, current: map<int, int>)
    requires ListsKeys(allocatedOrder, allocatedBy)
    requires ListsKeys(currentOrder, current)
    ensures forall id :: id in InventoryIds(allocatedOrder, allocatedBy, currentOrder) <==> id in allocatedBy.Keys + current.Keys
  {
  }

  lemma {:induction false} DistinctCardinality(xs: seq<int>)
    requires NoDuplicates(xs)
    ensures |set x | x in xs| == |xs|
  {
    if xs != [] {
      var rest := xs[1..];
      DistinctTail(xs);
      DistinctCardinality(rest);
      assert (set x | x in xs) == (set x | x in rest) + {xs[0]};
    }
  }

  /** What a row says was allocated. */
  function AllocatedOf(v: DistributorInventoryView): int
  {
    v.allocatedUnits
  }

  /** Adds up the map's value (0 when absent) per listed id. */
  function MapSum(ids: seq<int>, m: map<int, int>): int
  {
    if ids == [] then 0 else GetOrDefault(m, ids[0]) + MapSum(ids[1..], m)
  }

  lemma {:induction false} ViewsColumn(ids: seq<int>, allocatedBy: map<int, int>, current: map<int, int>, ds: seq<Distributor>)
    ensures SumOf(InventoryViews(ids, allocatedBy, current, ds), AllocatedOf) == MapSum(ids, allocatedBy)
  {
    if ids != [] {
      ViewsColumn(ids[1..], allocatedBy, current, ds);
    }
  }

  lemma {:induction false} MapSumAppend(a: seq<int>, b: seq<int>, m: map<int, int>)
    ensures MapSum(a + b, m) == MapSum(a, m) + MapSum(b, m)
  {
    if a == [] {
      assert a + b == b;
    } else {
      assert (a + b)[0] == a[0] && (a + b)[1..] == a[1..] + b;
      MapSumAppend(a[1..], b, m);
    }
  }

  lemma {:induction false} MapSumAbsent(ids: seq<int>, m: map<int, int>)
    requires forall id :: id in ids ==> id !in m
    ensures MapSum(ids, m) == 0
  {
    if ids != [] {
      MapSumAbsent(ids[1..], m);
    }
  }

  lemma {:induction false} MapSumGrouped(ids: seq<int>, allocs: seq<ChannelAllocation>)
    requires forall id :: id in ids ==> id in AllocatedByDistributor(allocs)
    ensures MapSum(ids, AllocatedByDistributor(allocs)) == SumOverDistributors(ids, allocs)
  {
    if ids != [] {
      MapSumGrouped(ids[1..], allocs);
    }
  }

  /** The rows' allocated column adds up the grouped quantities of the listed distributors. */
  lemma InventoriesColumn(allocatedBy: map<int, int>, allocatedOrder: seq<int>, current: map<int, int>,
                          currentOrder: seq<int>, ds: seq<Distributor>)
    ensures SumOf(Inventories(allocatedBy, allocatedOrder, current, currentOrder, ds), AllocatedOf) == MapSum(allocatedOrder, allocatedBy)
  {
    var others := NotIn(currentOrder, allocatedBy);
    var ids := allocatedOrder + others;
    SortKeepsSum(InventoryViews(ids, allocatedBy, current, ds), NameOrder, AllocatedOf);
    ViewsColumn(ids, allocatedBy, current, ds);
    MapSumAppend(allocatedOrder, others, allocatedBy);
    MapSumAbsent(others, allocatedBy);
  }

  /**
   * The per-distributor rows account for every allocated unit: their
   * allocated column adds up to the quantities of all the allocations.
   */
  lemma AllocatedColumnIsTotal(allocs: seq<ChannelAllocation>, allocatedOrder: seq<int>,
                               current: map<int, int>, currentOrder: seq<int>, ds: seq<Distributor>)
    requires ListsKeys(allocatedOrder, AllocatedByDistributor(allocs))
    ensures SumOf(BuildDistributorInventories(allocs, allocatedOrder, current, currentOrder, ds), AllocatedOf)
            == QuantityTotal(allocs)
  {
    InventoriesColumn(AllocatedByDistributor(allocs), allocatedOrder, current, currentOrder, ds);
    MapSumGrouped(allocatedOrder, allocs);
    GroupedSumsAddUp(allocatedOrder, allocs);
  }

  // ---------------------------------------------------------------------------
  // Production run summaries

  datatype AllocationView = AllocationView(id: int, distributorName: string, quantity: int, allocatedAt: int)

  datatype MovementHistoryView = MovementHistoryView(occurredAt: int, movementType: Ledger.MovementType,
                                                     from: string, to: string, quantity: int)

  function HistoryEntry(m: Ledger.Movement, ds: seq<Distributor>): MovementHistoryView
  {
    MovementHistoryView(m.occurredAt, m.movementType, FormatLocation(m.fromType, m.fromId, ds),
                        FormatLocation(m.toType, m.toId, ds), m.quantity)
  }

  /** `buildMovementHistory`: one entry per movement, in the order given. */
  function BuildMovementHistory(ms: seq<Ledger.Movement>, ds: seq<Distributor>): (r: seq<MovementHistoryView>)
    ensures |r| == |ms|
    ensures forall k :: 0 <= k < |ms| ==> r[k] == HistoryEntry(ms[k], ds)
  {
    seq(|ms|, k requires 0 <= k < |ms| => HistoryEntry(ms[k], ds))
  }

  /**
   * How the three kinds of movement read: an allocation goes from the
   * warehouse to the distributor's name, a sale from the name to "External
   * (sold)", a return from the name back to the warehouse.
   */
  lemma HistoryOfKinds(run: int, d: int, q: int, at: int, ref: Option<int>, ds: seq<Distributor>)
    ensures var e := HistoryEntry(Ledger.AllocationMovement(run, d, q, at, ref), ds);
            e.from == "Warehouse" && e.to == FindDistributorName(Some(d), ds) && e.quantity == q
    ensures var e := HistoryEntry(Ledger.SaleMovement(run, d, q, at, ref), ds);
            e.from == FindDistributorName(Some(d), ds) && e.to == "External (sold)" && e.quantity == q
    ensures var e := HistoryEntry(Ledger.ReturnMovement(run, d, q, at, ref), ds);
            e.from == FindDistributorName(Some(d), ds) && e.to == "Warehouse" && e.quantity == q
  {
  }

  datatype RunSummary = RunSummary(run: ProductionRun, totalAllocated: int, unallocated: int,
                                   allocations: seq<AllocationView>, warehouseInventory: int,
                                   distributorInventories: seq<DistributorInventoryView>,
                                   movementHistory: seq<MovementHistoryView>)

  function ToAllocationView(a: ChannelAllocation, ds: seq<Distributor>): AllocationView
  {
    AllocationView(a.id, FindDistributorName(Some(a.distributorId), ds), a.quantity, a.allocatedAt)
  }

  /**
   * `buildProductionRunWithAllocation`: `allocatedOrder` and `currentOrder`
   * are the iteration orders of the grouped allocations and of the
   * per-distributor stock.
   */
  function BuildRunSummary(run: ProductionRun, rows: seq<ChannelAllocation>, ledger: seq<Ledger.Movement>,
                           ds: seq<Distributor>, allocatedOrder: seq<int>, currentOrder: seq<int>): (s: RunSummary)
    requires ListsKeys(allocatedOrder, AllocatedByDistributor(AllocationsForRun(rows, run.id)))
    ensures s.run == run
    ensures s.totalAllocated == TotalAllocated(rows, run.id)
    ensures s.unallocated == run.quantity - TotalAllocated(rows, run.id)
    ensures s.warehouseInventory == Ledger.WarehouseInventory(ledger, run.id)
    ensures SumOf(s.distributorInventories, AllocatedOf) == s.totalAllocated
    ensures s.distributorInventories
            == BuildDistributorInventories(AllocationsForRun(rows, run.id), allocatedOrder,
                                           Ledger.InventoryByDistributor(ledger, run.id), currentOrder, ds)
    ensures |s.allocations| == |AllocationsForRun(rows, run.id)|
    ensures forall k :: 0 <= k < |s.allocations| ==> s.allocations[k] == ToAllocationView(AllocationsForRun(rows, run.id)[k], ds)
    ensures s.movementHistory == BuildMovementHistory(Ledger.MovementsFor(ledger, run.id), ds)
  {
    var allocs := AllocationsForRun(rows, run.id);
    var allocationViews := seq(|allocs|, k requires 0 <= k < |allocs| => ToAllocationView(allocs[k], ds));
    var totalAllocated := TotalAllocated(rows, run.id);
    var current := Ledger.InventoryByDistributor(ledger, run.id);
    var inventories := BuildDistributorInventories(allocs, allocatedOrder, current, currentOrder, ds);
    AllocatedColumnIsTotal(allocs, allocatedOrder, current, currentOrder, ds);
    AllocationsForRunTotal(rows, run.id);
    RunSummary(run, totalAllocated, run.quantity - totalAllocated, allocationViews,
               Ledger.WarehouseInventory(ledger, run.id), inventories,
               BuildMovementHistory(Ledger.MovementsFor(ledger, run.id), ds))
  }

  // ---------------------------------------------------------------------------
  // Release sales

  datatype SaleLine = SaleLine(releaseId: int, format: string, quantity: int)

  /** A sale as the sale query hands it out. */
  datatype Sale = Sale(id: int, saleDate: int, distributorId: Option<int>, lineItems: seq<SaleLine>, totalAmount: real)

  datatype ReleaseSaleView = ReleaseSaleView(saleId: int, saleDate: int, distributorName: string, totalUnits: int,
                                             totalAmount: real)

  function LineQuantity(l: SaleLine): int
  {
    l.quantity
  }

  /** The units of every line of the sale, whatever release the line is for. */
  function SaleUnits(sale: Sale): int
  {
    SumOf(sale.lineItems, LineQuantity)
  }

  /** `toReleaseSaleView`. */
  function ToReleaseSaleView(sale: Sale, ds: seq<Distributor>): (v: ReleaseSaleView)
    ensures v.saleId == sale.id && v.saleDate == sale.saleDate && v.totalAmount == sale.totalAmount
    ensures v.totalUnits == SaleUnits(sale)
    ensures v.distributorName == FindDistributorName(sale.distributorId, ds)
    ensures sale.distributorId.None? ==> v.distributorName == UnknownDistributor
  {
    ReleaseSaleView(sale.id, sale.saleDate, FindDistributorName(sale.distributorId, ds), SaleUnits(sale), sale.totalAmount)
  }

  /** The sales of each run in turn (`flatMap`); a sale found for two runs is listed twice. */
  function SalesOfRuns(runs: seq<ProductionRun>, salesFor: int -> seq<Sale>): seq<Sale>
  {
    if runs == [] then [] else salesFor(runs[0].id) + SalesOfRuns(runs[1..], salesFor)
  }

  function SaleViews(sales: seq<Sale>, ds: seq<Distributor>): (vs: seq<ReleaseSaleView>)
    ensures |vs| == |sales|
    ensures forall k :: 0 <= k < |sales| ==> vs[k] == ToReleaseSaleView(sales[k], ds)
  {
    if sales == [] then [] else [ToReleaseSaleView(sales[0], ds)] + SaleViews(sales[1..], ds)
  }

  /** `comparing(saleDate).reversed()`: later sales first. */
  predicate NewerFirst(v: ReleaseSaleView, w: ReleaseSaleView)
  {
    v.saleDate >= w.saleDate
  }

  /** `buildReleaseSales`: the views of all the runs' sales, newest first. */
  function BuildReleaseSales(runs: seq<ProductionRun>, salesFor: int -> seq<Sale>, ds: seq<Distributor>)
    : (r: seq<ReleaseSaleView>)
    ensures forall k :: 0 <= k < |r| - 1 ==> r[k].saleDate >= r[k + 1].saleDate
    ensures multiset(r) == multiset(SaleViews(SalesOfRuns(runs, salesFor), ds))
    ensures |r| == |SalesOfRuns(runs, salesFor)|
  {
    var views := SaleViews(SalesOfRuns(runs, salesFor), ds);
    assert Connex(NewerFirst);
    SortBySorted(views, NewerFirst);
    SortBy(views, NewerFirst)
  }

  /** The page's `totalUnitsSold`. */
  function TotalUnitsSold(sales: seq<ReleaseSaleView>): int
  {
    SumOf(sales, UnitsOf)
  }

  function UnitsOf(v: ReleaseSaleView): int
  {
    v.totalUnits
  }

  /**
   * The units sold on the page are the units of every sale found for each
   * run, added up run by run: sorting does not change the total.
   */
  lemma UnitsSoldOfRelease(runs: seq<ProductionRun>, salesFor: int -> seq<Sale>, ds: seq<Distributor>)
    ensures TotalUnitsSold(BuildReleaseSales(runs, salesFor, ds)) == SumOf(SalesOfRuns(runs, salesFor), SaleUnits)
  {
    var sales := SalesOfRuns(runs, salesFor);
    var views := SaleViews(sales, ds);
    SortKeepsSum(views, NewerFirst, UnitsOf);
    ViewsKeepUnits(sales, ds);
  }

  lemma {:induction false} ViewsKeepUnits(sales: seq<Sale>, ds: seq<Distributor>)
    ensures TotalUnitsSold(SaleViews(sales, ds)) == SumOf(sales, SaleUnits)
  {
    if sales != [] {
      ViewsKeepUnits(sales[1..], ds);
    }
  }
}

=== FILE: return_form.dfy ===
/**
 * The distributor return form's line items: the same container engine as the
 * sale form, with cards that hold a release select, a format select and a
 * quantity input but no price input.
 */
module ReturnForm {
  import opened Common
  import opened FormNames
  import opened LineItemRows

  const ReturnFields: seq<string> := ["releaseId", "format", "quantity"]

  lemma ReturnFieldsAreFieldNames()
    ensures AreFieldNames(ReturnFields)
  {
  }

  /** No field of a return card is a price: every field name ends in one of the three return fields. */
  lemma ReturnRowHasNoPrice(row: Row, index: nat)
    requires row.fields == FieldsAt(index, ReturnFields)
    ensures |row.fields| == 3
    ensures forall k :: 0 <= k < |row.fields| ==>
              FieldSuffix(row.fields[k].name) in ReturnFields && FieldSuffix(row.fields[k].name) != "unitPrice"
  {
    ReturnFieldsAreFieldNames();
    forall k | 0 <= k < |row.fields|
      ensures FieldSuffix(row.fields[k].name) == ReturnFields[k]
    {
      SuffixOfIndexedName(Head, index, ReturnFields[k]);
    }
  }

  class ReturnLineItems {
    const releases: seq<Release>
    const formats: seq<string>
    var rows: seq<Row>
    var nextElement: nat
    var alerts: seq<string>

    ghost predicate Valid()
      reads this
    {
      Contiguous(rows, ReturnFields, ReleaseOptions(releases), FormatOptions(formats))
      && forall i :: 0 <= i < |rows| ==> rows[i].element < nextElement
    }

    /**
     * `initialize(releases, formats)` on a container that already holds the
     * cards `existing`: keeps the lists and renumbers those cards. The object is
     * well formed exactly when the cards were placed at their positions with the
     * options of these lists.
     */
    constructor Initialize(releases: seq<Release>, formats: seq<string>, existing: seq<Row>)
      ensures this.releases == releases && this.formats == formats
      ensures rows == Numbered(existing) && Elements(rows) == Elements(existing) && alerts == []
      ensures Valid() <==> PlacedRows(existing, ReturnFields, ReleaseOptions(releases), FormatOptions(formats))
    {
      this.releases := releases;
      this.formats := formats;
      rows := existing;
      nextElement := FreshElement(existing);
      alerts := [];
      new;
      UpdateItemNumbers();
      NumberingPlacedRows(existing, ReturnFields, ReleaseOptions(releases), FormatOptions(formats));
    }

    /** The row template for position `index`: three fields, none of them a price. */
    function CreateLineItemHtml(index: nat): (row: Row)
      reads this
      ensures row.fields == FieldsAt(index, ReturnFields)
      ensures |row.fields| == 3 && forall k :: 0 <= k < 3 ==> FieldSuffix(row.fields[k].name) != "unitPrice"
      ensures row.ordinal == NatToString(index + 1)
      ensures row.releaseOptions == ReleaseOptions(releases) && row.formatOptions == FormatOptions(formats)
    {
      var row := CreateLineItem(nextElement, index, ReturnFields, releases, formats);
      ReturnRowHasNoPrice(row, index);
      row
    }

    /** Appends one card at index = the number of cards, then refreshes the numbering. */
    method AddLineItem()
      requires Valid()
      modifies this
      ensures Valid()
      ensures |rows| == |old(rows)| + 1 && rows[..|old(rows)|] == old(rows)
      ensures rows[|old(rows)|].fields == FieldsAt(|old(rows)|, ReturnFields)
      ensures Elements(rows) == Elements(old(rows)) + [old(nextElement)]
      ensures alerts == old(alerts)
    {
      var newIndex := |rows|;
      var row := CreateLineItemHtml(newIndex);
      AppendKeepsContiguity(rows, row, ReturnFields, ReleaseOptions(releases), FormatOptions(formats));
      rows := rows + [row];
      nextElement := nextElement + 1;
      UpdateItemNumbers();
    }

    /** Refuses with an alert when at most one card remains; otherwise removes the clicked card and renumbers. */
    method RemoveLineItem(pos: nat) returns (refused: bool)
      requires Valid() && pos < |rows|
      modifies this
      ensures Valid()
      ensures refused <==> |old(rows)| <= 1
      ensures refused ==> rows == old(rows) && alerts == old(alerts) + [MinimumRowsMessage]
      ensures !refused ==> rows == Numbered(Reindexed(old(rows)[..pos] + old(rows)[pos + 1..]))
      ensures !refused ==> Elements(rows) == Elements(old(rows))[..pos] + Elements(old(rows))[pos + 1..]
      ensures !refused ==> alerts == old(alerts)
    {
      if |rows| <= 1 {
        alerts := alerts + [MinimumRowsMessage];
        return true;
      }
      ReturnFieldsAreFieldNames();
      RemovalRestoresContiguity(rows, pos, ReturnFields, ReleaseOptions(releases), FormatOptions(formats));
      rows := rows[..pos] + rows[pos + 1..];
      ReindexLineItems();
      UpdateItemNumbers();
      refused := false;
    }

    /** Rewrites the name and id of every field of every card to the card's position. */
    method ReindexLineItems()
      modifies this
      ensures rows == Reindexed(old(rows))
      ensures nextElement == old(nextElement) && alerts == old(alerts)
    {
      var index := 0;
      while index < |rows|
        invariant 0 <= index <= |rows| == |old(rows)|
        invariant forall i :: 0 <= i < index ==> rows[i] == ReindexRow(old(rows)[i], i)
        invariant forall i :: index <= i < |rows| ==> rows[i] == old(rows)[i]
        invariant nextElement == old(nextElement) && alerts == old(alerts)
      {
        rows := rows[index := ReindexRow(rows[index], index)];
        index := index + 1;
      }
    }

    /** Sets each card's ordinal to its position plus one and hides the first card's remove button. */
    method UpdateItemNumbers()
      modifies this
      ensures rows == Numbered(old(rows))
      ensures nextElement == old(nextElement) && alerts == old(alerts)
    {
      var index := 0;
      while index < |rows|
        invariant 0 <= index <= |rows| == |old(rows)|
        invariant forall i :: 0 <= i < index ==> rows[i] == NumberRow(old(rows)[i], i)
        invariant forall i :: index <= i < |rows| ==> rows[i] == old(rows)[i]
        invariant nextElement == old(nextElement) && alerts == old(alerts)
      {
        rows := rows[index := NumberRow(rows[index], index)];
        index := index + 1;
      }
    }
  }
}

=== FILE: return_processing.dfy ===
/**
 * Registering and editing distributor returns.
 *
 * Every item goes through the return line-item processor: its release must
 * be the label's, a production run of its format must exist, and the
 * distributor's current stock of the most recent such run must cover the
 * quantity. Each item is checked against the same ledger (nothing is recorded
 * until all items pass); then the return is saved and one DISTRIBUTOR →
 * WAREHOUSE movement is recorded per distinct input, referencing the return.
 *
 * Both use cases run in one transaction: when an item fails, what the earlier
 * steps changed is rolled back, which the methods do by restoring the state
 * they found.
 */
module ReturnProcessing {
  import opened Common
  import opened SalesCommon
  import opened ProductionRuns
  import opened Ledger
  import opened SaleEntities

  // ---------------------------------------------------------------------------
  // The line-item processor

  /**
   * When an item may be returned: its release exists and is the label's, a
   * production run of its format exists, and the distributor's current stock
   * of the most recent such run covers the quantity.
   */
  predicate ReturnItemAdmissible(releases: seq<Release>, runs: seq<ProductionRun>, ledger: seq<Movement>,
                                 labelId: int, distributorId: int, item: ReturnLineItemInput)
  {
    var release := FindRelease(releases, item.releaseId);
    var run := FindMostRecent(runs, item.releaseId, item.format);
    release.Some? && release.value.labelId == labelId && run.Some?
    && CurrentInventory(ledger, run.value.id, distributorId) >= item.quantity
  }

  /**
   * The checks of `ReturnLineItemProcessor.validateAndAdd`, in the order it
   * makes them; on success the id of the run the item goes back to.
   */
  function CheckReturnItem(releases: seq<Release>, runs: seq<ProductionRun>, ledger: seq<Movement>,
                           labelId: int, distributorId: int, item: ReturnLineItemInput): (r: Result<int, SalesError>)
    ensures r.Success? <==> ReturnItemAdmissible(releases, runs, ledger, labelId, distributorId, item)
    ensures r.Success? ==> r.value == FindMostRecent(runs, item.releaseId, item.format).value.id
  {
    var located := LocateRun(releases, runs, labelId, item.releaseId, item.format, "returns");
    if located.Failure? then Failure(located.error)
    else
      var available := CurrentInventory(ledger, located.value.1.id, distributorId);
      if available < item.quantity then Failure(SalesError.InsufficientInventory(item.quantity, available))
      else Success(located.value.1.id)
  }

  /**
   * Which failure an item meets: an unknown release, then a release of
   * another label, then no production run of its format, and last too little
   * stock, reported with the quantity asked for and the quantity there is.
   */
  lemma CheckReturnItemFailures(releases: seq<Release>, runs: seq<ProductionRun>, ledger: seq<Movement>,
                                labelId: int, distributorId: int, item: ReturnLineItemInput)
    ensures var r := CheckReturnItem(releases, runs, ledger, labelId, distributorId, item);
            var release := FindRelease(releases, item.releaseId);
            var run := FindMostRecent(runs, item.releaseId, item.format);
            (release.None? ==> r == Failure(ReleaseNotFound(item.releaseId)))
            && (release.Some? && release.value.labelId != labelId ==> r == Failure(ReleaseNotOfLabel(item.releaseId, labelId)))
            && (release.Some? && release.value.labelId == labelId && run.None? ==>
                  r == Failure(NoProductionRun(release.value.name, item.format, "returns")))
            && (release.Some? && release.value.labelId == labelId && run.Some?
                && CurrentInventory(ledger, run.value.id, distributorId) < item.quantity ==>
                  r == Failure(SalesError.InsufficientInventory(item.quantity, CurrentInventory(ledger, run.value.id, distributorId))))
  {
  }

  /** Every item checked in turn; the first failure, or the run of every item. */
  function CheckReturnItems(releases: seq<Release>, runs: seq<ProductionRun>, ledger: seq<Movement>,
                            labelId: int, distributorId: int, items: seq<ReturnLineItemInput>): Result<seq<int>, SalesError>
  {
    if items == [] then Success([])
    else
      var first := CheckReturnItem(releases, runs, ledger, labelId, distributorId, items[0]);
      if first.Failure? then Failure(first.error)
      else
        var rest := CheckReturnItems(releases, runs, ledger, labelId, distributorId, items[1..]);
        if rest.Failure? then rest else Success([first.value] + rest.value)
  }

  /** Checking two lists one after the other is checking them joined. */
  lemma {:induction false} CheckReturnItemsSplit(releases: seq<Release>, runs: seq<ProductionRun>, ledger: seq<Movement>,
                                                 labelId: int, distributorId: int,
                                                 a: seq<ReturnLineItemInput>, b: seq<ReturnLineItemInput>)
    ensures var ra := CheckReturnItems(releases, runs, ledger, labelId, distributorId, a);
            var rb := CheckReturnItems(releases, runs, ledger, labelId, distributorId, b);
            CheckReturnItems(releases, runs, ledger, labelId, distributorId, a + b)
              == if ra.Failure? then ra else if rb.Failure? then rb else Success(ra.value + rb.value)
    decreases |a|
  {
    if a == [] {
      assert a + b == b;
      var rb := CheckReturnItems(releases, runs, ledger, labelId, distributorId, b);
      if rb.Success? {
        assert [] + rb.value == rb.value;
      }
    } else {
      assert (a + b)[0] == a[0] && (a + b)[1..] == a[1..] + b;
      CheckReturnItemsSplit(releases, runs, ledger, labelId, distributorId, a[1..], b);
      var first := CheckReturnItem(releases, runs, ledger, labelId, distributorId, a[0]);
      var ra' := CheckReturnItems(releases, runs, ledger, labelId, distributorId, a[1..]);
      var rb := CheckReturnItems(releases, runs, ledger, labelId, distributorId, b);
      if first.Success? && ra'.Success? && rb.Success? {
        AppendAssociative([first.value], ra'.value, rb.value);
      }
    }
  }

  lemma CheckReturnItemsSingle(releases: seq<Release>, runs: seq<ProductionRun>, ledger: seq<Movement>,
                               labelId: int, distributorId: int, item: ReturnLineItemInput)
    ensures var r := CheckReturnItem(releases, runs, ledger, labelId, distributorId, item);
            CheckReturnItems(releases, runs, ledger, labelId, distributorId, [item])
              == if r.Failure? then Failure(r.error) else Success([r.value])
  {
    assert [item][0] == item && [item][1..] == [];
    var r := CheckReturnItem(releases, runs, ledger, labelId, distributorId, item);
    if r.Success? {
      assert [r.value] + [] == [r.value];
    }
  }

  /**
   * The checks do not accumulate: the items pass together exactly when each
   * passes on its own against the same ledger, each then going back to its
   * own most recent run.
   */
  lemma {:induction false} CheckReturnItemsEach(releases: seq<Release>, runs: seq<ProductionRun>, ledger: seq<Movement>,
                                                labelId: int, distributorId: int, items: seq<ReturnLineItemInput>)
    ensures CheckReturnItems(releases, runs, ledger, labelId, distributorId, items).Success?
            <==> forall k :: 0 <= k < |items| ==> ReturnItemAdmissible(releases, runs, ledger, labelId, distributorId, items[k])
    ensures var r := CheckReturnItems(releases, runs, ledger, labelId, distributorId, items);
            r.Success? ==> |r.value| == |items|
                           && forall k :: 0 <= k < |items| ==>
                                r.value[k] == CheckReturnItem(releases, runs, ledger, labelId, distributorId, items[k]).value
    decreases |items|
  {
    if items != [] {
      var rest := items[1..];
      CheckReturnItemsEach(releases, runs, ledger, labelId, distributorId, rest);
      assert forall k :: 1 <= k < |items| ==> items[k] == rest[k - 1];
    }
  }

  /** A failure is the failure of the first item that does not pass. */
  lemma {:induction false} CheckReturnItemsFirstFailure(releases: seq<Release>, runs: seq<ProductionRun>, ledger: seq<Movement>,
                                                        labelId: int, distributorId: int, items: seq<ReturnLineItemInput>)
    ensures var r := CheckReturnItems(releases, runs, ledger, labelId, distributorId, items);
            r.Failure? ==> exists k :: 0 <= k < |items|
                             && (forall j :: 0 <= j < k ==> ReturnItemAdmissible(releases, runs, ledger, labelId, distributorId, items[j]))
                             && CheckReturnItem(releases, runs, ledger, labelId, distributorId, items[k]) == Failure(r.error)
    decreases |items|
  {
    if items != [] {
      var rest := items[1..];
      var r := CheckReturnItems(releases, runs, ledger, labelId, distributorId, items);
      var first := CheckReturnItem(releases, runs, ledger, labelId, distributorId, items[0]);
      if first.Success? && r.Failure? {
        CheckReturnItemsFirstFailure(releases, runs, ledger, labelId, distributorId, rest);
        var k :| 0 <= k < |rest|
                 && (forall j :: 0 <= j < k ==> ReturnItemAdmissible(releases, runs, ledger, labelId, distributorId, rest[j]))
                 && CheckReturnItem(releases, runs, ledger, labelId, distributorId, rest[k]) == Failure(r.error);
        forall j | 0 <= j < k + 1 ensures ReturnItemAdmissible(releases, runs, ledger, labelId, distributorId, items[j]) {
          if j > 0 {
            assert items[j] == rest[j - 1];
          }
        }
        assert items[k + 1] == rest[k];
      }
    }
  }

  /** One more item checked: either the whole list fails with its failure, or the prefix grows by its run. */
  lemma CheckedReturnPrefixStep(releases: seq<Release>, runs: seq<ProductionRun>, ledger: seq<Movement>,
                                labelId: int, distributorId: int, items: seq<ReturnLineItemInput>, i: nat, runIds: seq<int>)
    requires i < |items|
    requires CheckReturnItems(releases, runs, ledger, labelId, distributorId, items[..i]) == Success(runIds)
    ensures var r := CheckReturnItem(releases, runs, ledger, labelId, distributorId, items[i]);
            (r.Failure? ==> CheckReturnItems(releases, runs, ledger, labelId, distributorId, items) == Failure(r.error))
            && (r.Success? ==> CheckReturnItems(releases, runs, ledger, labelId, distributorId, items[..i + 1]) == Success(runIds + [r.value]))
  {
    var r := CheckReturnItem(releases, runs, ledger, labelId, distributorId, items[i]);
    CheckReturnItemsSingle(releases, runs, ledger, labelId, distributorId, items[i]);
    if r.Failure? {
      assert items == items[..i] + items[i..] && items[i..][0] == items[i];
      CheckReturnItemsSplit(releases, runs, ledger, labelId, distributorId, items[..i], items[i..]);
    } else {
      PrefixSnoc(items, i);
      CheckReturnItemsSplit(releases, runs, ledger, labelId, distributorId, items[..i], [items[i]]);
    }
  }

  lemma ReturnItemValuesSnoc(before: seq<ReturnLineItemEntity>, item: ReturnLineItemEntity)
    ensures ReturnItemValues(before + [item]) == ReturnItemValues(before) + [ReturnLineItemInput(item.releaseId, item.format, item.quantity)]
  {
  }

  /**
   * `ReturnLineItemProcessor.validateAndAdd`: the item is added to the
   * return only when every check passes, and the run it goes back to is
   * returned.
   */
  method ValidateAndAdd(releases: seq<Release>, runs: seq<ProductionRun>, ledger: seq<Movement>,
                        labelId: int, distributorId: int, item: ReturnLineItemInput, ret: DistributorReturnEntity)
    returns (r: Result<int, SalesError>)
    modifies ret
    ensures r == CheckReturnItem(releases, runs, ledger, labelId, distributorId, item)
    ensures r.Failure? ==> ret.lineItems == old(ret.lineItems)
    ensures r.Success? ==> |ret.lineItems| == |old(ret.lineItems)| + 1 && ret.lineItems[..|ret.lineItems| - 1] == old(ret.lineItems)
                           && ReturnItemValues(ret.lineItems) == ReturnItemValues(old(ret.lineItems)) + [item]
    ensures ret.id == old(ret.id) && ret.returnDate == old(ret.returnDate) && ret.notes == old(ret.notes)
  {
    r := CheckReturnItem(releases, runs, ledger, labelId, distributorId, item);
    if r.Success? {
      var line := new ReturnLineItemEntity(item.releaseId, item.format, item.quantity);
      ReturnItemValuesSnoc(ret.lineItems, line);
      ret.AddLineItem(line);
    }
  }

  /**
   * Step 4 of registering, step 3 of editing: each item through the
   * processor in turn, the run of each collected in an insertion-ordered map
   * keyed by the input. The return starts with no items; on a failure it
   * holds the items that passed.
   */
  method AddCheckedItems(releases: seq<Release>, runs: seq<ProductionRun>, ledger: seq<Movement>,
                         labelId: int, distributorId: int, items: seq<ReturnLineItemInput>, ret: DistributorReturnEntity)
    returns (r: Result<seq<(ReturnLineItemInput, int)>, SalesError>)
    requires ret.lineItems == []
    modifies ret
    ensures ret.id == old(ret.id) && ret.returnDate == old(ret.returnDate) && ret.notes == old(ret.notes)
    ensures var check := CheckReturnItems(releases, runs, ledger, labelId, distributorId, items);
            (r.Failure? <==> check.Failure?)
            && (r.Failure? ==> r.error == check.error && |ret.lineItems| < |items|
                               && ReturnItemValues(ret.lineItems) == items[..|ret.lineItems|])
            && (r.Success? ==> |check.value| == |items| && r.value == PutAll([], Zip(items, check.value))
                               && ReturnItemValues(ret.lineItems) == items)
  {
    var entries: seq<(ReturnLineItemInput, int)> := [];
    ghost var runIds: seq<int> := [];
    var i := 0;
    while i < |items|
      invariant 0 <= i <= |items| && |runIds| == i && |ret.lineItems| == i
      invariant CheckReturnItems(releases, runs, ledger, labelId, distributorId, items[..i]) == Success(runIds)
      invariant entries == PutAll([], Zip(items[..i], runIds))
      invariant ReturnItemValues(ret.lineItems) == items[..i]
      invariant ret.id == old(ret.id) && ret.returnDate == old(ret.returnDate) && ret.notes == old(ret.notes)
    {
      var item := items[i];
      var runId := ValidateAndAdd(releases, runs, ledger, labelId, distributorId, item, ret);
      CheckedReturnPrefixStep(releases, runs, ledger, labelId, distributorId, items, i, runIds);
      if runId.Failure? {
        return Failure(runId.error);
      }
      PrefixSnoc(items, i);
      PutAllZipStep(items, runIds, runId.value);
      entries := Put(entries, item, runId.value);
      runIds := runIds + [runId.value];
      i := i + 1;
    }
    assert items[..i] == items;
    r := Success(entries);
  }

  // ---------------------------------------------------------------------------
  // The RETURN movements

  /** The RETURN movements recorded for the collected entries, in the map's order. */
  function ReturnMovementsOf(entries: seq<(ReturnLineItemInput, int)>, distributor: int, ref: int, now: int): (ms: seq<Movement>)
    ensures |ms| == |entries|
    ensures forall k :: 0 <= k < |ms| ==> ms[k] == ReturnMovement(entries[k].1, distributor, entries[k].0.quantity, now, Some(ref))
  {
    seq(|entries|, k requires 0 <= k < |entries| => ReturnMovement(entries[k].1, distributor, entries[k].0.quantity, now, Some(ref)))
  }

  /** The quantity the entries send back to one run. */
  function QuantityToRun(entries: seq<(ReturnLineItemInput, int)>, run: int): int
  {
    if entries == [] then 0
    else QuantityToRun(entries[..|entries| - 1], run)
         + (if entries[|entries| - 1].1 == run then entries[|entries| - 1].0.quantity else 0)
  }

  /**
   * Recording the return movements moves, for each run, what the entries
   * send back to it from the distributor's stock to the warehouse.
   */
  lemma {:induction false} ReturnMovementsMoveStock(ledger: seq<Movement>, entries: seq<(ReturnLineItemInput, int)>,
                                                    distributor: int, ref: int, now: int, run: int)
    ensures var l' := ledger + ReturnMovementsOf(entries, distributor, ref, now);
            CurrentInventory(l', run, distributor) == CurrentInventory(ledger, run, distributor) - QuantityToRun(entries, run)
            && WarehouseInventory(l', run) == WarehouseInventory(ledger, run) + QuantityToRun(entries, run)
    decreases |entries|
  {
    if entries == [] {
      assert ledger + ReturnMovementsOf(entries, distributor, ref, now) == ledger;
    } else {
      var init := entries[..|entries| - 1];
      var e := entries[|entries| - 1];
      ReturnMovementsMoveStock(ledger, init, distributor, ref, now, run);
      var all := ReturnMovementsOf(entries, distributor, ref, now);
      var before := ReturnMovementsOf(init, distributor, ref, now);
      var m := ReturnMovement(e.1, distributor, e.0.quantity, now, Some(ref));
      assert all == before + [m] by {
        forall k | 0 <= k < |all| ensures all[k] == (before + [m])[k] {
          if k < |init| {
            assert init[k] == entries[k];
          }
        }
      }
      assert ledger + all == (ledger + before) + [m];
      ReturnMovesStock(ledger + before, e.1, distributor, e.0.quantity, now, Some(ref));
    }
  }

  method RecordReturnMovements(movements: MovementStore, entries: seq<(ReturnLineItemInput, int)>,
                               distributor: int, returnId: int, now: int)
    modifies movements
    ensures movements.movements == old(movements.movements) + ReturnMovementsOf(entries, distributor, returnId, now)
  {
    var j := 0;
    while j < |entries|
      invariant 0 <= j <= |entries|
      invariant movements.movements == old(movements.movements) + ReturnMovementsOf(entries[..j], distributor, returnId, now)
    {
      movements.RecordMovement(entries[j].1, LocationType.Distributor, Some(distributor), Warehouse, None,
                               entries[j].0.quantity, Return, Some(returnId), now);
      assert ReturnMovementsOf(entries[..j + 1], distributor, returnId, now)
             == ReturnMovementsOf(entries[..j], distributor, returnId, now)
                + [ReturnMovement(entries[j].1, distributor, entries[j].0.quantity, now, Some(returnId))];
      j := j + 1;
    }
    assert entries[..j] == entries;
  }

  // ---------------------------------------------------------------------------
  // Registering a return

  /**
   * Steps 3 and 4 of `RegisterReturnUseCase.execute`: a new return of the
   * distributor with the items that pass the processor against `ledger`.
   */
  method BuildReturn(releases: seq<Release>, runs: seq<ProductionRun>, ledger: seq<Movement>,
                     labelId: int, distributorId: int, returnDate: int, notes: Option<string>, items: seq<ReturnLineItemInput>)
    returns (r: Result<(DistributorReturnEntity, seq<(ReturnLineItemInput, int)>), SalesError>)
    ensures var check := CheckReturnItems(releases, runs, ledger, labelId, distributorId, items);
            (r.Failure? <==> check.Failure?) && (r.Failure? ==> r.error == check.error)
            && (r.Success? ==> |check.value| == |items| && r.value.1 == PutAll([], Zip(items, check.value)))
    ensures r.Success? ==> fresh(r.value.0) && r.value.0.id.None?
                           && ReturnItemValues(r.value.0.lineItems) == items
                           && r.value.0.labelId == labelId && r.value.0.distributorId == distributorId
                           && r.value.0.returnDate == returnDate && r.value.0.notes == notes
  {
    var ret := new DistributorReturnEntity(labelId, distributorId, returnDate, notes);
    var entries := AddCheckedItems(releases, runs, ledger, labelId, distributorId, items, ret);
    if entries.Failure? {
      return Failure(entries.error);
    }
    r := Success((ret, entries.value));
  }

  /**
   * `RegisterReturnUseCase.execute`: the items must not be empty, the label
   * must exist and the distributor must be one of the label's; then the
   * items are checked, the return saved with a new id and one RETURN
   * movement recorded per distinct input, referencing that id. Nothing is
   * recorded or saved when an item fails.
   */
  method RegisterReturn(labels: set<int>, releases: seq<Release>, runs: seq<ProductionRun>, distributors: seq<Distributor>,
                        repo: ReturnRepository, movements: MovementStore,
                        labelId: int, distributorId: int, returnDate: int, notes: Option<string>,
                        items: seq<ReturnLineItemInput>, now: int)
    returns (r: Result<DistributorReturnEntity, SalesError>)
    requires repo.Valid()
    modifies repo, movements
    ensures repo.Valid()
    ensures items == [] ==> r == Failure(EmptyLineItems(ReturnNeedsItems))
    ensures items != [] && labelId !in labels ==> r == Failure(LabelNotFound(labelId))
    ensures items != [] && labelId in labels && FindLabelDistributor(distributors, labelId, Some(distributorId)).None? ==>
              r == Failure(DistributorNotFound(distributorId, labelId))
    ensures r.Failure? ==> movements.movements == old(movements.movements)
                           && repo.saved == old(repo.saved) && repo.nextId == old(repo.nextId)
    ensures items != [] && labelId in labels && FindLabelDistributor(distributors, labelId, Some(distributorId)).Some? ==>
              var check := CheckReturnItems(releases, runs, old(movements.movements), labelId, distributorId, items);
              (r.Failure? <==> check.Failure?) && (r.Failure? ==> r.error == check.error)
              && (r.Success? ==>
                    |check.value| == |items|
                    && movements.movements
                       == old(movements.movements)
                          + ReturnMovementsOf(PutAll([], Zip(items, check.value)), distributorId, old(repo.nextId), now))
    ensures r.Success? ==> fresh(r.value)
                           && r.value.id == Some(old(repo.nextId)) && repo.nextId == old(repo.nextId) + 1
                           && repo.saved == old(repo.saved)[old(repo.nextId) := r.value]
                           && ReturnItemValues(r.value.lineItems) == items
                           && r.value.labelId == labelId && r.value.distributorId == distributorId
                           && r.value.returnDate == returnDate && r.value.notes == notes
  {
    if items == [] {
      return Failure(EmptyLineItems(ReturnNeedsItems));
    }
    if labelId !in labels {
      return Failure(LabelNotFound(labelId));
    }
    if FindLabelDistributor(distributors, labelId, Some(distributorId)).None? {
      return Failure(DistributorNotFound(distributorId, labelId));
    }
    var built := BuildReturn(releases, runs, movements.movements, labelId, distributorId, returnDate, notes, items);
    if built.Failure? {
      return Failure(built.error);
    }
    var (ret, entries) := built.value;
    repo.Save(ret);
    RecordReturnMovements(movements, entries, distributorId, ret.id.value, now);
    r := Success(ret);
  }

  // ---------------------------------------------------------------------------
  // Editing a return

  /**
   * Steps 1 to 5 of `UpdateReturnUseCase.execute` on a stored return: its
   * RETURN movements deleted, its items replaced by the new ones checked
   * against the ledger without them, its date and notes set, then the return
   * saved and the new movements recorded. The distributor stays the one it
   * was registered with. A failing item rolls everything back.
   */
  method EditReturn(releases: seq<Release>, runs: seq<ProductionRun>, repo: ReturnRepository, movements: MovementStore,
                    ret: DistributorReturnEntity, returnId: int, returnDate: int, notes: Option<string>,
                    items: seq<ReturnLineItemInput>, now: int)
    returns (err: Option<SalesError>)
    requires repo.Valid() && returnId in repo.saved && repo.saved[returnId] == ret
    modifies repo, movements, ret
    ensures repo.Valid() && repo.saved == old(repo.saved) && repo.nextId == old(repo.nextId)
    ensures err.Some? ==> movements.movements == old(movements.movements)
                          && ret.lineItems == old(ret.lineItems) && ret.returnDate == old(ret.returnDate)
                          && ret.notes == old(ret.notes) && ret.id == old(ret.id)
    ensures var check := CheckReturnItems(releases, runs, WithoutReference(old(movements.movements), Return, returnId),
                                          ret.labelId, ret.distributorId, items);
            (err.Some? <==> check.Failure?)
            && (err.Some? ==> err.value == check.error)
            && (err.None? ==>
                  ret.id == Some(returnId) && ReturnItemValues(ret.lineItems) == items
                  && ret.returnDate == returnDate && ret.notes == notes && |check.value| == |items|
                  && movements.movements
                     == WithoutReference(old(movements.movements), Return, returnId)
                        + ReturnMovementsOf(PutAll([], Zip(items, check.value)), ret.distributorId, returnId, now))
  {
    var beforeLedger, beforeItems, beforeDate, beforeNotes := movements.movements, ret.lineItems, ret.returnDate, ret.notes;

    movements.DeleteMovementsByReference(Return, returnId);
    ret.ClearLineItems();
    ret.SetReturnDate(returnDate);
    ret.SetNotes(notes);

    var entries := AddCheckedItems(releases, runs, movements.movements, ret.labelId, ret.distributorId, items, ret);
    if entries.Failure? {
      // The transaction rolls back.
      movements.movements := beforeLedger;
      ret.lineItems, ret.returnDate, ret.notes := beforeItems, beforeDate, beforeNotes;
      return Some(entries.error);
    }

    repo.Save(ret);
    RecordReturnMovements(movements, entries.value, ret.distributorId, returnId, now);
    err := None;
  }

  /**
   * `UpdateReturnUseCase.execute`: the items must not be empty and the
   * return must exist; then the stored return is edited.
   */
  method UpdateReturn(releases: seq<Release>, runs: seq<ProductionRun>, repo: ReturnRepository, movements: MovementStore,
                      returnId: int, returnDate: int, notes: Option<string>, items: seq<ReturnLineItemInput>, now: int)
    returns (err: Option<SalesError>)
    requires repo.Valid()
    modifies repo, movements, repo.saved.Values
    ensures repo.Valid() && repo.saved == old(repo.saved) && repo.nextId == old(repo.nextId)
    ensures items == [] ==> err == Some(EmptyLineItems(ReturnNeedsItems))
    ensures items != [] && returnId !in old(repo.saved) ==> err == Some(ReturnNotFound(returnId))
    ensures err.Some? ==> movements.movements == old(movements.movements)
    ensures err.Some? && returnId in old(repo.saved) ==>
              var ret := old(repo.saved)[returnId];
              ret.lineItems == old(ret.lineItems) && ret.returnDate == old(ret.returnDate)
              && ret.notes == old(ret.notes) && ret.id == old(ret.id)
    ensures items != [] && returnId in old(repo.saved) ==>
              var ret := old(repo.saved)[returnId];
              var check := CheckReturnItems(releases, runs, WithoutReference(old(movements.movements), Return, returnId),
                                            ret.labelId, ret.distributorId, items);
              (err.Some? <==> check.Failure?)
              && (err.Some? ==> err.value == check.error)
              && (err.None? ==>
                    ret.id == Some(returnId) && ReturnItemValues(ret.lineItems) == items
                    && ret.returnDate == returnDate && ret.notes == notes && |check.value| == |items|
                    && movements.movements
                       == WithoutReference(old(movements.movements), Return, returnId)
                          + ReturnMovementsOf(PutAll([], Zip(items, check.value)), ret.distributorId, returnId, now))
  {
    if items == [] {
      return Some(EmptyLineItems(ReturnNeedsItems));
    }
    if returnId !in repo.saved {
      return Some(ReturnNotFound(returnId));
    }
    err := EditReturn(releases, runs, repo, movements, repo.saved[returnId], returnId, returnDate, notes, items, now);
  }
}

=== FILE: sale_entities.dfy ===
/**
 * The persisted sale and distributor-return entities. A sale owns its line
 * items (each points back at it) and keeps its total equal to the sum of
 * their line totals; a return owns its line items likewise and carries no
 * amounts. Label, distributor, channel and currency are fixed at
 * construction; only the date, the notes and the items change.
 */
module SaleEntities {
  import opened Common
  import opened SalesCommon

  /** `SaleLineItemEntity`: everything but the owning sale is fixed at construction. */
  class SaleLineItemEntity {
    const releaseId: int
    const format: string
    const quantity: int
    const unitPrice: real
    const lineTotal: real
    const currency: string
    var sale: SaleEntity?

    /** The line total is the unit price times the quantity; every line item is built so. */
    ghost predicate Priced()
    {
      lineTotal == unitPrice * quantity as real
    }

    /** The line total is the unit price times the quantity. */
    constructor (releaseId: int, format: string, quantity: int, unitPrice: real, currency: string)
      ensures Priced()
      ensures this.releaseId == releaseId && this.format == format && this.quantity == quantity
      ensures this.unitPrice == unitPrice && this.currency == currency
      ensures lineTotal == unitPrice * quantity as real
      ensures quantity == 0 ==> lineTotal == 0.0
      ensures sale == null
    {
      this.releaseId := releaseId;
      this.format := format;
      this.quantity := quantity;
      this.unitPrice := unitPrice;
      this.lineTotal := unitPrice * quantity as real;
      this.currency := currency;
      this.sale := null;
    }
  }

  /** Σ line totals, added left to right from zero as the stream reduction does. */
  function SumLineTotals(items: seq<SaleLineItemEntity>): real
  {
    if items == [] then 0.0 else SumLineTotals(items[..|items| - 1]) + items[|items| - 1].lineTotal
  }

  lemma {:induction false} SumLineTotalsAppend(a: seq<SaleLineItemEntity>, b: seq<SaleLineItemEntity>)
    ensures SumLineTotals(a + b) == SumLineTotals(a) + SumLineTotals(b)
    decreases |b|
  {
    if b == [] {
      assert a + b == a;
    } else {
      assert (a + b)[..|a + b| - 1] == a + b[..|b| - 1];
      SumLineTotalsAppend(a, b[..|b| - 1]);
    }
  }

  /** The values a sale line item carries, for stating what the use cases add. */
  datatype LineItemValues = LineItemValues(releaseId: int, format: string, quantity: int, unitPrice: real, currency: string)

  function SaleItemValues(items: seq<SaleLineItemEntity>): (vs: seq<LineItemValues>)
    ensures |vs| == |items|
  {
    seq(|items|, i requires 0 <= i < |items| =>
      LineItemValues(items[i].releaseId, items[i].format, items[i].quantity, items[i].unitPrice, items[i].currency))
  }

  /** What one line of these values amounts to: unit price times quantity. */
  function LineAmount(v: LineItemValues): real
  {
    v.unitPrice * v.quantity as real
  }

  /** Σ unit price × quantity over line values, left to right. */
  function ValuesTotal(vs: seq<LineItemValues>): real
  {
    if vs == [] then 0.0 else ValuesTotal(vs[..|vs| - 1]) + LineAmount(vs[|vs| - 1])
  }

  /** For priced line items, the sum of the line totals is the sum of unit price × quantity over their values. */
  lemma {:induction false} PricedLinesTotal(items: seq<SaleLineItemEntity>)
    requires forall k :: 0 <= k < |items| ==> items[k].Priced()
    ensures SumLineTotals(items) == ValuesTotal(SaleItemValues(items))
    decreases |items|
  {
    if items != [] {
      var init := items[..|items| - 1];
      assert SaleItemValues(items)[..|items| - 1] == SaleItemValues(init);
      assert forall k :: 0 <= k < |init| ==> init[k] == items[k];
      PricedLinesTotal(init);
      assert items[|items| - 1].Priced();
    }
  }

  /** A well-formed sale's total is Σ unit price × quantity over its lines. */
  lemma ValidSaleTotal(sale: SaleEntity)
    requires sale.Valid()
    ensures sale.totalAmount == ValuesTotal(SaleItemValues(sale.lineItems))
  {
    PricedLinesTotal(sale.lineItems);
  }

  class SaleEntity {
    var id: Option<int>
    const labelId: int
    const distributorId: Option<int>
    var saleDate: int
    const channel: ChannelType
    var notes: Option<string>
    var lineItems: seq<SaleLineItemEntity>
    var totalAmount: real
    const currency: string

    /** The total is always the sum of the line totals, and every line is priced. */
    ghost predicate Valid()
      reads this
    {
      totalAmount == SumLineTotals(lineItems)
      && forall k :: 0 <= k < |lineItems| ==> lineItems[k].Priced()
    }

    /** A new sale has no items and total 0. */
    constructor (labelId: int, distributorId: Option<int>, saleDate: int, channel: ChannelType,
                 notes: Option<string>, currency: string)
      ensures Valid()
      ensures id.None? && lineItems == [] && totalAmount == 0.0
      ensures this.labelId == labelId && this.distributorId == distributorId && this.saleDate == saleDate
      ensures this.channel == channel && this.notes == notes && this.currency == currency
    {
      this.id := None;
      this.labelId := labelId;
      this.distributorId := distributorId;
      this.saleDate := saleDate;
      this.channel := channel;
      this.notes := notes;
      this.lineItems := [];
      this.totalAmount := 0.0;
      this.currency := currency;
    }

    /** `addLineItem(item)`: appended at the end, pointed back at this sale, total recomputed. */
    method AddLineItem(item: SaleLineItemEntity)
      requires Valid() && item.Priced()
      modifies this, item
      ensures Valid()
      ensures lineItems == old(lineItems) + [item] && item.sale == this
      ensures totalAmount == old(SumLineTotals(lineItems)) + item.lineTotal
      ensures id == old(id) && saleDate == old(saleDate) && notes == old(notes)
    {
      lineItems := lineItems + [item];
      item.sale := this;
      RecalculateTotal();
      assert lineItems[..|lineItems| - 1] == old(lineItems);
    }

    /** `clearLineItems()`: no items, total 0. */
    method ClearLineItems()
      modifies this
      ensures Valid()
      ensures lineItems == [] && totalAmount == 0.0
      ensures id == old(id) && saleDate == old(saleDate) && notes == old(notes)
    {
      lineItems := [];
      totalAmount := 0.0;
    }

    method SetSaleDate(saleDate: int)
      modifies this
      ensures this.saleDate == saleDate
      ensures id == old(id) && notes == old(notes) && lineItems == old(lineItems) && totalAmount == old(totalAmount)
    {
      this.saleDate := saleDate;
    }

    method SetNotes(notes: Option<string>)
      modifies this
      ensures this.notes == notes
      ensures id == old(id) && saleDate == old(saleDate) && lineItems == old(lineItems) && totalAmount == old(totalAmount)
    {
      this.notes := notes;
    }

    method RecalculateTotal()
      modifies this
      ensures totalAmount == SumLineTotals(lineItems)
      ensures id == old(id) && saleDate == old(saleDate) && notes == old(notes) && lineItems == old(lineItems)
    {
      totalAmount := SumLineTotals(lineItems);
    }
  }

  /** `ReturnLineItemEntity`: a release, a format and a quantity. */
  class ReturnLineItemEntity {
    const releaseId: int
    const format: string
    const quantity: int
    var distributorReturn: DistributorReturnEntity?

    constructor (releaseId: int, format: string, quantity: int)
      ensures this.releaseId == releaseId && this.format == format && this.quantity == quantity
      ensures distributorReturn == null
    {
      this.releaseId := releaseId;
      this.format := format;
      this.quantity := quantity;
      this.distributorReturn := null;
    }
  }

  function ReturnItemValues(items: seq<ReturnLineItemEntity>): (vs: seq<ReturnLineItemInput>)
    ensures |vs| == |items|
  {
    seq(|items|, i requires 0 <= i < |items| => ReturnLineItemInput(items[i].releaseId, items[i].format, items[i].quantity))
  }

  class DistributorReturnEntity {
    var id: Option<int>
    const labelId: int
    const distributorId: int
    var returnDate: int
    var notes: Option<string>
    var lineItems: seq<ReturnLineItemEntity>

    /** A new return has no items. */
    constructor (labelId: int, distributorId: int, returnDate: int, notes: Option<string>)
      ensures id.None? && lineItems == []
      ensures this.labelId == labelId && this.distributorId == distributorId
      ensures this.returnDate == returnDate && this.notes == notes
    {
      this.id := None;
      this.labelId := labelId;
      this.distributorId := distributorId;
      this.returnDate := returnDate;
      this.notes := notes;
      this.lineItems := [];
    }

    /** `addLineItem(item)`: appended at the end and pointed back at this return. */
    method AddLineItem(item: ReturnLineItemEntity)
      modifies this, item
      ensures lineItems == old(lineItems) + [item] && item.distributorReturn == this
      ensures id == old(id) && returnDate == old(returnDate) && notes == old(notes)
    {
      lineItems := lineItems + [item];
      item.distributorReturn := this;
    }

    method ClearLineItems()
      modifies this
      ensures lineItems == []
      ensures id == old(id) && returnDate == old(returnDate) && notes == old(notes)
    {
      lineItems := [];
    }

    method SetReturnDate(returnDate: int)
      modifies this
      ensures this.returnDate == returnDate
      ensures id == old(id) && notes == old(notes) && lineItems == old(lineItems)
    {
      this.returnDate := returnDate;
    }

    method SetNotes(notes: Option<string>)
      modifies this
      ensures this.notes == notes
      ensures id == old(id) && returnDate == old(returnDate) && lineItems == old(lineItems)
    {
      this.notes := notes;
    }
  }

  /** The sale repository: `save` gives a new entity the next id. */
  class SaleRepository {
    var sales: map<int, SaleEntity>
    var nextId: int

    /** Each stored sale carries its key as id, and every key is below the next id. */
    ghost predicate Valid()
      reads this, sales.Values`id
    {
      forall k :: k in sales ==> sales[k].id == Some(k) && k < nextId
    }

    constructor Empty()
      ensures Valid() && sales == map[]
    {
      sales := map[];
      nextId := 1;
    }

    method Save(e: SaleEntity)
      requires Valid()
      requires e.id.Some? ==> e.id.value in sales && sales[e.id.value] == e
      modifies this, e
      ensures Valid()
      ensures old(e.id).None? ==> e.id == Some(old(nextId)) && nextId == old(nextId) + 1
      ensures old(e.id).Some? ==> e.id == old(e.id) && nextId == old(nextId)
      ensures sales == old(sales)[e.id.value := e]
      ensures e.lineItems == old(e.lineItems) && e.totalAmount == old(e.totalAmount)
      ensures e.saleDate == old(e.saleDate) && e.notes == old(e.notes)
    {
      if e.id.None? {
        e.id := Some(nextId);
        nextId := nextId + 1;
      }
      sales := sales[e.id.value := e];
    }
  }

  /** The return repository, likewise. */
  class ReturnRepository {
    var saved: map<int, DistributorReturnEntity>
    var nextId: int

    /** Each stored return carries its key as id, and every key is below the next id. */
    ghost predicate Valid()
      reads this, saved.Values`id
    {
      forall k :: k in saved ==> saved[k].id == Some(k) && k < nextId
    }

    constructor Empty()
      ensures Valid() && saved == map[]
    {
      saved := map[];
      nextId := 1;
    }

    method Save(e: DistributorReturnEntity)
      requires Valid()
      requires e.id.Some? ==> e.id.value in saved && saved[e.id.value] == e
      modifies this, e
      ensures Valid()
      ensures old(e.id).None? ==> e.id == Some(old(nextId)) && nextId == old(nextId) + 1
      ensures old(e.id).Some? ==> e.id == old(e.id) && nextId == old(nextId)
      ensures saved == old(saved)[e.id.value := e]
      ensures e.lineItems == old(e.lineItems) && e.returnDate == old(e.returnDate) && e.notes == old(e.notes)
    {
      if e.id.None? {
        e.id := Some(nextId);
        nextId := nextId + 1;
      }
      saved := saved[e.id.value := e];
    }
  }
}

=== FILE: sale_form.dfy ===
/**
 * The sale registration form's line items: a container of cards with a
 * release select, a format select, a quantity input and a unit price input.
 * The JavaScript object keeps the releases and formats it was initialised with
 * and edits the container in place; here the container is the `rows`
 * sequence, `nextElement` stands for the DOM's supply of fresh nodes and
 * `alerts` records the messages shown with `alert`.
 */
module SaleForm {
  import opened Common
  import opened FormNames
  import opened LineItemRows

  const SaleFields: seq<string> := ["releaseId", "format", "quantity", "unitPrice"]

  lemma SaleFieldsAreFieldNames()
    ensures AreFieldNames(SaleFields)
  {
  }

  class SaleLineItems {
    const releases: seq<Release>
    const formats: seq<string>
    var rows: seq<Row>
    var nextElement: nat
    var alerts: seq<string>

    ghost predicate Valid()
      reads this
    {
      Contiguous(rows, SaleFields, ReleaseOptions(releases), FormatOptions(formats))
      && forall i :: 0 <= i < |rows| ==> rows[i].element < nextElement
    }

    /**
     * `initialize(releases, formats)` on a container that already holds the
     * cards `existing`: keeps the lists and renumbers those cards. The object is
     * well formed exactly when the cards were placed at their positions with the
     * options of these lists.
     */
    constructor Initialize(releases: seq<Release>, formats: seq<string>, existing: seq<Row>)
      ensures this.releases == releases && this.formats == formats
      ensures rows == Numbered(existing) && Elements(rows) == Elements(existing) && alerts == []
      ensures Valid() <==> PlacedRows(existing, SaleFields, ReleaseOptions(releases), FormatOptions(formats))
    {
      this.releases := releases;
      this.formats := formats;
      rows := existing;
      nextElement := FreshElement(existing);
      alerts := [];
      new;
      UpdateItemNumbers();
      NumberingPlacedRows(existing, SaleFields, ReleaseOptions(releases), FormatOptions(formats));
    }

    /** The row template for position `index`. */
    function CreateLineItemHtml(index: nat): (row: Row)
      reads this
      ensures row.fields == FieldsAt(index, SaleFields)
      ensures |row.fields| == 4 && row.fields[3].name == IndexedName(Head, index, "unitPrice")
      ensures row.ordinal == NatToString(index + 1)
      ensures row.releaseOptions == ReleaseOptions(releases) && row.formatOptions == FormatOptions(formats)
    {
      CreateLineItem(nextElement, index, SaleFields, releases, formats)
    }

    /** Appends one card at index = the number of cards, then refreshes the numbering. */
    method AddLineItem()
      requires Valid()
      modifies this
      ensures Valid()
      ensures |rows| == |old(rows)| + 1 && rows[..|old(rows)|] == old(rows)
      ensures rows[|old(rows)|].fields == FieldsAt(|old(rows)|, SaleFields)
      ensures Elements(rows) == Elements(old(rows)) + [old(nextElement)]
      ensures alerts == old(alerts)
    {
      var newIndex := |rows|;
      var row := CreateLineItemHtml(newIndex);
      AppendKeepsContiguity(rows, row, SaleFields, ReleaseOptions(releases), FormatOptions(formats));
      rows := rows + [row];
      nextElement := nextElement + 1;
      UpdateItemNumbers();
    }

    /**
     * Refuses with an alert when at most one card remains; otherwise removes
     * the card whose button was clicked, at whatever position, and renumbers.
     */
    method RemoveLineItem(pos: nat) returns (refused: bool)
      requires Valid() && pos < |rows|
      modifies this
      ensures Valid()
      ensures refused <==> |old(rows)| <= 1
      ensures refused ==> rows == old(rows) && alerts == old(alerts) + [MinimumRowsMessage]
      ensures !refused ==> rows == Numbered(Reindexed(old(rows)[..pos] + old(rows)[pos + 1..]))
      ensures !refused ==> Elements(rows) == Elements(old(rows))[..pos] + Elements(old(rows))[pos + 1..]
      ensures !refused ==> alerts == old(alerts)
    {
      if |rows| <= 1 {
        alerts := alerts + [MinimumRowsMessage];
        return true;
      }
      SaleFieldsAreFieldNames();
      RemovalRestoresContiguity(rows, pos, SaleFields, ReleaseOptions(releases), FormatOptions(formats));
      rows := rows[..pos] + rows[pos + 1..];
      ReindexLineItems();
      UpdateItemNumbers();
      refused := false;
    }

    /** Rewrites the name and id of every field of every card to the card's position. */
    method ReindexLineItems()
      modifies this
      ensures rows == Reindexed(old(rows))
      ensures nextElement == old(nextElement) && alerts == old(alerts)
    {
      var index := 0;
      while index < |rows|
        invariant 0 <= index <= |rows| == |old(rows)|
        invariant forall i :: 0 <= i < index ==> rows[i] == ReindexRow(old(rows)[i], i)
        invariant forall i :: index <= i < |rows| ==> rows[i] == old(rows)[i]
        invariant nextElement == old(nextElement) && alerts == old(alerts)
      {
        rows := rows[index := ReindexRow(rows[index], index)];
        index := index + 1;
      }
    }

    /** Sets each card's ordinal to its position plus one and hides the first card's remove button. */
    method UpdateItemNumbers()
      modifies this
      ensures rows == Numbered(old(rows))
      ensures nextElement == old(nextElement) && alerts == old(alerts)
    {
      var index := 0;
      while index < |rows|
        invariant 0 <= index <= |rows| == |old(rows)|
        invariant forall i :: 0 <= i < index ==> rows[i] == NumberRow(old(rows)[i], i)
        invariant forall i :: index <= i < |rows| ==> rows[i] == old(rows)[i]
        invariant nextElement == old(nextElement) && alerts == old(alerts)
      {
        rows := rows[index := NumberRow(rows[index], index)];
        index := index + 1;
      }
    }
  }
}

=== FILE: sale_processing.dfy ===
/**
 * Registering and editing sales.
 *
 * Editing (`UpdateSaleUseCase`) goes through the shared line-item processor:
 * every item is checked against the same lookups (the sale's own SALE
 * movements already deleted, nothing new recorded until all items pass),
 * then one DISTRIBUTOR → EXTERNAL movement is recorded per distinct input.
 *
 * Registering (`RegisterSaleUseCase`) has its own per-item step that always
 * sells from the label's DIRECT distributor: it adds the line item, counts
 * the quantity as sold on the DIRECT allocation and records a signed movement
 * with no reference, item after item.
 *
 * Both use cases run in one transaction: when a step fails, what the earlier
 * steps changed is rolled back, which the methods do by restoring the state
 * they found.
 */
module SaleProcessing {
  import opened Common
  import opened SalesCommon
  import opened ProductionRuns
  import opened Allocations
  import opened Ledger
  import opened SaleEntities

  // ---------------------------------------------------------------------------
  // The line-item processor

  /**
   * When an item may be sold: its release exists and is the label's, a
   * production run of its format exists, the sale's distributor holds an
   * allocation of the most recent such run, and the distributor's current
   * stock of that run covers the quantity.
   */
  predicate SaleItemAdmissible(q: Lookups, labelId: int, distributorId: Option<int>, item: SaleLineItemInput)
  {
    var release := FindRelease(q.releases, item.releaseId);
    var run := FindMostRecent(q.runs, item.releaseId, item.format);
    release.Some? && release.value.labelId == labelId && run.Some? && distributorId.Some?
    && HasAllocation(q.allocations, run.value.id, distributorId.value)
    && CurrentInventory(q.ledger, run.value.id, distributorId.value) >= item.quantity
  }

  /**
   * The checks of `SaleLineItemProcessor.validateAndAdd`, in the order it
   * makes them; on success the id of the run the item is sold from.
   */
  function CheckSaleItem(q: Lookups, labelId: int, distributorId: Option<int>, distributorName: string,
                         item: SaleLineItemInput): (r: Result<int, SalesError>)
    ensures r.Success? <==> SaleItemAdmissible(q, labelId, distributorId, item)
    ensures r.Success? ==> r.value == FindMostRecent(q.runs, item.releaseId, item.format).value.id
  {
    var located := LocateRun(q.releases, q.runs, labelId, item.releaseId, item.format, "sales");
    if located.Failure? then Failure(located.error)
    else
      var (release, run) := located.value;
      if distributorId.None? || !HasAllocation(q.allocations, run.id, distributorId.value) then
        Failure(NoInventoryAllocated(release.name, item.format, distributorName))
      else
        var available := CurrentInventory(q.ledger, run.id, distributorId.value);
        if available < item.quantity then Failure(SalesError.InsufficientInventory(item.quantity, available))
        else Success(run.id)
  }

  /**
   * Which failure an item meets: an unknown release, then a release of
   * another label, then no production run of its format, then no allocation
   * of the run to the sale's distributor, and last too little stock, reported
   * with the quantity asked for and the quantity there is.
   */
  lemma CheckSaleItemFailures(q: Lookups, labelId: int, distributorId: Option<int>, name: string, item: SaleLineItemInput)
    ensures var r := CheckSaleItem(q, labelId, distributorId, name, item);
            var release := FindRelease(q.releases, item.releaseId);
            var run := FindMostRecent(q.runs, item.releaseId, item.format);
            (release.None? ==> r == Failure(ReleaseNotFound(item.releaseId)))
            && (release.Some? && release.value.labelId != labelId ==> r == Failure(ReleaseNotOfLabel(item.releaseId, labelId)))
            && (release.Some? && release.value.labelId == labelId && run.None? ==>
                  r == Failure(NoProductionRun(release.value.name, item.format, "sales")))
            && (release.Some? && release.value.labelId == labelId && run.Some?
                && (distributorId.None? || !HasAllocation(q.allocations, run.value.id, distributorId.value)) ==>
                  r == Failure(NoInventoryAllocated(release.value.name, item.format, name)))
            && (release.Some? && release.value.labelId == labelId && run.Some?
                && distributorId.Some? && HasAllocation(q.allocations, run.value.id, distributorId.value)
                && CurrentInventory(q.ledger, run.value.id, distributorId.value) < item.quantity ==>
                  r == Failure(SalesError.InsufficientInventory(item.quantity, CurrentInventory(q.ledger, run.value.id, distributorId.value))))
  {
  }

  /** Every item checked in turn; the first failure, or the run of every item. */
  function CheckSaleItems(q: Lookups, labelId: int, distributorId: Option<int>, distributorName: string,
                          items: seq<SaleLineItemInput>): Result<seq<int>, SalesError>
  {
    if items == [] then Success([])
    else
      var first := CheckSaleItem(q, labelId, distributorId, distributorName, items[0]);
      if first.Failure? then Failure(first.error)
      else
        var rest := CheckSaleItems(q, labelId, distributorId, distributorName, items[1..]);
        if rest.Failure? then rest else Success([first.value] + rest.value)
  }

  /** Checking two lists one after the other is checking them joined. */
  lemma {:induction false} CheckSaleItemsSplit(q: Lookups, labelId: int, distributorId: Option<int>, name: string,
                                               a: seq<SaleLineItemInput>, b: seq<SaleLineItemInput>)
    ensures var ra := CheckSaleItems(q, labelId, distributorId, name, a);
            var rb := CheckSaleItems(q, labelId, distributorId, name, b);
            CheckSaleItems(q, labelId, distributorId, name, a + b)
              == if ra.Failure? then ra else if rb.Failure? then rb else Success(ra.value + rb.value)
    decreases |a|
  {
    if a == [] {
      assert a + b == b;
      var rb := CheckSaleItems(q, labelId, distributorId, name, b);
      if rb.Success? {
        assert [] + rb.value == rb.value;
      }
    } else {
      assert (a + b)[0] == a[0] && (a + b)[1..] == a[1..] + b;
      CheckSaleItemsSplit(q, labelId, distributorId, name, a[1..], b);
      var first := CheckSaleItem(q, labelId, distributorId, name, a[0]);
      var ra' := CheckSaleItems(q, labelId, distributorId, name, a[1..]);
      var rb := CheckSaleItems(q, labelId, distributorId, name, b);
      if first.Success? && ra'.Success? && rb.Success? {
        AppendAssociative([first.value], ra'.value, rb.value);
      }
    }
  }

  lemma CheckSaleItemsSingle(q: Lookups, labelId: int, distributorId: Option<int>, name: string, item: SaleLineItemInput)
    ensures var r := CheckSaleItem(q, labelId, distributorId, name, item);
            CheckSaleItems(q, labelId, distributorId, name, [item]) == if r.Failure? then Failure(r.error) else Success([r.value])
  {
    assert [item][0] == item && [item][1..] == [];
    var r := CheckSaleItem(q, labelId, distributorId, name, item);
    if r.Success? {
      assert [r.value] + [] == [r.value];
    }
  }

  /**
   * The checks do not accumulate: the items pass together exactly when each
   * passes on its own, each then sold from its own most recent run.
   */
  lemma {:induction false} CheckSaleItemsEach(q: Lookups, labelId: int, distributorId: Option<int>, name: string,
                                              items: seq<SaleLineItemInput>)
    ensures CheckSaleItems(q, labelId, distributorId, name, items).Success?
            <==> forall k :: 0 <= k < |items| ==> SaleItemAdmissible(q, labelId, distributorId, items[k])
    ensures var r := CheckSaleItems(q, labelId, distributorId, name, items);
            r.Success? ==> |r.value| == |items|
                           && forall k :: 0 <= k < |items| ==> r.value[k] == CheckSaleItem(q, labelId, distributorId, name, items[k]).value
    decreases |items|
  {
    if items != [] {
      var rest := items[1..];
      CheckSaleItemsEach(q, labelId, distributorId, name, rest);
      assert forall k :: 1 <= k < |items| ==> items[k] == rest[k - 1];
    }
  }

  /** A failure is the failure of the first item that does not pass. */
  lemma {:induction false} CheckSaleItemsFirstFailure(q: Lookups, labelId: int, distributorId: Option<int>, name: string,
                                                      items: seq<SaleLineItemInput>)
    ensures var r := CheckSaleItems(q, labelId, distributorId, name, items);
            r.Failure? ==> exists k :: 0 <= k < |items|
                             && (forall j :: 0 <= j < k ==> SaleItemAdmissible(q, labelId, distributorId, items[j]))
                             && CheckSaleItem(q, labelId, distributorId, name, items[k]) == Failure(r.error)
    decreases |items|
  {
    if items != [] {
      var rest := items[1..];
      var r := CheckSaleItems(q, labelId, distributorId, name, items);
      var first := CheckSaleItem(q, labelId, distributorId, name, items[0]);
      if first.Success? && r.Failure? {
        CheckSaleItemsFirstFailure(q, labelId, distributorId, name, rest);
        var k :| 0 <= k < |rest|
                 && (forall j :: 0 <= j < k ==> SaleItemAdmissible(q, labelId, distributorId, rest[j]))
                 && CheckSaleItem(q, labelId, distributorId, name, rest[k]) == Failure(r.error);
        forall j | 0 <= j < k + 1 ensures SaleItemAdmissible(q, labelId, distributorId, items[j]) {
          if j > 0 {
            assert items[j] == rest[j - 1];
          }
        }
        assert items[k + 1] == rest[k];
      }
    }
  }

  /** One more item checked: either the whole list fails with its failure, or the prefix grows by its run. */
  lemma CheckedPrefixStep(q: Lookups, labelId: int, distributorId: Option<int>, name: string,
                          items: seq<SaleLineItemInput>, i: nat, runIds: seq<int>)
    requires i < |items|
    requires CheckSaleItems(q, labelId, distributorId, name, items[..i]) == Success(runIds)
    ensures var r := CheckSaleItem(q, labelId, distributorId, name, items[i]);
            (r.Failure? ==> CheckSaleItems(q, labelId, distributorId, name, items) == Failure(r.error))
            && (r.Success? ==> CheckSaleItems(q, labelId, distributorId, name, items[..i + 1]) == Success(runIds + [r.value])
                               && distributorId.Some?)
  {
    var r := CheckSaleItem(q, labelId, distributorId, name, items[i]);
    CheckSaleItemsSingle(q, labelId, distributorId, name, items[i]);
    if r.Failure? {
      assert items == items[..i] + items[i..] && items[i..][0] == items[i];
      CheckSaleItemsSplit(q, labelId, distributorId, name, items[..i], items[i..]);
    } else {
      PrefixSnoc(items, i);
      CheckSaleItemsSplit(q, labelId, distributorId, name, items[..i], [items[i]]);
    }
  }

  /** The values a line item takes from its input. */
  function InputValues(item: SaleLineItemInput): LineItemValues
  {
    LineItemValues(item.releaseId, item.format, item.quantity, item.unitPrice.amount, item.unitPrice.currency)
  }

  function InputValuesOf(items: seq<SaleLineItemInput>): (vs: seq<LineItemValues>)
    ensures |vs| == |items|
  {
    seq(|items|, k requires 0 <= k < |items| => InputValues(items[k]))
  }

  lemma InputValuesSnoc(items: seq<SaleLineItemInput>, i: nat)
    requires i < |items|
    ensures InputValuesOf(items[..i + 1]) == InputValuesOf(items[..i]) + [InputValues(items[i])]
  {
    PrefixSnoc(items, i);
  }

  lemma SaleItemValuesSnoc(before: seq<SaleLineItemEntity>, item: SaleLineItemEntity)
    ensures SaleItemValues(before + [item]) == SaleItemValues(before)
              + [LineItemValues(item.releaseId, item.format, item.quantity, item.unitPrice, item.currency)]
  {
  }

  /**
   * `SaleLineItemProcessor.validateAndAdd`: the item is added to the sale
   * only when every check passes, and the run it is sold from is returned.
   */
  method ValidateAndAdd(q: Lookups, labelId: int, distributorId: Option<int>, distributorName: string,
                        item: SaleLineItemInput, sale: SaleEntity) returns (r: Result<int, SalesError>)
    requires sale.Valid()
    modifies sale
    ensures r == CheckSaleItem(q, labelId, distributorId, distributorName, item)
    ensures r.Failure? ==> sale.lineItems == old(sale.lineItems) && sale.totalAmount == old(sale.totalAmount)
    ensures r.Success? ==> |sale.lineItems| == |old(sale.lineItems)| + 1 && sale.lineItems[..|sale.lineItems| - 1] == old(sale.lineItems)
                           && SaleItemValues(sale.lineItems) == SaleItemValues(old(sale.lineItems)) + [InputValues(item)]
                           && sale.Valid() && sale.totalAmount == old(sale.totalAmount) + LineAmount(InputValues(item))
    ensures sale.id == old(sale.id) && sale.saleDate == old(sale.saleDate) && sale.notes == old(sale.notes)
  {
    r := CheckSaleItem(q, labelId, distributorId, distributorName, item);
    if r.Success? {
      var line := new SaleLineItemEntity(item.releaseId, item.format, item.quantity, item.unitPrice.amount, item.unitPrice.currency);
      SaleItemValuesSnoc(sale.lineItems, line);
      sale.AddLineItem(line);
    }
  }

  // ---------------------------------------------------------------------------
  // Editing a sale

  /** `resolveDistributorName`: the label's distributor with that id, or "id=<id>". */
  function ResolveDistributorName(distributors: seq<Distributor>, distributorId: Option<int>, labelId: int): (name: string)
    ensures FindLabelDistributor(distributors, labelId, distributorId).Some? ==>
              exists d :: d in distributors && d.labelId == labelId && Some(d.id) == distributorId && name == d.name
    ensures FindLabelDistributor(distributors, labelId, distributorId).None? ==> name == "id=" + IdToString(distributorId)
  {
    var d := FindLabelDistributor(distributors, labelId, distributorId);
    if d.Some? then d.value.name else "id=" + IdToString(distributorId)
  }

  /** The SALE movements recorded for the collected entries, in the map's order. */
  function SaleMovementsOf(entries: seq<(SaleLineItemInput, int)>, distributor: int, ref: int, now: int): (ms: seq<Movement>)
    ensures |ms| == |entries|
    ensures forall k :: 0 <= k < |ms| ==> ms[k] == SaleMovement(entries[k].1, distributor, entries[k].0.quantity, now, Some(ref))
  {
    seq(|entries|, k requires 0 <= k < |entries| => SaleMovement(entries[k].1, distributor, entries[k].0.quantity, now, Some(ref)))
  }

  /** The quantity the entries sell from one run. */
  function QuantityFromRun(entries: seq<(SaleLineItemInput, int)>, run: int): int
  {
    if entries == [] then 0
    else QuantityFromRun(entries[..|entries| - 1], run)
         + (if entries[|entries| - 1].1 == run then entries[|entries| - 1].0.quantity else 0)
  }

  /**
   * Recording the sale movements lowers the distributor's stock of each run
   * by what the entries sell from it.
   */
  lemma {:induction false} SaleMovementsLowerStock(ledger: seq<Movement>, entries: seq<(SaleLineItemInput, int)>,
                                                   distributor: int, ref: int, now: int, run: int)
    ensures CurrentInventory(ledger + SaleMovementsOf(entries, distributor, ref, now), run, distributor)
            == CurrentInventory(ledger, run, distributor) - QuantityFromRun(entries, run)
    decreases |entries|
  {
    if entries == [] {
      assert ledger + SaleMovementsOf(entries, distributor, ref, now) == ledger;
    } else {
      var init := entries[..|entries| - 1];
      var e := entries[|entries| - 1];
      var m := SaleMovement(e.1, distributor, e.0.quantity, now, Some(ref));
      SaleMovementsLowerStock(ledger, init, distributor, ref, now, run);
      var all := SaleMovementsOf(entries, distributor, ref, now);
      var before := SaleMovementsOf(init, distributor, ref, now);
      assert all == before + [m] by {
        forall k | 0 <= k < |all| ensures all[k] == (before + [m])[k] {
          if k < |init| {
            assert init[k] == entries[k];
          }
        }
      }
      assert ledger + all == (ledger + before) + [m];
      BalanceAfterRecord(ledger + SaleMovementsOf(init, distributor, ref, now), m, run, LocationType.Distributor, Some(distributor));
    }
  }

  /** Every recorded movement is a SALE carrying the sale's id, so the next edit deletes exactly them. */
  lemma SaleMovementsReferenceSale(entries: seq<(SaleLineItemInput, int)>, distributor: int, ref: int, now: int)
    ensures forall k :: 0 <= k < |entries| ==> References(SaleMovementsOf(entries, distributor, ref, now)[k], Sale, ref)
  {
  }

  /**
   * Step 3 of the edit: each item through the processor in turn, the run of
   * each collected in an insertion-ordered map keyed by the input. The sale
   * starts with no items; on a failure it holds the items that passed.
   */
  method AddCheckedItems(q: Lookups, labelId: int, distributorId: Option<int>, name: string,
                         items: seq<SaleLineItemInput>, sale: SaleEntity)
    returns (r: Result<seq<(SaleLineItemInput, int)>, SalesError>)
    requires sale.lineItems == [] && sale.Valid()
    modifies sale
    ensures sale.id == old(sale.id) && sale.saleDate == old(sale.saleDate) && sale.notes == old(sale.notes)
    ensures sale.Valid()
    ensures var check := CheckSaleItems(q, labelId, distributorId, name, items);
            (r.Failure? <==> check.Failure?)
            && (r.Failure? ==> r.error == check.error && |sale.lineItems| < |items|
                               && SaleItemValues(sale.lineItems) == InputValuesOf(items[..|sale.lineItems|]))
            && (r.Success? ==> |check.value| == |items| && r.value == PutAll([], Zip(items, check.value))
                               && SaleItemValues(sale.lineItems) == InputValuesOf(items)
                               && sale.totalAmount == ValuesTotal(InputValuesOf(items))
                               && (items != [] ==> distributorId.Some?))
  {
    var entries: seq<(SaleLineItemInput, int)> := [];
    ghost var runIds: seq<int> := [];
    var i := 0;
    while i < |items|
      invariant 0 <= i <= |items| && |runIds| == i && |sale.lineItems| == i
      invariant CheckSaleItems(q, labelId, distributorId, name, items[..i]) == Success(runIds)
      invariant entries == PutAll([], Zip(items[..i], runIds))
      invariant sale.Valid() && SaleItemValues(sale.lineItems) == InputValuesOf(items[..i])
      invariant sale.id == old(sale.id) && sale.saleDate == old(sale.saleDate) && sale.notes == old(sale.notes)
      invariant i > 0 ==> distributorId.Some?
    {
      var item := items[i];
      var runId := ValidateAndAdd(q, labelId, distributorId, name, item, sale);
      CheckedPrefixStep(q, labelId, distributorId, name, items, i, runIds);
      if runId.Failure? {
        return Failure(runId.error);
      }
      InputValuesSnoc(items, i);
      PutAllZipStep(items, runIds, runId.value);
      entries := Put(entries, item, runId.value);
      runIds := runIds + [runId.value];
      i := i + 1;
    }
    assert items[..i] == items;
    ValidSaleTotal(sale);
    r := Success(entries);
  }

  /** Step 5 of the edit: one SALE movement per entry, in the map's order. */
  method RecordSaleMovements(movements: MovementStore, entries: seq<(SaleLineItemInput, int)>,
                             distributor: int, saleId: int, now: int)
    modifies movements
    ensures movements.movements == old(movements.movements) + SaleMovementsOf(entries, distributor, saleId, now)
  {
    var j := 0;
    while j < |entries|
      invariant 0 <= j <= |entries|
      invariant movements.movements == old(movements.movements) + SaleMovementsOf(entries[..j], distributor, saleId, now)
    {
      movements.RecordMovement(entries[j].1, LocationType.Distributor, Some(distributor), External, None,
                               entries[j].0.quantity, Sale, Some(saleId), now);
      assert SaleMovementsOf(entries[..j + 1], distributor, saleId, now)
             == SaleMovementsOf(entries[..j], distributor, saleId, now) + [SaleMovement(entries[j].1, distributor, entries[j].0.quantity, now, Some(saleId))];
      j := j + 1;
    }
    assert entries[..j] == entries;
  }

  /**
   * What an edit checks the items against: the lookups with the sale's own
   * SALE movements deleted, the sale's label and distributor, and the
   * distributor's name as the failure message shows it.
   */
  function EditCheck(releases: seq<Release>, runs: seq<ProductionRun>, distributors: seq<Distributor>,
                     allocations: seq<ChannelAllocation>, ledger: seq<Movement>, sale: SaleEntity, saleId: int,
                     items: seq<SaleLineItemInput>): Result<seq<int>, SalesError>
  {
    CheckSaleItems(Lookups(releases, runs, allocations, WithoutReference(ledger, Sale, saleId)),
                   sale.labelId, sale.distributorId, ResolveDistributorName(distributors, sale.distributorId, sale.labelId), items)
  }

  /** Steps 1 to 5 of the edit, once the sale is found. */
  method EditSale(releases: seq<Release>, runs: seq<ProductionRun>, distributors: seq<Distributor>,
                  allocations: seq<ChannelAllocation>, repo: SaleRepository, movements: MovementStore,
                  sale: SaleEntity, saleId: int, saleDate: int, notes: Option<string>, items: seq<SaleLineItemInput>, now: int)
    returns (r: Result<SaleEntity, SalesError>)
    requires repo.Valid() && saleId in repo.sales && repo.sales[saleId] == sale && items != []
    modifies repo, movements, sale
    ensures repo.Valid() && repo.sales == old(repo.sales) && repo.nextId == old(repo.nextId)
    ensures r.Failure? ==> movements.movements == old(movements.movements)
                           && sale.lineItems == old(sale.lineItems) && sale.totalAmount == old(sale.totalAmount)
                           && sale.saleDate == old(sale.saleDate) && sale.notes == old(sale.notes) && sale.id == old(sale.id)
    ensures var check := EditCheck(releases, runs, distributors, allocations, old(movements.movements), sale, saleId, items);
            (r.Failure? <==> check.Failure?)
            && (r.Failure? ==> r.error == check.error)
            && (r.Success? ==>
                  r.value == sale && sale.id == Some(saleId) && sale.Valid()
                  && SaleItemValues(sale.lineItems) == InputValuesOf(items)
                  && sale.totalAmount == ValuesTotal(InputValuesOf(items))
                  && sale.saleDate == saleDate && sale.notes == notes
                  && sale.distributorId.Some? && |check.value| == |items|
                  && movements.movements
                     == WithoutReference(old(movements.movements), Sale, saleId)
                        + SaleMovementsOf(PutAll([], Zip(items, check.value)), sale.distributorId.value, saleId, now))
  {
    var beforeLedger, beforeItems, beforeTotal, beforeDate, beforeNotes :=
      movements.movements, sale.lineItems, sale.totalAmount, sale.saleDate, sale.notes;

    var entries := ReplaceItems(releases, runs, distributors, allocations, movements, sale, saleId, saleDate, notes, items);
    if entries.Failure? {
      // The transaction rolls back.
      movements.movements := beforeLedger;
      sale.lineItems, sale.totalAmount, sale.saleDate, sale.notes := beforeItems, beforeTotal, beforeDate, beforeNotes;
      return Failure(entries.error);
    }

    SaveEdited(repo, movements, sale, saleId, entries.value, now);
    r := Success(sale);
  }

  /**
   * Steps 1 to 3 of the edit: the sale's SALE movements deleted, its items
   * cleared, its date and notes set, and the new items added through the
   * processor against the ledger without the deleted movements.
   */
  method ReplaceItems(releases: seq<Release>, runs: seq<ProductionRun>, distributors: seq<Distributor>,
                      allocations: seq<ChannelAllocation>, movements: MovementStore, sale: SaleEntity, saleId: int,
                      saleDate: int, notes: Option<string>, items: seq<SaleLineItemInput>)
    returns (r: Result<seq<(SaleLineItemInput, int)>, SalesError>)
    modifies movements, sale
    ensures movements.movements == WithoutReference(old(movements.movements), Sale, saleId)
    ensures sale.id == old(sale.id) && sale.saleDate == saleDate && sale.notes == notes && sale.Valid()
    ensures var check := EditCheck(releases, runs, distributors, allocations, old(movements.movements), sale, saleId, items);
            (r.Failure? <==> check.Failure?)
            && (r.Failure? ==> r.error == check.error)
            && (r.Success? ==> |check.value| == |items| && r.value == PutAll([], Zip(items, check.value))
                               && SaleItemValues(sale.lineItems) == InputValuesOf(items)
                               && sale.totalAmount == ValuesTotal(InputValuesOf(items))
                               && (items != [] ==> sale.distributorId.Some?))
  {
    movements.DeleteMovementsByReference(Sale, saleId);
    sale.ClearLineItems();
    sale.SetSaleDate(saleDate);
    sale.SetNotes(notes);

    var name := ResolveDistributorName(distributors, sale.distributorId, sale.labelId);
    var q := Lookups(releases, runs, allocations, movements.movements);
    r := AddCheckedItems(q, sale.labelId, sale.distributorId, name, items, sale);
  }

  /** Steps 4 and 5 of the edit: the sale saved under its id, then its new SALE movements recorded. */
  method SaveEdited(repo: SaleRepository, movements: MovementStore, sale: SaleEntity, saleId: int,
                    entries: seq<(SaleLineItemInput, int)>, now: int)
    requires repo.Valid() && saleId in repo.sales && repo.sales[saleId] == sale
    requires sale.distributorId.Some?
    modifies repo, movements, sale
    ensures repo.Valid() && repo.sales == old(repo.sales) && repo.nextId == old(repo.nextId)
    ensures sale.id == Some(saleId) && sale.lineItems == old(sale.lineItems) && sale.totalAmount == old(sale.totalAmount)
    ensures sale.saleDate == old(sale.saleDate) && sale.notes == old(sale.notes)
    ensures movements.movements == old(movements.movements) + SaleMovementsOf(entries, sale.distributorId.value, saleId, now)
  {
    repo.Save(sale);
    RecordSaleMovements(movements, entries, sale.distributorId.value, saleId, now);
  }

  /**
   * `UpdateSaleUseCase.execute(saleId, saleDate, notes, lineItems)`: an empty
   * list and an unknown sale are refused before anything changes; otherwise
   * the sale's SALE movements are deleted, its items replaced and date and
   * notes set, every item checked against the ledger as it is after the
   * deletion, the sale saved, and one SALE movement recorded per distinct
   * input, referencing the sale.
   */
  method UpdateSale(releases: seq<Release>, runs: seq<ProductionRun>, distributors: seq<Distributor>,
                    allocations: seq<ChannelAllocation>, repo: SaleRepository, movements: MovementStore,
                    saleId: int, saleDate: int, notes: Option<string>, items: seq<SaleLineItemInput>, now: int)
    returns (r: Result<SaleEntity, SalesError>)
    requires repo.Valid()
    modifies repo, movements, repo.sales.Values
    ensures repo.Valid() && repo.sales == old(repo.sales) && repo.nextId == old(repo.nextId)
    ensures items == [] ==> r == Failure(EmptyLineItems(SaleNeedsItems))
    ensures items != [] && saleId !in old(repo.sales) ==> r == Failure(SaleNotFound(saleId))
    ensures r.Failure? ==> movements.movements == old(movements.movements)
    ensures r.Failure? && saleId in old(repo.sales) ==>
              var sale := old(repo.sales)[saleId];
              sale.lineItems == old(sale.lineItems) && sale.totalAmount == old(sale.totalAmount)
              && sale.saleDate == old(sale.saleDate) && sale.notes == old(sale.notes) && sale.id == old(sale.id)
    ensures items != [] && saleId in old(repo.sales) ==>
              var sale := old(repo.sales)[saleId];
              var check := EditCheck(releases, runs, distributors, allocations, old(movements.movements), sale, saleId, items);
              (r.Failure? <==> check.Failure?)
              && (r.Failure? ==> r.error == check.error)
              && (r.Success? ==>
                    r.value == sale && sale.id == Some(saleId) && sale.Valid()
                    && SaleItemValues(sale.lineItems) == InputValuesOf(items)
                    && sale.totalAmount == ValuesTotal(InputValuesOf(items))
                    && sale.saleDate == saleDate && sale.notes == notes
                    && sale.distributorId.Some? && |check.value| == |items|
                    && movements.movements
                       == WithoutReference(old(movements.movements), Sale, saleId)
                          + SaleMovementsOf(PutAll([], Zip(items, check.value)), sale.distributorId.value, saleId, now))
  {
    if items == [] {
      return Failure(EmptyLineItems(SaleNeedsItems));
    }
    if saleId !in repo.sales {
      return Failure(SaleNotFound(saleId));
    }
    r := EditSale(releases, runs, distributors, allocations, repo, movements, repo.sales[saleId], saleId, saleDate, notes, items, now);
  }

  // ---------------------------------------------------------------------------
  // Registering a sale

  /** What registering changes besides the sale: the allocation rows and the signed movements. */
  datatype RegisterState = RegisterState(allocations: seq<ChannelAllocation>, movements: seq<LegacyMovement>)

  /**
   * The part of `validateAndProcessLineItem` after the lookups: the quantity
   * counted as sold on the run's allocation to the DIRECT distributor (a
   * missing allocation reported with `missing`, a refused increment passed
   * on), then a movement of minus the quantity with no reference.
   */
  function SellFromDirect(st: RegisterState, run: int, directId: int, missing: SalesError, quantity: int, now: int)
    : Result<RegisterState, SalesError>
  {
    var found := FindAllocation(st.allocations, run, directId);
    if found.None? then Failure(missing)
    else
      var row := st.allocations[found.value];
      var sold := Increment(row.quantity, row.unitsSold, quantity);
      if sold.Failure? then Failure(AllocationRefused(sold.error))
      else Success(RegisterState(st.allocations[found.value := row.(unitsSold := sold.value)],
                                 st.movements + [LegacyMovement(run, directId, -quantity, Sale, now, None)]))
  }

  /** `validateAndProcessLineItem` on values: the lookups, then the sale from the DIRECT allocation. */
  function RegisterStep(releases: seq<Release>, runs: seq<ProductionRun>, labelId: int, directId: int, now: int,
                        st: RegisterState, item: SaleLineItemInput): Result<RegisterState, SalesError>
  {
    var located := LocateRun(releases, runs, labelId, item.releaseId, item.format, "sales");
    if located.Failure? then Failure(located.error)
    else SellFromDirect(st, located.value.1.id, directId, NoDirectAllocation(located.value.0.name, item.format), item.quantity, now)
  }

  /** The items processed in turn; the first failure, or the final state. */
  function RegisterItems(releases: seq<Release>, runs: seq<ProductionRun>, labelId: int, directId: int, now: int,
                         st: RegisterState, items: seq<SaleLineItemInput>): Result<RegisterState, SalesError>
    decreases |items|
  {
    if items == [] then Success(st)
    else
      var next := RegisterStep(releases, runs, labelId, directId, now, st, items[0]);
      if next.Failure? then next else RegisterItems(releases, runs, labelId, directId, now, next.value, items[1..])
  }

  /** The units counted as sold over all allocation rows. */
  function UnitsSold(rows: seq<ChannelAllocation>): int
  {
    if rows == [] then 0 else UnitsSold(rows[..|rows| - 1]) + rows[|rows| - 1].unitsSold
  }

  lemma {:induction false} UnitsSoldUpdate(rows: seq<ChannelAllocation>, i: nat, u: int)
    requires i < |rows|
    ensures UnitsSold(rows[i := rows[i].(unitsSold := u)]) == UnitsSold(rows) - rows[i].unitsSold + u
    decreases |rows|
  {
    var rows' := rows[i := rows[i].(unitsSold := u)];
    if i < |rows| - 1 {
      assert rows'[..|rows'| - 1] == rows[..|rows| - 1][i := rows[i].(unitsSold := u)];
      UnitsSoldUpdate(rows[..|rows| - 1], i, u);
    } else {
      assert rows'[..|rows'| - 1] == rows[..|rows| - 1];
    }
  }

  /**
   * A successful sale from the DIRECT allocation keeps every run's allocated
   * total, counts the quantity as sold (and refuses a negative one or more
   * than the allocation has unsold), and appends one SALE movement of minus
   * the quantity.
   */
  lemma SellFromDirectEffects(st: RegisterState, run: int, directId: int, missing: SalesError, quantity: int, now: int)
    ensures var r := SellFromDirect(st, run, directId, missing, quantity, now);
            (FindAllocation(st.allocations, run, directId).None? ==> r == Failure(missing))
            && (r.Success? ==>
                  0 <= quantity
                  && r.value.movements == st.movements + [LegacyMovement(run, directId, -quantity, Sale, now, None)]
                  && |r.value.allocations| == |st.allocations|
                  && (forall t :: TotalAllocated(r.value.allocations, t) == TotalAllocated(st.allocations, t))
                  && UnitsSold(r.value.allocations) == UnitsSold(st.allocations) + quantity)
  {
    var r := SellFromDirect(st, run, directId, missing, quantity, now);
    if r.Success? {
      var i := FindAllocation(st.allocations, run, directId).value;
      var row := st.allocations[i];
      var u := Increment(row.quantity, row.unitsSold, quantity).value;
      forall t {
        TotalAllocatedIgnoresUnitsSold(st.allocations, i, u, t);
      }
      UnitsSoldUpdate(st.allocations, i, u);
    }
  }

  /**
   * A successful registration appends one SALE movement per item, in order,
   * of minus its quantity at the DIRECT distributor, with no reference.
   */
  lemma {:induction false} RegisterItemsMovements(releases: seq<Release>, runs: seq<ProductionRun>, labelId: int, directId: int,
                                                  now: int, st: RegisterState, items: seq<SaleLineItemInput>)
    requires RegisterItems(releases, runs, labelId, directId, now, st, items).Success?
    ensures var ms := RegisterItems(releases, runs, labelId, directId, now, st, items).value.movements;
            |ms| == |st.movements| + |items| && ms[..|st.movements|] == st.movements
            && (forall k :: 0 <= k < |items| ==> SignedSale(ms[|st.movements| + k], directId, items[k].quantity))
    decreases |items|
  {
    if items != [] {
      var mid := RegisterStep(releases, runs, labelId, directId, now, st, items[0]).value;
      var located := LocateRun(releases, runs, labelId, items[0].releaseId, items[0].format, "sales");
      SellFromDirectEffects(st, located.value.1.id, directId, NoDirectAllocation(located.value.0.name, items[0].format),
                            items[0].quantity, now);
      var run := located.value.1.id;
      RegisterItemsMovements(releases, runs, labelId, directId, now, mid, items[1..]);
      var tail := RegisterItems(releases, runs, labelId, directId, now, mid, items[1..]);
      assert RegisterItems(releases, runs, labelId, directId, now, st, items) == tail;
      var ms, n := tail.value.movements, |st.movements|;
      PrefixThrough(ms, st.movements, LegacyMovement(run, directId, -items[0].quantity, Sale, now, None));
      forall k | 0 <= k < |items| ensures SignedSale(ms[n + k], directId, items[k].quantity) {
        if k > 0 {
          assert n + k == |mid.movements| + (k - 1);
          assert items[k] == items[1..][k - 1];
        }
      }
    }
  }

  /** One successful step, as `SellFromDirectEffects` describes it, on the run the lookups find. */
  lemma RegisterStepEffects(releases: seq<Release>, runs: seq<ProductionRun>, labelId: int, directId: int, now: int,
                            st: RegisterState, item: SaleLineItemInput)
    requires RegisterStep(releases, runs, labelId, directId, now, st, item).Success?
    ensures var located := LocateRun(releases, runs, labelId, item.releaseId, item.format, "sales");
            var mid := RegisterStep(releases, runs, labelId, directId, now, st, item).value;
            located.Success?
            && 0 <= item.quantity
            && mid.movements == st.movements + [LegacyMovement(located.value.1.id, directId, -item.quantity, Sale, now, None)]
            && (forall t :: TotalAllocated(mid.allocations, t) == TotalAllocated(st.allocations, t))
            && UnitsSold(mid.allocations) == UnitsSold(st.allocations) + item.quantity
  {
    var located := LocateRun(releases, runs, labelId, item.releaseId, item.format, "sales");
    SellFromDirectEffects(st, located.value.1.id, directId, NoDirectAllocation(located.value.0.name, item.format),
                          item.quantity, now);
  }

  predicate SignedSale(m: LegacyMovement, directId: int, quantity: int)
  {
    m.distributorId == directId && m.quantityDelta == -quantity && m.movementType == Sale && m.referenceId.None?
  }

  /**
   * A successful registration keeps every run's allocated total and counts
   * the quantities of all items, none negative, as sold.
   */
  lemma {:induction false} RegisterItemsAllocations(releases: seq<Release>, runs: seq<ProductionRun>, labelId: int, directId: int,
                                                    now: int, st: RegisterState, items: seq<SaleLineItemInput>)
    requires RegisterItems(releases, runs, labelId, directId, now, st, items).Success?
    ensures var rows := RegisterItems(releases, runs, labelId, directId, now, st, items).value.allocations;
            (forall t :: TotalAllocated(rows, t) == TotalAllocated(st.allocations, t))
            && AllNonNegative(Quantities(items))
            && UnitsSold(rows) == UnitsSold(st.allocations) + Total(Quantities(items))
    decreases |items|
  {
    if items != [] {
      RegisterStepEffects(releases, runs, labelId, directId, now, st, items[0]);
      var mid := RegisterStep(releases, runs, labelId, directId, now, st, items[0]).value;
      RegisterItemsAllocations(releases, runs, labelId, directId, now, mid, items[1..]);
      assert Quantities(items) == [items[0].quantity] + Quantities(items[1..]);
      TotalPrepend(items[0].quantity, Quantities(items[1..]));
    }
  }

  function Quantities(items: seq<SaleLineItemInput>): (qs: seq<int>)
    ensures |qs| == |items|
  {
    seq(|items|, k requires 0 <= k < |items| => items[k].quantity)
  }

  lemma TotalPrepend(x: int, xs: seq<int>)
    ensures Total([x] + xs) == x + Total(xs)
  {
    assert ([x] + xs)[1..] == xs;
  }

  /**
   * `RegisterSaleUseCase.validateAndProcessLineItem`: the release, label and
   * run checks; then the line is added to the sale, the allocation reduced
   * and the signed movement recorded.
   */
  method ProcessLineItem(releases: seq<Release>, runs: seq<ProductionRun>, labelId: int, directId: int, now: int,
                         item: SaleLineItemInput, sale: SaleEntity, allocations: AllocationStore, legacy: LegacyMovementStore)
    returns (err: Option<SalesError>)
    requires sale.Valid()
    modifies sale, allocations, legacy
    ensures var step := RegisterStep(releases, runs, labelId, directId, now,
                                     RegisterState(old(allocations.allocations), old(legacy.movements)), item);
            (err.None? <==> step.Success?) && (err.Some? ==> err.value == step.error)
            && (step.Success? ==> allocations.allocations == step.value.allocations && legacy.movements == step.value.movements)
    ensures allocations.nextId == old(allocations.nextId)
    ensures sale.Valid() && sale.id == old(sale.id) && sale.saleDate == old(sale.saleDate) && sale.notes == old(sale.notes)
    ensures err.None? ==> SaleItemValues(sale.lineItems) == SaleItemValues(old(sale.lineItems)) + [InputValues(item)]
                          && sale.totalAmount == old(sale.totalAmount) + LineAmount(InputValues(item))
  {
    var located := LocateRun(releases, runs, labelId, item.releaseId, item.format, "sales");
    if located.Failure? {
      return Some(located.error);
    }
    var (release, run) := located.value;
    var line := new SaleLineItemEntity(item.releaseId, item.format, item.quantity, item.unitPrice.amount, item.unitPrice.currency);
    SaleItemValuesSnoc(sale.lineItems, line);
    sale.AddLineItem(line);
    err := SellAndRecord(allocations, legacy, run.id, directId, NoDirectAllocation(release.name, item.format), item.quantity, now);
  }

  /**
   * `reduceAllocation` on the DIRECT allocation, its missing-allocation
   * failure turned into `missing`, then the SALE movement recorded.
   */
  method SellAndRecord(allocations: AllocationStore, legacy: LegacyMovementStore, run: int, directId: int, missing: SalesError,
                       quantity: int, now: int) returns (err: Option<SalesError>)
    modifies allocations, legacy
    ensures var sold := SellFromDirect(RegisterState(old(allocations.allocations), old(legacy.movements)), run, directId, missing, quantity, now);
            (err.None? <==> sold.Success?) && (err.Some? ==> err.value == sold.error)
            && (sold.Success? ==> allocations.allocations == sold.value.allocations && legacy.movements == sold.value.movements)
    ensures allocations.nextId == old(allocations.nextId)
  {
    var refused := allocations.ReduceAllocation(run, directId, quantity);
    if refused.Some? {
      if refused.value.NoAllocation? {
        return Some(missing);
      }
      return Some(AllocationRefused(refused.value));
    }
    legacy.RecordMovement(run, directId, -quantity, Sale, None, now);
    err := None;
  }

  /** The loop of `execute` over the line items, stopping at the first failure. */
  method ProcessLineItems(releases: seq<Release>, runs: seq<ProductionRun>, labelId: int, directId: int, now: int,
                          items: seq<SaleLineItemInput>, sale: SaleEntity, allocations: AllocationStore, legacy: LegacyMovementStore)
    returns (err: Option<SalesError>)
    requires sale.lineItems == [] && sale.Valid()
    modifies sale, allocations, legacy
    ensures allocations.nextId == old(allocations.nextId)
    ensures sale.Valid() && sale.id == old(sale.id) && sale.saleDate == old(sale.saleDate) && sale.notes == old(sale.notes)
    ensures var outcome := RegisterItems(releases, runs, labelId, directId, now,
                                         RegisterState(old(allocations.allocations), old(legacy.movements)), items);
            (err.None? <==> outcome.Success?) && (err.Some? ==> err.value == outcome.error)
            && (outcome.Success? ==> allocations.allocations == outcome.value.allocations && legacy.movements == outcome.value.movements
                                     && SaleItemValues(sale.lineItems) == InputValuesOf(items)
                                     && sale.totalAmount == ValuesTotal(InputValuesOf(items)))
  {
    ghost var st0 := RegisterState(allocations.allocations, legacy.movements);
    var i := 0;
    while i < |items|
      invariant 0 <= i <= |items| && |sale.lineItems| == i
      invariant RegisterItems(releases, runs, labelId, directId, now, st0, items)
                == RegisterItems(releases, runs, labelId, directId, now, RegisterState(allocations.allocations, legacy.movements), items[i..])
      invariant sale.Valid() && SaleItemValues(sale.lineItems) == InputValuesOf(items[..i])
      invariant sale.id == old(sale.id) && sale.saleDate == old(sale.saleDate) && sale.notes == old(sale.notes)
      invariant allocations.nextId == old(allocations.nextId)
    {
      assert items[i..][0] == items[i] && items[i..][1..] == items[i + 1..];
      err := ProcessLineItem(releases, runs, labelId, directId, now, items[i], sale, allocations, legacy);
      if err.Some? {
        return;
      }
      InputValuesSnoc(items, i);
      i := i + 1;
    }
    assert items[i..] == [];
    assert items[..i] == items;
    ValidSaleTotal(sale);
    err := None;
  }

  /**
   * `RegisterSaleUseCase.execute`: the label must exist and have a DIRECT
   * distributor, and there must be a first item to take the currency from;
   * then each item is processed in turn and the sale saved with a new id.
   * The use case is one transaction: on a failure the allocations and the
   * movements are as before and nothing is saved.
   */
  method RegisterSale(labels: set<int>, releases: seq<Release>, runs: seq<ProductionRun>, distributors: seq<Distributor>,
                      repo: SaleRepository, allocations: AllocationStore, legacy: LegacyMovementStore,
                      labelId: int, saleDate: int, channel: ChannelType, notes: Option<string>,
                      items: seq<SaleLineItemInput>, now: int)
    returns (r: Result<SaleEntity, SalesError>)
    requires repo.Valid()
    modifies repo, allocations, legacy
    ensures repo.Valid() && allocations.nextId == old(allocations.nextId)
    ensures labelId !in labels ==> r == Failure(LabelNotFound(labelId))
    ensures labelId in labels && FindDirectDistributor(distributors, labelId).None? ==> r == Failure(DirectDistributorNotFound(labelId))
    ensures labelId in labels && FindDirectDistributor(distributors, labelId).Some? && items == [] ==> r == Failure(NoFirstLineItem)
    ensures labelId in labels && FindDirectDistributor(distributors, labelId).Some? && items != [] ==>
              var outcome := RegisterItems(releases, runs, labelId, FindDirectDistributor(distributors, labelId).value.id, now,
                                           RegisterState(old(allocations.allocations), old(legacy.movements)), items);
              (r.Failure? <==> outcome.Failure?) && (r.Failure? ==> r.error == outcome.error)
              && (r.Success? ==> allocations.allocations == outcome.value.allocations && legacy.movements == outcome.value.movements)
    ensures r.Failure? ==> allocations.allocations == old(allocations.allocations) && legacy.movements == old(legacy.movements)
                           && repo.sales == old(repo.sales) && repo.nextId == old(repo.nextId)
    ensures r.Success? ==> items != [] && fresh(r.value)
                           && r.value.id == Some(old(repo.nextId)) && repo.nextId == old(repo.nextId) + 1
                           && repo.sales == old(repo.sales)[old(repo.nextId) := r.value]
                           && r.value.Valid() && SaleItemValues(r.value.lineItems) == InputValuesOf(items)
                           && r.value.totalAmount == ValuesTotal(InputValuesOf(items))
                           && r.value.labelId == labelId && r.value.distributorId.None? && r.value.channel == channel
                           && r.value.saleDate == saleDate && r.value.notes == notes
                           && r.value.currency == items[0].unitPrice.currency
  {
    if labelId !in labels {
      return Failure(LabelNotFound(labelId));
    }
    var direct := FindDirectDistributor(distributors, labelId);
    if direct.None? {
      return Failure(DirectDistributorNotFound(labelId));
    }
    if items == [] {
      return Failure(NoFirstLineItem);
    }
    r := BuildSale(releases, runs, labelId, direct.value.id, saleDate, channel, notes, items, now, allocations, legacy);
    if r.Success? {
      repo.Save(r.value);
    }
  }

  /**
   * The new sale of `execute` with its items processed; on a failure the
   * allocations and the movements are restored and no sale is kept.
   */
  method BuildSale(releases: seq<Release>, runs: seq<ProductionRun>, labelId: int, directId: int, saleDate: int,
                   channel: ChannelType, notes: Option<string>, items: seq<SaleLineItemInput>, now: int,
                   allocations: AllocationStore, legacy: LegacyMovementStore)
    returns (r: Result<SaleEntity, SalesError>)
    requires items != []
    modifies allocations, legacy
    ensures allocations.nextId == old(allocations.nextId)
    ensures var outcome := RegisterItems(releases, runs, labelId, directId, now,
                                         RegisterState(old(allocations.allocations), old(legacy.movements)), items);
            (r.Failure? <==> outcome.Failure?) && (r.Failure? ==> r.error == outcome.error)
            && (r.Success? ==> allocations.allocations == outcome.value.allocations && legacy.movements == outcome.value.movements)
    ensures r.Failure? ==> allocations.allocations == old(allocations.allocations) && legacy.movements == old(legacy.movements)
    ensures r.Success? ==> fresh(r.value) && r.value.id.None?
                           && r.value.Valid() && SaleItemValues(r.value.lineItems) == InputValuesOf(items)
                           && r.value.totalAmount == ValuesTotal(InputValuesOf(items))
                           && r.value.labelId == labelId && r.value.distributorId.None? && r.value.channel == channel
                           && r.value.saleDate == saleDate && r.value.notes == notes
                           && r.value.currency == items[0].unitPrice.currency
  {
    var sale := new SaleEntity(labelId, None, saleDate, channel, notes, items[0].unitPrice.currency);
    var allocationsBefore := allocations.allocations;
    var movementsBefore := legacy.movements;
    var err := ProcessLineItems(releases, runs, labelId, directId, now, items, sale, allocations, legacy);
    if err.Some? {
      allocations.allocations := allocationsBefore;
      legacy.movements := movementsBefore;
      return Failure(err.value);
    }
    r := Success(sale);
  }
}

=== FILE: sales_common.dfy ===
/**
 * What the sale and return use cases share: the catalog facts they look up
 * (labels, releases, distributors), the line-item inputs of the forms, the
 * failures they raise, and the insertion-ordered map (`LinkedHashMap`) they
 * collect production runs in.
 */
module SalesCommon {
  import opened Common
  import opened Allocations
  import opened ProductionRuns
  import Ledger

  datatype ChannelType = Direct | Distribution | OtherChannel(name: string)

  datatype Release = Release(id: int, labelId: int, name: string)

  datatype Distributor = Distributor(id: int, labelId: int, name: string, channelType: ChannelType)

  /** An amount of money in a currency; amounts are exact decimals. */
  datatype Money = Money(amount: real, currency: string)

  /** `SaleLineItemInput`: a record, so two inputs with equal fields are equal. */
  datatype SaleLineItemInput = SaleLineItemInput(releaseId: int, format: string, quantity: int, unitPrice: Money)

  /** `ReturnLineItemInput`. */
  datatype ReturnLineItemInput = ReturnLineItemInput(releaseId: int, format: string, quantity: int)

  /** The exceptions of the sale and return use cases, in the order the source can raise them. */
  datatype SalesError =
    | EmptyLineItems(message: string)                  // IllegalArgumentException
    | NoFirstLineItem                                  // NoSuchElementException from `getFirst()`
    | LabelNotFound(labelId: int)                      // EntityNotFoundException
    | DirectDistributorNotFound(labelId: int)          // EntityNotFoundException
    | DistributorNotFound(distributorId: int, labelId: int) // EntityNotFoundException
    | SaleNotFound(saleId: int)                        // EntityNotFoundException
    | ReturnNotFound(returnId: int)                    // EntityNotFoundException
    | ReleaseNotFound(releaseId: int)                  // EntityNotFoundException
    | ReleaseNotOfLabel(releaseId: int, labelId: int) // IllegalArgumentException
    | NoProductionRun(releaseName: string, format: string, activity: string)  // IllegalStateException
    | NoInventoryAllocated(releaseName: string, format: string, distributorName: string) // IllegalStateException
    | NoDirectAllocation(releaseName: string, format: string)  // IllegalStateException
    | InsufficientInventory(requested: int, available: int)
    | AllocationRefused(cause: AllocationError)        // from `reduceAllocation`, propagated as is

  /**
   * What the query interfaces answer while one use case runs: the releases,
   * the production runs, the allocations and the movement ledger.
   */
  datatype Lookups = Lookups(releases: seq<Release>, runs: seq<ProductionRun>,
                             allocations: seq<ChannelAllocation>, ledger: seq<Ledger.Movement>)

  const SaleNeedsItems := "Sale must contain at least one line item"
  const ReturnNeedsItems := "Return must contain at least one line item"

  /** `findById` on the release catalog. */
  function FindRelease(releases: seq<Release>, id: int): (r: Option<Release>)
    ensures r.Some? ==> r.value in releases && r.value.id == id
    ensures r.None? <==> forall k :: 0 <= k < |releases| ==> releases[k].id != id
  {
    if releases == [] then None
    else if releases[0].id == id then Some(releases[0])
    else FindRelease(releases[1..], id)
  }

  /** The distributors of a label, filtered by id, first match (`findByLabelId(..).filter(..).findFirst()`). */
  function FindLabelDistributor(distributors: seq<Distributor>, labelId: int, id: Option<int>): (d: Option<Distributor>)
    ensures d.Some? ==> d.value in distributors && d.value.labelId == labelId && Some(d.value.id) == id
    ensures d.None? <==> forall k :: 0 <= k < |distributors| ==> !(distributors[k].labelId == labelId && Some(distributors[k].id) == id)
  {
    if distributors == [] then None
    else if distributors[0].labelId == labelId && Some(distributors[0].id) == id then Some(distributors[0])
    else FindLabelDistributor(distributors[1..], labelId, id)
  }

  /** `findByLabelIdAndChannelType(labelId, DIRECT)`. */
  function FindDirectDistributor(distributors: seq<Distributor>, labelId: int): (d: Option<Distributor>)
    ensures d.Some? ==> d.value in distributors && d.value.labelId == labelId && d.value.channelType == Direct
    ensures d.None? <==> forall k :: 0 <= k < |distributors| ==> !(distributors[k].labelId == labelId && distributors[k].channelType == Direct)
  {
    if distributors == [] then None
    else if distributors[0].labelId == labelId && distributors[0].channelType == Direct then Some(distributors[0])
    else FindDirectDistributor(distributors[1..], labelId)
  }

  /** Java's rendering of a possibly null id. */
  function IdToString(id: Option<int>): string
  {
    if id.None? then "null" else IntToString(id.value)
  }

  /**
   * The message the use cases compose for each failure; none for the
   * exceptions whose text comes from outside the use cases (`getFirst()`,
   * `InsufficientInventoryException`, `reduceAllocation`).
   */
  function Message(e: SalesError): Option<string>
  {
    match e
    case EmptyLineItems(message) => Some(message)
    case LabelNotFound(labelId) => Some("Label not found: " + IntToString(labelId))
    case DirectDistributorNotFound(labelId) => Some("DIRECT distributor not found for label: " + IntToString(labelId))
    case DistributorNotFound(distributorId, labelId) =>
      Some("Distributor " + IntToString(distributorId) + " not found for label " + IntToString(labelId))
    case SaleNotFound(saleId) => Some("Sale not found: " + IntToString(saleId))
    case ReturnNotFound(returnId) => Some("Return not found: " + IntToString(returnId))
    case ReleaseNotFound(releaseId) => Some("Release not found: " + IntToString(releaseId))
    case ReleaseNotOfLabel(releaseId, labelId) =>
      Some("Release " + IntToString(releaseId) + " does not belong to label " + IntToString(labelId))
    case NoProductionRun(releaseName, format, activity) =>
      Some("No production run found for release '" + releaseName + "' (" + format + "). "
           + "Please create a production run for this release and format before registering " + activity + ".")
    case NoInventoryAllocated(releaseName, format, distributorName) =>
      Some("No inventory allocated for release '" + releaseName + "' (" + format + ") to distributor '"
           + distributorName + "'. Please allocate inventory from the production run before registering sales.")
    case NoDirectAllocation(releaseName, format) =>
      Some("No inventory allocated for release '" + releaseName + "' (" + format + "). "
           + "Please allocate inventory from the production run to your DIRECT sales channel before registering sales.")
    case _ => None
  }

  /**
   * The lookups every line item starts with: its release must exist and be
   * the label's, and a production run of its format must exist; the release
   * and the most recent such run.
   */
  function LocateRun(releases: seq<Release>, runs: seq<ProductionRun>, labelId: int, releaseId: int, format: string,
                     activity: string): (r: Result<(Release, ProductionRun), SalesError>)
    ensures r.Success? <==> FindRelease(releases, releaseId).Some? && FindRelease(releases, releaseId).value.labelId == labelId
                            && FindMostRecent(runs, releaseId, format).Some?
    ensures r.Success? ==> r.value == (FindRelease(releases, releaseId).value, FindMostRecent(runs, releaseId, format).value)
    ensures FindRelease(releases, releaseId).None? ==> r == Failure(ReleaseNotFound(releaseId))
    ensures FindRelease(releases, releaseId).Some? && FindRelease(releases, releaseId).value.labelId != labelId ==>
              r == Failure(ReleaseNotOfLabel(releaseId, labelId))
  {
    var release := FindRelease(releases, releaseId);
    if release.None? then Failure(ReleaseNotFound(releaseId))
    else if release.value.labelId != labelId then Failure(ReleaseNotOfLabel(releaseId, labelId))
    else
      var run := FindMostRecent(runs, releaseId, format);
      if run.None? then Failure(NoProductionRun(release.value.name, format, activity))
      else Success((release.value, run.value))
  }

  // ---------------------------------------------------------------------------
  // LinkedHashMap

  /** The position of a key in an insertion-ordered map, or -1. */
  function KeyIndex<K(==), V>(m: seq<(K, V)>, k: K): (i: int)
    ensures -1 <= i < |m|
    ensures i >= 0 ==> m[i].0 == k
    ensures i < 0 <==> forall j :: 0 <= j < |m| ==> m[j].0 != k
  {
    if m == [] then -1
    else if m[|m| - 1].0 == k then |m| - 1
    else KeyIndex(m[..|m| - 1], k)
  }

  /** `put(k, v)`: a new key goes at the end; an existing key keeps its place and takes the new value. */
  function Put<K(==), V>(m: seq<(K, V)>, k: K, v: V): (r: seq<(K, V)>)
    ensures KeyIndex(m, k) < 0 ==> r == m + [(k, v)]
    ensures KeyIndex(m, k) >= 0 ==> r == m[KeyIndex(m, k) := (k, v)]
  {
    var i := KeyIndex(m, k);
    if i < 0 then m + [(k, v)] else m[i := (k, v)]
  }

  /** The entries after putting each pair in turn. */
  function PutAll<K(==), V>(m: seq<(K, V)>, entries: seq<(K, V)>): seq<(K, V)>
    decreases |entries|
  {
    if entries == [] then m else PutAll(Put(m, entries[0].0, entries[0].1), entries[1..])
  }

  predicate DistinctKeys<K(==), V>(m: seq<(K, V)>)
  {
    forall i, j :: 0 <= i < j < |m| ==> m[i].0 != m[j].0
  }

  function KeySet<K(==), V>(m: seq<(K, V)>): set<K>
  {
    set i | 0 <= i < |m| :: m[i].0
  }

  /**
   * Putting a series of pairs leaves one entry per distinct key: the keys of
   * the starting map and of the pairs, each once.
   */
  lemma {:induction false} PutAllKeys<K, V>(m: seq<(K, V)>, entries: seq<(K, V)>)
    requires DistinctKeys(m)
    ensures DistinctKeys(PutAll(m, entries))
    ensures KeySet(PutAll(m, entries)) == KeySet(m) + KeySet(entries)
    decreases |entries|
  {
    if entries != [] {
      var m' := Put(m, entries[0].0, entries[0].1);
      PutKeys(m, entries[0].0, entries[0].1);
      PutAllKeys(m', entries[1..]);
      KeySetCons(entries);
    }
  }

  /** The keys of a non-empty list are its first key and the keys of the rest. */
  lemma KeySetCons<K, V>(entries: seq<(K, V)>)
    requires entries != []
    ensures KeySet(entries) == {entries[0].0} + KeySet(entries[1..])
  {
    forall k | k in KeySet(entries) ensures k in {entries[0].0} + KeySet(entries[1..]) {
      var i :| 0 <= i < |entries| && entries[i].0 == k;
      if i > 0 {
        assert entries[1..][i - 1].0 == k;
      }
    }
    forall k | k in KeySet(entries[1..]) ensures k in KeySet(entries) {
      var i :| 0 <= i < |entries[1..]| && entries[1..][i].0 == k;
      assert entries[i + 1].0 == k;
    }
  }

  lemma PutKeys<K, V>(m: seq<(K, V)>, k0: K, v0: V)
    requires DistinctKeys(m)
    ensures DistinctKeys(Put(m, k0, v0))
    ensures KeySet(Put(m, k0, v0)) == KeySet(m) + {k0}
  {
    var r := Put(m, k0, v0);
    forall k | k in KeySet(m) ensures k in KeySet(r) {
      var i :| 0 <= i < |m| && m[i].0 == k;
      assert r[i].0 == k;
    }
    if KeyIndex(m, k0) < 0 {
      assert r[|m|].0 == k0;
    } else {
      assert r[KeyIndex(m, k0)].0 == k0;
    }
  }

  /** Two equal inputs leave a single entry. */
  lemma EqualPutsCollapse<K, V>(k: K, v: V, w: V)
    ensures PutAll([], [(k, v), (k, w)]) == [(k, w)]
  {
    var entries := [(k, v), (k, w)];
    assert PutAll([], entries) == PutAll(Put([], k, v), entries[1..]);
    assert Put([], k, v) == [(k, v)] && entries[1..] == [(k, w)];
    assert KeyIndex([(k, v)], k) == 0;
    assert PutAll([(k, v)], [(k, w)]) == PutAll(Put([(k, v)], k, w), [(k, w)][1..]);
    assert Put([(k, v)], k, w) == [(k, w)] && [(k, w)][1..] == [];
  }

  /** The inputs paired with what was computed for each, position by position. */
  function Zip<K, V>(ks: seq<K>, vs: seq<V>): (z: seq<(K, V)>)
    requires |ks| == |vs|
    ensures |z| == |ks|
    ensures forall k :: 0 <= k < |z| ==> z[k] == (ks[k], vs[k])
  {
    seq(|ks|, k requires 0 <= k < |ks| => (ks[k], vs[k]))
  }

  /** Putting one more pair is one more `put`. */
  lemma {:induction false} PutAllSnoc<K, V>(m: seq<(K, V)>, entries: seq<(K, V)>, k: K, v: V)
    ensures PutAll(m, entries + [(k, v)]) == Put(PutAll(m, entries), k, v)
    decreases |entries|
  {
    if entries == [] {
      assert entries + [(k, v)] == [(k, v)] && [(k, v)][1..] == [];
    } else {
      assert (entries + [(k, v)])[0] == entries[0];
      assert (entries + [(k, v)])[1..] == entries[1..] + [(k, v)];
      PutAllSnoc(Put(m, entries[0].0, entries[0].1), entries[1..], k, v);
    }
  }

  /** Putting the next input with its value extends the map built from the inputs before it. */
  lemma PutAllZipStep<K, V>(inputs: seq<K>, values: seq<V>, v: V)
    requires |values| < |inputs|
    ensures var i := |values|;
            PutAll([], Zip(inputs[..i + 1], values + [v])) == Put(PutAll([], Zip(inputs[..i], values)), inputs[i], v)
  {
    var i := |values|;
    PutAllSnoc([], Zip(inputs[..i], values), inputs[i], v);
    var z := Zip(inputs[..i + 1], values + [v]);
    var z' := Zip(inputs[..i], values) + [(inputs[i], v)];
    forall k | 0 <= k < |z| ensures z[k] == z'[k] {
      if k < i {
        assert z[k] == (inputs[k], values[k]);
      }
    }
    assert z == z';
  }

  /** Every entry left is one of the starting entries or one of the pairs put. */
  lemma {:induction false} PutAllEntriesFrom<K, V>(m: seq<(K, V)>, entries: seq<(K, V)>)
    ensures forall e :: e in PutAll(m, entries) ==> e in m || e in entries
    decreases |entries|
  {
    if entries != [] {
      var m' := Put(m, entries[0].0, entries[0].1);
      PutAllEntriesFrom(m', entries[1..]);
      forall e | e in m' ensures e in m || e == entries[0] {
        var j :| 0 <= j < |m'| && m'[j] == e;
        if j < |m| && m'[j] == m[j] {
          assert e in m;
        }
      }
    }
  }

  /**
   * The map a use case builds from its inputs and their production runs:
   * one entry per distinct input, each input once, each entry one of the
   * pairs.
   */
  lemma InputMapEntries<K, V>(inputs: seq<K>, runIds: seq<V>)
    requires |inputs| == |runIds|
    ensures DistinctKeys(PutAll([], Zip(inputs, runIds)))
    ensures KeySet(PutAll([], Zip(inputs, runIds))) == set k | 0 <= k < |inputs| :: inputs[k]
    ensures forall e :: e in PutAll([], Zip(inputs, runIds)) ==>
              exists k :: 0 <= k < |inputs| && e == (inputs[k], runIds[k])
  {
    var z := Zip(inputs, runIds);
    PutAllKeys([], z);
    PutAllEntriesFrom([], z);
    assert KeySet(z) == set k | 0 <= k < |inputs| :: inputs[k] by {
      forall x | x in KeySet(z) ensures x in set k | 0 <= k < |inputs| :: inputs[k] {
        var i :| 0 <= i < |z| && z[i].0 == x;
        assert inputs[i] == x;
      }
      forall x | x in set k | 0 <= k < |inputs| :: inputs[k] ensures x in KeySet(z) {
        var i :| 0 <= i < |inputs| && inputs[i] == x;
        assert z[i].0 == x;
      }
    }
    assert KeySet<K, V>([]) == {};
  }
}

=== FILE: track_list.dfy ===
/**
 * The track list manager of the release forms. It keeps the `.track-row`
 * elements of its container in order, a counter `currentIndex` for the index
 * of the last row built, and a map from track index to the artist registry
 * created for that row. A row's named inputs are its name and duration inputs
 * and the hidden artist inputs its registry seeded; renumbering rewrites
 * `tracks[k]` in all of them and the row's data-track-index.
 *
 * A registry is held here as a value: the element it belongs to, the track
 * index it was created with and the ids it was seeded with.
 */
module TrackList {
  import opened Common
  import opened FormNames
  import opened ArtistSelection
  import opened TrackRow

  /**
   * A row's registry: the element it was created for, the track index it was
   * created with (its inputs are named `TrackArtistInputName(createdFor)`) and
   * the ids it was seeded with.
   */
  datatype TrackSelection = TrackSelection(element: nat, createdFor: nat, selectedIds: seq<string>)

  /** A `.track-row` element of the container. */
  datatype ListRow = ListRow(element: nat, trackIndex: nat, html: TrackRowHtml,
                             artistInputs: seq<HiddenInput>, removeShown: bool)

  /** `name.replace(/tracks\[\d+\]/, `tracks[${index}]`)` on a truthy name. */
  function RenameInput(name: string, index: nat): string
  {
    if name == "" then name else ReplaceIndex(name, "tracks", index)
  }

  /** One step of `reindexTracks`: data-track-index and every named input of the row. */
  function ReindexTrackRow(row: ListRow, index: nat): (r: ListRow)
    ensures r.element == row.element && r.removeShown == row.removeShown && r.trackIndex == index
    ensures r.html.nameValue == row.html.nameValue && r.html.durationValue == row.html.durationValue
    ensures |r.artistInputs| == |row.artistInputs|
    ensures forall k :: 0 <= k < |r.artistInputs| ==> r.artistInputs[k].value == row.artistInputs[k].value
  {
    row.(trackIndex := index,
         html := row.html.(nameField := RenameInput(row.html.nameField, index),
                           durationField := RenameInput(row.html.durationField, index)),
         artistInputs := seq(|row.artistInputs|, k requires 0 <= k < |row.artistInputs| =>
                           row.artistInputs[k].(name := RenameInput(row.artistInputs[k].name, index))))
  }

  function ReindexedTracks(rows: seq<ListRow>): (r: seq<ListRow>)
    ensures |r| == |rows|
  {
    seq(|rows|, i requires 0 <= i < |rows| => ReindexTrackRow(rows[i], i))
  }

  /** `updateRemoveButtons`: every row, the first included, shows its button iff there are two or more rows. */
  function WithRemoveButtons(rows: seq<ListRow>): (r: seq<ListRow>)
    ensures |r| == |rows|
    ensures forall i :: 0 <= i < |rows| ==> r[i] == rows[i].(removeShown := |rows| > 1)
  {
    seq(|rows|, i requires 0 <= i < |rows| => rows[i].(removeShown := |rows| > 1))
  }

  /** Every named input of the row carries `tracks[i]`. */
  predicate NamedFor(row: ListRow, i: nat)
  {
    row.html.nameField == IndexedName("tracks", i, "name")
    && row.html.durationField == IndexedName("tracks", i, "duration")
    && forall k :: 0 <= k < |row.artistInputs| ==> row.artistInputs[k].name == IndexedName("tracks", i, "artistIds")
  }

  /** Rows sit at their own track index and are named for it. */
  predicate TracksContiguous(rows: seq<ListRow>)
  {
    forall i :: 0 <= i < |rows| ==> rows[i].trackIndex == i && NamedFor(rows[i], i)
  }

  /** Each row's named inputs carry the row's own data-track-index. */
  predicate SelfNamed(rows: seq<ListRow>)
  {
    forall i :: 0 <= i < |rows| ==> NamedFor(rows[i], rows[i].trackIndex)
  }

  /** Every row's element was taken before `next`. */
  predicate ElementsBelow(rows: seq<ListRow>, next: nat)
  {
    forall i :: 0 <= i < |rows| ==> rows[i].element < next
  }

  predicate InCreationOrder(rows: seq<ListRow>)
  {
    forall i, j :: 0 <= i < j < |rows| ==> rows[i].element < rows[j].element
  }

  function TrackElements(rows: seq<ListRow>): (es: seq<nat>)
    ensures |es| == |rows| && forall i :: 0 <= i < |rows| ==> es[i] == rows[i].element
  {
    seq(|rows|, i requires 0 <= i < |rows| => rows[i].element)
  }

  /** A row named for `j` is named for `i` once reindexed to `i`. */
  lemma ReindexNamedRow(row: ListRow, j: nat, i: nat)
    requires NamedFor(row, j)
    ensures NamedFor(ReindexTrackRow(row, i), i)
  {
    ReindexTracksName(j, "name", i);
    ReindexTracksName(j, "duration", i);
    ReindexTracksName(j, "artistIds", i);
  }

  /** After a removal, reindexing names every survivor for its new position. */
  lemma RemovalRenamesRows(rows: seq<ListRow>, pos: nat)
    requires pos < |rows| && SelfNamed(rows)
    ensures var out := WithRemoveButtons(ReindexedTracks(rows[..pos] + rows[pos + 1..]));
            TracksContiguous(out) && SelfNamed(out)
  {
    var rest := rows[..pos] + rows[pos + 1..];
    var out := WithRemoveButtons(ReindexedTracks(rest));
    forall i | 0 <= i < |rest| ensures out[i].trackIndex == i && NamedFor(out[i], i) {
      var j := if i < pos then i else i + 1;
      assert rest[i] == rows[j];
      ReindexNamedRow(rows[j], rows[j].trackIndex, i);
    }
  }

  /**
   * Removing any row of a list whose rows are each named for their own
   * index, then reindexing and refreshing the buttons, leaves the survivors
   * in their original order at indices 0..n-2.
   */
  lemma TrackRemovalRestoresContiguity(rows: seq<ListRow>, pos: nat)
    requires pos < |rows| && InCreationOrder(rows) && SelfNamed(rows)
    ensures var out := WithRemoveButtons(ReindexedTracks(rows[..pos] + rows[pos + 1..]));
            TracksContiguous(out) && InCreationOrder(out) && SelfNamed(out)
            && (forall next: nat :: ElementsBelow(rows, next) ==> ElementsBelow(out, next))
            && TrackElements(out) == TrackElements(rows)[..pos] + TrackElements(rows)[pos + 1..]
  {
    RemovalRenamesRows(rows, pos);
    var rest := rows[..pos] + rows[pos + 1..];
    var out := WithRemoveButtons(ReindexedTracks(rest));
    forall i | 0 <= i < |rest| ensures out[i].element == rows[if i < pos then i else i + 1].element {
      assert out[i].element == ReindexTrackRow(rest[i], i).element;
    }
    assert InCreationOrder(out) by {
      forall i, j | 0 <= i < j < |out| ensures out[i].element < out[j].element {
        assert rows[if i < pos then i else i + 1].element < rows[if j < pos then j else j + 1].element;
      }
    }
    assert TrackElements(out) == TrackElements(rows)[..pos] + TrackElements(rows)[pos + 1..];
  }

  /**
   * The registries are not re-keyed when rows are renumbered. After removing
   * the row at `pos` (not the last), the row that moves into `pos` finds no
   * registry under its new index, each later row finds the registry of the row
   * just before it, and the last old index keeps a key no row has.
   */
  lemma RemovalLeavesSelectionsStale(rows: seq<ListRow>, sels: map<int, TrackSelection>, pos: nat)
    requires InCreationOrder(rows) && pos + 1 < |rows|
    requires forall i :: 0 <= i < |rows| ==> rows[i].trackIndex == i
    requires forall i :: 0 <= i < |rows| ==> i in sels && sels[i].element == rows[i].element
    ensures var out := ReindexedTracks(rows[..pos] + rows[pos + 1..]);
            var sels' := sels - {rows[pos].trackIndex as int};
            out[pos].trackIndex !in sels'
            && (forall i :: pos < i < |out| ==>
                  out[i].trackIndex in sels' && sels'[out[i].trackIndex].element == out[i - 1].element
                  && sels'[out[i].trackIndex].element != out[i].element)
            && |out| in sels' && forall i :: 0 <= i < |out| ==> out[i].trackIndex != |out|
  {
    var rest := rows[..pos] + rows[pos + 1..];
    var out := ReindexedTracks(rest);
    var sels' := sels - {pos};
    assert rows[pos].trackIndex == pos;
    forall i | 0 <= i < |out| ensures out[i].trackIndex == i && out[i].element == rest[i].element {
      assert out[i] == ReindexTrackRow(rest[i], i);
    }
    forall i | pos < i < |out|
      ensures i in sels' && sels'[i].element == out[i - 1].element && sels'[i].element != out[i].element
    {
      assert rest[i - 1] == rows[i] && rest[i] == rows[i + 1];
      assert rows[i].element < rows[i + 1].element;
    }
    assert |out| == |rows| - 1 && |out| != pos;
  }

  /** The `add` calls that seed a new row's registry. */
  function SeedArgs(trackData: Option<TrackData>, releaseArtists: Option<seq<IdArg>>): seq<IdArg>
  {
    (if trackData.None? && releaseArtists.Some? then releaseArtists.value else [])
    + (if trackData.Some? && trackData.value.artists.Some? then trackData.value.artists.value else [])
  }

  /** The hidden inputs a registry created for `index` appends for `ids`. */
  function ArtistInputs(index: nat, ids: seq<string>): (r: seq<HiddenInput>)
    ensures |r| == |ids|
    ensures forall k :: 0 <= k < |r| ==> r[k] == HiddenInput(IndexedName("tracks", index, "artistIds"), ids[k])
  {
    seq(|ids|, k requires 0 <= k < |ids| => HiddenInput(IndexedName("tracks", index, "artistIds"), ids[k]))
  }

  /** The element `createTrackRow` builds, with the hidden inputs of its seeded registry. */
  function NewRow(element: nat, index: nat, trackData: Option<TrackData>, ids: seq<string>): (r: ListRow)
    ensures r.trackIndex == index && NamedFor(r, index) && r.html == BuildTrackRowHtml(index, trackData)
  {
    var e := CreateTrackRow(index, trackData);
    ListRow(element, e.trackIndex, e.html, ArtistInputs(index, ids), true)
  }

  /** Appending a row that carries a new element, then refreshing the buttons. */
  lemma AppendTrackRow(rows: seq<ListRow>, row: ListRow, newElement: nat)
    requires InCreationOrder(rows) && row.element == newElement && NamedFor(row, row.trackIndex)
    requires SelfNamed(rows) && ElementsBelow(rows, newElement)
    ensures var out := WithRemoveButtons(rows + [row]);
            InCreationOrder(out) && SelfNamed(out) && ElementsBelow(out, newElement + 1)
            && TrackElements(out) == TrackElements(rows) + [newElement]
            && (TracksContiguous(rows) && row.trackIndex == |rows| ==> TracksContiguous(out))
  {
    var out := WithRemoveButtons(rows + [row]);
    assert forall i :: 0 <= i < |rows| ==> out[i].element == rows[i].element;
    assert TrackElements(out) == TrackElements(rows) + [newElement];
  }

  /** What survives of the earlier rows when one is appended and the buttons are refreshed. */
  lemma AppendedRows(rows: seq<ListRow>, row: ListRow)
    ensures var out := WithRemoveButtons(rows + [row]);
            |out| == |rows| + 1 && out[|rows|].html == row.html && out[|rows|].element == row.element
            && (forall i :: 0 <= i < |rows| ==> out[i].html == rows[i].html && out[i].element == rows[i].element)
            && forall i :: 0 <= i < |out| ==> out[i].removeShown == (|out| > 1)
  {
  }

  class TrackListManager {
    const artists: seq<Artist>
    var rows: seq<ListRow>
    var currentIndex: int
    var selections: map<int, TrackSelection>
    var nextElement: nat

    ghost predicate Valid()
      reads this
    {
      currentIndex >= -1 && InCreationOrder(rows) && SelfNamed(rows) && ElementsBelow(rows, nextElement)
    }

    /** The state `initialize` and `addTrack` leave: rows at 0..n-1 and the counter at n-1. */
    ghost predicate Contiguous()
      reads this
    {
      TracksContiguous(rows) && currentIndex == |rows| - 1
    }

    /** `createTrackList(config)` on an empty container: the counter starts at 0. */
    constructor Create(artists: seq<Artist>)
      ensures Valid() && this.artists == artists
      ensures rows == [] && currentIndex == 0 && selections == map[]
    {
      this.artists := artists;
      rows := [];
      currentIndex := 0;
      selections := map[];
      nextElement := 0;
    }

    /** The registry's `add` calls in order: the ids that end up selected. */
    method Seed(args: seq<IdArg>) returns (ids: seq<string>)
      ensures ids == AddAll([], artists, args)
    {
      ids := [];
      var i := 0;
      while i < |args|
        invariant 0 <= i <= |args|
        invariant AddAll(ids, artists, args[i..]) == AddAll([], artists, args)
      {
        assert args[i..][1..] == args[i + 1..];
        if Admits(ids, artists, args[i]) {
          ids := ids + [JsString(args[i])];
        }
        i := i + 1;
      }
    }

    /**
     * `addTrack(trackData)`: the counter goes up first and the new row is built
     * for the counter's new value, so the row lands at index `currentIndex + 1`
     * whatever the number of rows. A new empty track is seeded with the release
     * artists (`releaseArtists`, None when no callback is configured), an
     * existing track with its own artists.
     */
    method AddTrack(trackData: Option<TrackData>, releaseArtists: Option<seq<IdArg>>) returns (row: ListRow)
      requires Valid()
      modifies this
      ensures Valid()
      ensures currentIndex == old(currentIndex) + 1
      ensures var ids := AddAll([], artists, SeedArgs(trackData, releaseArtists));
              rows == WithRemoveButtons(old(rows) + [NewRow(old(nextElement), currentIndex as nat, trackData, ids)])
              && selections == old(selections)[currentIndex := TrackSelection(old(nextElement), currentIndex as nat, ids)]
      ensures row == rows[|rows| - 1] && row.trackIndex == currentIndex
      ensures TrackElements(rows) == TrackElements(old(rows)) + [old(nextElement)]
      ensures old(Contiguous()) ==> Contiguous()
    {
      currentIndex := currentIndex + 1;
      var index := currentIndex as nat;
      var ids := Seed(SeedArgs(trackData, releaseArtists));
      AppendRow(NewRow(nextElement, index, trackData, ids), TrackSelection(nextElement, index, ids));
      row := rows[|rows| - 1];
    }

    /** The end of `addTrack`: the built row is appended, its registry kept, and the buttons refreshed. */
    method AppendRow(newRow: ListRow, selection: TrackSelection)
      requires Valid() && newRow.element == nextElement && NamedFor(newRow, newRow.trackIndex)
      modifies this
      ensures Valid()
      ensures rows == WithRemoveButtons(old(rows) + [newRow])
      ensures selections == old(selections)[newRow.trackIndex as int := selection]
      ensures currentIndex == old(currentIndex) && nextElement == old(nextElement) + 1
      ensures TrackElements(rows) == TrackElements(old(rows)) + [newRow.element]
      ensures TracksContiguous(old(rows)) && newRow.trackIndex == |old(rows)| ==> TracksContiguous(rows)
    {
      AppendTrackRow(rows, newRow, nextElement);
      rows := rows + [newRow];
      selections := selections[newRow.trackIndex as int := selection];
      nextElement := nextElement + 1;
      UpdateRemoveButtons();
    }

    /**
     * `removeTrack(row)`: no count guard. Only the registry under the removed
     * row's old index is dropped; the survivors are renumbered, the counter is
     * set to the last index (0 when no row is left) and the buttons refreshed.
     */
    method RemoveTrack(pos: nat)
      requires Valid() && pos < |rows|
      modifies this
      ensures Valid()
      ensures selections == old(selections) - {old(rows)[pos].trackIndex as int}
      ensures rows == WithRemoveButtons(ReindexedTracks(old(rows)[..pos] + old(rows)[pos + 1..]))
      ensures TracksContiguous(rows)
      ensures TrackElements(rows) == TrackElements(old(rows))[..pos] + TrackElements(old(rows))[pos + 1..]
      ensures currentIndex == if |rows| > 0 then |rows| - 1 else 0
    {
      TrackRemovalRestoresContiguity(rows, pos);
      selections := selections - {rows[pos].trackIndex as int};
      rows := rows[..pos] + rows[pos + 1..];
      ReindexTracks();
      UpdateRemoveButtons();
    }

    /** `reindexTracks()`: rows renumbered in place, then the counter set from the row count. */
    method ReindexTracks()
      modifies this
      ensures rows == ReindexedTracks(old(rows))
      ensures currentIndex == if |rows| > 0 then |rows| - 1 else 0
      ensures selections == old(selections) && nextElement == old(nextElement)
    {
      var index := 0;
      while index < |rows|
        invariant 0 <= index <= |rows| == |old(rows)|
        invariant forall i :: 0 <= i < index ==> rows[i] == ReindexTrackRow(old(rows)[i], i)
        invariant forall i :: index <= i < |rows| ==> rows[i] == old(rows)[i]
        invariant selections == old(selections) && nextElement == old(nextElement)
      {
        rows := rows[index := ReindexTrackRow(rows[index], index)];
        index := index + 1;
      }
      currentIndex := if |rows| > 0 then |rows| - 1 else 0;
    }

    /** `updateRemoveButtons()`. */
    method UpdateRemoveButtons()
      modifies this
      ensures rows == WithRemoveButtons(old(rows))
      ensures currentIndex == old(currentIndex) && selections == old(selections) && nextElement == old(nextElement)
    {
      var n := |rows|;
      var index := 0;
      while index < n
        invariant 0 <= index <= n == |rows| == |old(rows)|
        invariant forall i :: 0 <= i < index ==> rows[i] == old(rows)[i].(removeShown := n > 1)
        invariant forall i :: index <= i < n ==> rows[i] == old(rows)[i]
        invariant currentIndex == old(currentIndex) && selections == old(selections) && nextElement == old(nextElement)
      {
        rows := rows[index := rows[index].(removeShown := n > 1)];
        index := index + 1;
      }
    }

    /** `clear()`: no rows, no registries, counter at -1. */
    method Clear()
      modifies this
      ensures rows == [] && selections == map[] && currentIndex == -1
      ensures nextElement == old(nextElement)
      ensures Valid() && Contiguous()
    {
      rows := [];
      selections := map[];
      currentIndex := -1;
    }

    /**
     * `initialize(existingTracks)`: one row per existing track, at indices
     * 0..n-1 in order, or a single new track at index 0 when there are none.
     */
    method Initialize(existing: seq<TrackData>, releaseArtists: Option<seq<IdArg>>)
      requires Valid()
      modifies this
      ensures Valid() && Contiguous()
      ensures |rows| == if |existing| > 0 then |existing| else 1
      ensures |existing| > 0 ==> forall i :: 0 <= i < |rows| ==> rows[i].html == BuildTrackRowHtml(i, Some(existing[i]))
      ensures |existing| == 0 ==> rows[0].html == BuildTrackRowHtml(0, None)
      ensures forall i :: 0 <= i < |rows| ==> rows[i].removeShown == (|rows| > 1)
      ensures forall i :: i in selections <==> 0 <= i < |rows|
      ensures forall i :: 0 <= i < |rows| ==> selections[i].element == rows[i].element
      ensures |existing| > 0 ==> forall i :: 0 <= i < |rows| ==>
                selections[i].selectedIds == AddAll([], artists, SeedArgs(Some(existing[i]), releaseArtists))
      ensures |existing| == 0 ==> selections[0].selectedIds == AddAll([], artists, SeedArgs(None, releaseArtists))
    {
      Clear();
      if |existing| > 0 {
        var index := 0;
        while index < |existing|
          invariant 0 <= index <= |existing| && Loaded(existing, index, releaseArtists)
        {
          LoadTrack(existing, index, releaseArtists);
          index := index + 1;
        }
      } else {
        currentIndex := -1;
        var _ := AddTrack(None, releaseArtists);
        forall i ensures i in selections <==> 0 <= i < |rows| {
          if i != 0 { assert i !in selections; }
        }
      }
    }

    /** The state after the first `n` existing tracks have been added, each registry seeded with its track's artists. */
    ghost predicate Loaded(existing: seq<TrackData>, n: nat, releaseArtists: Option<seq<IdArg>>)
      reads this
    {
      n <= |existing| && |rows| == n && Valid() && Contiguous()
      && (forall i :: 0 <= i < n ==> rows[i].html == BuildTrackRowHtml(i, Some(existing[i])))
      && (forall i :: 0 <= i < n ==> rows[i].removeShown == (n > 1))
      && (forall i :: i in selections <==> 0 <= i < n)
      && (forall i :: 0 <= i < n ==> selections[i].element == rows[i].element)
      && (forall i :: 0 <= i < n ==>
            selections[i].selectedIds == AddAll([], artists, SeedArgs(Some(existing[i]), releaseArtists)))
    }

    /** One iteration of the `forEach` in `initialize`: the counter is set to `index - 1` before `addTrack`. */
    method LoadTrack(existing: seq<TrackData>, index: nat, releaseArtists: Option<seq<IdArg>>)
      requires index < |existing| && Loaded(existing, index, releaseArtists)
      modifies this
      ensures Loaded(existing, index + 1, releaseArtists)
    {
      currentIndex := index - 1;
      ghost var before, beforeSelections, element := rows, selections, nextElement;
      var row := AddTrack(Some(existing[index]), releaseArtists);
      AppendedRows(before, NewRow(element, index, Some(existing[index]), AddAll([], artists, SeedArgs(Some(existing[index]), releaseArtists))));
      forall i ensures i in selections <==> 0 <= i < |rows| {
        if i != index { assert (i in selections) == (i in beforeSelections); }
      }
    }
  }
}

=== FILE: track_row.dfy ===
/**
 * The pure helpers of the track row script: the row template (only the two
 * named text inputs and their prefilled values are modelled), the `M:SS`
 * rendering of a duration for the duration input, and the data-track-index of
 * a fresh row element. Attribute escaping is `Escaping.EscapeAttr`.
 */
module TrackRow {
  import opened Common
  import opened FormNames
  import opened Escaping
  import opened ArtistSelection

  /** A track's duration object; `totalSeconds` may be missing. Fractional seconds are not modelled. */
  datatype Duration = Duration(totalSeconds: Option<int>)

  /** The optional `trackData` of edit mode: name, duration and the track's artists' ids. */
  datatype TrackData = TrackData(name: Option<string>, duration: Option<Duration>, artists: Option<seq<IdArg>>)

  /** JavaScript's `%`: the remainder takes the sign of the dividend. */
  function TruncRem(n: int, d: nat): (r: int)
    requires d > 0
    ensures n >= 0 ==> 0 <= r < d && r == n % d
    ensures n < 0 ==> r + d > 0 && r <= 0 && -r == (-n) % d
  {
    if n >= 0 then n % d else -((-n) % d)
  }

  /** `s.padStart(2, '0')`. */
  function PadStart2(s: string): (r: string)
    ensures |s| >= 2 ==> r == s
    ensures |s| < 2 ==> |r| == 2 && r[2 - |s|..] == s && forall k :: 0 <= k < 2 - |s| ==> r[k] == '0'
  {
    if |s| == 0 then "00" else if |s| == 1 then "0" + s else s
  }

  /** `formatDurationForInput(totalSeconds)`; `Math.floor(n / 60)` is Dafny's `/` for a positive divisor. */
  function FormatDurationForInput(totalSeconds: Option<int>): (r: string)
    ensures totalSeconds.None? <==> r == ""
    ensures totalSeconds == Some(0) ==> r == "0:00"
  {
    match totalSeconds
    case None => ""
    case Some(n) =>
      if n == 0 then "0:00"
      else IntToString(n / 60) + ":" + PadStart2(IntToString(TruncRem(n, 60)))
  }

  /** The duration input's `pattern="[0-9]+:[0-5][0-9]"`, anchored as a form pattern is. */
  predicate MatchesDurationPattern(s: string)
  {
    |s| >= 4 && AllDigits(s[..|s| - 3]) && s[|s| - 3] == ':'
    && '0' <= s[|s| - 2] <= '5' && IsDigit(s[|s| - 1])
  }

  /** The seconds a string matching the pattern stands for. */
  function PatternSeconds(s: string): nat
    requires MatchesDurationPattern(s)
  {
    DigitsValue(s[..|s| - 3]) * 60 + DigitsValue(s[|s| - 2..])
  }

  /** Two digits read back as the value whose `padStart(2, '0')` rendering they are. */
  lemma TwoDigitSeconds(r: nat)
    requires r < 60
    ensures var p := PadStart2(NatToString(r));
            |p| == 2 && '0' <= p[0] <= '5' && IsDigit(p[1]) && DigitsValue(p) == r
  {
    var p := PadStart2(NatToString(r));
    if r < 10 {
      assert NatToString(r) == [DigitChar(r)];
      assert p == ['0', DigitChar(r)];
      assert p[..1] == ['0'];
      assert DigitsValue(p[..1]) == 0;
    } else {
      var h := NatToString(r / 10);
      assert h == [DigitChar(r / 10)];
      assert NatToString(r) == h + [DigitChar(r % 10)];
      assert p[..1] == h;
    }
  }

  /** For a non-negative number the zero case agrees with the general rendering. */
  lemma FormatNonNegative(n: nat)
    ensures FormatDurationForInput(Some(n)) == NatToString(n / 60) + ":" + PadStart2(NatToString(n % 60))
  {
    if n == 0 {
      assert NatToString(0) == "0";
    }
  }

  /** Minutes digits, a colon and two seconds digits form a pattern match that reads back as their value. */
  lemma PatternOfParts(m: string, p: string)
    requires 1 <= |m| && AllDigits(m) && |p| == 2 && '0' <= p[0] <= '5' && IsDigit(p[1])
    ensures MatchesDurationPattern(m + ":" + p)
    ensures PatternSeconds(m + ":" + p) == DigitsValue(m) * 60 + DigitsValue(p)
  {
    var s := m + ":" + p;
    assert |s| == |m| + 3;
    assert s[..|m|] == m;
    assert s[|m|] == ':' && s[|m| + 1] == p[0] && s[|m| + 2] == p[1];
    assert s[|m| + 1..] == p;
  }

  /**
   * Every non-negative whole number of seconds renders as a value the input's
   * pattern accepts, and the minutes and seconds read back give the number.
   */
  lemma FormattedDurationMatchesPattern(n: nat)
    ensures MatchesDurationPattern(FormatDurationForInput(Some(n)))
    ensures PatternSeconds(FormatDurationForInput(Some(n))) == n
  {
    FormatNonNegative(n);
    TwoDigitSeconds(n % 60);
    PatternOfParts(NatToString(n / 60), PadStart2(NatToString(n % 60)));
  }

  /** A negative duration renders with a minus sign in both parts, which the pattern refuses. */
  lemma NegativeDurationFailsPattern(n: int)
    requires n < 0
    ensures !MatchesDurationPattern(FormatDurationForInput(Some(n)))
  {
    var s := FormatDurationForInput(Some(n));
    var m := IntToString(n / 60);
    assert n / 60 < 0;
    assert s[0] == '-';
    if |s| >= 4 {
      assert s[..|s| - 3][0] == '-';
    }
  }

  /** The modelled part of a track row's markup. */
  datatype TrackRowHtml = TrackRowHtml(nameField: string, nameValue: string,
                                       durationField: string, durationValue: string)

  /** `trackData?.name || ''`. */
  function NameOf(trackData: Option<TrackData>): (name: string)
    ensures trackData.None? || trackData.value.name.None? ==> name == ""
    ensures trackData.Some? && trackData.value.name.Some? ==> name == trackData.value.name.value
  {
    if trackData.Some? && trackData.value.name.Some? then trackData.value.name.value else ""
  }

  /**
   * `buildTrackRowHtml(index, artists, trackData)`: inputs named
   * `tracks[index].name` and `tracks[index].duration`, the name prefilled
   * attribute-escaped, the duration prefilled only when the track has one.
   */
  function BuildTrackRowHtml(index: nat, trackData: Option<TrackData>): (h: TrackRowHtml)
    ensures h.nameField == IndexedName("tracks", index, "name")
    ensures h.durationField == IndexedName("tracks", index, "duration")
    ensures DecodeEntities(h.nameValue) == NameOf(trackData)
    ensures forall c :: c in h.nameValue ==> c !in {'"', '\'', '<', '>'}
    ensures h.durationValue != "" ==> trackData.Some? && trackData.value.duration.Some?
    ensures trackData.Some? && trackData.value.duration.Some? ==>
              h.durationValue == FormatDurationForInput(trackData.value.duration.value.totalSeconds)
  {
    var name := NameOf(trackData);
    var durationValue :=
      if trackData.Some? && trackData.value.duration.Some?
      then FormatDurationForInput(trackData.value.duration.value.totalSeconds) else "";
    DecodeEscapeAttr(name);
    EscapeAttrHasNoSpecials(Some(name));
    TrackRowHtml(IndexedName("tracks", index, "name"), EscapeAttr(Some(name)),
                 IndexedName("tracks", index, "duration"), durationValue)
  }

  /** A fresh `.track-row` element. */
  datatype TrackRowElement = TrackRowElement(trackIndex: nat, html: TrackRowHtml)

  /** `createTrackRow(index, artists, trackData)`: data-track-index is the index the names use. */
  function CreateTrackRow(index: nat, trackData: Option<TrackData>): (row: TrackRowElement)
    ensures row.trackIndex == index
    ensures row.html.nameField == IndexedName("tracks", row.trackIndex, "name")
    ensures row.html.durationField == IndexedName("tracks", row.trackIndex, "duration")
  {
    TrackRowElement(index, BuildTrackRowHtml(index, trackData))
  }
}
